=== FILE: README.md ===
# A verified model of the stocks trading bot core

This project models the decision-making core of the `stocks` trading bot, a Python program that trades
NSE equities intraday through Zerodha's Kite API, or on paper. It covers how the bot classifies broker
errors and retries them, throttles API calls, places and verifies orders, reconciles its positions with
the broker's, recovers capital across days, enforces trading discipline, prices Zerodha's charges, knows
market holidays, simulates paper trades, runs the intraday high/low and AI strategies (pattern, trend,
sentiment and indicator components), and reads its `.env` configuration. Each operation is a Dafny
function or method with a contract, and lemmas state the properties that relate operations to each other.

| Dafny file | module | source file |
|---|---|---|
| common.dfy | Common | shared helpers: `Option`, absolute value, means and extrema, whitespace stripping, Python slices and bounded deques |
| dicts.dfy | Dicts | Python's insertion-ordered `dict` as a sequence of key/value pairs |
| error_handler.dfy | ErrorHandler | src/utils/error_handler.py |
| rate_limiter.dfy | RateLimiting | src/utils/rate_limiter.py |
| order_manager.dfy | OrderManagement | src/kite_trader/order_manager.py |
| position_reconciler.dfy | Reconciliation | src/kite_trader/position_reconciler.py |
| capital_manager.dfy | CapitalRecovery | src/utils/capital_manager.py |
| trading_psychology.dfy | TradingPsychology | src/ai_modules/trading_psychology.py |
| live_trade.dfy | LiveTrading | scripts/live_trade.py |
| broker_health.dfy | BrokerHealth | src/utils/broker_health.py |
| cost_calculator.dfy | CostCalculation | src/utils/cost_calculator.py |
| market_calendar.dfy | MarketCalendar | src/utils/market_calendar.py |
| paper_trader.dfy | PaperTrading | src/paper_trading/paper_trader.py |
| base_strategy.dfy | BaseStrategy | src/strategies/base_strategy.py |
| intraday_strategy.dfy | IntradayHighLow | src/strategies/intraday_high_low_strategy.py |
| sentiment_analyzer.dfy | Sentiment | src/ai_modules/sentiment_analyzer.py |
| sentiment_reach.dfy | SentimentReach | src/ai_modules/sentiment_analyzer.py: states that repeated `update_sentiment` calls reach |
| pattern_recognition.dfy | PatternRecognition | src/ai_modules/pattern_recognition.py |
| predictive_model.dfy | Prediction | src/ai_modules/predictive_model.py |
| ai_strategy.dfy | AiIntraday | src/strategies/ai_intraday_strategy.py |
| config.dfy | Configuration | src/utils/config.py |

## Conventions

- The wall clock, the broker's replies (quotes, order status, positions, margins, profile) and the
  environment are inputs. Times are `real` seconds and calendar days are `Date` values. Loops that poll
  take their inputs per pass: `Acquire` a sequence of clock readings, `WaitForCompletion` and
  `PlaceAndVerify` two functions from the poll number, to its clock reading and to the broker's reply, and `RetryWithBackoff` a
  function from the attempt number to that attempt's result.
- Money, prices and ratios are `real`. They are exact, so no floating-point rounding takes place.
- A Python `dict` whose order matters (iteration, "first key") is `Dicts.Dict<V>`, a sequence of
  key/value pairs with distinct keys. Unordered dictionaries are Dafny `map`s.
- A raised exception, or a `None` the caller checks, becomes an explicit result variant (`Option`, or
  an outcome datatype per operation), so error paths are part of each contract.
- Objects that the source mutates in place are immutable values here. An operation returns the new
  state next to its answer.

## Behaviour kept as written

- Paper trading measures the profit of a SELL against the entry price of the position. Later buys
  re-average `avg_price` but do not change the entry price (src/paper_trading/paper_trader.py:163-164).
  The paper trader's `current_capital` is set at construction and never updated; only `available_capital`
  moves.
- The capital manager floors the ending capital at zero. The cap at the maximum capital is applied only
  when the next day's budget is derived from it.
- Reconciliation with an empty broker position list returns SKIPPED, not a sync.
- An error message mentioning "margin" is classified as insufficient funds, which is never retried.
- The predictive model's RSI signal is positive when the stock is overbought, which its own docstring calls
  bearish. It is still averaged with the MACD and moving-average signals, for which positive means
  bullish. The model keeps this sign convention.

## Model

| member | source | states |
|---|---|---|
| ErrorHandler.ClassifyError | src/utils/error_handler.py:101-136 | the category is the first term group the lower-cased message mentions, in the order network, authentication, funds, input, server, client, otherwise unknown; the error is retryable exactly for network, server and unknown errors |
| ErrorHandler.UnrecognisedIsRetryable | src/utils/error_handler.py:135-136 | a message that mentions none of the terms is an unknown error and is retried |
| ErrorHandler.ClassifyExamples | tests/test_production_components.py:31-50 | "Connection timeout" is a retryable network error, "Invalid token" a permanent authentication error, "Insufficient margin" permanent insufficient funds |
| ErrorHandler.BackoffMonotone | src/utils/error_handler.py:165-192 | the sleep before retry k is non-negative, never shorter than the one before it and never longer than the maximum delay |
| ErrorHandler.RetryWithBackoff | src/utils/error_handler.py:161-194 | at most max_retries + 1 calls; between calls it sleeps the backoff schedule, and only after a retryable failure; it ends with the first returned value, the first permanent error (with its category and message), or the last retryable error once the attempts run out |
| ErrorHandler.NewBreaker | src/utils/error_handler.py:26-39 | a new breaker is closed with no failures and no failure time |
| ErrorHandler.OnSuccess | src/utils/error_handler.py:67-72 | a success closes the breaker and clears the failure count, keeping the last failure time |
| ErrorHandler.OnFailure | src/utils/error_handler.py:74-83 | a failure increments the count, records its time, and the breaker is open exactly when the count has reached the threshold or it was already open |
| ErrorHandler.Call | src/utils/error_handler.py:41-59 | an open breaker whose timeout has not passed rejects the call without running it and without changing; otherwise a returned value closes it and a raised error is counted and propagated, opening it at the threshold |
| ErrorHandler.CallPreservesValid | src/utils/error_handler.py:41-83 | a breaker that is closed below its threshold (or has no failures), open only at or above the threshold with a failure time recorded, and never left half-open, keeps those properties across calls |
| ErrorHandler.OpenRejectsWithinTimeout | src/utils/error_handler.py:43-51 | while open and within the timeout since the last failure, every call is rejected and the breaker is unchanged |
| ErrorHandler.HalfOpenTrial | src/utils/error_handler.py:44-46 | once the timeout has passed the next call is tried: a failure reopens the breaker (its count was never reset) and a success closes it |
| ErrorHandler.ConsecutiveFailuresOpen | src/utils/error_handler.py:74-83 | starting fresh, n consecutive failures leave the count at n and the breaker closed below the threshold and open at it |
| RateLimiting.BurstSize | src/utils/rate_limiter.py:31 | an explicit non-zero burst is used as is; otherwise the burst is twice the rate truncated to an integer |
| RateLimiting.NewLimiter | src/utils/rate_limiter.py:22-40 | a new limiter starts with a full bucket, zero counters and an empty request log |
| RateLimiting.Refill | src/utils/rate_limiter.py:108-116 | refilling stamps the time; the tokens become the old tokens plus the elapsed time's accrual when that fits within the burst, and the burst otherwise; nothing else changes |
| RateLimiting.RefillNeverLoses | src/utils/rate_limiter.py:108-116 | with time moving forward and a non-negative rate, a refill never lowers the tokens of a bucket that is not over-full |
| RateLimiting.TryAcquire | src/utils/rate_limiter.py:86-106 | after a refill the request is granted exactly when enough tokens are there; a grant spends them, counts the request and logs its time, a refusal only counts a rejection |
| RateLimiting.TryAcquireKeepsBucketValid | src/utils/rate_limiter.py:86-116 | tokens stay between zero and the burst size |
| RateLimiting.SameInstantRequest | tests/test_production_components.py:136-145 | with no time elapsed, one request is granted exactly when a whole token is left |
| RateLimiting.BurstDrainsBucket | tests/test_production_components.py:136-145 | m requests at one instant on a fresh bucket of b tokens leave b - m; once b are spent the next one is refused |
| RateLimiting.RefillAfterHalfSecond | tests/test_production_components.py:147-159 | a drained 2-token bucket at 5 requests per second grants a request half a second later |
| RateLimiting.Sleep | src/utils/rate_limiter.py:66-84 | without a timeout the sleep times the rate is exactly the missing tokens; with one the sleep never passes the deadline and is either the time left or the time the missing tokens take |
| RateLimiting.SleptPassesBounded | src/utils/rate_limiter.py:68-84 | a pass that slept had time left and slept no further than the deadline; without a timeout and with a positive rate it slept a positive time |
| RateLimiting.Acquire | src/utils/rate_limiter.py:42-84 | every pass refills the bucket at its clock reading (`Waited`); every pass before the last found fewer than the requested tokens, a non-zero rate and time left, and slept the missing tokens over the rate cut to the time left (`SleptAt`, `Sleep`); the last pass grants exactly when the refilled bucket holds the tokens, else fails on a zero rate, else gives up counting a rejection once the timeout has elapsed (`PassOutcome`); the resulting limiter is stated exactly for each outcome |
| RateLimiting.CountRecent | src/utils/rate_limiter.py:123 | the count is the number of log positions whose grant lies at most ten seconds before now, so it is at most the log's length and equals it exactly when every request is that recent |
| RateLimiting.GetStats | src/utils/rate_limiter.py:118-134 | the statistics copy the counters, tokens and rate; the recent rate is the number of grants within the last ten seconds divided by ten, so between 0 and 10 per second for a log of at most 100; utilisation is the recent rate as a percentage of the configured one (0 for a non-positive rate) |
| RateLimiting.Reset | src/utils/rate_limiter.py:136-143 | a reset refills the bucket and clears counters and log, keeping rate and burst |
| RateLimiting.GetRateLimiter | src/utils/rate_limiter.py:183-198 | the global limiter is created on first use with the given rate and returned unchanged afterwards |
| RateLimiting.LaterRatesIgnored | src/utils/rate_limiter.py:183-198 | the rate passed on a later call is ignored |
| OrderManagement.RejectionMessage | src/kite_trader/order_manager.py:230-234 | the rejection error ends with the broker's reason |
| OrderManagement.WaitForCompletion | src/kite_trader/order_manager.py:183-250 | polls at most max_poll_attempts times, never after the timeout; it times out exactly when no poll settles the order within that budget, and otherwise stops at the first one that does (the reference `FirstSettled`), COMPLETE reporting the filled quantity and average price (0 when absent) and REJECTED or CANCELLED the broker's message (or "Unknown reason"); otherwise it times out, on the clock or when the attempts run out |
| OrderManagement.NewManager | src/kite_trader/order_manager.py:44-69 | a new manager tracks no active, completed or failed orders |
| OrderManagement.Track | src/kite_trader/order_manager.py:122-133 | a placed order is entered among the active orders, other entries and the histories unchanged |
| OrderManagement.Untrack | src/kite_trader/order_manager.py:152-155 | the finally block removes the order from the active orders and nothing else |
| OrderManagement.TrackThenUntrack | src/kite_trader/order_manager.py:122-155 | tracking and then untracking an order leaves exactly the other active orders |
| OrderManagement.FirstSettled | src/kite_trader/order_manager.py:195-246 | the poll it names settles the order, lies within the attempt and time budget, and every earlier poll was within the time budget and left the order unsettled |
| OrderManagement.PlaceAndVerify | src/kite_trader/order_manager.py:71-155 | a placement error or an empty order id changes nothing; otherwise the outcome is decided by the first poll that settles the order within budget: an execution with that poll's filled quantity and average price when it reports COMPLETE, a rejection with its status and message otherwise, and a timeout when no poll settles it in time; the order ends inactive and is appended to the history when executed, or to the failed orders when rejected or timed out, and only a timeout sends a cancel |
| OrderManagement.GetOrderHistory | src/kite_trader/order_manager.py:295-305 | the last limit entries of the history, and the whole history for a limit of 0 (Python's `[-0:]`) or one beyond its length |
| OrderManagement.GetStatsAsWritten | src/kite_trader/order_manager.py:311-328 | as written, the successful count is the history's length minus the failed orders' |
| OrderManagement.StatsAsWrittenGoNegative | src/kite_trader/order_manager.py:318-324 | one failed order and no completed ones report -1 successful orders |
| OrderManagement.GetStats | src/kite_trader/order_manager.py:311-328 | successful orders are the completed history, the total is successes plus failures, and the success rate is the successes' percentage of the total, between 0 and 100 |
| Reconciliation.NewReconciler | src/kite_trader/position_reconciler.py:25-40 | a new reconciler has no syncs, no discrepancies and no last sync time |
| Reconciliation.BrokerIndexKeepsLastOpen | src/kite_trader/position_reconciler.py:84-88 | the broker index holds, per symbol, the last broker entry with a non-zero quantity |
| Reconciliation.PricesMatch | src/kite_trader/position_reconciler.py:217-232 | when either price is zero the prices match only if equal; otherwise the difference is divided by the tracked price, so they match when the difference is at most tolerance × tracked price for a positive tracked price, and at least that (negative) bound for a negative one |
| Reconciliation.CheckTracked | src/kite_trader/position_reconciler.py:95-157 | a tracked position missing from the index is MISSING_IN_BROKER, a different quantity is a QUANTITY_MISMATCH carrying broker minus tracked, otherwise a price outside tolerance is a PRICE_MISMATCH, and it matches exactly when quantity and price agree |
| Reconciliation.CheckAllTracked | src/kite_trader/position_reconciler.py:95-157 | every tracked position is either matched or reported; reports name tracked symbols; there is no report exactly when every tracked position matches |
| Reconciliation.TrackedVerdictsReported | src/kite_trader/position_reconciler.py:95-157 | each tracked position's own discrepancy is among those reported |
| Reconciliation.TrackedReportsAreVerdicts | src/kite_trader/position_reconciler.py:95-157 | every discrepancy of the first loop is the verdict of some tracked position |
| Reconciliation.CheckUntracked | src/kite_trader/position_reconciler.py:161-175 | the reports are MISSING_IN_SYSTEM entries for untracked symbols, as many as there are untracked open broker positions; there is no report exactly when every open broker position is tracked |
| Reconciliation.UntrackedEntriesReported | src/kite_trader/position_reconciler.py:161-175 | every open broker position the system does not track is reported MISSING_IN_SYSTEM with the broker's quantity and price |
| Reconciliation.UntrackedReportsAreMissing | src/kite_trader/position_reconciler.py:161-175 | every report of the second loop is an untracked open broker position |
| Reconciliation.Reconcile | src/kite_trader/position_reconciler.py:43-205 | an empty broker list gives SKIPPED and changes nothing; otherwise the discrepancies are the first loop's followed by the second loop's, every one of them is an expected discrepancy (a tracked position's verdict or an untracked open broker position) and every expected one is reported; the matched count is the number of tracked positions that agree with their broker entry in quantity and, within tolerance, in price; matched plus mismatched equals the tracked positions plus the untracked open broker positions; the status is OK exactly when every tracked position matches and every open broker position is tracked; the sync is counted, stamped and its reports appended to the record |
| Reconciliation.TallyAccountsForTracked | src/kite_trader/position_reconciler.py:95-157 | the matched count is the number of tracked positions that check clean |
| Reconciliation.RelianceExamples | tests/test_production_components.py:327-377 | 10 RELIANCE shares at 1450 against the same broker position reconcile OK, 5 tracked shares against 10 at the broker give one quantity mismatch of 5, and no broker positions at all give SKIPPED |
| Reconciliation.GetStats | src/kite_trader/position_reconciler.py:234-241 | counts syncs and discrepancies and shows the last ten discrepancies |
| CapitalRecovery.EmptyHistory | src/utils/capital_manager.py:72-81 | a fresh history has no records and zero totals and tallies |
| CapitalRecovery.AvailableFor | src/utils/capital_manager.py:92-127 | today's budget is the starting capital of the latest record dated today; with no records it is the maximum; otherwise it is the last record's ending capital capped at the maximum |
| CapitalRecovery.NewManager | src/utils/capital_manager.py:29-55 | a manager starts with the budget derived from its history for today |
| CapitalRecovery.DerivedBudgetCapped | src/utils/capital_manager.py:115-119 | when today has no record, the derived budget never exceeds the maximum capital |
| CapitalRecovery.Upsert | src/utils/capital_manager.py:164-172 | the day's record replaces the first record with the same date, or is appended when there is none |
| CapitalRecovery.UpsertKeepsDatesDistinct | src/utils/capital_manager.py:164-172 | recording a day never creates two records for one date, and the new record is in the list |
| CapitalRecovery.WinningPlusLosingBounded | src/utils/capital_manager.py:175-181 | recounted winning and losing days together never exceed the number of records |
| CapitalRecovery.DayEndRecord | src/utils/capital_manager.py:143-161 | the day's ending capital is the budget plus the P&L floored at zero (not capped), and the P&L and utilisation percentages are relative to the budget (0 for a zero budget) |
| CapitalRecovery.RecordDayEndAsWritten | src/utils/capital_manager.py:133-214 | as written, today's record is written or replaced, the total P&L is the sum over the records and the trades are added; the winning days are recounted only on a winning day and the losing days only on a losing one, and a flat day leaves both tallies as they were; the budget is not touched |
| CapitalRecovery.AsWrittenAgreesOnNewDay | src/utils/capital_manager.py:133-214 | the update as written and the corrected one differ only in the two day tallies, and agree entirely when the tallies were consistent and today had no record yet |
| CapitalRecovery.StaleWinningDays | src/utils/capital_manager.py:178-181 | recording +10 and then -5 for the same day leaves one record tallied as both a winning and a losing day |
| CapitalRecovery.RecordDayEnd | src/utils/capital_manager.py:133-214 | the day's record is upserted and its ending capital returned; the total P&L is the records' sum, trades accumulate, and both day tallies are recounted from the records |
| CapitalRecovery.RecordDayEndTalliesConsistent | src/utils/capital_manager.py:175-181 | after recording a day, winning plus losing days never exceed the number of days |
| CapitalRecovery.NextDayBudget | src/utils/capital_manager.py:105-149 | after a day ends, the next day's budget is that day's ending capital capped at the maximum, while today's budget is unchanged |
| CapitalRecovery.RecoveryScenario | src/utils/capital_manager.py:92-214 | a loss of 80 on 1000 leaves 920 for the next day; a gain of 200 on 890 ends at 1090 but the next day is capped back at 1000 |
| CapitalRecovery.PerformanceSummary | src/utils/capital_manager.py:216-247 | with no records the summary has zero days, P&L, average, winning and losing days and win rate, 100% recovery and no trade count; otherwise the average daily P&L and win rate are total P&L and winning days per recorded day, and recovery is the budget as a percentage of the maximum |
| CapitalRecovery.WinRateIsPercentage | src/utils/capital_manager.py:242 | after a day is recorded the win rate is between 0 and 100 |
| CapitalRecovery.RecoveryStatus | src/utils/capital_manager.py:253-281 | the deficit is maximum minus budget; no deficit is full capital, under 10% of the maximum minor, under 50% moderate and otherwise major |
| CapitalRecovery.RecoveryBandMonotone | src/utils/capital_manager.py:259-272 | a smaller budget never gives a milder recovery band |
| CapitalRecovery.ForceResetCapital | src/utils/capital_manager.py:283-309 | the budget becomes the given amount or the maximum, a manual-reset record with zero P&L is appended, and the totals are left as they were |
| CapitalRecovery.ResetAfterDayEndDuplicatesDate | src/utils/capital_manager.py:164-172 | a reset after the day ended appends a second record for today, and it is the later one that sets today's budget |
| TradingPsychology.DefaultConfig | src/ai_modules/trading_psychology.py:34-85 | the default limits are 5 trades a day, 3 losses in a row, 15 minutes of cooldown, caution after 3 wins, a 5% drawdown and a 5-minute signal wait |
| TradingPsychology.NewGuard | src/ai_modules/trading_psychology.py:34-85 | a new guard has no trades, no streaks, no signals seen and a neutral state |
| TradingPsychology.ResetDailyStats | src/ai_modules/trading_psychology.py:87-100 | a reset clears the day's counters, streaks, timers and signals and starts the day with the given capital |
| TradingPsychology.UpdateCapital | src/ai_modules/trading_psychology.py:102-104 | only the current capital changes |
| TradingPsychology.PsychAdjustment | src/ai_modules/trading_psychology.py:206-231 | at the win threshold the multiplier is 1 and from three wins past it 0.7, always within [0.7, 1]; below it, with losses, within [0.6, 0.85] and 0.6 from three losses; with neither it is 1 |
| TradingPsychology.PsychAdjustmentSteps | src/ai_modules/trading_psychology.py:213-229 | each further win past the threshold takes exactly another 0.1 off the multiplier, never below 0.7; below the threshold each further loss takes exactly another 0.15 off, never below 0.6; the win that reaches the threshold gives 1 |
| TradingPsychology.ShouldAllowTrade | src/ai_modules/trading_psychology.py:106-204 | the checks run in order (daily limit, loss streak, cooldown, drawdown, first sighting of the signal, signal too recent) and the first that fails denies with its reason and emotional state (greedy at the daily limit, revenge on a loss streak, fearful in cooldown or drawdown, FOMO on a new or too recent signal); an allowed trade leaves the trader fearful after a loss, overconfident on a win streak and neutral otherwise; a first sighting is recorded; an allowed trade carries the streak adjustment; no counter changes |
| TradingPsychology.AdjustmentRange | src/ai_modules/trading_psychology.py:185-204 | an allowed trade's size multiplier is between 0.6 and 1, and a denial's is 0 |
| TradingPsychology.RecordTrade | src/ai_modules/trading_psychology.py:233-273 | the trade is logged and counted; a positive P&L extends the win streak and ends the loss streak, a zero or negative one does the reverse and starts the cooldown; the signal's first sighting is forgotten |
| TradingPsychology.DailyLimitDeniesEverything | src/ai_modules/trading_psychology.py:117-124 | once the daily limit is reached every trade is denied for it, and neither checking nor recording lifts it |
| TradingPsychology.LossStreakPersists | src/ai_modules/trading_psychology.py:127-134 | a loss streak at the limit survives checks and further non-winning trades, and only the daily reset clears it |
| TradingPsychology.SignalMustPersist | src/ai_modules/trading_psychology.py:161-182 | a signal seen for the first time is denied, and the same signal is allowed later exactly when the other checks pass and the waiting window has elapsed |
| TradingPsychology.TwoTradeDay | src/ai_modules/trading_psychology.py:117-124 | with a limit of two trades a day, two recorded trades block the third |
| TradingPsychology.EnforceStopLoss | src/ai_modules/trading_psychology.py:275-297 | a zero entry price raises; otherwise the loss is the price move relative to entry and the position exits exactly when the price has fallen to the stop |
| TradingPsychology.ShouldTakeProfit | src/ai_modules/trading_psychology.py:299-331 | a zero entry price raises; otherwise it takes profit exactly at the target and advises a trailing stop from 80% of it |
| TradingPsychology.DisciplineScore | src/ai_modules/trading_psychology.py:360-382 | the score is exactly 100 minus 20, 30, 10 and 25 for more than 80% of the trade limit, a loss streak past half its limit, a win streak past the size-reduction point and capital below half the allowed drawdown; so the clamp never bites, it stays in [15, 100] and is 100 exactly when no penalty applies |
| TradingPsychology.FreshDayFullDiscipline | src/ai_modules/trading_psychology.py:87-100 | a freshly reset day scores full discipline |
| LiveTrading.NewCapitalGuard | scripts/live_trade.py:99-110 | the daily loss limit defaults to 10% of the capital (also for an explicit 0); the guard starts unused, unhalted and with no P&L or trades |
| LiveTrading.CheckCapitalAvailable | scripts/live_trade.py:112-125 | capital is available exactly when trading is not halted and the used capital plus the request stays within the limit |
| LiveTrading.AllocateCapital | scripts/live_trade.py:127-135 | allocation adds to the used capital and counts a trade, nothing else |
| LiveTrading.ReleaseCapital | scripts/live_trade.py:137-154 | release subtracts from the used capital and adds the P&L; trading halts once the day's P&L falls below minus the loss limit and stays halted |
| LiveTrading.AvailableCapital | scripts/live_trade.py:156-159 | available capital is the unused part of the limit, never negative |
| LiveTrading.ResetDaily | scripts/live_trade.py:171-178 | a new day clears P&L, halt and trade count but keeps the capital in use |
| LiveTrading.RecordEndOfDay | scripts/live_trade.py:180-190 | without a recovery manager nothing happens; with one, the day's P&L, trades and used capital are recorded in it through the corrected day-end update (see Left out) |
| LiveTrading.HaltIsSticky | scripts/live_trade.py:112-178 | a halted guard refuses every request, allocation and release keep it halted, and only the daily reset lifts the halt |
| LiveTrading.CheckedAllocationWithinLimit | scripts/live_trade.py:112-135 | an allocation that passed the check keeps the used capital within the limit |
| LiveTrading.DailyLossLimitExample | scripts/live_trade.py:137-154 | with 1000 of capital, a loss of 100 does not halt trading and a loss of 101 does |
| LiveTrading.RoundToTick | scripts/live_trade.py:208-219 | for a positive tick the result is a whole number of ticks: rounding up gives the smallest such multiple not below the price, down the largest not above it, and nearest one within half a tick; a non-positive tick leaves the price alone |
| LiveTrading.LimitPrice | scripts/live_trade.py:279-290 | a BUY limit is 0.3% above the price rounded up to the 0.05 tick, a SELL limit 0.3% below rounded down |
| LiveTrading.BuyInto | scripts/live_trade.py:325-354 | a buy opens a position at the limit price, or adds quantity and investment to the existing one with the average price as investment per share and the entry time kept |
| LiveTrading.SellFrom | scripts/live_trade.py:361-405 | a sell releases the sold share of the investment and realises the P&L against the average price; the rest of the position stays, or the position closes when nothing is left |
| LiveTrading.SellInTwoLegsReleasesEverything | scripts/live_trade.py:376-401 | selling a position in two legs releases exactly its investment and closes it |
| LiveTrading.PlaceOrder | scripts/live_trade.py:221-425 | no price, a failed capital check for a BUY, or no order id places nothing and changes nothing; a placed LIMIT BUY allocates the capital and books the position; a placed LIMIT SELL of a held position with valid prices releases the investment in proportion to the quantity sold, books the P&L against the average price, and reduces or deletes the position; a SELL never adds positions |
| LiveTrading.AcceptedBuyIsBooked | scripts/live_trade.py:266-354 | an accepted LIMIT BUY with capital available is booked and counted |
| LiveTrading.DropInvalid | scripts/live_trade.py:475-489 | the clean-up keeps exactly the tracked positions with a positive price and quantity |
| LiveTrading.Prune | scripts/live_trade.py:542-553 | tracked positions the broker does not report open are dropped, the others kept as they were |
| LiveTrading.SyncPositions | scripts/live_trade.py:471-564 | after a sync the tracked symbols are exactly those whose last open broker entry has a positive average price; when the broker call fails only the clean-up happens and 0 is reported |
| LiveTrading.SyncKeys | scripts/live_trade.py:496-539 | the entry loop keeps a symbol exactly when its last open entry has a positive price, or when the broker has no open entry and it was tracked |
| LiveTrading.SyncIsPerSymbol | scripts/live_trade.py:496-539 | what the entry loop does to one symbol depends only on that symbol's entries |
| LiveTrading.SyncedEntryValues | scripts/live_trade.py:517-539 | a symbol with one open broker entry ends with the tracked position when quantities agree, the broker's quantity and price when they differ, or a new position when untracked |
| LiveTrading.EntryOutcome | scripts/live_trade.py:517-539 | one broker entry keeps, corrects or creates the tracked position |
| BrokerHealth.NewMonitor | src/utils/broker_health.py:23-55 | a new monitor is healthy with no failures, no checks and the backoff at the check interval |
| BrokerHealth.CheckHealth | src/utils/broker_health.py:57-155 | within the backoff since the last check the cached status is returned unchanged; a profile with a user id resets failures and backoff; any other reply counts a failure, multiplies the backoff up to its cap, logs the failure and marks the broker unhealthy once failures reach the threshold, which also asks to halt |
| BrokerHealth.Reset | src/utils/broker_health.py:167-172 | a reset clears failures and backoff and marks the broker healthy, keeping the log |
| BrokerHealth.CheckHealthPreservesValid | src/utils/broker_health.py:57-172 | a positive threshold, a failure log of at most 100 entries, and a health flag that is down exactly when the failure count has reached the threshold are kept by every probe and by a reset |
| BrokerHealth.BackoffCapped | src/utils/broker_health.py:141-144 | after a failure the backoff never exceeds 300 seconds, and with a multiplier of at least one it never shrinks below a previous backoff that was within the cap |
| BrokerHealth.ConsecutiveFailuresHalt | src/utils/broker_health.py:115-155 | n spaced failed probes count n failures, keep min(n, 100) entries in the log, and leave the broker healthy exactly while n is below the threshold |
| CostCalculation.Brokerage | src/utils/cost_calculator.py:43-60 | intraday brokerage is 0.03% of the trade value while that is at most the flat 20 rupees, and the flat fee exactly when the percentage would reach it; it never exceeds either; delivery trades pay none |
| CostCalculation.Stt | src/utils/cost_calculator.py:62-81 | securities transaction tax is charged only on the sell side at 0.025% for intraday, and on both sides at 0.1% for delivery |
| CostCalculation.StampDutyFor | src/utils/cost_calculator.py:107-123 | stamp duty of 0.015% falls on purchases only |
| CostCalculation.Charges | src/utils/cost_calculator.py:159-182 | the charge breakdown of one order: GST is 18% of brokerage plus exchange and SEBI charges, the total is the sum of all six charges, every charge is non-negative for a non-negative value, a positive trade always costs something, and the reported cost percentage is the total's share of a positive trade value (zero otherwise) |
| CostCalculation.TotalCost | src/utils/cost_calculator.py:137-182 | the cost of an order is computed on the traded value, price times quantity |
| CostCalculation.CostRateBound | src/utils/cost_calculator.py:22-41 | with the Zerodha rates, all charges on one order stay within 0.12% of its value |
| CostCalculation.TotalCostExample | src/utils/cost_calculator.py:62-123 | a buy of 10 shares at 1000 pays stamp duty and no transaction tax; the matching sell pays transaction tax and no stamp duty |
| CostCalculation.BrokerageExamples | src/utils/cost_calculator.py:43-81 | 5000 rupees intraday pays 1.50 brokerage, 100000 rupees pays the 20 rupee cap, delivery pays nothing, and a 10000 rupee intraday sell pays 2.50 transaction tax |
| CostCalculation.RoundTripCost | src/utils/cost_calculator.py:184-223 | a round trip charges the buy leg as a buy and the sell leg as a sell; net profit is gross profit minus both legs' charges, strictly below gross profit whenever something was bought |
| CostCalculation.Settle | src/utils/cost_calculator.py:203-223 | the round-trip summary totals both legs' charges, nets them off the gross profit, and reports the return as net profit's share of the buy value, zero when nothing was bought |
| CostCalculation.RoundTripExample | src/utils/cost_calculator.py:184-223 | buying 10 at 1450 and selling at 1470 yields 200 gross and strictly less net |
| CostCalculation.BreakevenStepBounds | src/utils/cost_calculator.py:243-255 | each refinement of the breakeven estimate stays strictly above the buy price and within 1% above it |
| CostCalculation.BreakevenPrice | src/utils/cost_calculator.py:225-257 | the breakeven sell price after five refinements is strictly above the buy price and at most 1% above it; a zero quantity is the division error |
| MarketCalendar.NextDateOrdinal | src/utils/market_calendar.py:116 | stepping to the next calendar date advances the proleptic Gregorian ordinal by exactly one |
| MarketCalendar.AddDaysOrdinal | src/utils/market_calendar.py:116 | adding k days to a date advances its ordinal by k |
| MarketCalendar.NextWeekday | src/utils/market_calendar.py:60 | the weekday of the next date is the following weekday, Sunday wrapping to Monday |
| MarketCalendar.CalendarAnchors | src/utils/market_calendar.py:60 | 1 January of year 1 has ordinal 1 and is a Monday; 1 January 2025 is a Wednesday and 26 January 2025 a Sunday |
| MarketCalendar.NewCalendar | src/utils/market_calendar.py:21-44 | a fresh calendar holds only the 2025 NSE holidays |
| MarketCalendar.HolidayName | src/utils/market_calendar.py:69-97 | a date has a holiday name exactly when it is a holiday, and the name is the one registered for it |
| MarketCalendar.ScanIsFirst | src/utils/market_calendar.py:112-121 | the bounded forward scan stops at the first trading day or, failing that, at its iteration limit |
| MarketCalendar.NextTradingDayIsFirst | src/utils/market_calendar.py:99-121 | the next trading day lies strictly after the start and within 30 days of it, no trading day lies between, and only the 30-day fallback may be a non-trading day |
| MarketCalendar.DiwaliWeek | src/utils/market_calendar.py:34-36 | from Monday 20 October 2025 the next trading day is Friday the 24th, skipping the three Diwali holidays; from that Friday it is Monday the 27th |
| MarketCalendar.Status | src/utils/market_calendar.py:123-154 | the weekend flag is a Saturday or Sunday, the holiday flag and name come from the holiday table, a trading day is neither; the market is in hours exactly on a trading day between 9:15 and 15:30 inclusive; on a non-trading day the next trading day is reported, and on a trading day none |
| MarketCalendar.ShouldTradeNow | src/utils/market_calendar.py:156-174 | trading is allowed exactly on a trading day within market hours; otherwise the reason names the weekend, the holiday with its name, or the hours, each with the next trading day where the source gives it |
| MarketCalendar.AddCustomHoliday | src/utils/market_calendar.py:176-185 | a custom holiday makes its date a named non-trading day and leaves every other date's status and name unchanged |
| MarketCalendar.HolidaysOfYear | src/utils/market_calendar.py:187-200 | the holidays of a year are exactly the registered holidays dated in that year, with their names |
| MarketCalendar.HolidaysOf2025 | src/utils/market_calendar.py:22-39 | the holidays of 2025 in a fresh calendar are the 16 NSE holidays, and 2024 has none |
| PaperTrading.NewLedger | src/paper_trading/paper_trader.py:22-60 | a fresh session starts valid, with all capital available and no positions |
| PaperTrading.PortfolioValue | src/paper_trading/paper_trader.py:239-254 | with nothing held the portfolio is worth exactly the available cash |
| PaperTrading.PositionsAtAverage | src/paper_trading/paper_trader.py:249-252 | with no current prices given, every position is valued at its average price, so the positions are worth what was invested in them |
| PaperTrading.TouchDay | src/paper_trading/paper_trader.py:220-224 | the day's P&L entry is created at zero if missing and then increased by the trade's P&L; every other day is untouched |
| PaperTrading.AddToPosition | src/paper_trading/paper_trader.py:100-118 | a first buy opens a position at the fill price with that price as entry; a further buy adds the quantity and the invested amount, makes the average price the quantity-weighted mean, and keeps the first entry time and price; a zero resulting quantity is the division error |
| PaperTrading.Buy | src/paper_trading/paper_trader.py:83-135 | a buy is rejected exactly when its value plus the 20 rupee brokerage exceeds the available cash, and then changes nothing; otherwise cash falls by value plus brokerage, only this symbol's position changes, one BUY record is appended, and capital and the win/loss tallies are untouched |
| PaperTrading.Tally | src/paper_trading/paper_trader.py:168-174 | each sell counts one trade, as a win adding its profit when the P&L is positive and otherwise as a loss adding the absolute loss |
| PaperTrading.Sell | src/paper_trading/paper_trader.py:137-214 | a sell is rejected without a position or for more shares than held; otherwise cash grows by value minus brokerage, P&L is measured against the first entry price, a full sell closes the position into the closed list and a partial one reduces it, the trade is tallied, the day's P&L and history record it; a zero entry price is the division error |
| PaperTrading.Settle | src/paper_trading/paper_trader.py:176-194 | selling the whole holding moves it to the closed positions and deletes it; a partial sell only lowers its quantity; no other symbol changes |
| PaperTrading.ExecutePreservesValid | src/paper_trading/paper_trader.py:62-237 | every order, accepted or rejected, keeps one entry per symbol, wins plus losses equal to trades, and non-negative profit and loss totals |
| PaperTrading.PnlAgainstFirstEntry | src/paper_trading/paper_trader.py:100-109 | holding 10 bought at 100 and buying 10 more at 120 averages 110, yet selling all 20 at 115 books 300 of P&L, measured from the first entry price, where the average cost implies 100 |
| PaperTrading.GetPositionPnl | src/paper_trading/paper_trader.py:256-281 | an unheld symbol reports nothing; a held one reports unrealised P&L and its percentage against the average price; a zero average price is the division error |
| PaperTrading.PerformanceSummary | src/paper_trading/paper_trader.py:283-315 | total return is current minus initial capital; win rate lies between 0 and 100 and is 0 before any trade; average win and loss are the totals shared over the counts; the profit factor is infinite exactly when there is no loss |
| PaperTrading.DayCounts | src/paper_trading/paper_trader.py:334-344 | every sell of the day counts once, as a win or as a loss, and no more records are counted than the history holds |
| PaperTrading.CloseAll | src/paper_trading/paper_trader.py:346-372 | force-closing positions leaves the daily statistics and the current capital alone |
| PaperTrading.CloseAllEmpties | src/paper_trading/paper_trader.py:346-372 | force-closing the listed symbols keeps the ledger valid and, unless a sell raises, leaves none of them held and every other symbol as it was; a sell raises exactly when the first listed held symbol with a zero entry price is reached |
| PaperTrading.CloseAllFromValid | src/paper_trading/paper_trader.py:347-372 | force-closing every held symbol leaves no open position unless a sell raised |
| PaperTrading.ResetDaily | src/paper_trading/paper_trader.py:317-390 | the end-of-day reset closes every position and appends exactly one daily statistic after the earlier ones, keeps the ledger valid, and appends nothing if a force-close raised |
| BaseStrategy.Quantity | src/strategies/base_strategy.py:107-111 | a symbol never traded has quantity zero |
| BaseStrategy.HasPosition | src/strategies/base_strategy.py:103-105 | a symbol is held exactly when it is tracked with a non-zero quantity |
| BaseStrategy.UpdatePosition | src/strategies/base_strategy.py:90-101 | recording a fill tracks the symbol, remembers the action, adds a BUY's quantity, subtracts a SELL's, leaves the quantity alone for any other action, and touches no other symbol |
| BaseStrategy.BuyThenSellIsFlat | src/strategies/base_strategy.py:90-105 | a buy followed by a sell of the same quantity restores the symbol's quantity; an unknown action changes no quantity; a positive buy of an unheld symbol makes it held |
| BaseStrategy.ExecuteSignal | src/strategies/base_strategy.py:57-88 | an order is placed exactly when the size is positive; the position is updated exactly when the broker also returns a non-empty order id, and otherwise (no size, no id, or a raised sizing or order call) positions are unchanged |
| BaseStrategy.TrackQuote | src/strategies/base_strategy.py:121-152 | one symbol's turn: a reply with data for the symbol on NSE or BSE clears its failure count, an empty or unrelated reply increments it, a raised request leaves it, and no other symbol's count changes |
| BaseStrategy.RunIterationCounts | src/strategies/base_strategy.py:113-162 | after an iteration, symbols not polled keep their counts and each symbol polled once has the count its own reply dictates |
| BaseStrategy.FailuresAccumulate | src/strategies/base_strategy.py:126-152 | three empty replies in a row count three consecutive failures, and one reply with data clears them |
| BaseStrategy.Failing | src/strategies/base_strategy.py:186-192 | the symbols to remove are exactly those whose failure count reached the threshold |
| BaseStrategy.Without | src/strategies/base_strategy.py:199-201 | dropping symbols keeps the remaining ones in their order and removes exactly the dropped ones |
| BaseStrategy.WithoutKeys | src/strategies/base_strategy.py:203-205 | removed symbols lose their failure count and all others keep theirs |
| BaseStrategy.RemoveFailing | src/strategies/base_strategy.py:176-209 | removal reports exactly the symbols at or over the threshold, drops them from the symbol list in order and from the failure counts, and changes nothing when none qualifies |
| BaseStrategy.RemovedAreExactlyFailing | src/strategies/base_strategy.py:176-209 | a symbol is removed exactly when its count reached the threshold, and no symbol left in the counts is still at the threshold |
| BaseStrategy.ValidateSymbols | src/strategies/base_strategy.py:211-246 | the validated list keeps symbols in their order; every symbol whose quote reply carries NSE or BSE data is kept, and every kept symbol has such a reply |
| BaseStrategy.ValidatedCount | src/strategies/base_strategy.py:211-246 | the validated list is exactly as long as the number of positions whose reply carries data, so a symbol listed twice is kept once per valid reply |
| IntradayHighLow.UpdateIntradayData | src/strategies/intraday_high_low_strategy.py:70-105 | a quote for an untracked symbol starts its day range from the quote; a later quote only raises the high to the larger of the two and lowers the low to the smaller, keeping the open; without a quote nothing changes, and no other symbol changes |
| IntradayHighLow.RangeOnlyWidens | src/strategies/intraday_high_low_strategy.py:70-105 | over any sequence of quotes a symbol's high never falls and its low never rises |
| IntradayHighLow.PricePosition | src/strategies/intraday_high_low_strategy.py:107-133 | the price's place in the day range is a fraction in [0, 1], 0 at or below the low, 1 at or above the high, linear in between, and 0.5 for an unknown symbol or a flat range |
| IntradayHighLow.ProfitPotential | src/strategies/intraday_high_low_strategy.py:135-191 | a buy targets the day high with a stop a fixed percentage below the price, its margin and risk-reward the matching ratios, zero where the divisor is not positive; a sell measures profit from the recorded entry, or the price when none; an untracked symbol is invalid |
| IntradayHighLow.RiskRewardIsDistanceOverStop | src/strategies/intraday_high_low_strategy.py:161-171 | for a buy, the risk is the stop distance and the risk-reward is the distance to the high over it |
| IntradayHighLow.Analyze | src/strategies/intraday_high_low_strategy.py:193-296 | a BUY is signalled exactly for an unheld symbol in the lower part of the range whose margin and risk-reward meet their minimums, recording the entry price; a SELL exactly for a held symbol in the upper part whose margin from entry meets the minimum, forgetting the entry; no quote or a non-positive price gives no signal |
| IntradayHighLow.NoBuyAtTheHigh | src/strategies/intraday_high_low_strategy.py:234-258 | with a positive minimum margin, a price at or above the day high never triggers a buy |
| IntradayHighLow.PositionSize | src/strategies/intraday_high_low_strategy.py:298-366 | a sell sizes the whole held quantity; a buy gets nothing without positive cash or price, else at least one share and, above one, no more than the allowed share of cash buys, while one more share would exceed it: the whole number of shares the allowed share of cash buys, but at least one |
| IntradayHighLow.BuyWithinBudget | src/strategies/intraday_high_low_strategy.py:346-362 | with positive cash and price a buy gets at least one share, and more than one only within the allowed share of cash |
| IntradayHighLow.ResetDailyData | src/strategies/intraday_high_low_strategy.py:395-402 | a new day empties both the range map and the entry-price map, so every price sits at the neutral middle |
| Sentiment.Words | src/ai_modules/sentiment_analyzer.py:60-61 | the text splits into maximal runs of word characters only |
| Sentiment.OnlyPositiveWordsScoreOne | src/ai_modules/sentiment_analyzer.py:64-83 | a text with some positive keyword and no negative one scores exactly 1 with positive confidence |
| Sentiment.CountIn | src/ai_modules/sentiment_analyzer.py:64-65 | the keyword count never exceeds the number of words and is positive exactly when some word is a keyword |
| Sentiment.AnalyzeText | src/ai_modules/sentiment_analyzer.py:47-83 | the positive and negative counts are the numbers of positive and negative keywords among the lower-cased words; text without keywords scores 0 with confidence 0; otherwise the score is positive minus negative keywords over their total, within [-1, 1], and confidence is a tenth per keyword, capped at 1 |
| Sentiment.Balance | src/ai_modules/sentiment_analyzer.py:73 | the keyword balance lies in [-1, 1] and is the difference of the counts shared over their sum |
| Sentiment.KeywordsDisjoint | src/ai_modules/sentiment_analyzer.py:26-37 | no word is both a positive and a negative keyword |
| Sentiment.DisjointCounts | src/ai_modules/sentiment_analyzer.py:64-67 | with disjoint keyword lists, positive and negative counts together never exceed the number of words |
| Sentiment.HeadlineExample | src/ai_modules/sentiment_analyzer.py:47-83 | the headline "Rally" has one positive keyword, scores 1 and has confidence 0.1 |
| Sentiment.WeightedSumBounds | src/ai_modules/sentiment_analyzer.py:167-177 | with halving weights, scores bounded by lo and hi give a weighted sum between lo and hi times the total weight |
| Sentiment.Average | src/ai_modules/sentiment_analyzer.py:159-178 | the recency-weighted average of no scores is 0, and of scores in [-1, 1] stays in [-1, 1] |
| Sentiment.AverageBetween | src/ai_modules/sentiment_analyzer.py:159-178 | the weighted average lies between the smallest and largest bound of its scores |
| Sentiment.AverageFavoursRecent | src/ai_modules/sentiment_analyzer.py:169-177 | the newest score weighs twice the one before: 0 then 0.9 average to 0.6 |
| Sentiment.TrendOf | src/ai_modules/sentiment_analyzer.py:180-198 | under 10 scores the trend is neutral; otherwise it is improving exactly when the mean of the last 10 exceeds the mean of the 10 before (0 if none) by more than 0.1, and declining exactly when it falls short by more than 0.1 |
| Sentiment.MoveScore | src/ai_modules/sentiment_analyzer.py:132-143 | a price move's score lies in [-1, 1], has the sign of the move, and without a volume rise is the halved move clamped |
| Sentiment.UpdateKeepsFirst | src/ai_modules/sentiment_analyzer.py:152-157 | a move of at least 0.1% keeps the first cached symbol first, and caches the moving symbol first in an empty cache |
| Sentiment.UpdateSentiment | src/ai_modules/sentiment_analyzer.py:113-157 | a symbol is always given a history; a move under 0.1% changes nothing else; a larger move appends its score to the 20-entry history and caches that score, the new weighted average and the new trend; other symbols are untouched |
| Sentiment.UpdatePreservesValid | src/ai_modules/sentiment_analyzer.py:113-157 | updates keep every history within 20 scores in [-1, 1] and every cached reading consistent with its history |
| Sentiment.AppendWithin | src/ai_modules/sentiment_analyzer.py:125-145 | appending a score in [-1, 1] to a bounded history keeps it within 20 entries, all in [-1, 1] |
| Sentiment.GetSentimentScore | src/ai_modules/sentiment_analyzer.py:200-224 | an uncached symbol reads neutral with zero confidence; a cached one reports its cached reading with confidence a twentieth per stored score, capped at 1 |
| Sentiment.SentimentSignal | src/ai_modules/sentiment_analyzer.py:226-247 | BUY exactly when confidence is at least 0.7, the current score above 0.6 and the trend improving; SELL exactly for the mirror image |
| Sentiment.FearGreedIndex | src/ai_modules/sentiment_analyzer.py:285-304 | the index lies in [0, 100] and maps an average in [-1, 1] linearly onto it |
| Sentiment.ShouldTrade | src/ai_modules/sentiment_analyzer.py:306-332 | low confidence or no signal never blocks; a buy is allowed exactly when the score is above -0.3; a sell exactly when the score is below 0.3 or the trend is declining |
| Sentiment.SentimentAdjustment | src/ai_modules/sentiment_analyzer.py:334-354 | the size multiplier is 1 at low confidence, stays in [0.5, 1.5], grows only with an improving trend and shrinks only with a score below -0.3 |
| Sentiment.ReadingsInRange | src/ai_modules/sentiment_analyzer.py:200-354 | in a consistent analyzer every reported current and average score lies in [-1, 1] and every multiplier in [0.5, 1.5] |
| PatternRecognition.NewRecognizer | src/ai_modules/pattern_recognition.py:24-47 | a new recognizer has no price history and no learned pattern rates |
| PatternRecognition.UpdatePriceHistory | src/ai_modules/pattern_recognition.py:49-67 | a new candle, with missing volume as 0, is appended to the symbol's history, which keeps only the newest lookback candles; other symbols and the rates are untouched |
| PatternRecognition.UpdateKeepsBounded | src/ai_modules/pattern_recognition.py:49-67 | no history ever holds more candles than the lookback |
| PatternRecognition.DetectCandlestickPatterns | src/ai_modules/pattern_recognition.py:69-175 | under three candles nothing is detected; otherwise each of the six patterns is reported exactly when its candle test holds on the last one, two or three candles, with its own confidence: 0.7 for hammer and shooting star, 0.8 for the engulfings, 0.85 for morning and evening star |
| PatternRecognition.OppositePatternsExclude | src/ai_modules/pattern_recognition.py:117-175 | a hammer and a shooting star, the two engulfings, and the two stars never appear together, and a hammer or shooting star needs a real body |
| PatternRecognition.ExtremumDominatesWindow | src/ai_modules/pattern_recognition.py:212-220 | a point is a peak (trough) exactly when no price within five places of it is higher (lower) |
| PatternRecognition.ClustersBetween | src/ai_modules/pattern_recognition.py:226-238 | clustering levels averages them, so every cluster lies between the bounds of the levels |
| PatternRecognition.FindPriceLevels | src/ai_modules/pattern_recognition.py:204-240 | under 10 prices there are no levels; at most five are returned, none exactly when there is no local extremum, and each lies within the price range |
| PatternRecognition.Sort | src/ai_modules/pattern_recognition.py:200-201 | sorting returns a permutation of its input in the requested order |
| PatternRecognition.InsertPermutes | src/ai_modules/pattern_recognition.py:200-201 | inserting one price into a sorted list adds exactly that price and loses none |
| PatternRecognition.IdentifySupportResistance | src/ai_modules/pattern_recognition.py:177-202 | under 20 candles there are no levels; otherwise support is the trough levels of the lows ascending and resistance the peak levels of the highs descending, at most five each |
| PatternRecognition.DetectTrend | src/ai_modules/pattern_recognition.py:242-291 | under 20 candles the trend is neutral with zero strength and confidence; a neutral trend has zero strength and confidence 0.5, a directional one non-zero strength at most 1 and confidence in [0, 1] |
| PatternRecognition.TrendOf | src/ai_modules/pattern_recognition.py:255-291 | under 50 closes the long average equals the medium one, so the strict ordering fails and the trend is neutral |
| PatternRecognition.NoTrendBelowFifty | src/ai_modules/pattern_recognition.py:258-271 | a history shorter than 50 candles never shows a trend |
| PatternRecognition.LearnFromPattern | src/ai_modules/pattern_recognition.py:313-343 | one outcome adds one observation, a success exactly when successes grow and failures stay; the rate becomes the success share in [0, 1]; other patterns are untouched |
| PatternRecognition.LearningKeepsRatesConsistent | src/ai_modules/pattern_recognition.py:313-343 | every learned rate stays the success share of its observations |
| PatternRecognition.ConfidenceInRange | src/ai_modules/pattern_recognition.py:345-354 | a learned pattern's confidence lies in [0, 1] and an unknown pattern's is 0.5 |
| PatternRecognition.SuccessRaisesRate | src/ai_modules/pattern_recognition.py:328-338 | a success never lowers a pattern's rate and a failure never raises it |
| Prediction.ParseTimeframe | src/ai_modules/predictive_model.py:56-65 | exactly the four names 5m, 30m, 4h and daily denote timeframes |
| Prediction.UpdateTimeframeData | src/ai_modules/predictive_model.py:50-75 | an unknown timeframe changes nothing; otherwise the candle, with missing volume as 0, is appended to that timeframe's buffer for the symbol, which keeps only its newest 200, 100, 50 or 100 candles; no other buffer changes |
| Prediction.UpdateKeepsBounded | src/ai_modules/predictive_model.py:63-75 | no buffer ever exceeds its timeframe's capacity |
| Prediction.RsiValue | src/ai_modules/predictive_model.py:183-184 | with some average loss the relative strength index lies in [0, 100) |
| Prediction.RsiSignal | src/ai_modules/predictive_model.py:165-192 | with at most 14 closes the signal is 0; with no loss over the last 14 changes it is 1; otherwise it is positive exactly above 70 and negative exactly below 30, linear in each band, and always within [-1, 1] |
| Prediction.ClampedRatio | src/ai_modules/predictive_model.py:210-261 | a clamped normalised ratio lies in [-1, 1], keeps the sign of the numerator for a non-negative divisor (a zero divisor saturating as numpy's infinity does), and is the exact ratio where it is not clamped |
| Prediction.Ema | src/ai_modules/predictive_model.py:214-225 | the exponential moving average lies between the smallest and largest value |
| Prediction.MacdSignal | src/ai_modules/predictive_model.py:194-212 | under 26 closes the signal is 0; otherwise it lies in [-1, 1] and, for non-negative prices, is positive exactly when the 12-period average is above the 26-period one and negative exactly when below |
| Prediction.CrossoverSignal | src/ai_modules/predictive_model.py:227-242 | under 20 closes the signal is 0; otherwise it lies in [-1, 1] and, for non-negative prices, is positive exactly when the 5-period mean is above the 20-period mean and negative exactly when below |
| Prediction.VolumeSignal | src/ai_modules/predictive_model.py:244-261 | under 10 volumes the signal is 0, and 0 for zero average volume; otherwise it lies in [-1, 1] and is positive exactly when the last 5 volumes average above the longer mean and negative exactly when below |
| Prediction.AnalyzeTimeframe | src/ai_modules/predictive_model.py:117-163 | under 10 candles a timeframe is neutral with no strength or confidence; otherwise it goes up exactly when the mean of the four indicators exceeds 0.3 and down exactly when it is below -0.3, a direction always with strength above 0.3 and at most 1, and neutral exactly at zero strength |
| Prediction.VoteWeight | src/ai_modules/predictive_model.py:284-289 | a timeframe's weight is never negative and is positive exactly when its confidence exceeds 0.1 |
| Prediction.TotalWeight | src/ai_modules/predictive_model.py:280-292 | the total weight is positive exactly when some timeframe's confidence exceeds 0.1 |
| Prediction.PullWithinWeight | src/ai_modules/predictive_model.py:286-288 | a timeframe pulls the combined signal by at most its own weight either way |
| Prediction.Confidences | src/ai_modules/predictive_model.py:282-290 | only confidences above 0.1 are collected, and some are exactly when some timeframe counts |
| Prediction.WeightedSignalBounded | src/ai_modules/predictive_model.py:280-289 | the weighted signal never exceeds the total weight in size |
| Prediction.CombineTimeframeSignals | src/ai_modules/predictive_model.py:263-311 | with no timeframe above 0.1 confidence the result is neutral with nothing; otherwise the strength is the size of the confidence-weighted mean vote and at most 1, the confidence is the mean confidence of the counting timeframes and above 0.1, and the direction is up exactly above 0.2 and down exactly below -0.2 |
| Prediction.FinalSignalBounded | src/ai_modules/predictive_model.py:296 | the weighted mean signal lies in [-1, 1] |
| Prediction.PredictPriceMovement | src/ai_modules/predictive_model.py:77-115 | without 20 candles on both the 5-minute and 30-minute timeframes the forecast is neutral with zero confidence; otherwise it is the combination of the four timeframes' readings |
| Prediction.CastVotes | src/ai_modules/predictive_model.py:88-90 | every forecast polls all four timeframes, each with strength in [0, 1] |
| Prediction.GetAiSignal | src/ai_modules/predictive_model.py:395-413 | BUY exactly for an up forecast of confidence at least 0.6, SELL exactly for a down one, nothing below 0.6 |
| Prediction.NoSignalWithoutData | src/ai_modules/predictive_model.py:84-115 | without enough short-timeframe data the model never signals |
| Prediction.LearnFromTrade | src/ai_modules/predictive_model.py:415-441 | a trade outcome counts one more trade for the symbol (starting from 0.5 and none) and moves its success rate a tenth of the way toward 1 or 0, kept within [0.1, 0.9]; other symbols are untouched |
| Prediction.LearningMovesTowardOutcome | src/ai_modules/predictive_model.py:432-439 | a profitable trade never lowers the success rate and a losing one never raises it |
| Prediction.GetConfidenceAdjustment | src/ai_modules/predictive_model.py:443-461 | the multiplier is 1 for an unknown symbol or a rate in [0.4, 0.6], above 1.1 for a better rate, below 0.9 for a worse one, and within [0.5, 1.5] |
| Prediction.LearntAdjustmentInRange | src/ai_modules/predictive_model.py:415-461 | after any learning step the multiplier lies in [0.6, 1.4] |
| AiIntraday.InterpretPatterns | src/strategies/ai_intraday_strategy.py:243-259 | BUY exactly when the bullish pattern confidences outsum the bearish ones and exceed 0.6, SELL exactly for the mirror image, nothing for no patterns |
| AiIntraday.OnlyBullishPatternsBuy | src/strategies/ai_intraday_strategy.py:243-259 | any detected set of only bullish (only bearish) patterns is enough for a BUY (SELL) vote, since every detector confidence exceeds 0.6 |
| AiIntraday.InterpretTrend | src/strategies/ai_intraday_strategy.py:261-271 | BUY exactly for an uptrend of confidence at least 0.5 and strength above 0.5, SELL exactly for the matching downtrend |
| AiIntraday.NoTrendVoteBelowFifty | src/strategies/ai_intraday_strategy.py:261-271 | with fewer than 50 candles the trend component never votes |
| AiIntraday.InterpretSentimentAsWritten | src/strategies/ai_intraday_strategy.py:273-281 | the sentiment component as written: silent below 0.4 confidence for this symbol, otherwise the sentiment signal of the first symbol in the sentiment cache |
| AiIntraday.SentimentVoteIgnoresSymbol | src/strategies/ai_intraday_strategy.py:277-280 | as written, any two symbols past the confidence gate get the same sentiment vote |
| SentimentReach.MovesAppend | src/ai_modules/sentiment_analyzer.py:125-157 | while the 20-entry history has room, n equal price moves of at least 0.1% append n equal scores, cache the last with the new average and trend, keep the first cached symbol first (or cache this one first), and leave every other symbol's scores and cache entry alone |
| SentimentReach.RisingTrend | src/ai_modules/sentiment_analyzer.py:180-198 | ten scores of 0.5 followed by ten of 1.0 make an improving trend |
| SentimentReach.SteadyTrend | src/ai_modules/sentiment_analyzer.py:180-198 | twenty equal scores make a stable trend |
| SentimentReach.TwoSymbolAnalyzer | src/ai_modules/sentiment_analyzer.py:125-157 | for any two distinct symbols, `update_sentiment` reaches this state: ten moves of +1% then ten of +2% for the first symbol, cached first, give scores 0.5 then 1.0, current 1.0 and an improving trend; twenty moves of +0.4% for the second give twenty scores of 0.2, current 0.2 and a stable trend |
| AiIntraday.FlatSymbolGetsForeignBuy | src/strategies/ai_intraday_strategy.py:273-281 | in that reached state the second symbol, whose own weak, steady sentiment gives no signal, receives the first symbol's BUY as written, and no vote once its own sentiment is read |
| AiIntraday.InterpretSentiment | src/strategies/ai_intraday_strategy.py:273-281 | the corrected component: silent below 0.4 confidence, and a BUY or SELL only on this symbol's own confident, strong, trending sentiment |
| AiIntraday.SentimentVoteIsOwnSignal | src/strategies/ai_intraday_strategy.py:273-281 | the corrected component equals the analyzer's signal for the symbol itself |
| AiIntraday.InterpretPrediction | src/strategies/ai_intraday_strategy.py:283-293 | BUY exactly for an up forecast at or above the confidence threshold, SELL exactly for a down one |
| AiIntraday.PredictionVoteIsModelSignal | src/strategies/ai_intraday_strategy.py:283-293 | at the default 0.6 threshold the forecast component votes exactly as the model's own signal |
| AiIntraday.NearIsHalfPercentBand | src/strategies/ai_intraday_strategy.py:307-312 | for a positive level, being near it means lying strictly within 0.5% either side |
| AiIntraday.FirstNear | src/strategies/ai_intraday_strategy.py:306-313 | only the first two levels of a list are checked for nearness |
| AiIntraday.CheckSupportResistance | src/strategies/ai_intraday_strategy.py:295-315 | no quote or a zero price gives no vote; otherwise BUY exactly near one of the first two supports (the two lowest, as supports are listed ascending), and SELL exactly when not that but near one of the first two resistances (the two highest, as resistances are listed descending) |
| AiIntraday.Ballot | src/strategies/ai_intraday_strategy.py:205-211 | the five components vote with positive weights |
| AiIntraday.ScoreWithinWeight | src/strategies/ai_intraday_strategy.py:214-221 | the signed score never exceeds the weight of the voters in size, equals it when no one says SELL, equals its negation when no one says BUY, and that weight is zero exactly when nobody votes |
| AiIntraday.CombineComponents | src/strategies/ai_intraday_strategy.py:214-241 | no vote gives no signal and zero confidence; otherwise confidence is the size of the weighted mean vote, within [0, 1], BUY exactly above 0.3 and SELL exactly below -0.3; a BUY or SELL always has at least one component voting for it |
| AiIntraday.UnanimousBuy | src/strategies/ai_intraday_strategy.py:214-241 | when every voting component says BUY the AI says BUY with full confidence |
| AiIntraday.GetAiSignalAsWritten | src/strategies/ai_intraday_strategy.py:177-241 | as written, with the sentiment vote taken from the first cached symbol: the confidence lies in [0, 1], and when the symbol is itself cached first the signal agrees with the corrected one |
| AiIntraday.GetAiSignal | src/strategies/ai_intraday_strategy.py:177-241 | the AI confidence lies in [0, 1]; the signal combines the pattern, trend, forecast and support/resistance votes with the symbol's own sentiment signal, and equals the as-written signal whenever the symbol is cached first |
| AiIntraday.ForeignVoteDecides | src/strategies/ai_intraday_strategy.py:177-241 | when sentiment is the only vote, a BUY read from another symbol gives a full-confidence BUY as written, and a silent own sentiment gives no signal |
| AiIntraday.ForeignBuyDecidesSignal | src/strategies/ai_intraday_strategy.py:177-281 | in the reached two-symbol state, a second symbol with no candles, forecast data or quote gets a full-confidence BUY as written, and no signal once its own sentiment is read |
| AiIntraday.ColdStartIsSilent | src/strategies/ai_intraday_strategy.py:177-241 | with too few candles, no cached sentiment, too little forecast data and no quote, the AI gives no signal and zero confidence |
| AiIntraday.RawCombinedSignal | src/strategies/ai_intraday_strategy.py:361-410 | a confident AI signal wins, except that an AI SELL is dropped when nothing is held; otherwise the base signal goes ahead only if sentiment allows it; the result is always the base or the AI signal, and a SELL without a position only comes from the base strategy |
| AiIntraday.CombineSignals | src/strategies/ai_intraday_strategy.py:317-359 | the psychology guard is consulted only when there is a signal, and the signal survives exactly when the guard allows it |
| AiIntraday.DailyLimitSilencesStrategy | src/strategies/ai_intraday_strategy.py:340-350 | once the guard's daily trade limit is reached the strategy signals nothing |
| AiIntraday.ScaleShares | src/strategies/ai_intraday_strategy.py:434-442 | scaling a positive size by a factor in [0.3, 1.5] keeps at least one share, at most 1.5 times the size, and more than 0.3 times the size less one |
| AiIntraday.AdjustSize | src/strategies/ai_intraday_strategy.py:419-442 | a zero base size stays zero; otherwise at least one share, and for a positive size between 0.3 and 1.5 times it, scaled by the averaged sentiment and forecast multipliers times the psychology one when that lies in [0.3, 1.5] |
| AiIntraday.CalculatePositionSize | src/strategies/ai_intraday_strategy.py:412-442 | a zero base size gives zero without consulting the guard; any other size records the guard's consultation and is the base size scaled by the symbol's sentiment and forecast multipliers and the guard's own, at least one share and between 0.3 and 1.5 times the base |
| AiIntraday.DeniedTradeSizedAtFloor | src/strategies/ai_intraday_strategy.py:427-442 | a trade the guard denies is still sized, at 0.3 of the base size and at least one share |
| Configuration.ParseStripped | src/utils/config.py:44-47 | a blank or comment line is skipped, a line without '=' is the unpacking error, and any other line assigns the stripped text before its first '=' to the stripped text after it, provided the environment accepts the pair |
| Configuration.LoadFromFile | src/utils/config.py:32-47 | a missing file leaves the environment as it was; an existing one is loaded line by line |
| Configuration.ParseAll | src/utils/config.py:43-44 | every line of the file is read and parsed in order |
| Configuration.LoadCompletesIffWellFormed | src/utils/config.py:42-47 | loading finishes exactly when no line lacks a '=' or names an unsettable variable |
| Configuration.LoadApplies | src/utils/config.py:42-47 | after a complete load each assigned variable holds the value of its last assignment and every other variable is unchanged |
| Configuration.LoadStopsAtFirstBadLine | src/utils/config.py:42-47 | a failed load stops at the first bad line, keeping exactly the assignments of the lines before it |
| Configuration.CommentsChangeNothing | src/utils/config.py:45 | a file of blank lines and comments changes nothing |
| Configuration.RenderParses | src/utils/config.py:44-47 | writing a clean name and value as name=value and reading the line back yields the same assignment, even when the value itself contains '=' |
| Configuration.RenderedFileLoads | src/utils/config.py:42-47 | a file written as clean name=value lines loads completely and applies every assignment |
| Configuration.SpacedLineParses | src/utils/config.py:46-47 | spaces around the '=' are stripped from both the name and the value |
| Configuration.FromEnvironment | src/utils/config.py:12-29 | the settings read the three Kite credentials and the log level from the environment with their defaults, and paper trading is on exactly when its variable, lower-cased, reads "true" |
| Configuration.PaperTradingByDefault | src/utils/config.py:18 | paper trading is on when its variable is unset or "TRUE", and off for "false" |
| Configuration.ValidIffKeyPresent | src/utils/config.py:50-64 | the configuration is valid exactly when the API key variable is set and non-empty; a missing secret only warns |
| Configuration.Mask | src/utils/config.py:67-72 | a secret is shown as ten asterisks when set and "Not set" when empty, never as itself |
| Configuration.MaskHidesSecret | src/utils/config.py:70-72 | any two set secrets print identically |

## Left out

- File and network I/O, logging, and saving or loading JSON state (paper ledger, capital history, AI models, sentiment history, predictions): the model works on the values only.
- Threading locks, concurrent callers and the live trader's `pending_orders` set: the model is sequential.
- `round(x, 2)` on reported amounts: money is exact `real`, so the model keeps the unrounded values.
- Timestamps stored only for display (`last_update`, `timestamp` fields): they do not affect any decision.
- numpy's standard deviation (timeframe alignment, pattern `calculate_volatility`, the predictor's volatility and target price): these are floating-point statistics. Timeframe alignment is an input function.
- numpy's 0/0 giving `nan` in the MACD and crossover ratios: the model takes it as 0, and a non-zero value over 0 as ±1 after clamping.
- `PriorityRateLimiter` and `safe_execute` in the utilities: thin wrappers around the modelled limiter and retry logic.
- The web application, the entry scripts, and the token and authentication scripts: user interface and I/O around the core.
- `src/kite_trader/trader.py`: a thin client over the Kite library. Broker replies are inputs instead.
- `get_discipline_report` and `get_emotional_coaching` in trading psychology: they only format text.
- The quote fetch before a live `place_order`: the quoted price is an input to the modelled decision.
- `get_market_sentiment` and `analyze_news_headlines`: the first returns a fixed neutral placeholder, and the second averages `analyze_text` over headlines that no caller in the repository supplies.
- The AI strategy's `analyze` loop, `_update_ai_modules`, learning from executed and closed trades, and its `execute_signal`, `update_position`, `get_ai_metrics`, `reset_daily_data` and `cleanup` overrides: bookkeeping and learning around the modelled signal logic.
- The analysis half of `run_iteration` in the base strategy: it calls the concrete strategy's analysis, which is modelled per strategy.
- `get_strategy_metrics` (intraday strategy) and `reset_symbol_failures` (base strategy): reporting, and clearing one map entry.
- The predictor's `_get_current_price`, `_store_prediction`, `validate_predictions` and `get_prediction_accuracy`: storage and accuracy bookkeeping of past predictions.
- Unicode: `\w` word matching and `str.lower()` cover ASCII only; whitespace stripping covers every character `str.isspace()` accepts.
- The numeric settings of `Config` (float and int parsing of environment values) and the non-secret lines of `print_config`: parsing numbers from text is not modelled.
- `Config` class attributes are read once at import time. The model takes one reading of the environment (`FromEnvironment`), and a later `.env` load does not change it.
- ErrorHandler.RetryWithBackoff: the `retryable_exceptions` argument is not modelled; every caller in the repository keeps its default, which catches any exception, so the model passes every failure to the error classification.
- AiIntraday.GetAiSignal: uses the corrected sentiment vote; the signal as written is `GetAiSignalAsWritten` (see Findings), and the two agree whenever the symbol is the first one in the sentiment cache.
- LiveTrading.RecordEndOfDay: records the day through the corrected `RecordDayEnd`, while the script calls `record_day_end` as written (`RecordDayEndAsWritten`, see Findings); `CapitalRecovery.AsWrittenAgreesOnNewDay` shows the two differ only in the winning and losing day tallies, and not at all for the first close of a day on consistent tallies.
- Configuration.SpacedLineParses: requires a non-empty value, so a line such as `KEY = ` with nothing after the `=` is not covered by this lemma.

## Findings

| source | as written | input that shows it | evidently intended | confidence | as-written member | corrected member |
|---|---|---|---|---|---|---|
| src/kite_trader/order_manager.py:318-324 | the successful count is the length of the order history minus the number of failed orders, but the history only records orders that were placed, and failures are kept in a separate list | one failed placement and no successful ones: the stats report 0 orders in total and -1 successful ones | successful orders = orders in the history; total = successful + failed | not executed | OrderManagement.GetStatsAsWritten, OrderManagement.StatsAsWrittenGoNegative | OrderManagement.GetStats |
| src/utils/capital_manager.py:178-181 | after a day's record is written or replaced, the winning days are recounted only when the day's P&L is positive, and the losing days only when it is negative | record +10 for a day, then record -5 for the same day: the one remaining record is still counted as a winning day and also as a losing day | both tallies recounted from the records after every update | not executed | CapitalRecovery.RecordDayEndAsWritten, CapitalRecovery.StaleWinningDays | CapitalRecovery.RecordDayEnd |
| src/strategies/ai_intraday_strategy.py:273-281 | once this symbol's sentiment confidence reaches 0.4, the component returns the sentiment signal of the first symbol in the analyser's cache, not of the symbol being analysed | ten moves of +1% and ten of +2% for a first symbol, then twenty moves of +0.4% for a second: the second symbol, whose own signal is none, receives a BUY vote | the sentiment signal of the symbol being analysed | not executed | AiIntraday.InterpretSentimentAsWritten, AiIntraday.FlatSymbolGetsForeignBuy, AiIntraday.GetAiSignalAsWritten, AiIntraday.ForeignBuyDecidesSignal | AiIntraday.InterpretSentiment, AiIntraday.GetAiSignal |

=== FILE: ai_strategy.dfy ===
/** The AI-enhanced intraday strategy: five advisory components (candlestick
    patterns, trend, sentiment, the multi-timeframe forecast, and nearness
    to support or resistance) vote with fixed weights into one AI signal,
    which is then reconciled with the high-low strategy's own signal, vetoed
    by the psychology guard, and used with the sentiment, forecast and
    psychology multipliers to scale the position size.

    Feeding market data into the AI modules, learning from executed and
    closed trades, and saving and loading the learnt models are left out.
 */
module AiIntraday {
  import opened Common
  import opened Dicts
  import BaseStrategy
  import IntradayHighLow
  import PatternRecognition
  import Sentiment
  import Prediction
  import TradingPsychology
  import opened SentimentReach

  /** The strategy's own defaults: a wider margin, tighter entry and exit
      thresholds and a higher reward-to-risk ratio than the plain
      high-low strategy. */
  const AiDefaults := IntradayHighLow.Params(0.015, 0.25, 0.75, 2.5, 0.1, 0.02)

  const AiConfidenceThreshold: real := 0.6

  /** The guard the strategy builds: no practical daily limit. */
  const AiGuardConfig := TradingPsychology.Config(999, 3, 15, 3, 0.05, 5)

  // --------------------------------------------------------- components

  /** `patterns.get(name, 0)`. */
  function ScoreOf(patterns: map<string, real>, name: string): real
  {
    if name in patterns then patterns[name] else 0.0
  }

  function BullishScore(patterns: map<string, real>): real
  {
    ScoreOf(patterns, "hammer") + ScoreOf(patterns, "bullish_engulfing") + ScoreOf(patterns, "morning_star")
  }

  function BearishScore(patterns: map<string, real>): real
  {
    ScoreOf(patterns, "shooting_star") + ScoreOf(patterns, "bearish_engulfing") + ScoreOf(patterns, "evening_star")
  }

  /** BUY when the bullish patterns outscore the bearish ones and exceed
      0.6, SELL symmetrically; nothing for no patterns. */
  function InterpretPatterns(patterns: map<string, real>): (s: Option<Side>)
    ensures patterns == map[] ==> s == None
    ensures s == Some(Buy) <==>
              patterns != map[] && BullishScore(patterns) > BearishScore(patterns)
              && BullishScore(patterns) > 0.6
    ensures s == Some(Sell) <==>
              patterns != map[] && BearishScore(patterns) > BullishScore(patterns)
              && BearishScore(patterns) > 0.6
  {
    if patterns == map[] then None
    else
      var bull, bear := BullishScore(patterns), BearishScore(patterns);
      if bull > bear && bull > 0.6 then Some(Buy)
      else if bear > bull && bear > 0.6 then Some(Sell)
      else None
  }

  /** Any detected pattern on its own carries its direction: every
      detector confidence is above 0.6. */
  lemma OnlyBullishPatternsBuy(r: PatternRecognition.Recognizer, symbol: string)
    ensures var p := PatternRecognition.DetectCandlestickPatterns(r, symbol);
            p != map[] && p.Keys <= PatternRecognition.BullishPatterns ==> InterpretPatterns(p) == Some(Buy)
    ensures var p := PatternRecognition.DetectCandlestickPatterns(r, symbol);
            p != map[] && p.Keys <= PatternRecognition.BearishPatterns ==> InterpretPatterns(p) == Some(Sell)
  {
    OneSidedPatterns(PatternRecognition.DetectCandlestickPatterns(r, symbol));
  }

  /** Patterns all scored above 0.6 and all on one side vote for that side. */
  lemma OneSidedPatterns(p: map<string, real>)
    requires forall k :: k in p ==> p[k] > 0.6
    ensures p != map[] && p.Keys <= PatternRecognition.BullishPatterns ==> InterpretPatterns(p) == Some(Buy)
    ensures p != map[] && p.Keys <= PatternRecognition.BearishPatterns ==> InterpretPatterns(p) == Some(Sell)
  {
    if p != map[] {
      var k :| k in p;
      if p.Keys <= PatternRecognition.BullishPatterns {
        assert BearishScore(p) == 0.0;
        assert BullishScore(p) >= p[k];
      }
      if p.Keys <= PatternRecognition.BearishPatterns {
        assert BullishScore(p) == 0.0;
        assert BearishScore(p) >= p[k];
      }
    }
  }

  /** A confident (≥ 0.5) and strong (> 0.5) trend gives its direction. */
  function InterpretTrend(t: PatternRecognition.TrendReading): (s: Option<Side>)
    ensures s == Some(Buy) <==>
              t.confidence >= 0.5 && t.direction == PatternRecognition.Uptrend && t.strength > 0.5
    ensures s == Some(Sell) <==>
              t.confidence >= 0.5 && t.direction == PatternRecognition.Downtrend && t.strength > 0.5
  {
    if t.confidence < 0.5 then None
    else if t.direction == PatternRecognition.Uptrend && t.strength > 0.5 then Some(Buy)
    else if t.direction == PatternRecognition.Downtrend && t.strength > 0.5 then Some(Sell)
    else None
  }

  /** Below fifty candles the trend component never votes. */
  lemma NoTrendVoteBelowFifty(r: PatternRecognition.Recognizer, symbol: string)
    requires |PatternRecognition.History(r, symbol)| < 50
    ensures InterpretTrend(PatternRecognition.DetectTrend(r, symbol)) == None
  {
    PatternRecognition.NoTrendBelowFifty(r, symbol);
  }

  /** The sentiment component as written: gated by this symbol's
      confidence, but the signal is read for whichever symbol entered the
      sentiment cache first. */
  function InterpretSentimentAsWritten(a: Sentiment.Analyzer, symbol: string): (s: Option<Side>)
    ensures Sentiment.GetSentimentScore(a, symbol).confidence < 0.4 ==> s == None
    ensures Sentiment.GetSentimentScore(a, symbol).confidence >= 0.4 && a.cache != [] ==>
              s == Sentiment.SentimentSignal(a, a.cache[0].0)
  {
    if Sentiment.GetSentimentScore(a, symbol).confidence < 0.4 then None
    else if a.cache == [] then None
    else Sentiment.SentimentSignal(a, a.cache[0].0)
  }

  /** As written, once the gate opens every symbol gets the same sentiment
      vote: the first cached symbol's. */
  lemma SentimentVoteIgnoresSymbol(a: Sentiment.Analyzer, s1: string, s2: string)
    requires Sentiment.GetSentimentScore(a, s1).confidence >= 0.4
    requires Sentiment.GetSentimentScore(a, s2).confidence >= 0.4
    ensures InterpretSentimentAsWritten(a, s1) == InterpretSentimentAsWritten(a, s2)
  {
  }

  /** The second symbol has a weak, steady sentiment with no signal of its
      own, yet as written it receives the first symbol's BUY. */
  lemma FlatSymbolGetsForeignBuy(first: string, second: string)
    requires first != second
    ensures InterpretSentimentAsWritten(TwoSymbolAnalyzer(first, second), second) == Some(Buy)
    ensures InterpretSentiment(TwoSymbolAnalyzer(first, second), second) == None
  {
    var a := TwoSymbolAnalyzer(first, second);
    assert a.cache != [] && a.cache[0].0 == first;
    var rf := Sentiment.GetSentimentScore(a, first);
    var rs := Sentiment.GetSentimentScore(a, second);
    assert rf.current == 1.0 && rf.trend == Sentiment.Improving && rf.confidence == 1.0 by {
      assert first in a.history && |a.history[first]| == 20;
    }
    assert rs.current == 0.2 && rs.confidence == 1.0 by {
      assert second in a.history && |a.history[second]| == 20;
    }
    assert Sentiment.SentimentSignal(a, first) == Some(Buy);
    assert Sentiment.SentimentSignal(a, second) == None;
  }

  /** The sentiment component reading this symbol's own sentiment. */
  function InterpretSentiment(a: Sentiment.Analyzer, symbol: string): (s: Option<Side>)
    ensures Sentiment.GetSentimentScore(a, symbol).confidence < 0.4 ==> s == None
    ensures s == Some(Buy) ==>
              var r := Sentiment.GetSentimentScore(a, symbol);
              r.confidence >= 0.7 && r.current > 0.6 && r.trend == Sentiment.Improving
    ensures s == Some(Sell) ==>
              var r := Sentiment.GetSentimentScore(a, symbol);
              r.confidence >= 0.7 && r.current < -0.6 && r.trend == Sentiment.Declining
  {
    if Sentiment.GetSentimentScore(a, symbol).confidence < 0.4 then None
    else Sentiment.SentimentSignal(a, symbol)
  }

  /** The corrected component agrees with the symbol's own sentiment
      signal: the 0.4 gate is implied by the signal's own 0.7 one. */
  lemma SentimentVoteIsOwnSignal(a: Sentiment.Analyzer, symbol: string)
    ensures InterpretSentiment(a, symbol) == Sentiment.SentimentSignal(a, symbol)
  {
  }

  /** A forecast confident enough gives its direction. */
  function InterpretPrediction(f: Prediction.Forecast, threshold: real): (s: Option<Side>)
    ensures f.confidence < threshold ==> s == None
    ensures s == Some(Buy) <==> f.confidence >= threshold && f.direction == Prediction.Up
    ensures s == Some(Sell) <==> f.confidence >= threshold && f.direction == Prediction.Down
  {
    if f.confidence < threshold then None
    else if f.direction == Prediction.Up then Some(Buy)
    else if f.direction == Prediction.Down then Some(Sell)
    else None
  }

  /** At the default threshold the component is the model's own signal. */
  lemma PredictionVoteIsModelSignal(m: Prediction.Model, symbol: string,
                                    alignment: Prediction.Timeframe -> real)
    ensures InterpretPrediction(Prediction.PredictPriceMovement(m, symbol, alignment), AiConfidenceThreshold)
            == Prediction.GetAiSignal(m, symbol, alignment)
  {
  }

  /** Within half a percent of a level, relative to the level; numpy
      division by a zero level gives infinity, which is never near. */
  predicate Near(price: real, level: real)
  {
    level != 0.0 && Abs(price - level) / level < 0.005
  }

  /** Against a positive divisor, `a / d < c` is `a < c * d`. */
  lemma QuotientBelow(a: real, d: real, c: real)
    requires d > 0.0
    ensures a / d < c <==> a < c * d
  {
    var x := a / d;
    QuotientBounds(a, d);
    ProductSign(c - x, d);
    assert (c - x) * d == c * d - a;
  }

  /** For a positive level, nearness is the open band of ±0.5% around it. */
  lemma NearIsHalfPercentBand(price: real, level: real)
    requires level > 0.0
    ensures Near(price, level) <==> level * 0.995 < price < level * 1.005
  {
    QuotientBelow(Abs(price - level), level, 0.005);
  }

  /** One of the first `n` levels is near the price. */
  predicate NearAny(price: real, levels: seq<real>, n: nat)
  {
    exists k :: 0 <= k < |levels| && k < n && Near(price, levels[k])
  }

  function FirstNear(price: real, levels: seq<real>): (b: bool)
    ensures b <==> NearAny(price, levels, 2)
  {
    (|levels| > 0 && Near(price, levels[0])) || (|levels| > 1 && Near(price, levels[1]))
  }

  /** BUY next to one of the first two supports, else SELL next to one of
      the first two resistances; nothing without a quote or with a zero (or
      missing) last price. Supports come in ascending and resistances in
      descending order, so these are the two lowest supports and the two
      highest resistances. */
  function CheckSupportResistance(symbol: string, md: IntradayHighLow.MarketData,
                                  levels: PatternRecognition.Levels): (s: Option<Side>)
    ensures IntradayHighLow.Key(symbol) !in md ==> s == None
    ensures IntradayHighLow.Key(symbol) in md ==>
              var price := IntradayHighLow.LastPrice(md[IntradayHighLow.Key(symbol)]);
              (price == 0.0 ==> s == None)
              && (price != 0.0 ==>
                    (s == Some(Buy) <==> NearAny(price, levels.support, 2))
                    && (s == Some(Sell) <==>
                          !NearAny(price, levels.support, 2) && NearAny(price, levels.resistance, 2)))
  {
    var key := IntradayHighLow.Key(symbol);
    if key !in md then None
    else
      var price := IntradayHighLow.LastPrice(md[key]);
      if price == 0.0 then None
      else if FirstNear(price, levels.support) then Some(Buy)
      else if FirstNear(price, levels.resistance) then Some(Sell)
      else None
  }

  // ------------------------------------------------------------ the vote

  /** The five components' votes; `None` abstains. */
  datatype Components = Components(
    pattern: Option<Side>, trend: Option<Side>, sentiment: Option<Side>,
    prediction: Option<Side>, levels: Option<Side>)

  /** Each component with its weight, in the source's order. */
  function Ballot(c: Components): (b: seq<(Option<Side>, real)>)
    ensures |b| == 5 && forall k :: 0 <= k < 5 ==> b[k].1 > 0.0
  {
    [(c.pattern, 0.2), (c.trend, 0.25), (c.sentiment, 0.15), (c.prediction, 0.3), (c.levels, 0.1)]
  }

  function SideValue(s: Side): real
  {
    if s == Buy then 1.0 else -1.0
  }

  /** Weight of the components that vote. */
  function CastWeight(b: seq<(Option<Side>, real)>): real
  {
    if |b| == 0 then 0.0
    else CastWeight(b[1..]) + (if b[0].0.Some? then b[0].1 else 0.0)
  }

  /** ±weight for each BUY/SELL vote. */
  function Score(b: seq<(Option<Side>, real)>): real
  {
    if |b| == 0 then 0.0
    else Score(b[1..]) + (if b[0].0.Some? then SideValue(b[0].0.value) * b[0].1 else 0.0)
  }

  /** Weights are positive: the score never exceeds the cast weight in
      size, and it equals it exactly when every vote is the same. */
  lemma {:induction false} ScoreWithinWeight(b: seq<(Option<Side>, real)>)
    requires forall k :: 0 <= k < |b| ==> b[k].1 > 0.0
    ensures 0.0 <= CastWeight(b)
    ensures -CastWeight(b) <= Score(b) <= CastWeight(b)
    ensures (forall k :: 0 <= k < |b| ==> b[k].0 != Some(Sell)) ==> Score(b) == CastWeight(b)
    ensures (forall k :: 0 <= k < |b| ==> b[k].0 != Some(Buy)) ==> Score(b) == -CastWeight(b)
    ensures CastWeight(b) == 0.0 <==> forall k :: 0 <= k < |b| ==> b[k].0.None?
  {
    if |b| > 0 {
      assert forall k :: 1 <= k < |b| ==> b[1..][k - 1] == b[k];
      ScoreWithinWeight(b[1..]);
    }
  }

  datatype AiSignal = AiSignal(signal: Option<Side>, confidence: real)

  /** The weighted mean of the votes (BUY = 1, SELL = -1) over the weight
      of the components that voted: beyond ±0.3 it is the AI signal, and
      its size is the confidence. With no vote at all: no signal and no
      confidence. */
  function CombineComponents(c: Components): (s: AiSignal)
    ensures CastWeight(Ballot(c)) == 0.0 ==> s == AiSignal(None, 0.0)
    ensures 0.0 <= s.confidence <= 1.0
    ensures CastWeight(Ballot(c)) > 0.0 ==>
              var avg := Score(Ballot(c)) / CastWeight(Ballot(c));
              s.confidence == Abs(avg)
              && (s.signal == Some(Buy) <==> avg > 0.3)
              && (s.signal == Some(Sell) <==> avg < -0.3)
    ensures s.signal == Some(Buy) ==>
              Some(Buy) in {c.pattern, c.trend, c.sentiment, c.prediction, c.levels}
    ensures s.signal == Some(Sell) ==>
              Some(Sell) in {c.pattern, c.trend, c.sentiment, c.prediction, c.levels}
  {
    var b := Ballot(c);
    ScoreWithinWeight(b);
    var w := CastWeight(b);
    if w == 0.0 then AiSignal(None, 0.0)
    else
      var avg := Score(b) / w;
      Prediction.RatioWithinOne(Score(b), w);
      AiSignal(if avg > 0.3 then Some(Buy) else if avg < -0.3 then Some(Sell) else None, Abs(avg))
  }

  /** A unanimous vote (every voter says BUY) is a BUY with full
      confidence. */
  lemma UnanimousBuy(c: Components)
    requires c.pattern != Some(Sell) && c.trend != Some(Sell) && c.sentiment != Some(Sell)
    requires c.prediction != Some(Sell) && c.levels != Some(Sell)
    requires c.pattern.Some? || c.trend.Some? || c.sentiment.Some? || c.prediction.Some? || c.levels.Some?
    ensures CombineComponents(c) == AiSignal(Some(Buy), 1.0)
  {
    UnanimousBallot(c);
    var w := CastWeight(Ballot(c));
    var avg := Score(Ballot(c)) / w;
    QuotientBounds(Score(Ballot(c)), w);
    assert avg == 1.0;
    var s := CombineComponents(c);
    assert s.confidence == 1.0 && s.signal == Some(Buy);
  }

  /** Without a SELL and with some vote, the score is the whole cast
      weight. */
  lemma UnanimousBallot(c: Components)
    requires c.pattern != Some(Sell) && c.trend != Some(Sell) && c.sentiment != Some(Sell)
    requires c.prediction != Some(Sell) && c.levels != Some(Sell)
    requires c.pattern.Some? || c.trend.Some? || c.sentiment.Some? || c.prediction.Some? || c.levels.Some?
    ensures CastWeight(Ballot(c)) > 0.0 && Score(Ballot(c)) == CastWeight(Ballot(c))
  {
    var b := Ballot(c);
    assert b[0].0 == c.pattern && b[1].0 == c.trend && b[2].0 == c.sentiment;
    assert b[3].0 == c.prediction && b[4].0 == c.levels;
    assert forall k :: 0 <= k < |b| ==> b[k].0 != Some(Sell);
    assert !forall k :: 0 <= k < |b| ==> b[k].0.None?;
    ScoreWithinWeight(b);
  }

  /** The five votes for a symbol, given the sentiment vote. */
  function Votes(r: PatternRecognition.Recognizer, m: Prediction.Model,
                 alignment: Prediction.Timeframe -> real, symbol: string,
                 md: IntradayHighLow.MarketData, threshold: real, sentiment: Option<Side>): (c: Components)
    ensures c.sentiment == sentiment
  {
    Components(
      InterpretPatterns(PatternRecognition.DetectCandlestickPatterns(r, symbol)),
      InterpretTrend(PatternRecognition.DetectTrend(r, symbol)),
      sentiment,
      InterpretPrediction(Prediction.PredictPriceMovement(m, symbol, alignment), threshold),
      CheckSupportResistance(symbol, md, PatternRecognition.IdentifySupportResistance(r, symbol)))
  }

  /** `_get_ai_signal` as written: the sentiment vote comes from
      `_interpret_sentiment` as written, i.e. from the first cached
      symbol. */
  function GetAiSignalAsWritten(r: PatternRecognition.Recognizer, a: Sentiment.Analyzer, m: Prediction.Model,
                                alignment: Prediction.Timeframe -> real, symbol: string,
                                md: IntradayHighLow.MarketData, threshold: real): (s: AiSignal)
    ensures 0.0 <= s.confidence <= 1.0
    ensures a.cache != [] && a.cache[0].0 == symbol ==>
      s == CombineComponents(Votes(r, m, alignment, symbol, md, threshold, InterpretSentiment(a, symbol)))
  {
    CombineComponents(Votes(r, m, alignment, symbol, md, threshold, InterpretSentimentAsWritten(a, symbol)))
  }

  /** The AI signal for a symbol from the state of the three AI modules and
      the current quote, with the symbol's own sentiment signal as the
      sentiment vote. */
  function GetAiSignal(r: PatternRecognition.Recognizer, a: Sentiment.Analyzer, m: Prediction.Model,
                       alignment: Prediction.Timeframe -> real, symbol: string,
                       md: IntradayHighLow.MarketData, threshold: real): (s: AiSignal)
    ensures 0.0 <= s.confidence <= 1.0
    ensures s == CombineComponents(Votes(r, m, alignment, symbol, md, threshold, Sentiment.SentimentSignal(a, symbol)))
    ensures a.cache != [] && a.cache[0].0 == symbol ==> s == GetAiSignalAsWritten(r, a, m, alignment, symbol, md, threshold)
  {
    SentimentVoteIsOwnSignal(a, symbol);
    CombineComponents(Votes(r, m, alignment, symbol, md, threshold, InterpretSentiment(a, symbol)))
  }

  /** With no candles, no sentiment, no forecast data and no quote for the
      symbol, the AI stays silent. */
  lemma ColdStartIsSilent(r: PatternRecognition.Recognizer, a: Sentiment.Analyzer, m: Prediction.Model,
                          alignment: Prediction.Timeframe -> real, symbol: string,
                          md: IntradayHighLow.MarketData, threshold: real)
    requires |PatternRecognition.History(r, symbol)| < 3
    requires Lookup(a.cache, symbol).None?
    requires !Prediction.HasSufficientData(m, symbol)
    requires IntradayHighLow.Key(symbol) !in md
    requires threshold > 0.0
    ensures GetAiSignal(r, a, m, alignment, symbol, md, threshold) == AiSignal(None, 0.0)
  {
    var c := Votes(r, m, alignment, symbol, md, threshold, InterpretSentiment(a, symbol));
    assert c == Components(None, None, None, None, None);
  }

  /** On the reached two-symbol state, with nothing else to go on for the
      second symbol, the AI signal as written is a full-confidence BUY
      borrowed from the first symbol, where the corrected one is silent. */
  lemma ForeignBuyDecidesSignal(r: PatternRecognition.Recognizer, m: Prediction.Model,
                                alignment: Prediction.Timeframe -> real, md: IntradayHighLow.MarketData,
                                threshold: real, first: string, second: string)
    requires first != second
    requires |PatternRecognition.History(r, second)| < 3
    requires !Prediction.HasSufficientData(m, second)
    requires IntradayHighLow.Key(second) !in md
    requires threshold > 0.0
    ensures var a := TwoSymbolAnalyzer(first, second);
      && GetAiSignalAsWritten(r, a, m, alignment, second, md, threshold) == AiSignal(Some(Buy), 1.0)
      && GetAiSignal(r, a, m, alignment, second, md, threshold) == AiSignal(None, 0.0)
  {
    FlatSymbolGetsForeignBuy(first, second);
    ForeignVoteDecides(r, m, alignment, TwoSymbolAnalyzer(first, second), second, md, threshold);
  }

  /** When the sentiment vote is the only one cast, a foreign BUY as
      written decides the signal, and a silent own sentiment leaves none. */
  lemma ForeignVoteDecides(r: PatternRecognition.Recognizer, m: Prediction.Model,
                           alignment: Prediction.Timeframe -> real, a: Sentiment.Analyzer, symbol: string,
                           md: IntradayHighLow.MarketData, threshold: real)
    requires |PatternRecognition.History(r, symbol)| < 3
    requires !Prediction.HasSufficientData(m, symbol)
    requires IntradayHighLow.Key(symbol) !in md
    requires threshold > 0.0
    requires InterpretSentimentAsWritten(a, symbol) == Some(Buy) && InterpretSentiment(a, symbol) == None
    ensures GetAiSignalAsWritten(r, a, m, alignment, symbol, md, threshold) == AiSignal(Some(Buy), 1.0)
    ensures GetAiSignal(r, a, m, alignment, symbol, md, threshold) == AiSignal(None, 0.0)
  {
    OnlySentimentVotes(r, m, alignment, a, symbol, md, threshold);
    UnanimousBuy(Votes(r, m, alignment, symbol, md, threshold, InterpretSentimentAsWritten(a, symbol)));
    NoVotesNoSignal();
  }

  /** Nobody voting gives no signal. */
  lemma NoVotesNoSignal()
    ensures CombineComponents(Components(None, None, None, None, None)) == AiSignal(None, 0.0)
  {
    assert CastWeight(Ballot(Components(None, None, None, None, None))) == 0.0;
  }

  /** With no candles, no forecast data and no quote for the symbol, the
      sentiment vote is the only one cast. */
  lemma OnlySentimentVotes(r: PatternRecognition.Recognizer, m: Prediction.Model,
                           alignment: Prediction.Timeframe -> real, a: Sentiment.Analyzer, symbol: string,
                           md: IntradayHighLow.MarketData, threshold: real)
    requires |PatternRecognition.History(r, symbol)| < 3
    requires !Prediction.HasSufficientData(m, symbol)
    requires IntradayHighLow.Key(symbol) !in md
    requires threshold > 0.0
    ensures Votes(r, m, alignment, symbol, md, threshold, InterpretSentimentAsWritten(a, symbol))
         == Components(None, None, InterpretSentimentAsWritten(a, symbol), None, None)
    ensures Votes(r, m, alignment, symbol, md, threshold, InterpretSentiment(a, symbol))
         == Components(None, None, InterpretSentiment(a, symbol), None, None)
  {
  }

  // ------------------------------------------------------- combination

  /** Reconciles the base signal with the AI signal. A confident AI signal
      wins (an agreeing base signal is taken as is) but an AI SELL is
      dropped when nothing is held; otherwise the base signal goes ahead if
      the sentiment allows it. */
  function RawCombinedSignal(a: Sentiment.Analyzer, positions: BaseStrategy.Positions, symbol: string,
                             base: Option<Side>, ai: AiSignal, threshold: real): (s: Option<Side>)
    ensures s.Some? ==> s == base || s == ai.signal
    ensures s == Some(Sell) && !BaseStrategy.HasPosition(positions, symbol) ==> base == Some(Sell)
    ensures ai.confidence >= threshold && base.Some? && base == ai.signal ==> s == base
    ensures ai.confidence >= threshold && ai.signal.Some? && base != ai.signal ==>
              s == (if ai.signal == Some(Sell) && !BaseStrategy.HasPosition(positions, symbol)
                    then None else ai.signal)
    ensures ai.confidence < threshold || ai.signal.None? ==>
              s == (if base.Some? && Sentiment.ShouldTrade(a, symbol, base) then base else None)
  {
    var held := BaseStrategy.HasPosition(positions, symbol);
    if ai.confidence >= threshold && base == ai.signal && base.Some? then base
    else if ai.confidence >= threshold && ai.signal.Some? && base.None? then
      if ai.signal == Some(Sell) && !held then None else ai.signal
    else if ai.confidence >= threshold && ai.signal.Some? && base.Some? && ai.signal != base then
      if ai.signal == Some(Sell) && !held then None else ai.signal
    else if base.Some? then
      if Sentiment.ShouldTrade(a, symbol, base) then base else None
    else None
  }

  /** The combined signal after the psychology guard's veto; the guard's
      bookkeeping advances only when there was a signal to check. */
  function CombineSignals(g: TradingPsychology.Guard, a: Sentiment.Analyzer,
                          positions: BaseStrategy.Positions, symbol: string, base: Option<Side>,
                          ai: AiSignal, threshold: real, now: real)
    : (r: (TradingPsychology.Guard, Option<Side>))
    ensures var raw := RawCombinedSignal(a, positions, symbol, base, ai, threshold);
            && (raw.None? ==> r == (g, None))
            && (raw.Some? ==>
                  var (g', d) := TradingPsychology.ShouldAllowTrade(g, symbol, raw.value.Name(), now);
                  r.0 == g' && (r.1 == raw <==> d.Allowed?) && (d.Denied? <==> r.1 == None))
  {
    var raw := RawCombinedSignal(a, positions, symbol, base, ai, threshold);
    match raw
    case None => (g, None)
    case Some(side) =>
      var (g', d) := TradingPsychology.ShouldAllowTrade(g, symbol, side.Name(), now);
      if d.Allowed? then (g', raw) else (g', None)
  }

  /** The guard never lets a trade through when its daily limit is hit. */
  lemma DailyLimitSilencesStrategy(g: TradingPsychology.Guard, a: Sentiment.Analyzer,
                                   positions: BaseStrategy.Positions, symbol: string,
                                   base: Option<Side>, ai: AiSignal, threshold: real, now: real)
    requires TradingPsychology.LimitReached(g)
    ensures CombineSignals(g, a, positions, symbol, base, ai, threshold, now).1 == None
  {
  }

  // -------------------------------------------------------------- sizing

  /** `max(1, int(base * total))` for a positive base size and a factor in
      [0.3, 1.5]. */
  function ScaleShares(base: int, total: real): (n: int)
    requires base > 0 && 0.3 <= total <= 1.5
    ensures n >= 1 && n == MaxInt(1, Trunc(base as real * total))
    ensures n as real <= Max(1.0, base as real * 1.5)
    ensures n as real > base as real * 0.3 - 1.0
  {
    Prediction.NonNegProduct(base as real, total - 0.3);
    Prediction.NonNegProduct(base as real, 1.5 - total);
    MaxInt(1, Trunc(base as real * total))
  }

  /** Scales the base size by the mean of the sentiment and forecast
      multipliers times the psychology one, clamped to [0.3, 1.5], keeping
      at least one share; a zero base size stays zero. */
  function AdjustSize(base: int, sentiment: real, prediction: real, psychology: real): (n: int)
    ensures base == 0 ==> n == 0
    ensures base != 0 ==> n >= 1
    ensures base > 0 ==> n as real <= Max(1.0, base as real * 1.5)
    ensures base > 0 ==> n as real > base as real * 0.3 - 1.0
    ensures base > 0 ==>
              var t := Multiplier(sentiment, prediction, psychology);
              0.3 <= t <= 1.5 ==> n == MaxInt(1, Trunc(base as real * t))
  {
    if base == 0 then 0
    else if base < 0 then 1
    else
      var t := Multiplier(sentiment, prediction, psychology);
      var c := Clamp(t, 0.3, 1.5);
      assert 0.3 <= c <= 1.5 && (0.3 <= t <= 1.5 ==> c == t);
      ScaleShares(base, c)
  }

  /** The mean of the sentiment and forecast multipliers, times the
      psychology one. */
  function Multiplier(sentiment: real, prediction: real, psychology: real): real
  {
    (sentiment + prediction) / 2.0 * psychology
  }

  /** The AI position size: the high-low strategy's size, adjusted by the
      sentiment and forecast multipliers and by what the psychology guard
      says about this trade (a denial counts as a zero multiplier). The
      guard's consultation is recorded in the returned guard. */
  function CalculatePositionSize(g: TradingPsychology.Guard, a: Sentiment.Analyzer,
                                 params: map<string, Prediction.ModelParams>,
                                 positions: BaseStrategy.Positions, symbol: string, signal: Side,
                                 cash: Option<real>, price: real, now: real)
    : (r: (TradingPsychology.Guard, int))
    ensures var base := IntradayHighLow.PositionSize(positions, symbol, signal, cash, price, AiDefaults);
            (base == 0 ==> r == (g, 0)) && (base != 0 ==> r.1 >= 1)
    ensures var base := IntradayHighLow.PositionSize(positions, symbol, signal, cash, price, AiDefaults);
            base != 0 ==> r.0 == TradingPsychology.ShouldAllowTrade(g, symbol, signal.Name(), now).0
    ensures var base := IntradayHighLow.PositionSize(positions, symbol, signal, cash, price, AiDefaults);
            base != 0 ==>
              && r.1 == AdjustSize(base, Sentiment.SentimentAdjustment(a, symbol),
                                   Prediction.GetConfidenceAdjustment(params, symbol),
                                   TradingPsychology.ShouldAllowTrade(g, symbol, signal.Name(), now).1.Adjustment())
              && base as real * 0.3 - 1.0 < r.1 as real <= Max(1.0, base as real * 1.5)
  {
    var base := IntradayHighLow.PositionSize(positions, symbol, signal, cash, price, AiDefaults);
    if base == 0 then (g, 0)
    else
      var (g', d) := TradingPsychology.ShouldAllowTrade(g, symbol, signal.Name(), now);
      (g', AdjustSize(base, Sentiment.SentimentAdjustment(a, symbol),
                      Prediction.GetConfidenceAdjustment(params, symbol), d.Adjustment()))
  }

  /** A vetoed trade still gets sized: the zero multiplier is clamped up to
      0.3 of the base size (at least one share). */
  lemma DeniedTradeSizedAtFloor(base: int, sentiment: real, prediction: real)
    requires base > 0
    ensures AdjustSize(base, sentiment, prediction, 0.0) == MaxInt(1, Trunc(base as real * 0.3))
  {
  }
}

=== FILE: base_strategy.dfy ===
/** The strategy base: per-symbol position bookkeeping, signal execution,
    and the tracking and pruning of symbols whose quotes keep failing.

    Broker replies (the quote for a symbol, the order id of a placement)
    and the size the concrete strategy computes are inputs; the position
    timestamp is left out.
 */
module BaseStrategy {
  import opened Common
  import opened Dicts

  datatype Position = Position(quantity: int, lastAction: Option<string>)

  type Positions = map<string, Position>

  /** `get_position_quantity`. */
  function Quantity(ps: Positions, symbol: string): (r: int)
    ensures symbol !in ps ==> r == 0
  {
    if symbol in ps then ps[symbol].quantity else 0
  }

  /** `has_position`. */
  function HasPosition(ps: Positions, symbol: string): (r: bool)
    ensures r <==> Quantity(ps, symbol) != 0
    ensures r ==> symbol in ps
  {
    symbol in ps && ps[symbol].quantity != 0
  }

  /** The signed change a transaction type makes to the held quantity. */
  function Delta(transactionType: string, quantity: int): int
  {
    if transactionType == "BUY" then quantity
    else if transactionType == "SELL" then -quantity
    else 0
  }

  /** `update_position`: a BUY adds, a SELL subtracts, any other type only
      records itself as the last action; an untracked symbol starts flat. */
  function UpdatePosition(ps: Positions, symbol: string, transactionType: string, quantity: int): (r: Positions)
    ensures symbol in r && r[symbol].lastAction == Some(transactionType)
    ensures Quantity(r, symbol) == Quantity(ps, symbol) + Delta(transactionType, quantity)
    ensures forall t :: t != symbol ==> (t in r <==> t in ps) && (t in ps ==> r[t] == ps[t])
  {
    var held := if symbol in ps then ps[symbol].quantity else 0;
    ps[symbol := Position(held + Delta(transactionType, quantity), Some(transactionType))]
  }

  /** Buying and then selling the same quantity leaves the held quantity
      where it was, and so does any type other than BUY or SELL. */
  lemma BuyThenSellIsFlat(ps: Positions, symbol: string, quantity: int, other: string)
    requires other != "BUY" && other != "SELL"
    ensures Quantity(UpdatePosition(UpdatePosition(ps, symbol, "BUY", quantity), symbol, "SELL", quantity), symbol)
            == Quantity(ps, symbol)
    ensures Quantity(UpdatePosition(ps, symbol, other, quantity), symbol) == Quantity(ps, symbol)
    ensures !HasPosition(ps, symbol) && quantity > 0 ==> HasPosition(UpdatePosition(ps, symbol, "BUY", quantity), symbol)
  {
  }

  /** What `execute_signal` did with a signal. */
  datatype Execution =
    | SizeRaised             // computing the size raised; the error is logged
    | InvalidSize(size: int) // no order for a size of zero or less
    | OrderFailed            // the placement raised or returned no id
    | Executed(orderId: string)

  /** `execute_signal`. `size` is the concrete strategy's position size
      (`None` when computing it raised); `reply` is the order id the broker
      returned (`None` when the placement raised or returned nothing). */
  function ExecuteSignal(ps: Positions, symbol: string, signal: string, size: Option<int>, reply: Option<string>)
    : (r: (Positions, Execution))
    ensures (r.1.OrderFailed? || r.1.Executed?) <==> size.Some? && size.value > 0
    ensures r.1.Executed? <==> size.Some? && size.value > 0 && reply.Some? && reply.value != ""
    ensures r.1.Executed? ==> r.0 == UpdatePosition(ps, symbol, signal, size.value) && r.1.orderId == reply.value
    ensures !r.1.Executed? ==> r.0 == ps
  {
    match size
    case None => (ps, SizeRaised)
    case Some(q) =>
      if q <= 0 then (ps, InvalidSize(q))
      else if reply.Some? && reply.value != "" then (UpdatePosition(ps, symbol, signal, q), Executed(reply.value))
      else (ps, OrderFailed)
  }

  // ------------------------------------------------------ quote failures

  /** The broker's answer to a quote request: the request raised, or it
      returned a dictionary whose keys are given (empty when falsy). */
  datatype QuoteReply = QuoteRaised | Quote(keys: set<string>)

  /** The quote carries data for the symbol under its NSE or BSE key. */
  predicate HasDataFor(reply: QuoteReply, symbol: string)
  {
    reply.Quote? && ("NSE:" + symbol in reply.keys || "BSE:" + symbol in reply.keys)
  }

  /** A symbol's failure count after one quote: unchanged when the request
      raised (the error is caught before any bookkeeping), cleared on data,
      one more otherwise. */
  function NextCount(count: Option<int>, symbol: string, reply: QuoteReply): Option<int>
  {
    if reply.QuoteRaised? then count
    else if HasDataFor(reply, symbol) then None
    else Some(count.GetOr(0) + 1)
  }

  /** The failure bookkeeping of one symbol's turn in `run_iteration`. */
  function TrackQuote(failures: Dict<int>, symbol: string, reply: QuoteReply): (r: Dict<int>)
    ensures KeysDistinct(failures) ==> Lookup(r, symbol) == NextCount(Lookup(failures, symbol), symbol, reply)
    ensures forall t :: t != symbol ==> Lookup(r, t) == Lookup(failures, t)
    ensures KeysDistinct(failures) ==> KeysDistinct(r)
  {
    if reply.QuoteRaised? then failures
    else if HasDataFor(reply, symbol) then Remove(failures, symbol)
    else
      var count := Lookup(failures, symbol).GetOr(0);
      Put(failures, symbol, count + 1)
  }

  /** The failure bookkeeping of `run_iteration`, one reply per symbol in
      list order. */
  function RunIteration(failures: Dict<int>, symbols: seq<string>, replies: seq<QuoteReply>): Dict<int>
    requires |replies| == |symbols|
    decreases |symbols|
  {
    if |symbols| == 0 then failures
    else RunIteration(TrackQuote(failures, symbols[0], replies[0]), symbols[1..], replies[1..])
  }

  predicate OccursOnce(symbols: seq<string>, i: int)
    requires 0 <= i < |symbols|
  {
    forall j :: 0 <= j < |symbols| && j != i ==> symbols[j] != symbols[i]
  }

  /** Over one iteration, a symbol listed once moves its count by exactly
      its own reply, and a symbol not listed keeps its count. */
  lemma {:induction false} RunIterationCounts(failures: Dict<int>, symbols: seq<string>, replies: seq<QuoteReply>)
    requires |replies| == |symbols| && KeysDistinct(failures)
    ensures KeysDistinct(RunIteration(failures, symbols, replies))
    ensures forall t :: t !in symbols ==> Lookup(RunIteration(failures, symbols, replies), t) == Lookup(failures, t)
    ensures forall i :: 0 <= i < |symbols| && OccursOnce(symbols, i) ==>
      Lookup(RunIteration(failures, symbols, replies), symbols[i])
        == NextCount(Lookup(failures, symbols[i]), symbols[i], replies[i])
    decreases |symbols|
  {
    if |symbols| > 0 {
      var f1 := TrackQuote(failures, symbols[0], replies[0]);
      var rest := symbols[1..];
      RunIterationCounts(f1, rest, replies[1..]);
      var r := RunIteration(failures, symbols, replies);
      assert r == RunIteration(f1, rest, replies[1..]);
      forall t | t !in symbols
        ensures Lookup(r, t) == Lookup(failures, t)
      {
        assert t != symbols[0];
        assert t !in rest by {
          forall k | 0 <= k < |rest|
            ensures rest[k] != t
          {
            assert rest[k] == symbols[k + 1];
          }
        }
      }
      forall i | 0 <= i < |symbols| && OccursOnce(symbols, i)
        ensures Lookup(r, symbols[i]) == NextCount(Lookup(failures, symbols[i]), symbols[i], replies[i])
      {
        if i == 0 {
          assert symbols[0] !in rest by {
            forall k | 0 <= k < |rest|
              ensures rest[k] != symbols[0]
            {
              assert rest[k] == symbols[k + 1];
            }
          }
        } else {
          assert rest[i - 1] == symbols[i];
          assert OccursOnce(rest, i - 1) by {
            forall j | 0 <= j < |rest| && j != i - 1
              ensures rest[j] != rest[i - 1]
            {
              assert symbols[j + 1] != symbols[i];
            }
          }
          assert symbols[0] != symbols[i];
        }
      }
    }
  }

  /** Three straight quotes without data leave a count of three; one with
      data then clears it. */
  lemma FailuresAccumulate(f: Dict<int>, s: string)
    requires KeysDistinct(f) && Lookup(f, s).None?
    ensures var miss := Quote({});
      var f3 := TrackQuote(TrackQuote(TrackQuote(f, s, miss), s, miss), s, miss);
      && Lookup(f3, s) == Some(3)
      && Lookup(TrackQuote(f3, s, Quote({"NSE:" + s})), s).None?
  {
    var miss := Quote({});
    assert !HasDataFor(miss, s);
    var f1 := TrackQuote(f, s, miss);
    var f2 := TrackQuote(f1, s, miss);
    var f3 := TrackQuote(f2, s, miss);
    assert Lookup(f3, s) == Some(3);
    assert HasDataFor(Quote({"NSE:" + s}), s);
  }

  // ------------------------------------------------------ pruning symbols

  /** `a` is `b` with some elements deleted, the rest in their order. */
  predicate SubsequenceOf(a: seq<string>, b: seq<string>)
    decreases |b|
  {
    if |a| == 0 then true
    else if |b| == 0 then false
    else (a[0] == b[0] && SubsequenceOf(a[1..], b[1..])) || SubsequenceOf(a, b[1..])
  }

  lemma {:induction false} SubsequenceOfSelf(s: seq<string>)
    ensures SubsequenceOf(s, s)
    decreases |s|
  {
    if |s| > 0 {
      SubsequenceOfSelf(s[1..]);
    }
  }

  /** The keys whose count reached the threshold, in the dictionary's order. */
  function Failing(failures: Dict<int>, threshold: int): (r: seq<string>)
    ensures forall x :: x in r <==> exists i :: 0 <= i < |failures| && failures[i].0 == x && failures[i].1 >= threshold
  {
    if |failures| == 0 then []
    else
      var rest := Failing(failures[1..], threshold);
      assert forall i :: 0 < i < |failures| ==> failures[i] == failures[1..][i - 1];
      assert forall i :: 0 <= i < |failures| - 1 ==> failures[1..][i] == failures[i + 1];
      if failures[0].1 >= threshold then [failures[0].0] + rest else rest
  }

  /** The symbols not in `drop`, in their order. */
  function Without(symbols: seq<string>, drop: set<string>): (r: seq<string>)
    ensures SubsequenceOf(r, symbols)
    ensures forall x :: x in r <==> x in symbols && x !in drop
    ensures (forall x :: x in symbols ==> x !in drop) ==> r == symbols
  {
    if |symbols| == 0 then []
    else
      var rest := Without(symbols[1..], drop);
      if symbols[0] in drop then
        assert SubsequenceOf(rest, symbols[1..]);
        rest
      else
        var r := [symbols[0]] + rest;
        assert r[1..] == rest;
        assert symbols == [symbols[0]] + symbols[1..];
        r
  }

  /** The entries whose key is not in `drop`, in their order. */
  function WithoutKeys(failures: Dict<int>, drop: set<string>): (r: Dict<int>)
    ensures forall x :: x !in drop ==> Lookup(r, x) == Lookup(failures, x)
    ensures forall x :: x in drop ==> Lookup(r, x).None?
    ensures KeysDistinct(failures) ==> KeysDistinct(r)
    ensures Keys(r) == Keys(failures) - drop
  {
    if |failures| == 0 then []
    else
      var rest := WithoutKeys(failures[1..], drop);
      if failures[0].0 in drop then rest
      else
        var r := [failures[0]] + rest;
        assert r[1..] == rest;
        r
  }

  /** `remove_failing_symbols`: returns the new symbol list, the new
      failure counts and the removed symbols. */
  function RemoveFailing(symbols: seq<string>, failures: Dict<int>, threshold: int)
    : (r: (seq<string>, Dict<int>, seq<string>))
    ensures forall x :: x in r.2 <==> exists i :: 0 <= i < |failures| && failures[i].0 == x && failures[i].1 >= threshold
    ensures SubsequenceOf(r.0, symbols)
    ensures forall x :: x in r.0 <==> x in symbols && x !in r.2
    ensures forall x :: x !in r.2 ==> Lookup(r.1, x) == Lookup(failures, x)
    ensures forall x :: x in r.2 ==> Lookup(r.1, x).None?
    ensures KeysDistinct(failures) ==> KeysDistinct(r.1)
    ensures r.2 == [] ==> r.0 == symbols && r.1 == failures
  {
    var removed := Failing(failures, threshold);
    if removed == [] then
      SubsequenceOfSelf(symbols);
      (symbols, failures, removed)
    else
      var drop := set x | x in removed;
      (Without(symbols, drop), WithoutKeys(failures, drop), removed)
  }

  /** The looked-up count of `x` has reached the threshold. */
  predicate Reached(failures: Dict<int>, x: string, threshold: int)
  {
    var c := Lookup(failures, x);
    c.Some? && c.value >= threshold
  }

  /** On distinct keys the removed symbols are exactly those whose count
      reached the threshold, and no count left has reached it. */
  lemma RemovedAreExactlyFailing(symbols: seq<string>, failures: Dict<int>, threshold: int, x: string)
    requires KeysDistinct(failures)
    ensures x in RemoveFailing(symbols, failures, threshold).2 <==> Reached(failures, x, threshold)
    ensures !Reached(RemoveFailing(symbols, failures, threshold).1, x, threshold)
  {
    var r := RemoveFailing(symbols, failures, threshold);
    var c := Lookup(failures, x);
    LookupIsEntry(failures, x);
    if c.Some? {
      var i := EntryOf(failures, x);
      if c.value >= threshold {
        assert x in r.2;
      } else {
        assert x !in r.2;
        assert Lookup(r.1, x) == c;
      }
    } else {
      assert x !in r.2;
    }
  }

  /** A key that looks up to a value has an entry holding that value. */
  lemma {:induction false} EntryOf(failures: Dict<int>, x: string) returns (i: int)
    requires Lookup(failures, x).Some?
    ensures 0 <= i < |failures| && failures[i].0 == x && Some(failures[i].1) == Lookup(failures, x)
  {
    if failures[0].0 == x {
      i := 0;
    } else {
      var k := EntryOf(failures[1..], x);
      i := k + 1;
    }
  }

  /** With distinct keys, every entry for `x` holds its looked-up value. */
  lemma {:induction false} LookupIsEntry(failures: Dict<int>, x: string)
    requires KeysDistinct(failures)
    ensures forall i :: 0 <= i < |failures| && failures[i].0 == x ==> Lookup(failures, x) == Some(failures[i].1)
  {
    if |failures| > 0 {
      LookupIsEntry(failures[1..], x);
      forall i | 0 < i < |failures| && failures[i].0 == x
        ensures Lookup(failures, x) == Some(failures[i].1)
      {
        assert failures[1..][i - 1] == failures[i];
      }
    }
  }

  // ----------------------------------------------------- validating symbols

  /** The positions from `k` on whose reply carries data for the symbol there. */
  ghost function ValidFrom(symbols: seq<string>, replies: seq<QuoteReply>, k: nat): set<int>
    requires |replies| == |symbols|
  {
    set i | k <= i < |symbols| && HasDataFor(replies[i], symbols[i])
  }

  /** As many symbols are kept as there are positions whose reply carries
      data, so a symbol listed twice is kept once per valid reply. */
  lemma ValidatedCount(symbols: seq<string>, replies: seq<QuoteReply>)
    requires |replies| == |symbols|
    ensures |ValidateSymbols(symbols, replies)| ==
            |set i | 0 <= i < |symbols| && HasDataFor(replies[i], symbols[i])|
  {
    ValidatedCountFrom(symbols, replies, 0);
    assert symbols[0..] == symbols && replies[0..] == replies;
  }

  lemma {:induction false} ValidatedCountFrom(symbols: seq<string>, replies: seq<QuoteReply>, k: nat)
    requires |replies| == |symbols| && k <= |symbols|
    ensures |ValidateSymbols(symbols[k..], replies[k..])| == |ValidFrom(symbols, replies, k)|
    decreases |symbols| - k
  {
    if k < |symbols| {
      ValidatedCountFrom(symbols, replies, k + 1);
      assert symbols[k..][1..] == symbols[k + 1..] && replies[k..][1..] == replies[k + 1..];
      assert ValidFrom(symbols, replies, k) ==
        (if HasDataFor(replies[k], symbols[k]) then {k} else {}) + ValidFrom(symbols, replies, k + 1);
      assert k !in ValidFrom(symbols, replies, k + 1);
    } else {
      assert ValidFrom(symbols, replies, k) == {};
    }
  }

  /** `validate_symbols`: the symbols whose quote carries NSE or BSE data,
      one reply per symbol, in their order. */
  function ValidateSymbols(symbols: seq<string>, replies: seq<QuoteReply>): (r: seq<string>)
    requires |replies| == |symbols|
    ensures SubsequenceOf(r, symbols)
    ensures forall i :: 0 <= i < |symbols| && HasDataFor(replies[i], symbols[i]) ==> symbols[i] in r
    ensures forall x :: x in r ==> exists i :: 0 <= i < |symbols| && symbols[i] == x && HasDataFor(replies[i], x)
    decreases |symbols|
  {
    if |symbols| == 0 then []
    else
      var rest := ValidateSymbols(symbols[1..], replies[1..]);
      assert forall i :: 0 < i < |symbols| ==> symbols[i] == symbols[1..][i - 1] && replies[i] == replies[1..][i - 1];
      if HasDataFor(replies[0], symbols[0]) then
        var r := [symbols[0]] + rest;
        assert r[1..] == rest;
        r
      else
        rest
  }
}

=== FILE: broker_health.dfy ===
/** The broker health monitor: probes the broker with a profile request, at
    most once per back-off period, counts consecutive failures, backs off
    exponentially up to five minutes and reports when trading should halt.

    The clock reading and the profile reply are inputs.
 */
module BrokerHealth {
  import opened Common

  const MaxHistory: nat := 100
  const MaxBackoff: real := 300.0
  const EmptyProfile := "Empty profile response"

  datatype FailureEntry = FailureEntry(time: real, error: string, consecutive: nat)

  datatype Monitor = Monitor(
    checkInterval: int,
    failureThreshold: int,
    multiplier: real,
    failures: nat,
    lastCheck: Option<real>,
    lastSuccess: Option<real>,
    healthy: bool,
    backoff: real,
    history: seq<FailureEntry>)

  function NewMonitor(checkInterval: int, failureThreshold: int, multiplier: real): (m: Monitor)
    ensures m.failures == 0 && m.healthy && m.backoff == checkInterval as real
    ensures m.lastCheck.None? && m.history == []
  {
    Monitor(checkInterval, failureThreshold, multiplier, 0, None, None, true, checkInterval as real, [])
  }

  /** The broker's answer to the profile request: the call raised, or it
      returned a profile whose `user_id` is given (`""` for a missing or
      empty id, and for an empty profile). */
  datatype ProfileReply = ProfileRaised(message: string) | ProfileReturned(userId: string)

  datatype HealthReport = HealthReport(
    isHealthy: bool, consecutiveFailures: nat, lastError: Option<string>, nextCheckIn: int, shouldHalt: bool)

  /** A cached answer is given while less than one back-off period has
      passed since the last probe. */
  predicate WithinBackoff(m: Monitor, now: real)
  {
    m.lastCheck.Some? && now - m.lastCheck.value < m.backoff
  }

  /** `check_health`. */
  function CheckHealth(m: Monitor, now: real, reply: ProfileReply): (r: (Monitor, HealthReport))
    ensures r.1.shouldHalt ==> r.0.failures >= m.failureThreshold
    ensures m.failureThreshold > 0 ==> (r.1.shouldHalt <==> r.0.failures >= m.failureThreshold)
    ensures WithinBackoff(m, now) ==>
      && r.0 == m
      && r.1 == HealthReport(m.healthy, m.failures, None, Trunc(m.backoff - (now - m.lastCheck.value)), m.failures >= m.failureThreshold)
    ensures !WithinBackoff(m, now) ==> r.0.lastCheck == Some(now)
    ensures !WithinBackoff(m, now) && reply.ProfileReturned? && reply.userId != "" ==>
      && r.0 == m.(failures := 0, healthy := true, lastSuccess := Some(now), backoff := m.checkInterval as real,
                   lastCheck := Some(now))
      && r.1 == HealthReport(true, 0, None, m.checkInterval, false)
    ensures !WithinBackoff(m, now) && !(reply.ProfileReturned? && reply.userId != "") ==>
      var error := if reply.ProfileRaised? then reply.message else EmptyProfile;
      && r.0.failures == m.failures + 1
      && r.0.backoff == Min(m.backoff * m.multiplier, MaxBackoff)
      && r.0.healthy == (m.healthy && r.0.failures < m.failureThreshold)
      && r.0.history == BoundedAppend(m.history, FailureEntry(now, error, r.0.failures), MaxHistory)
      && r.0.lastSuccess == m.lastSuccess
      && r.1 == HealthReport(false, r.0.failures, Some(error), Trunc(r.0.backoff), r.0.failures >= m.failureThreshold)
  {
    if WithinBackoff(m, now) then
      (m, HealthReport(m.healthy, m.failures, None, Trunc(m.backoff - (now - m.lastCheck.value)),
                       m.failures >= m.failureThreshold))
    else if reply.ProfileReturned? && reply.userId != "" then
      (m.(failures := 0, healthy := true, lastSuccess := Some(now), backoff := m.checkInterval as real,
          lastCheck := Some(now)),
       HealthReport(true, 0, None, m.checkInterval, false))
    else
      var error := if reply.ProfileRaised? then reply.message else EmptyProfile;
      var failures := m.failures + 1;
      var backoff := Min(m.backoff * m.multiplier, MaxBackoff);
      (m.(failures := failures,
          history := BoundedAppend(m.history, FailureEntry(now, error, failures), MaxHistory),
          healthy := if failures >= m.failureThreshold then false else m.healthy,
          backoff := backoff,
          lastCheck := Some(now)),
       HealthReport(false, failures, Some(error), Trunc(backoff), failures >= m.failureThreshold))
  }

  /** `reset`, after a manual reconnection. */
  function Reset(m: Monitor): (r: Monitor)
    ensures r.failures == 0 && r.healthy && r.backoff == m.checkInterval as real
    ensures r.history == m.history && r.lastCheck == m.lastCheck
  {
    m.(failures := 0, healthy := true, backoff := m.checkInterval as real)
  }

  /** The monitor's lasting invariant: the failure log is bounded, and the
      stored health flag is down exactly when the failure count has reached
      a positive threshold. */
  predicate Valid(m: Monitor)
  {
    && |m.history| <= MaxHistory
    && m.failureThreshold > 0
    && (m.healthy <==> m.failures < m.failureThreshold)
  }

  lemma NewMonitorValid(checkInterval: int, failureThreshold: int, multiplier: real)
    requires failureThreshold > 0
    ensures Valid(NewMonitor(checkInterval, failureThreshold, multiplier))
  {
  }

  /** Every probe and every reset keeps the monitor valid. */
  lemma CheckHealthPreservesValid(m: Monitor, now: real, reply: ProfileReply)
    requires Valid(m)
    ensures Valid(CheckHealth(m, now, reply).0)
    ensures Valid(Reset(m))
  {
  }

  /** After a failed probe the back-off never exceeds five minutes, and with
      a multiplier of at least one it never shrinks below the previous one
      unless that one was already above the cap. */
  lemma BackoffCapped(m: Monitor, now: real, reply: ProfileReply)
    requires !WithinBackoff(m, now) && !(reply.ProfileReturned? && reply.userId != "")
    ensures CheckHealth(m, now, reply).0.backoff <= MaxBackoff
    ensures m.multiplier >= 1.0 && 0.0 <= m.backoff <= MaxBackoff ==> CheckHealth(m, now, reply).0.backoff >= m.backoff
  {
    if m.multiplier >= 1.0 && 0.0 <= m.backoff {
      assert m.backoff * m.multiplier - m.backoff == m.backoff * (m.multiplier - 1.0);
      assert m.backoff * (m.multiplier - 1.0) >= 0.0;
    }
  }

  /** Probes at which the broker keeps failing, each one after the previous
      back-off has expired. */
  function FailingProbes(m: Monitor, times: seq<real>): Monitor
    decreases |times|
  {
    if |times| == 0 then m
    else CheckHealth(FailingProbes(m, times[..|times| - 1]), times[|times| - 1], ProfileRaised("timeout")).0
  }

  predicate Spaced(m: Monitor, times: seq<real>)
  {
    forall k :: 0 <= k < |times| ==> !WithinBackoff(FailingProbes(m, times[..k]), times[k])
  }

  /** From a fresh monitor, `k` spaced failed probes count `k` failures and
      the monitor turns unhealthy exactly when `k` reaches the threshold
      (a fresh monitor is healthy whatever the threshold). */
  lemma {:induction false} ConsecutiveFailuresHalt(checkInterval: int, threshold: int, multiplier: real, times: seq<real>)
    requires Spaced(NewMonitor(checkInterval, threshold, multiplier), times)
    ensures var m := FailingProbes(NewMonitor(checkInterval, threshold, multiplier), times);
      && m.failures == |times|
      && m.failureThreshold == threshold
      && (m.healthy <==> |times| == 0 || |times| < threshold)
      && |m.history| == MinInt(|times|, MaxHistory)
    decreases |times|
  {
    var m0 := NewMonitor(checkInterval, threshold, multiplier);
    if |times| > 0 {
      var n := |times| - 1;
      var prefix := times[..n];
      assert Spaced(m0, prefix) by {
        forall k | 0 <= k < |prefix|
          ensures !WithinBackoff(FailingProbes(m0, prefix[..k]), prefix[k])
        {
          assert prefix[..k] == times[..k];
          assert !WithinBackoff(FailingProbes(m0, times[..k]), times[k]);
        }
      }
      ConsecutiveFailuresHalt(checkInterval, threshold, multiplier, prefix);
      assert times[..n] == prefix;
      assert !WithinBackoff(FailingProbes(m0, prefix), times[n]);
    }
  }
}

=== FILE: capital_manager.dfy ===
/** The capital recovery manager: how much capital the bot may use today,
    derived from the history of daily records, and how the end of a trading
    day is recorded.

    Dates are ISO strings ("2025-01-31"); "today" is an input, as is the
    persisted history the manager starts from.
 */
module CapitalRecovery {
  import opened Common

  /** One entry of `daily_records`. A manual reset is marked by `manualReset`
      (the source adds a `note` key). */
  datatype DayRecord = DayRecord(
    date: string,
    startingCapital: real,
    endingCapital: real,
    dailyPnl: real,
    pnlPct: real,
    tradesCount: int,
    usedCapital: real,
    utilizationPct: real,
    manualReset: bool)

  datatype History = History(
    records: seq<DayRecord>,
    totalPnl: real,
    totalTrades: int,
    winningDays: nat,
    losingDays: nat)

  datatype Manager = Manager(maxInitialCapital: real, history: History, available: real)

  function EmptyHistory(): (h: History)
    ensures h.records == [] && h.totalPnl == 0.0 && h.totalTrades == 0
    ensures h.winningDays == 0 && h.losingDays == 0
  {
    History([], 0.0, 0, 0, 0)
  }

  // ------------------------------------------------------ today's budget

  /** The starting capital of the LAST record dated `today`, if any: the
      reversed search of `_calculate_available_capital`. */
  function TodayStart(records: seq<DayRecord>, today: string): (r: Option<real>)
    ensures r.None? <==> forall i :: 0 <= i < |records| ==> records[i].date != today
    ensures r.Some? ==> exists i :: 0 <= i < |records| && records[i].date == today
                          && r.value == records[i].startingCapital
                          && forall j :: i < j < |records| ==> records[j].date != today
    decreases |records|
  {
    if |records| == 0 then None
    else
      var n := |records| - 1;
      if records[n].date == today then
        Some(records[n].startingCapital)
      else
        var prefix := records[..n];
        assert forall i :: 0 <= i < n ==> prefix[i] == records[i];
        match TodayStart(prefix, today)
        case None => None
        case Some(v) =>
          ghost var i :| 0 <= i < n && prefix[i].date == today && v == prefix[i].startingCapital
                         && forall j :: i < j < n ==> prefix[j].date != today;
          assert records[i].date == today && forall j :: i < j < |records| ==> records[j].date != today;
          Some(v)
  }

  /** `_calculate_available_capital`: the budget a manager started on
      `today` gets from its history. */
  function AvailableFor(maxCap: real, records: seq<DayRecord>, today: string): (r: real)
    ensures |records| == 0 ==> r == maxCap
    ensures (exists i :: 0 <= i < |records| && records[i].date == today) ==>
      exists i :: 0 <= i < |records| && records[i].date == today && r == records[i].startingCapital
                  && forall j :: i < j < |records| ==> records[j].date != today
    ensures |records| > 0 && (forall i :: 0 <= i < |records| ==> records[i].date != today) ==>
      r == Min(records[|records| - 1].endingCapital, maxCap) && r <= maxCap
  {
    match TodayStart(records, today)
    case Some(start) => start
    case None =>
      if |records| == 0 then maxCap
      else Min(records[|records| - 1].endingCapital, maxCap)
  }

  /** The manager as constructed on `today` from a persisted history. */
  function NewManager(maxCap: real, history: History, today: string): (m: Manager)
    ensures m.maxInitialCapital == maxCap && m.history == history
    ensures m.available == AvailableFor(maxCap, history.records, today)
  {
    Manager(maxCap, history, AvailableFor(maxCap, history.records, today))
  }

  /** Without history, or when the last day did not end above the maximum
      and no record is dated today, the derived budget never exceeds the
      maximum. */
  lemma DerivedBudgetCapped(maxCap: real, records: seq<DayRecord>, today: string)
    requires forall i :: 0 <= i < |records| ==> records[i].date != today
    ensures AvailableFor(maxCap, records, today) <= maxCap
  {
  }

  // ------------------------------------------------------ day-end records

  /** Index of the first record dated `date`. */
  function FirstWithDate(records: seq<DayRecord>, date: string): (r: Option<nat>)
    ensures r.None? <==> forall i :: 0 <= i < |records| ==> records[i].date != date
    ensures r.Some? ==> r.value < |records| && records[r.value].date == date
                        && forall j :: 0 <= j < r.value ==> records[j].date != date
    decreases |records|
  {
    if |records| == 0 then None
    else if records[0].date == date then Some(0)
    else match FirstWithDate(records[1..], date)
      case None => None
      case Some(k) => Some(k + 1)
  }

  /** The record list after `record_day_end`: the first record dated like
      `rec` is replaced, otherwise `rec` is appended. */
  function Upsert(records: seq<DayRecord>, rec: DayRecord): (r: seq<DayRecord>)
    ensures (exists i :: 0 <= i < |records| && records[i].date == rec.date) ==>
      |r| == |records| && exists i :: 0 <= i < |records| && records[i].date == rec.date
                                      && r == records[i := rec]
    ensures (forall i :: 0 <= i < |records| ==> records[i].date != rec.date) ==> r == records + [rec]
  {
    match FirstWithDate(records, rec.date)
    case Some(i) => records[i := rec]
    case None => records + [rec]
  }

  /** No two records share a date. */
  predicate DatesDistinct(records: seq<DayRecord>)
  {
    forall i, j :: 0 <= i < j < |records| ==> records[i].date != records[j].date
  }

  /** Upserting never creates a second record for a date. */
  lemma UpsertKeepsDatesDistinct(records: seq<DayRecord>, rec: DayRecord)
    requires DatesDistinct(records)
    ensures DatesDistinct(Upsert(records, rec))
    ensures exists i :: 0 <= i < |Upsert(records, rec)| && Upsert(records, rec)[i] == rec
  {
    var r := Upsert(records, rec);
    if exists i :: 0 <= i < |records| && records[i].date == rec.date {
      var i :| 0 <= i < |records| && records[i].date == rec.date && r == records[i := rec];
      assert r[i] == rec;
    } else {
      assert r[|records|] == rec;
    }
  }

  function PnlSum(records: seq<DayRecord>): real
    decreases |records|
  {
    if |records| == 0 then 0.0 else PnlSum(records[..|records| - 1]) + records[|records| - 1].dailyPnl
  }

  function CountWinning(records: seq<DayRecord>): (n: nat)
    ensures n <= |records|
    decreases |records|
  {
    if |records| == 0 then 0
    else CountWinning(records[..|records| - 1]) + (if records[|records| - 1].dailyPnl > 0.0 then 1 else 0)
  }

  function CountLosing(records: seq<DayRecord>): (n: nat)
    ensures n <= |records|
    decreases |records|
  {
    if |records| == 0 then 0
    else CountLosing(records[..|records| - 1]) + (if records[|records| - 1].dailyPnl < 0.0 then 1 else 0)
  }

  /** A day is never both winning and losing. */
  lemma {:induction false} WinningPlusLosingBounded(records: seq<DayRecord>)
    ensures CountWinning(records) + CountLosing(records) <= |records|
    decreases |records|
  {
    if |records| > 0 {
      WinningPlusLosingBounded(records[..|records| - 1]);
    }
  }

  /** The record `record_day_end` writes, and the ending capital it returns:
      the starting capital is the current budget, the ending capital is
      floored at zero but not capped, and the percentages are 0 when the
      budget is not positive. */
  function DayEndRecord(available: real, today: string, pnl: real, trades: int, used: real): (rec: DayRecord)
    ensures rec.date == today && rec.startingCapital == available && rec.dailyPnl == pnl
    ensures rec.endingCapital >= 0.0 && rec.endingCapital >= available + pnl
    ensures available + pnl >= 0.0 ==> rec.endingCapital == available + pnl
    ensures available + pnl < 0.0 ==> rec.endingCapital == 0.0
    ensures available > 0.0 ==> rec.pnlPct * available == pnl * 100.0 && rec.utilizationPct * available == used * 100.0
    ensures available <= 0.0 ==> rec.pnlPct == 0.0 && rec.utilizationPct == 0.0
    ensures !rec.manualReset && rec.tradesCount == trades && rec.usedCapital == used
  {
    DayRecord(today, available, Max(0.0, available + pnl), pnl,
              if available > 0.0 then pnl / available * 100.0 else 0.0,
              trades, used,
              if available > 0.0 then used / available * 100.0 else 0.0,
              false)
  }

  /** `record_day_end` as written: winning_days is recounted only on a
      profitable day and losing_days only on a losing one, so a count made
      before today's record was replaced survives the replacement. */
  function RecordDayEndAsWritten(m: Manager, today: string, pnl: real, trades: int, used: real): (r: (Manager, real))
    ensures var rec := DayEndRecord(m.available, today, pnl, trades, used);
      && r.0.history.records == Upsert(m.history.records, rec) && r.1 == rec.endingCapital
    ensures r.0.available == m.available && r.0.maxInitialCapital == m.maxInitialCapital
    ensures r.0.history.totalPnl == PnlSum(r.0.history.records)
    ensures r.0.history.totalTrades == m.history.totalTrades + trades
    ensures pnl > 0.0 ==> r.0.history.winningDays == CountWinning(r.0.history.records)
                          && r.0.history.losingDays == m.history.losingDays
    ensures pnl < 0.0 ==> r.0.history.losingDays == CountLosing(r.0.history.records)
    ensures pnl <= 0.0 ==> r.0.history.winningDays == m.history.winningDays
    ensures pnl == 0.0 ==> r.0.history.losingDays == m.history.losingDays
  {
    var rec := DayEndRecord(m.available, today, pnl, trades, used);
    var records := Upsert(m.history.records, rec);
    var h := m.history.(records := records, totalPnl := PnlSum(records),
                        totalTrades := m.history.totalTrades + trades);
    var h' := if pnl > 0.0 then h.(winningDays := CountWinning(records))
              else if pnl < 0.0 then h.(losingDays := CountLosing(records))
              else h;
    (m.(history := h'), rec.endingCapital)
  }

  /** A day first closed at +10 and then re-recorded at -5 is counted as
      both a winning and a losing day: one record, two tallied days. */
  lemma StaleWinningDays()
    ensures var m0 := NewManager(1000.0, EmptyHistory(), "2025-01-02");
      var m1 := RecordDayEndAsWritten(m0, "2025-01-02", 10.0, 1, 100.0).0;
      var m2 := RecordDayEndAsWritten(m1, "2025-01-02", -5.0, 1, 100.0).0;
      && |m2.history.records| == 1
      && m2.history.winningDays == 1 && m2.history.losingDays == 1
      && m2.history.winningDays + m2.history.losingDays > |m2.history.records|
  {
    var m0 := NewManager(1000.0, EmptyHistory(), "2025-01-02");
    assert m0.available == 1000.0 && m0.history == EmptyHistory();
    var rec1 := DayEndRecord(1000.0, "2025-01-02", 10.0, 1, 100.0);
    var m1 := RecordDayEndAsWritten(m0, "2025-01-02", 10.0, 1, 100.0).0;
    assert m1.history.records == [rec1];
    assert CountWinning([rec1]) == 1;
    assert m1.history.winningDays == 1 && m1.history.losingDays == 0 && m1.available == 1000.0;
    var rec2 := DayEndRecord(1000.0, "2025-01-02", -5.0, 1, 100.0);
    assert m1.history.records[0].date == "2025-01-02";
    assert Upsert(m1.history.records, rec2) == [rec2];
    assert CountLosing([rec2]) == 1;
    var m2 := RecordDayEndAsWritten(m1, "2025-01-02", -5.0, 1, 100.0).0;
    assert m2.history.records == [rec2];
    assert m2.history.winningDays == 1 && m2.history.losingDays == 1;
  }

  /** `record_day_end` with both day tallies recounted on every call. The
      budget for the rest of today is not changed; the returned ending
      capital becomes tomorrow's budget once capped. */
  function RecordDayEnd(m: Manager, today: string, pnl: real, trades: int, used: real): (r: (Manager, real))
    ensures var rec := DayEndRecord(m.available, today, pnl, trades, used);
      && r.0.history.records == Upsert(m.history.records, rec)
      && r.1 == rec.endingCapital
    ensures r.0.available == m.available && r.0.maxInitialCapital == m.maxInitialCapital
    ensures r.0.history.totalPnl == PnlSum(r.0.history.records)
    ensures r.0.history.totalTrades == m.history.totalTrades + trades
    ensures r.0.history.winningDays == CountWinning(r.0.history.records)
    ensures r.0.history.losingDays == CountLosing(r.0.history.records)
  {
    var rec := DayEndRecord(m.available, today, pnl, trades, used);
    var records := Upsert(m.history.records, rec);
    (m.(history := History(records, PnlSum(records), m.history.totalTrades + trades,
                           CountWinning(records), CountLosing(records))),
     rec.endingCapital)
  }

  /** `record_day_end` as written differs from RecordDayEnd only in the two
      day tallies, and not even there when the tallies were consistent and
      today had not been recorded yet. */
  lemma {:induction false} AsWrittenAgreesOnNewDay(m: Manager, today: string, pnl: real, trades: int, used: real)
    ensures var (a, c) := (RecordDayEndAsWritten(m, today, pnl, trades, used), RecordDayEnd(m, today, pnl, trades, used));
      && a.1 == c.1
      && a.0 == c.0.(history := c.0.history.(winningDays := a.0.history.winningDays, losingDays := a.0.history.losingDays))
    ensures (forall i :: 0 <= i < |m.history.records| ==> m.history.records[i].date != today)
      && m.history.winningDays == CountWinning(m.history.records)
      && m.history.losingDays == CountLosing(m.history.records)
      ==> RecordDayEndAsWritten(m, today, pnl, trades, used) == RecordDayEnd(m, today, pnl, trades, used)
  {
    var rec := DayEndRecord(m.available, today, pnl, trades, used);
    var records := m.history.records + [rec];
    if (forall i :: 0 <= i < |m.history.records| ==> m.history.records[i].date != today) {
      assert Upsert(m.history.records, rec) == records;
      assert records[..|records| - 1] == m.history.records;
    }
  }

  /** The tallies kept by RecordDayEnd never count more days than there are
      records. */
  lemma RecordDayEndTalliesConsistent(m: Manager, today: string, pnl: real, trades: int, used: real)
    ensures var h := RecordDayEnd(m, today, pnl, trades, used).0.history;
      h.winningDays + h.losingDays <= |h.records|
  {
    WinningPlusLosingBounded(RecordDayEnd(m, today, pnl, trades, used).0.history.records);
  }

  /** The capital that closes a day becomes the next day's budget only up to
      the maximum: the cap is applied when the budget is derived. */
  lemma NextDayBudget(m: Manager, today: string, tomorrow: string, pnl: real, trades: int, used: real)
    requires today != tomorrow
    requires forall i :: 0 <= i < |m.history.records| ==> m.history.records[i].date !in {today, tomorrow}
    ensures var (m', ending) := RecordDayEnd(m, today, pnl, trades, used);
      && ending == Max(0.0, m.available + pnl)
      && AvailableFor(m.maxInitialCapital, m'.history.records, tomorrow) == Min(ending, m.maxInitialCapital)
      && AvailableFor(m.maxInitialCapital, m'.history.records, today) == m.available
  {
    var rec := DayEndRecord(m.available, today, pnl, trades, used);
    var records := m.history.records + [rec];
    assert RecordDayEnd(m, today, pnl, trades, used).0.history.records == records;
    assert forall i :: 0 <= i < |records| ==> records[i].date != tomorrow;
    assert TodayStart(records, today) == Some(m.available);
  }

  /** The recovery example with a cap of 1000: a day at 1000 losing 80
      leaves 920 for the next day; a day at 890 gaining 200 ends at 1090,
      but the next day gets 1000. */
  lemma RecoveryScenario()
    ensures var m := NewManager(1000.0, EmptyHistory(), "2025-01-02");
      var (m1, e1) := RecordDayEnd(m, "2025-01-02", -80.0, 3, 500.0);
      && m.available == 1000.0 && e1 == 920.0
      && NewManager(1000.0, m1.history, "2025-01-03").available == 920.0
    ensures var m := Manager(1000.0, EmptyHistory(), 890.0);
      var (m1, e1) := RecordDayEnd(m, "2025-01-06", 200.0, 2, 400.0);
      && e1 == 1090.0
      && NewManager(1000.0, m1.history, "2025-01-07").available == 1000.0
  {
    NextDayBudget(NewManager(1000.0, EmptyHistory(), "2025-01-02"), "2025-01-02", "2025-01-03", -80.0, 3, 500.0);
    NextDayBudget(Manager(1000.0, EmptyHistory(), 890.0), "2025-01-06", "2025-01-07", 200.0, 2, 400.0);
  }

  // ------------------------------------------------------ reports

  datatype Summary = Summary(
    totalDays: nat,
    totalPnl: real,
    avgDailyPnl: real,
    winningDays: nat,
    losingDays: nat,
    winRate: real,
    currentCapital: real,
    maxCapital: real,
    recoveryPct: real,
    totalTrades: Option<int>)   // the key is absent from the empty summary

  /** `get_performance_summary`. */
  function PerformanceSummary(m: Manager): (s: Summary)
    ensures s.currentCapital == m.available && s.maxCapital == m.maxInitialCapital
    ensures |m.history.records| == 0 ==>
      && s.totalDays == 0 && s.totalPnl == 0.0 && s.avgDailyPnl == 0.0
      && s.winningDays == 0 && s.losingDays == 0
      && s.winRate == 0.0 && s.recoveryPct == 100.0 && s.totalTrades.None?
    ensures |m.history.records| > 0 ==>
      && s.totalDays == |m.history.records| && s.totalPnl == m.history.totalPnl
      && s.avgDailyPnl * s.totalDays as real == s.totalPnl
      && s.winRate * s.totalDays as real == s.winningDays as real * 100.0
      && s.winningDays == m.history.winningDays && s.losingDays == m.history.losingDays
      && s.totalTrades == Some(m.history.totalTrades)
      && (m.maxInitialCapital > 0.0 ==> s.recoveryPct * m.maxInitialCapital == m.available * 100.0)
      && (m.maxInitialCapital <= 0.0 ==> s.recoveryPct == 0.0)
  {
    var h := m.history;
    if |h.records| == 0 then
      Summary(0, 0.0, 0.0, 0, 0, 0.0, m.available, m.maxInitialCapital, 100.0, None)
    else
      var days := |h.records|;
      Summary(days, h.totalPnl, h.totalPnl / days as real, h.winningDays, h.losingDays,
              h.winningDays as real / days as real * 100.0,
              m.available, m.maxInitialCapital,
              RecoveryPct(m), Some(h.totalTrades))
  }

  /** Under the recounting RecordDayEnd, the win rate is a percentage. */
  lemma WinRateIsPercentage(m: Manager, today: string, pnl: real, trades: int, used: real)
    ensures var s := PerformanceSummary(RecordDayEnd(m, today, pnl, trades, used).0);
      0.0 <= s.winRate <= 100.0
  {
    var h := RecordDayEnd(m, today, pnl, trades, used).0.history;
    WinningPlusLosingBounded(h.records);
    UpsertKeepsNonEmpty(m.history.records, DayEndRecord(m.available, today, pnl, trades, used));
    RatioPercent(h.winningDays, |h.records|);
  }

  lemma RatioPercent(w: nat, d: nat)
    requires 0 < d && w <= d
    ensures 0.0 <= w as real / d as real * 100.0 <= 100.0
  {
    assert w as real / d as real <= 1.0;
  }

  lemma UpsertKeepsNonEmpty(records: seq<DayRecord>, rec: DayRecord)
    ensures |Upsert(records, rec)| >= 1 && |Upsert(records, rec)| >= |records|
  {
  }

  function RecoveryPct(m: Manager): real
  {
    if m.maxInitialCapital > 0.0 then m.available / m.maxInitialCapital * 100.0 else 0.0
  }

  datatype Band = FullCapital | MinorRecovery | ModerateRecovery | MajorRecovery
  {
    /** How far from full capital: 0 for full, 3 for major. */
    function Rank(): nat
    {
      match this
      case FullCapital => 0
      case MinorRecovery => 1
      case ModerateRecovery => 2
      case MajorRecovery => 3
    }
  }

  datatype RecoveryReport = RecoveryReport(band: Band, deficit: real, recoveryPct: real)

  /** `get_recovery_status`: the band is chosen from the deficit
      `max - available`, against 10% and 50% of the maximum. */
  function RecoveryStatus(m: Manager): (r: RecoveryReport)
    ensures r.deficit == m.maxInitialCapital - m.available
    ensures r.band == FullCapital <==> m.available >= m.maxInitialCapital
    ensures r.band == MinorRecovery <==> 0.0 < r.deficit < 0.1 * m.maxInitialCapital
    ensures r.band == ModerateRecovery <==> 0.0 < r.deficit && 0.1 * m.maxInitialCapital <= r.deficit < 0.5 * m.maxInitialCapital
    ensures r.band == MajorRecovery <==> 0.0 < r.deficit && 0.1 * m.maxInitialCapital <= r.deficit && 0.5 * m.maxInitialCapital <= r.deficit
    ensures r.recoveryPct == RecoveryPct(m)
  {
    var deficit := m.maxInitialCapital - m.available;
    var band :=
      if deficit <= 0.0 then FullCapital
      else if deficit < m.maxInitialCapital * 0.1 then MinorRecovery
      else if deficit < m.maxInitialCapital * 0.5 then ModerateRecovery
      else MajorRecovery;
    RecoveryReport(band, deficit, RecoveryPct(m))
  }

  /** Less capital never means a better band. */
  lemma RecoveryBandMonotone(m: Manager, lower: real)
    requires lower <= m.available
    ensures RecoveryStatus(m.(available := lower)).band.Rank() >= RecoveryStatus(m).band.Rank()
  {
  }

  /** `force_reset_capital`: the budget becomes the given amount (the maximum
      by default) and a manual-reset record is always appended, even when a
      record for today already exists. The totals are left alone. */
  function ForceResetCapital(m: Manager, today: string, newCapital: Option<real>): (r: Manager)
    ensures r.available == newCapital.GetOr(m.maxInitialCapital)
    ensures |r.history.records| == |m.history.records| + 1
    ensures r.history.records[..|m.history.records|] == m.history.records
    ensures var rec := r.history.records[|m.history.records|];
      rec.date == today && rec.manualReset && rec.dailyPnl == 0.0
      && rec.startingCapital == r.available && rec.endingCapital == r.available
    ensures r.history.totalPnl == m.history.totalPnl && r.history.totalTrades == m.history.totalTrades
    ensures r.history.winningDays == m.history.winningDays && r.history.losingDays == m.history.losingDays
  {
    var amount := newCapital.GetOr(m.maxInitialCapital);
    var rec := DayRecord(today, amount, amount, 0.0, 0.0, 0, 0.0, 0.0, true);
    m.(available := amount, history := m.history.(records := m.history.records + [rec]))
  }

  /** A reset after the day was recorded leaves two records for today,
      which RecordDayEnd alone never does; the budget of a manager restarted
      today is then the reset amount. */
  lemma ResetAfterDayEndDuplicatesDate(m: Manager, today: string, pnl: real, amount: real)
    requires forall i :: 0 <= i < |m.history.records| ==> m.history.records[i].date != today
    ensures var m1 := RecordDayEnd(m, today, pnl, 0, 0.0).0;
      var m2 := ForceResetCapital(m1, today, Some(amount));
      && !DatesDistinct(m2.history.records)
      && AvailableFor(m.maxInitialCapital, m2.history.records, today) == amount
  {
    var m1 := RecordDayEnd(m, today, pnl, 0, 0.0).0;
    var n := |m.history.records|;
    assert m1.history.records[n].date == today;
    var m2 := ForceResetCapital(m1, today, Some(amount));
    assert m2.history.records[n].date == today && m2.history.records[n + 1].date == today;
  }
}

=== FILE: common.dfy ===
/** Shared vocabulary of the trading bot model: optional values, the two order
    sides, real-number helpers standing in for Python's min/max/abs/int(), the
    string helpers the bot relies on (substring test, ASCII lower-casing,
    whitespace stripping), sums, means and extremes of real sequences, the
    OHLCV candle, Python's negative-index slice `xs[-n:]` and the bounded
    `deque(maxlen=n)` append.
 */
module Common {

  /** Python's `None` or a value. */
  datatype Option<+T> = None | Some(value: T) {
    function GetOr(default: T): T {
      match this
      case Some(v) => v
      case None => default
    }
  }

  /** Transaction side, written "BUY" / "SELL" in the source. */
  datatype Side = Buy | Sell {
    function Name(): string
    {
      match this
      case Buy => "BUY"
      case Sell => "SELL"
    }
  }

  function Min(a: real, b: real): real { if a <= b then a else b }
  function Max(a: real, b: real): real { if a >= b then a else b }
  function Abs(x: real): real { if x < 0.0 then -x else x }

  /** `max(lo, min(hi, x))` */
  function Clamp(x: real, lo: real, hi: real): real { Max(lo, Min(hi, x)) }

  function MinInt(a: int, b: int): int { if a <= b then a else b }
  function MaxInt(a: int, b: int): int { if a >= b then a else b }

  /** Python's `int(x)` on a float: truncation toward zero. */
  function Trunc(x: real): (r: int)
    ensures 0.0 <= x ==> r as real <= x < r as real + 1.0
    ensures x < 0.0 ==> r as real - 1.0 < x <= r as real
  {
    if x >= 0.0 then x.Floor else -((-x).Floor)
  }

  /** `math.floor` and `math.ceil`. */
  function Floor(x: real): int { x.Floor }
  function Ceil(x: real): (r: int)
    ensures x <= r as real < x + 1.0
  {
    -((-x).Floor)
  }

  /** Python's built-in `round(x)`: nearest integer, ties to the even one. */
  function RoundHalfEven(x: real): (r: int)
    ensures Abs(x - r as real) <= 0.5
  {
    var f := x.Floor;
    var frac := x - f as real;
    if frac < 0.5 then f
    else if frac > 0.5 then f + 1
    else if f % 2 == 0 then f else f + 1
  }

  /** Dividing by a positive amount keeps the sign and the comparison
      with one. */
  lemma QuotientBounds(a: real, d: real)
    requires d > 0.0
    ensures a <= 0.0 ==> a / d <= 0.0
    ensures a >= 0.0 ==> a / d >= 0.0
    ensures a >= d ==> a / d >= 1.0
    ensures a <= d ==> a / d <= 1.0
    ensures a / d * d == a
  {
    var x := a / d;
    assert x * d == a;
    assert (x - 1.0) * d == a - d;
  }

  /** A total between `lo * d` and `hi * d` shared over a positive `d`
      gives a share between `lo` and `hi`. */
  lemma ShareBetween(a: real, d: real, lo: real, hi: real)
    requires d > 0.0 && lo * d <= a <= hi * d
    ensures lo <= a / d <= hi
  {
    var q := a / d;
    QuotientBounds(a, d);
    assert (q - lo) * d == a - lo * d;
    assert (hi - q) * d == hi * d - a;
    ProductSign(q - lo, d);
    ProductSign(hi - q, d);
  }

  /** A product with a positive factor has the sign of the other one. */
  lemma ProductSign(x: real, w: real)
    requires w > 0.0
    ensures x * w >= 0.0 ==> x >= 0.0
    ensures x * w <= 0.0 ==> x <= 0.0
  {
  }

  /** Sum of a sequence of reals, left to right. */
  function Sum(s: seq<real>): real
  {
    if |s| == 0 then 0.0 else Sum(s[..|s| - 1]) + s[|s| - 1]
  }

  function Mean(s: seq<real>): real
    requires |s| > 0
  {
    Sum(s) / |s| as real
  }

  lemma {:induction false} SumAppend(s: seq<real>, x: real)
    ensures Sum(s + [x]) == Sum(s) + x
  {
    assert (s + [x])[..|s + [x]| - 1] == s;
  }

  /** Largest and smallest element of a non-empty sequence. */
  function SeqMax(s: seq<real>): (m: real)
    requires |s| > 0
    ensures m in s
    ensures forall k :: 0 <= k < |s| ==> s[k] <= m
  {
    if |s| == 1 then s[0] else Max(s[0], SeqMax(s[1..]))
  }

  function SeqMin(s: seq<real>): (m: real)
    requires |s| > 0
    ensures m in s
    ensures forall k :: 0 <= k < |s| ==> m <= s[k]
  {
    if |s| == 1 then s[0] else Min(s[0], SeqMin(s[1..]))
  }

  /** Every element of `s` lies in [lo, hi]. */
  predicate Between(s: seq<real>, lo: real, hi: real)
  {
    forall k :: 0 <= k < |s| ==> lo <= s[k] <= hi
  }

  /** A non-empty sum lies between its length times the least and the
      greatest bound of its elements. */
  lemma {:induction false} SumBetween(s: seq<real>, lo: real, hi: real)
    requires forall k :: 0 <= k < |s| ==> lo <= s[k] <= hi
    ensures |s| as real * lo <= Sum(s) <= |s| as real * hi
  {
    if |s| > 0 {
      SumBetween(s[..|s| - 1], lo, hi);
    }
  }

  lemma MeanBetween(s: seq<real>, lo: real, hi: real)
    requires |s| > 0
    requires forall k :: 0 <= k < |s| ==> lo <= s[k] <= hi
    ensures lo <= Mean(s) <= hi
  {
    SumBetween(s, lo, hi);
    ShareBetween(Sum(s), |s| as real, lo, hi);
  }

  // ---------------------------------------------------------------- candles

  /** One OHLCV candle; a missing volume is stored as 0. */
  datatype Candle = Candle(open: real, high: real, low: real, close: real, volume: real)

  function Highs(h: seq<Candle>): (r: seq<real>)
    ensures |r| == |h| && forall k :: 0 <= k < |h| ==> r[k] == h[k].high
  {
    seq(|h|, k requires 0 <= k < |h| => h[k].high)
  }

  function Lows(h: seq<Candle>): (r: seq<real>)
    ensures |r| == |h| && forall k :: 0 <= k < |h| ==> r[k] == h[k].low
  {
    seq(|h|, k requires 0 <= k < |h| => h[k].low)
  }

  function Closes(h: seq<Candle>): (r: seq<real>)
    ensures |r| == |h| && forall k :: 0 <= k < |h| ==> r[k] == h[k].close
  {
    seq(|h|, k requires 0 <= k < |h| => h[k].close)
  }

  function Volumes(h: seq<Candle>): (r: seq<real>)
    ensures |r| == |h| && forall k :: 0 <= k < |h| ==> r[k] == h[k].volume
  {
    seq(|h|, k requires 0 <= k < |h| => h[k].volume)
  }

  /** Python's `xs[-n:]` for an integer `n`: note that `n == 0` selects the
      whole list and a negative `n` drops the first `-n` elements. */
  function PySuffix<T>(xs: seq<T>, n: int): (r: seq<T>)
    ensures 0 < n <= |xs| ==> r == xs[|xs| - n..]
    ensures n > |xs| || n == 0 ==> r == xs
    ensures n < 0 ==> r == xs[MinInt(-n, |xs|)..]
    ensures |r| <= |xs| && r == xs[|xs| - |r|..]
  {
    var start := if n > 0 then MaxInt(|xs| - n, 0) else MinInt(-n, |xs|);
    xs[start..]
  }

  /** Appending to `deque(maxlen=cap)`: the oldest entries fall off the left. */
  function BoundedAppend<T>(s: seq<T>, x: T, cap: nat): (r: seq<T>)
    ensures |r| == MinInt(|s| + 1, cap)
    ensures cap > 0 ==> r[|r| - 1] == x
    ensures r == (s + [x])[|s| + 1 - |r|..]
  {
    var t := s + [x];
    if |t| <= cap then t else t[|t| - cap..]
  }

  /** A deque built by BoundedAppend never exceeds its capacity, whatever was
      appended before. */
  lemma {:induction false} BoundedAppendStaysBounded<T>(s: seq<T>, xs: seq<T>, cap: nat)
    requires |s| <= cap
    ensures |FoldBounded(s, xs, cap)| <= cap
    ensures |xs| > 0 && cap > 0 ==> FoldBounded(s, xs, cap)[|FoldBounded(s, xs, cap)| - 1] == xs[|xs| - 1]
    decreases |xs|
  {
    if |xs| > 0 {
      BoundedAppendStaysBounded(s, xs[..|xs| - 1], cap);
    }
  }

  function FoldBounded<T>(s: seq<T>, xs: seq<T>, cap: nat): seq<T>
    decreases |xs|
  {
    if |xs| == 0 then s else BoundedAppend(FoldBounded(s, xs[..|xs| - 1], cap), xs[|xs| - 1], cap)
  }

  // ---------------------------------------------------------------- strings

  /** `sub in s` for Python strings. */
  predicate Contains(s: string, sub: string)
  {
    exists i | 0 <= i <= |s| - |sub| :: OccursAt(s, sub, i)
  }

  predicate OccursAt(s: string, sub: string, i: int)
  {
    0 <= i && i + |sub| <= |s| && s[i..i + |sub|] == sub
  }

  /** Substring test on a known position: the witness for Contains. */
  lemma ContainsAt(s: string, sub: string, i: nat)
    requires i + |sub| <= |s| && s[i..i + |sub|] == sub
    ensures Contains(s, sub)
  {
    assert OccursAt(s, sub, i);
  }

  /** A character of `sub` that `s` lacks rules out every occurrence. */
  lemma AbsentCharExcludes(s: string, sub: string, j: nat, c: char)
    requires j < |sub| && sub[j] == c && c !in s
    ensures !Contains(s, sub)
  {
    forall i | 0 <= i <= |s| - |sub| ensures !OccursAt(s, sub, i) {
      assert s[i + j] == c ==> c in s;
      assert s[i..i + |sub|][j] == s[i + j];
    }
  }

  function LowerChar(c: char): char
  {
    if 'A' <= c <= 'Z' then (c as int + 32) as char else c
  }

  /** `str.lower()` restricted to ASCII letters. */
  function Lower(s: string): (r: string)
    ensures |r| == |s|
    ensures forall i :: 0 <= i < |s| ==> r[i] == LowerChar(s[i])
  {
    seq(|s|, i requires 0 <= i < |s| => LowerChar(s[i]))
  }

  /** The whitespace `str.strip()` removes: the characters for which
      `str.isspace()` holds, namely the ASCII controls tab to carriage return,
      the four information separators, the space, and the Unicode line,
      paragraph and space separators. */
  predicate IsSpace(c: char)
  {
    || c == ' ' || c == '\t' || c == '\n' || c == '\r' || c == '\U{0B}' || c == '\U{0C}'
    || c == '\U{1C}' || c == '\U{1D}' || c == '\U{1E}' || c == '\U{1F}'
    || c == '\U{85}' || c == '\U{A0}' || c == '\U{1680}'
    || ('\U{2000}' <= c <= '\U{200A}')
    || c == '\U{2028}' || c == '\U{2029}' || c == '\U{202F}' || c == '\U{205F}' || c == '\U{3000}'
  }

  function StripLeft(s: string): (r: string)
    ensures |r| <= |s| && r == s[|s| - |r|..]
    ensures |r| > 0 ==> !IsSpace(r[0])
    ensures forall i :: 0 <= i < |s| - |r| ==> IsSpace(s[i])
  {
    if |s| > 0 && IsSpace(s[0]) then
      var r := StripLeft(s[1..]);
      assert forall i :: 1 <= i < |s| ==> s[i] == s[1..][i - 1];
      r
    else s
  }

  function StripRight(s: string): (r: string)
    ensures |r| <= |s| && r == s[..|r|]
    ensures |r| > 0 ==> !IsSpace(r[|r| - 1])
    ensures forall i :: |r| <= i < |s| ==> IsSpace(s[i])
  {
    if |s| > 0 && IsSpace(s[|s| - 1]) then
      var r := StripRight(s[..|s| - 1]);
      assert forall i :: 0 <= i < |s| - 1 ==> s[i] == s[..|s| - 1][i];
      r
    else s
  }

  /** `str.strip()`. */
  function Strip(s: string): string
  {
    StripRight(StripLeft(s))
  }

  /** Index of the first occurrence of a character, as `str.find`. */
  function FindChar(s: string, c: char): (r: Option<nat>)
    ensures r.None? <==> c !in s
    ensures r.Some? ==> r.value < |s| && s[r.value] == c && c !in s[..r.value]
  {
    if |s| == 0 then None
    else if s[0] == c then Some(0)
    else match FindChar(s[1..], c)
      case None => None
      case Some(k) => assert s[1..][..k] == s[1..k + 1]; Some(k + 1)
  }
}

=== FILE: config.dfy ===
/** The `.env` loader and the settings read from the environment.

    The environment is a map from names to values. Loading a file walks its
    lines: blank lines and `#` comments are skipped, every other line is
    split at its first `=` and the stripped key and value are written into
    the environment; a line with no `=` raises, leaving the assignments of
    the earlier lines in place. The settings themselves are read from the
    environment once, when the class is defined, so a later load does not
    change what `Validate` sees; `FromEnvironment` is that one reading.
 */
module Configuration {
  import opened Common

  type Env = map<string, string>

  // --------------------------------------------------------------- lines

  /** What one line of the file means. */
  datatype Line =
    | Skip                         // blank or a comment
    | Assign(key: string, value: string)
    | NoSeparator                  // the tuple unpacking of `split` fails
    | IllegalName                  // the environment refuses the key or value

  /** The environment refuses an empty name and NUL characters. */
  predicate Settable(key: string, value: string)
  {
    key != "" && '\0' !in key && '\0' !in value
  }

  /** Meaning of a line once stripped: `line.split('=', 1)` must yield two
      parts. */
  function ParseStripped(line: string): (l: Line)
    ensures l.Skip? <==> line == "" || line[0] == '#'
    ensures l.NoSeparator? <==> line != "" && line[0] != '#' && '=' !in line
    ensures l.Assign? ==> Settable(l.key, l.value)
    ensures l.Assign? ==>
              exists i :: 0 <= i < |line| && line[i] == '=' && '=' !in line[..i]
                          && l.key == Strip(line[..i]) && l.value == Strip(line[i + 1..])
  {
    if line == "" || line[0] == '#' then Skip
    else match FindChar(line, '=')
      case None => NoSeparator
      case Some(i) =>
        var key, value := Strip(line[..i]), Strip(line[i + 1..]);
        if Settable(key, value) then Assign(key, value) else IllegalName
  }

  /** Meaning of a raw line of the file, newline included. */
  function ParseLine(raw: string): Line
  {
    ParseStripped(Strip(raw))
  }

  /** A line that raises. */
  predicate Bad(l: Line)
  {
    l.NoSeparator? || l.IllegalName?
  }

  // ---------------------------------------------------------------- load

  datatype LoadResult =
    | Loaded(env: Env)
    | Failed(env: Env, line: nat)  // the environment as left when line `line` raised

  /** `Config.load_from_file`; `None` stands for a file that does not
      exist. The file's lines are read in order. */
  function LoadFromFile(env: Env, file: Option<seq<string>>): (r: LoadResult)
    ensures file.None? ==> r == Loaded(env)
    ensures file.Some? ==> r == Load(env, ParseAll(file.value))
  {
    if file.None? then Loaded(env) else Load(env, ParseAll(file.value))
  }

  function ParseAll(lines: seq<string>): (r: seq<Line>)
    ensures |r| == |lines| && forall j :: 0 <= j < |lines| ==> r[j] == ParseLine(lines[j])
  {
    seq(|lines|, j requires 0 <= j < |lines| => ParseLine(lines[j]))
  }

  /** Applies the parsed lines in order, stopping at the first one that
      raises. */
  function Load(env: Env, lines: seq<Line>): LoadResult
  {
    if |lines| == 0 then Loaded(env)
    else match Load(env, lines[..|lines| - 1])
      case Failed(e, i) => Failed(e, i)
      case Loaded(e) =>
        match lines[|lines| - 1]
        case Skip => Loaded(e)
        case Assign(k, v) => Loaded(e[k := v])
        case _ => Failed(e, |lines| - 1)
  }

  /** The value the last assigning line gives `key`, if any line does. */
  function Assigned(lines: seq<Line>, key: string): Option<string>
  {
    if |lines| == 0 then None
    else match lines[|lines| - 1]
      case Assign(k, v) => if k == key then Some(v) else Assigned(lines[..|lines| - 1], key)
      case _ => Assigned(lines[..|lines| - 1], key)
  }

  /** `after` is `before` with every assignment of `lines` applied, the last
      one for a key winning and keys no line assigns untouched. */
  ghost predicate Applied(before: Env, lines: seq<Line>, after: Env)
  {
    forall key ::
      && (key in after <==> key in before || Assigned(lines, key).Some?)
      && (key in after ==> after[key] == if Assigned(lines, key).Some? then Assigned(lines, key).value else before[key])
  }

  predicate WellFormed(lines: seq<Line>)
  {
    forall j :: 0 <= j < |lines| ==> !Bad(lines[j])
  }

  /** A load completes exactly when no line raises. */
  lemma {:induction false} LoadCompletesIffWellFormed(env: Env, lines: seq<Line>)
    ensures Load(env, lines).Loaded? <==> WellFormed(lines)
  {
    if |lines| > 0 {
      var n := |lines| - 1;
      var init := lines[..n];
      LoadCompletesIffWellFormed(env, init);
      assert forall j :: 0 <= j < n ==> init[j] == lines[j];
      if !WellFormed(init) {
        var j :| 0 <= j < n && Bad(init[j]);
        assert Bad(lines[j]);
      }
    }
  }

  /** A completed load leaves the last value each key was given. */
  lemma {:induction false} LoadApplies(env: Env, lines: seq<Line>)
    ensures Load(env, lines).Loaded? ==> Applied(env, lines, Load(env, lines).env)
  {
    if |lines| > 0 {
      var init := lines[..|lines| - 1];
      LoadApplies(env, init);
      match Load(env, init)
      case Failed(_, _) =>
      case Loaded(e) =>
        var l := lines[|lines| - 1];
        if l.Assign? {
          var after := e[l.key := l.value];
          forall key
            ensures key in after <==> key in env || Assigned(lines, key).Some?
            ensures key in after ==> after[key] == if Assigned(lines, key).Some? then Assigned(lines, key).value else env[key]
          {
            assert Applied(env, init, e);
          }
        } else if l.Skip? {
          forall key
            ensures key in e <==> key in env || Assigned(lines, key).Some?
            ensures key in e ==> e[key] == if Assigned(lines, key).Some? then Assigned(lines, key).value else env[key]
          {
            assert Applied(env, init, e);
          }
        }
    }
  }

  /** A load that raises stops at the first bad line, with every earlier
      line applied. */
  lemma {:induction false} LoadStopsAtFirstBadLine(env: Env, lines: seq<Line>)
    ensures Load(env, lines).Failed? ==>
              var i := Load(env, lines).line;
              && i < |lines| && Bad(lines[i])
              && WellFormed(lines[..i])
              && Load(env, lines[..i]) == Loaded(Load(env, lines).env)
  {
    if |lines| > 0 {
      var init := lines[..|lines| - 1];
      LoadStopsAtFirstBadLine(env, init);
      match Load(env, init)
      case Failed(e, i) =>
        assert init[..i] == lines[..i];
      case Loaded(e) =>
        assert lines[..|lines| - 1] == init;
        LoadCompletesIffWellFormed(env, init);
    }
  }

  /** A file of blank lines and comments changes nothing. */
  lemma {:induction false} CommentsChangeNothing(env: Env, lines: seq<Line>)
    requires forall j :: 0 <= j < |lines| ==> lines[j].Skip?
    ensures Load(env, lines) == Loaded(env)
  {
    if |lines| > 0 {
      CommentsChangeNothing(env, lines[..|lines| - 1]);
    }
  }

  // --------------------------------------------------------- round trip

  /** The line that assigns `value` to `key`. */
  function Render(key: string, value: string): string
  {
    key + "=" + value
  }

  /** A key and value without surrounding whitespace, the key free of `=`
      and not starting a comment. */
  predicate Clean(key: string, value: string)
  {
    Strip(key) == key && Strip(value) == value && key != "" && key[0] != '#' && '=' !in key
  }

  lemma StrippedEnds(s: string)
    requires Strip(s) == s && s != ""
    ensures !IsSpace(s[0]) && !IsSpace(s[|s| - 1])
  {
    assert StripLeft(s) == s;
  }

  lemma {:induction false} StripLeftKeeps(s: string)
    requires s != "" && !IsSpace(s[0])
    ensures StripLeft(s) == s
  {
  }

  lemma {:induction false} StripRightKeeps(s: string)
    requires s != "" && !IsSpace(s[|s| - 1])
    ensures StripRight(s) == s
  {
  }

  /** A stripped line splits at its first `=`. */
  lemma SplitsAtFirstSeparator(line: string, i: nat, key: string, value: string)
    requires line != "" && line[0] != '#'
    requires FindChar(line, '=') == Some(i)
    requires key == Strip(line[..i]) && value == Strip(line[i + 1..]) && Settable(key, value)
    ensures ParseStripped(line) == Assign(key, value)
  {
    assert ParseStripped(line) ==
      match FindChar(line, '=')
      case None => NoSeparator
      case Some(j) =>
        var k, v := Strip(line[..j]), Strip(line[j + 1..]);
        if Settable(k, v) then Assign(k, v) else IllegalName;
  }

  /** `FindChar` answers the first occurrence. */
  lemma FindsFirst(s: string, c: char, i: nat)
    requires i < |s| && s[i] == c && c !in s[..i]
    ensures FindChar(s, c) == Some(i)
  {
  }

  /** A rendered line is its own stripped form. */
  lemma RenderIsStripped(key: string, value: string)
    requires Clean(key, value)
    ensures Strip(Render(key, value)) == Render(key, value)
  {
    var line := Render(key, value);
    StrippedEnds(key);
    assert line[0] == key[0];
    StripLeftKeeps(line);
    if value != "" {
      StrippedEnds(value);
      assert line[|line| - 1] == value[|value| - 1];
    }
    StripRightKeeps(line);
  }

  /** A rendered line reads back as the assignment it renders. */
  lemma RenderParses(key: string, value: string)
    requires Clean(key, value) && Settable(key, value)
    ensures ParseLine(Render(key, value)) == Assign(key, value)
  {
    var line := Render(key, value);
    RenderIsStripped(key, value);
    RenderSplits(key, value);
    SplitsAtFirstSeparator(line, |key|, key, value);
  }

  /** A rendered line's first `=` is the one after the key. */
  lemma RenderSplits(key: string, value: string)
    requires Clean(key, value)
    ensures var line := Render(key, value);
      && line[..|key|] == key && line[|key| + 1..] == value
      && line != "" && line[0] != '#' && FindChar(line, '=') == Some(|key|)
  {
    var line := Render(key, value);
    assert line[..|key|] == key && line[|key| + 1..] == value;
    FindsFirst(line, '=', |key|);
  }

  /** One rendered line per assignment, in order. */
  function RenderAll(assignments: seq<(string, string)>): (lines: seq<string>)
    ensures |lines| == |assignments|
    ensures forall j :: 0 <= j < |assignments| ==> lines[j] == Render(assignments[j].0, assignments[j].1)
  {
    if |assignments| == 0 then []
    else [Render(assignments[0].0, assignments[0].1)] + RenderAll(assignments[1..])
  }

  /** Saving a list of assignments and loading it back gives each key its
      last value. */
  lemma RenderedFileLoads(env: Env, assignments: seq<(string, string)>)
    requires forall j :: 0 <= j < |assignments| ==>
               Clean(assignments[j].0, assignments[j].1) && Settable(assignments[j].0, assignments[j].1)
    ensures var parsed := ParseAll(RenderAll(assignments));
            Load(env, parsed).Loaded? && Applied(env, parsed, Load(env, parsed).env)
  {
    var lines := RenderAll(assignments);
    var parsed := ParseAll(lines);
    forall j | 0 <= j < |lines|
      ensures !Bad(parsed[j])
    {
      RenderParses(assignments[j].0, assignments[j].1);
    }
    LoadCompletesIffWellFormed(env, parsed);
    LoadApplies(env, parsed);
  }

  lemma StripRightDropsSpace(s: string)
    ensures StripRight(s + " ") == StripRight(s)
  {
    assert (s + " ")[..|s|] == s;
  }

  lemma StripLeftDropsSpace(s: string)
    ensures StripLeft(" " + s) == StripLeft(s)
  {
    assert (" " + s)[1..] == s;
  }

  lemma SpacedIsStripped(key: string, value: string)
    requires Clean(key, value) && value != ""
    ensures Strip(key + " = " + value) == key + " = " + value
  {
    var line := key + " = " + value;
    StrippedEnds(key);
    StrippedEnds(value);
    assert line[0] == key[0] && line[|line| - 1] == value[|value| - 1];
    StripLeftKeeps(line);
    StripRightKeeps(line);
  }

  lemma SpacedParts(key: string, value: string)
    requires Clean(key, value)
    ensures var line := key + " = " + value;
            && Strip(line[..|key| + 1]) == key && Strip(line[|key| + 2..]) == value
            && FindChar(line, '=') == Some(|key| + 1)
  {
    var line := key + " = " + value;
    var i := |key| + 1;
    assert line[..i] == key + " " && line[i + 1..] == " " + value;
    StrippedEnds(key);
    StripLeftKeeps(key + " ");
    StripRightDropsSpace(key);
    StripLeftDropsSpace(value);
    assert line[i] == '=' && '=' !in line[..i];
    FindsFirst(line, '=', i);
  }

  lemma SpacedHead(key: string, value: string)
    requires key != ""
    ensures (key + " = " + value)[0] == key[0]
  {
  }

  /** Spaces around the `=` are dropped and only the first `=` separates:
      `KEY = a=b` sets KEY to `a=b`. */
  lemma SpacedLineParses(key: string, value: string)
    requires Clean(key, value) && Settable(key, value) && value != ""
    ensures ParseLine(key + " = " + value) == Assign(key, value)
  {
    var line := key + " = " + value;
    assert Strip(line) == line by { SpacedIsStripped(key, value); }
    assert ParseStripped(line) == Assign(key, value) by {
      SpacedParts(key, value);
      SpacedHead(key, value);
      SplitsAtFirstSeparator(line, |key| + 1, key, value);
    }
  }

  // ------------------------------------------------------------ settings

  /** `os.getenv(name, default)`. */
  function GetEnv(env: Env, name: string, default: string): (v: string)
    ensures name in env ==> v == env[name]
    ensures name !in env ==> v == default
  {
    if name in env then env[name] else default
  }

  /** The settings the class reads when it is defined; the numeric ones
      (which parse their text) are not part of this model. */
  datatype Settings = Settings(
    apiKey: string, apiSecret: string, accessToken: string,
    paperTrading: bool, logLevel: string)

  function FromEnvironment(env: Env): (s: Settings)
    ensures s.apiKey == GetEnv(env, "KITE_API_KEY", "")
    ensures s.apiSecret == GetEnv(env, "KITE_API_SECRET", "")
    ensures s.accessToken == GetEnv(env, "KITE_ACCESS_TOKEN", "")
    ensures s.logLevel == GetEnv(env, "LOG_LEVEL", "INFO")
    ensures s.paperTrading <==> Lower(GetEnv(env, "ENABLE_PAPER_TRADING", "true")) == "true"
  {
    Settings(
      GetEnv(env, "KITE_API_KEY", ""),
      GetEnv(env, "KITE_API_SECRET", ""),
      GetEnv(env, "KITE_ACCESS_TOKEN", ""),
      Lower(GetEnv(env, "ENABLE_PAPER_TRADING", "true")) == "true",
      GetEnv(env, "LOG_LEVEL", "INFO"))
  }

  /** Paper trading is the default: only a value other than (any casing
      of) `true` turns it off. */
  lemma PaperTradingByDefault(env: Env)
    ensures "ENABLE_PAPER_TRADING" !in env ==> FromEnvironment(env).paperTrading
    ensures "ENABLE_PAPER_TRADING" in env && env["ENABLE_PAPER_TRADING"] == "TRUE"
            ==> FromEnvironment(env).paperTrading
    ensures "ENABLE_PAPER_TRADING" in env && env["ENABLE_PAPER_TRADING"] == "false"
            ==> !FromEnvironment(env).paperTrading
  {
    assert Lower("true") == "true";
    assert Lower("TRUE") == "true";
    assert Lower("false")[0] == 'f';
  }

  /** `Config.validate`: only a missing API key fails; a missing secret is
      a warning. */
  function Validate(s: Settings): (ok: bool)
    ensures ok <==> s.apiKey != ""
  {
    s.apiKey != ""
  }

  /** The environment at definition time decides validity. */
  lemma ValidIffKeyPresent(env: Env)
    ensures Validate(FromEnvironment(env)) <==> "KITE_API_KEY" in env && env["KITE_API_KEY"] != ""
  {
  }

  /** `print_config`'s rendering of a secret: it says whether the secret is
      set and nothing else. */
  function Mask(secret: string): (m: string)
    ensures m == "**********" || m == "Not set"
    ensures m == "Not set" <==> secret == ""
  {
    if secret != "" then "**********" else "Not set"
  }

  /** Two secrets that are both set print the same. */
  lemma MaskHidesSecret(a: string, b: string)
    requires a != "" && b != ""
    ensures Mask(a) == Mask(b)
  {
  }
}

=== FILE: cost_calculator.dfy ===
/** The trading cost calculator for NSE equity: brokerage, securities
    transaction tax, exchange and SEBI turnover charges, GST on the service
    charges and stamp duty, for one order, for a round trip, and the sell
    price at which a round trip breaks even.

    Amounts are unrounded reals: the source rounds each reported figure to
    two decimals, which is left out.
 */
module CostCalculation {
  import opened Common

  /** MIS is intraday; every other product string is treated as delivery. */
  datatype Product = Mis | Delivery

  const BrokerageFlat: real := 20.0
  const BrokeragePct: real := 0.0003
  const SttIntraday: real := 0.00025
  const SttDelivery: real := 0.001
  const ExchangeCharge: real := 0.0000325
  const SebiCharge: real := 0.000001
  const GstRate: real := 0.18
  const StampDuty: real := 0.00015

  /** Intraday brokerage: 0.03% of the value, at most 20 per order; none for
      delivery. */
  function Brokerage(value: real, product: Product): (b: real)
    ensures product == Delivery ==> b == 0.0
    ensures product == Mis ==> b <= BrokerageFlat && b <= value * BrokeragePct
    ensures product == Mis ==> (b == BrokerageFlat <==> value * BrokeragePct >= BrokerageFlat)
    ensures product == Mis && value * BrokeragePct <= BrokerageFlat ==> b == value * BrokeragePct
  {
    match product
    case Mis => Min(BrokerageFlat, value * BrokeragePct)
    case Delivery => 0.0
  }

  /** STT: intraday only on the sell side, delivery on both sides. */
  function Stt(value: real, side: Side, product: Product): (t: real)
    ensures product == Mis && side == Buy ==> t == 0.0
    ensures product == Mis && side == Sell ==> t == value * SttIntraday
    ensures product == Delivery ==> t == value * SttDelivery
  {
    match product
    case Mis => if side == Sell then value * SttIntraday else 0.0
    case Delivery => value * SttDelivery
  }

  function ExchangeCharges(value: real): real { value * ExchangeCharge }

  function SebiCharges(value: real): real { value * SebiCharge }

  /** Stamp duty, buy side only: 0.015% of the value, capped at 1500 per
      crore, a cap that coincides with the rate itself. */
  function StampDutyFor(value: real, side: Side): (s: real)
    ensures side == Sell ==> s == 0.0
    ensures side == Buy ==> s == value * StampDuty
  {
    match side
    case Buy => Min(value * StampDuty, value / 10000000.0 * 1500.0)
    case Sell => 0.0
  }

  function Gst(taxable: real): real { taxable * GstRate }

  datatype Costs = Costs(
    tradeValue: real, brokerage: real, stt: real, exchange: real, sebi: real,
    gst: real, stamp: real, total: real, costPct: real)

  /** The six charges on an order of the given value. */
  function Charges(v: real, side: Side, product: Product): (c: Costs)
    ensures c.tradeValue == v
    ensures c.brokerage == Brokerage(v, product) && c.stt == Stt(v, side, product)
    ensures c.stamp == StampDutyFor(v, side)
    ensures c.gst == GstRate * (c.brokerage + c.exchange + c.sebi)
    ensures c.total == c.brokerage + c.stt + c.exchange + c.sebi + c.gst + c.stamp
    ensures v >= 0.0 ==>
      c.brokerage >= 0.0 && c.stt >= 0.0 && c.exchange >= 0.0 && c.sebi >= 0.0
      && c.gst >= 0.0 && c.stamp >= 0.0 && c.total >= 0.0
    ensures v > 0.0 ==> c.total > 0.0
    ensures IsShare(c.costPct, c.total, v)
    ensures v <= 0.0 ==> c.costPct == 0.0
  {
    var b := Brokerage(v, product);
    var t := Stt(v, side, product);
    var e := ExchangeCharges(v);
    var s := SebiCharges(v);
    var d := StampDutyFor(v, side);
    var g := Gst(b + e + s);
    var total := b + t + e + s + g + d;
    Costs(v, b, t, e, s, g, d, total, Percent(total, v))
  }

  /** `pct` is `part` as a percentage of a positive `whole`. */
  predicate IsShare(pct: real, part: real, whole: real)
  {
    whole > 0.0 ==> pct * whole == part * 100.0
  }

  /** `part` as a percentage of `whole`, zero when there is no whole. */
  function Percent(part: real, whole: real): (p: real)
    ensures IsShare(p, part, whole)
    ensures whole <= 0.0 ==> p == 0.0
  {
    if whole > 0.0 then
      PercentTimesWhole(part / whole * 100.0, part, whole);
      part / whole * 100.0
    else 0.0
  }

  lemma PercentTimesWhole(pct: real, part: real, whole: real)
    requires whole > 0.0 && pct == part / whole * 100.0
    ensures pct * whole == part * 100.0
  {
    assert part / whole * whole == part;
  }

  lemma Distribute(a: real, b: real, quantity: int)
    ensures (a - b) * quantity as real == Value(a, quantity) - Value(b, quantity)
  {
  }

  /** The value of an order: price times quantity. */
  function Value(price: real, quantity: int): real
  {
    price * quantity as real
  }

  /** `calculate_total_cost` for one order: the charges on price times
      quantity. */
  function TotalCost(price: real, quantity: int, side: Side, product: Product): (c: Costs)
    ensures c.tradeValue == Value(price, quantity)
  {
    Charges(Value(price, quantity), side, product)
  }

  /** The charges never exceed 0.12% of a non-negative trade value, and are
      positive on a positive one. */
  lemma CostRateBound(v: real, side: Side, product: Product)
    requires v >= 0.0
    ensures Charges(v, side, product).total <= 0.0012 * v
  {
    var c := Charges(v, side, product);
    assert c.brokerage <= 0.0003 * v;
    assert c.stt <= 0.001 * v;
    assert c.stamp <= 0.00015 * v;
  }

  /** A buy and a sell of ten shares at 1000 from the test suite: both cost
      something, only the sell pays STT and only the buy pays stamp duty. */
  lemma TotalCostExample()
    ensures TotalCost(1000.0, 10, Buy, Mis).total > 0.0
    ensures TotalCost(1000.0, 10, Buy, Mis).stt == 0.0 && TotalCost(1000.0, 10, Buy, Mis).stamp > 0.0
    ensures TotalCost(1000.0, 10, Sell, Mis).stt > 0.0 && TotalCost(1000.0, 10, Sell, Mis).stamp == 0.0
  {
    assert Value(1000.0, 10) == 10000.0;
  }

  /** The brokerage figures of the test suite: 1.5 on 5000, the 20 cap on
      100000, nothing for delivery. */
  lemma BrokerageExamples()
    ensures Brokerage(5000.0, Mis) == 1.5
    ensures Brokerage(100000.0, Mis) == 20.0
    ensures Brokerage(50000.0, Delivery) == 0.0
    ensures Stt(10000.0, Sell, Mis) == 2.5 && Stt(10000.0, Buy, Mis) == 0.0
  {
  }

  datatype RoundTrip = RoundTrip(
    buyValue: real, sellValue: real, buyCosts: real, sellCosts: real,
    totalCosts: real, grossProfit: real, netProfit: real, returnPct: real)

  /** `calculate_round_trip_cost`: profit before and after both legs' costs. */
  function RoundTripCost(buyPrice: real, sellPrice: real, quantity: int, product: Product): (r: RoundTrip)
    ensures r.buyValue == Value(buyPrice, quantity) && r.sellValue == Value(sellPrice, quantity)
    ensures r.buyCosts == Charges(r.buyValue, Buy, product).total
    ensures r.sellCosts == Charges(r.sellValue, Sell, product).total
    ensures r.grossProfit == r.sellValue - r.buyValue
    ensures r.totalCosts == r.buyCosts + r.sellCosts
    ensures r.netProfit == r.grossProfit - r.totalCosts
    ensures r.buyValue >= 0.0 && r.sellValue >= 0.0 ==> r.netProfit <= r.grossProfit
    ensures r.buyValue > 0.0 && r.sellValue >= 0.0 ==> r.netProfit < r.grossProfit
    ensures IsShare(r.returnPct, r.netProfit, r.buyValue)
    ensures r.buyValue <= 0.0 ==> r.returnPct == 0.0
  {
    var gross := (sellPrice - buyPrice) * quantity as real;
    Distribute(sellPrice, buyPrice, quantity);
    Settle(Charges(Value(buyPrice, quantity), Buy, product), Charges(Value(sellPrice, quantity), Sell, product), gross)
  }

  /** The round trip from both legs' charges and the gross profit. */
  function Settle(buy: Costs, sell: Costs, gross: real): (r: RoundTrip)
    ensures r.buyValue == buy.tradeValue && r.sellValue == sell.tradeValue
    ensures r.buyCosts == buy.total && r.sellCosts == sell.total && r.grossProfit == gross
    ensures r.totalCosts == r.buyCosts + r.sellCosts
    ensures r.netProfit == r.grossProfit - r.totalCosts
    ensures IsShare(r.returnPct, r.netProfit, r.buyValue)
    ensures r.buyValue <= 0.0 ==> r.returnPct == 0.0
  {
    var total := buy.total + sell.total;
    var net := gross - total;
    RoundTrip(buy.tradeValue, sell.tradeValue, buy.total, sell.total, total, gross, net,
              Percent(net, buy.tradeValue))
  }

  /** The round trip of the test suite: 10 shares bought at 1450 and sold at
      1470 make 200 gross and less than that net. */
  lemma RoundTripExample()
    ensures var r := RoundTripCost(1450.0, 1470.0, 10, Mis);
      r.buyValue == 14500.0 && r.sellValue == 14700.0 && r.grossProfit == 200.0
      && r.netProfit < r.grossProfit && r.totalCosts > 0.0
  {
    var r := RoundTripCost(1450.0, 1470.0, 10, Mis);
    assert r.buyValue == 14500.0 && r.sellValue == 14700.0 by {
      assert Value(1450.0, 10) == 14500.0 && Value(1470.0, 10) == 14700.0;
    }
  }

  /** One refinement of the breakeven estimate: the sell price at which the
      sell value covers the buy value and both legs' costs. */
  function BreakevenStep(buyPrice: real, quantity: int, product: Product, estimate: real): real
    requires quantity != 0
  {
    var buyValue := Value(buyPrice, quantity);
    var required := buyValue + Charges(buyValue, Buy, product).total
                    + Charges(Value(estimate, quantity), Sell, product).total;
    required / quantity as real
  }

  /** Multiplying by a positive factor keeps the order of two reals. */
  lemma ScaleOrder(a: real, b: real, q: real)
    requires q > 0.0
    ensures a < b <==> a * q < b * q
    ensures a <= b <==> a * q <= b * q
    ensures (1.01 * a) * q == 1.01 * (a * q)
  {
    assert b * q - a * q == (b - a) * q;
    if a < b {
      assert (b - a) * q > 0.0;
    } else {
      assert (a - b) * q >= 0.0;
    }
  }

  /** The arithmetic of one refinement: the buy value plus charges bounded
      by 0.12% of each leg, spread over the shares. */
  lemma RefinementArithmetic(buyPrice: real, estimate: real, q: real, buyCharges: real, sellCharges: real)
    requires q > 0.0 && buyPrice > 0.0 && buyPrice <= estimate <= 1.01 * buyPrice
    requires 0.0 < buyCharges <= 0.0012 * (buyPrice * q)
    requires 0.0 <= sellCharges <= 0.0012 * (estimate * q)
    ensures buyPrice < (buyPrice * q + buyCharges + sellCharges) / q <= 1.01 * buyPrice
  {
    var step := (buyPrice * q + buyCharges + sellCharges) / q;
    assert step * q == buyPrice * q + buyCharges + sellCharges;
    ScaleOrder(estimate, 1.01 * buyPrice, q);
    assert sellCharges <= 0.0012 * (1.01 * (buyPrice * q));
    assert step * q <= (1.01 * buyPrice) * q;
    ScaleOrder(buyPrice, step, q);
    ScaleOrder(step, 1.01 * buyPrice, q);
  }

  /** From an estimate between the buy price and 1% above it, a refinement
      lands strictly above the buy price and still within 1% of it. */
  lemma BreakevenStepBounds(buyPrice: real, quantity: int, product: Product, estimate: real)
    requires buyPrice > 0.0 && quantity > 0 && buyPrice <= estimate <= 1.01 * buyPrice
    ensures buyPrice < BreakevenStep(buyPrice, quantity, product, estimate) <= 1.01 * buyPrice
  {
    var q := quantity as real;
    var bv := Value(buyPrice, quantity);
    var ev := Value(estimate, quantity);
    assert bv == buyPrice * q && ev == estimate * q;
    ScaleOrder(0.0, buyPrice, q);
    ScaleOrder(0.0, estimate, q);
    assert bv > 0.0 && ev > 0.0;
    CostRateBound(bv, Buy, product);
    CostRateBound(ev, Sell, product);
    var cb := Charges(bv, Buy, product).total;
    var cs := Charges(ev, Sell, product).total;
    assert 0.0 < cb <= 0.0012 * bv;
    assert 0.0 <= cs <= 0.0012 * ev;
    RefinementArithmetic(buyPrice, estimate, q, cb, cs);
    assert BreakevenStep(buyPrice, quantity, product, estimate) == (bv + cb + cs) / q;
  }

  /** `get_breakeven_price`: five refinements starting from the buy price.
      `None` stands for the ZeroDivisionError raised for zero shares. */
  method BreakevenPrice(buyPrice: real, quantity: int, product: Product) returns (r: Option<real>)
    ensures r.None? <==> quantity == 0
    ensures buyPrice > 0.0 && quantity > 0 ==> buyPrice < r.value <= 1.01 * buyPrice
  {
    if quantity == 0 {
      return None;
    }
    var estimate := buyPrice;
    var i := 0;
    while i < 5
      invariant 0 <= i <= 5
      invariant buyPrice > 0.0 && quantity > 0 ==> buyPrice <= estimate <= 1.01 * buyPrice
      invariant buyPrice > 0.0 && quantity > 0 && i > 0 ==> buyPrice < estimate
    {
      if buyPrice > 0.0 && quantity > 0 {
        BreakevenStepBounds(buyPrice, quantity, product, estimate);
      }
      estimate := BreakevenStep(buyPrice, quantity, product, estimate);
      i := i + 1;
    }
    return Some(estimate);
  }
}

=== FILE: dicts.dfy ===
/** String-keyed dictionaries that remember insertion order, as the
    source's dictionaries do: a sequence of key/value pairs in which a key
    is replaced where it stands and a new key is appended.
 */
module Dicts {
  import opened Common

  type Dict<V> = seq<(string, V)>

  function Keys<V>(b: Dict<V>): set<string>
  {
    if |b| == 0 then {} else {b[0].0} + Keys(b[1..])
  }

  predicate KeysDistinct<V>(b: Dict<V>)
  {
    |b| == 0 || (b[0].0 !in Keys(b[1..]) && KeysDistinct(b[1..]))
  }

  function Lookup<V>(b: Dict<V>, s: string): (r: Option<V>)
    ensures r.Some? <==> s in Keys(b)
  {
    if |b| == 0 then None
    else if b[0].0 == s then Some(b[0].1)
    else Lookup(b[1..], s)
  }

  /** Replace the value of `s` where it stands, or append it. */
  function Put<V>(b: Dict<V>, s: string, p: V): (r: Dict<V>)
    ensures Lookup(r, s) == Some(p)
    ensures forall t :: t != s ==> Lookup(r, t) == Lookup(b, t)
    ensures Keys(r) == Keys(b) + {s}
    ensures KeysDistinct(b) ==> KeysDistinct(r)
    ensures s !in Keys(b) ==> r == b + [(s, p)]
    ensures |r| == if s in Keys(b) then |b| else |b| + 1
  {
    if |b| == 0 then [(s, p)]
    else if b[0].0 == s then [(s, p)] + b[1..]
    else
      var r := [b[0]] + Put(b[1..], s, p);
      assert r[1..] == Put(b[1..], s, p);
      assert s !in Keys(b) ==> b == [b[0]] + b[1..];
      r
  }

  /** Putting keeps the first key first, or makes `s` the first key of an
      empty dictionary. */
  lemma PutKeepsFirst<V>(b: Dict<V>, s: string, p: V)
    ensures var r := Put(b, s, p);
      |r| > 0 && r[0].0 == (if |b| == 0 then s else b[0].0)
  {
  }

  function Remove<V>(b: Dict<V>, s: string): (r: Dict<V>)
    ensures forall t :: t != s ==> Lookup(r, t) == Lookup(b, t)
    ensures KeysDistinct(b) ==> Lookup(r, s).None? && Keys(r) == Keys(b) - {s} && KeysDistinct(r)
  {
    if |b| == 0 then []
    else if b[0].0 == s then b[1..]
    else
      var r := [b[0]] + Remove(b[1..], s);
      assert r[1..] == Remove(b[1..], s);
      r
  }

  /** The keys, in order. */
  function Symbols<V>(b: Dict<V>): (r: seq<string>)
    ensures |r| == |b| && forall i :: 0 <= i < |b| ==> r[i] == b[i].0
    ensures forall t :: t in r <==> t in Keys(b)
  {
    if |b| == 0 then [] else [b[0].0] + Symbols(b[1..])
  }

  lemma EmptyDict<V>(b: Dict<V>)
    ensures Keys(b) == {} ==> b == []
  {
    if |b| > 0 {
      assert b[0].0 in Keys(b);
    }
  }
}

=== FILE: error_handler.dfy ===
/** Error classification, retry with exponential backoff and the circuit
    breaker that guard every broker call.

    An exception is represented by its message (`str(e)`), the only part of it
    the classifier reads. A wrapped call is represented by the reply it gives
    on its k-th invocation, and the wall clock by an explicit `now`.
 */
module ErrorHandler {
  import opened Common

  // ------------------------------------------------------------ classify_error

  datatype Category =
    | NetworkError | AuthenticationError | InsufficientFunds | InvalidInput
    | ServerError | ClientError | UnknownError

  datatype Classification = Classification(retryable: bool, category: Category)

  const NetworkTerms: seq<string> :=
    ["timeout", "connection", "network", "unreachable", "temporary", "unavailable", "rate limit"]
  const AuthTerms: seq<string> := ["invalid token", "authentication"]
  const FundsTerms: seq<string> := ["insufficient funds", "margin"]
  const InputTerms: seq<string> := ["invalid symbol", "not found"]
  const ServerTerms: seq<string> := ["500", "502", "503"]
  const ClientTerms: seq<string> := ["400", "403", "404"]

  /** Some term of the list occurs in the text. */
  predicate MentionsAny(text: string, terms: seq<string>)
  {
    exists k | 0 <= k < |terms| :: Contains(text, terms[k])
  }

  /** The message classifies as transient. */
  predicate RetryableMessage(message: string)
  {
    ClassifyError(message).retryable
  }

  /** The categories for which a retry is worth attempting. */
  predicate IsTransient(c: Category)
  {
    c == NetworkError || c == ServerError || c == UnknownError
  }

  /** Classifies an error message, case-insensitively, by the first group of
      terms (in the fixed order network, authentication, funds, input, 5xx,
      4xx) that it mentions. */
  function ClassifyError(message: string): (r: Classification)
    ensures r.retryable <==> IsTransient(r.category)
    ensures var l := Lower(message);
      && (r.category == NetworkError <==> MentionsAny(l, NetworkTerms))
      && (r.category == AuthenticationError <==>
            !MentionsAny(l, NetworkTerms) && MentionsAny(l, AuthTerms))
      && (r.category == InsufficientFunds <==>
            !MentionsAny(l, NetworkTerms) && !MentionsAny(l, AuthTerms) && MentionsAny(l, FundsTerms))
      && (r.category == InvalidInput <==>
            !MentionsAny(l, NetworkTerms) && !MentionsAny(l, AuthTerms) && !MentionsAny(l, FundsTerms)
            && MentionsAny(l, InputTerms))
      && (r.category == ServerError <==>
            !MentionsAny(l, NetworkTerms) && !MentionsAny(l, AuthTerms) && !MentionsAny(l, FundsTerms)
            && !MentionsAny(l, InputTerms) && MentionsAny(l, ServerTerms))
      && (r.category == ClientError <==>
            !MentionsAny(l, NetworkTerms) && !MentionsAny(l, AuthTerms) && !MentionsAny(l, FundsTerms)
            && !MentionsAny(l, InputTerms) && !MentionsAny(l, ServerTerms) && MentionsAny(l, ClientTerms))
      && (r.category == UnknownError <==>
            !MentionsAny(l, NetworkTerms) && !MentionsAny(l, AuthTerms) && !MentionsAny(l, FundsTerms)
            && !MentionsAny(l, InputTerms) && !MentionsAny(l, ServerTerms) && !MentionsAny(l, ClientTerms))
  {
    var l := Lower(message);
    if MentionsAny(l, NetworkTerms) then Classification(true, NetworkError)
    else if MentionsAny(l, AuthTerms) then Classification(false, AuthenticationError)
    else if MentionsAny(l, FundsTerms) then Classification(false, InsufficientFunds)
    else if MentionsAny(l, InputTerms) then Classification(false, InvalidInput)
    else if MentionsAny(l, ServerTerms) then Classification(true, ServerError)
    else if MentionsAny(l, ClientTerms) then Classification(false, ClientError)
    else Classification(true, UnknownError)
  }

  /** A message that mentions no known term is retried. */
  lemma UnrecognisedIsRetryable(message: string)
    requires forall k :: 0 <= k < |NetworkTerms + AuthTerms + FundsTerms + InputTerms + ServerTerms + ClientTerms| ==>
      !Contains(Lower(message), (NetworkTerms + AuthTerms + FundsTerms + InputTerms + ServerTerms + ClientTerms)[k])
    ensures ClassifyError(message) == Classification(true, UnknownError)
  {
    var all := NetworkTerms + AuthTerms + FundsTerms + InputTerms + ServerTerms + ClientTerms;
    var l := Lower(message);
    forall k | 0 <= k < 7 ensures !Contains(l, NetworkTerms[k]) { assert all[k] == NetworkTerms[k]; }
    forall k | 0 <= k < 2 ensures !Contains(l, AuthTerms[k]) { assert all[7 + k] == AuthTerms[k]; }
    forall k | 0 <= k < 2 ensures !Contains(l, FundsTerms[k]) { assert all[9 + k] == FundsTerms[k]; }
    forall k | 0 <= k < 2 ensures !Contains(l, InputTerms[k]) { assert all[11 + k] == InputTerms[k]; }
    forall k | 0 <= k < 3 ensures !Contains(l, ServerTerms[k]) { assert all[13 + k] == ServerTerms[k]; }
    forall k | 0 <= k < 3 ensures !Contains(l, ClientTerms[k]) { assert all[16 + k] == ClientTerms[k]; }
  }

  /** The three classifications the unit tests pin down. */
  lemma ClassifyExamples()
    ensures ClassifyError("Connection timeout") == Classification(true, NetworkError)
    ensures ClassifyError("Invalid token") == Classification(false, AuthenticationError)
    ensures ClassifyError("Insufficient margin") == Classification(false, InsufficientFunds)
  {
    ClassifyTimeout();
    ClassifyInvalidToken();
    ClassifyMargin();
  }

  lemma ClassifyTimeout()
    ensures ClassifyError("Connection timeout") == Classification(true, NetworkError)
  {
    var a := Lower("Connection timeout");
    assert a == "connection timeout";
    assert OccursAt(a, NetworkTerms[1], 0);
  }

  lemma ClassifyInvalidToken()
    ensures ClassifyError("Invalid token") == Classification(false, AuthenticationError)
  {
    var b := Lower("Invalid token");
    assert b == "invalid token";
    assert OccursAt(b, AuthTerms[0], 0);
    NoNetworkTermInToken(b);
  }

  lemma ClassifyMargin()
    ensures ClassifyError("Insufficient margin") == Classification(false, InsufficientFunds)
  {
    var c := Lower("Insufficient margin");
    assert c == "insufficient margin";
    assert OccursAt(c, FundsTerms[1], 13);
    NoNetworkTermInMargin(c);
    NoAuthTerm(c);
  }

  /** "invalid token" mentions no network term: each term has a letter the
      text lacks. */
  lemma NoNetworkTermInToken(l: string)
    requires l == "invalid token"
    ensures !MentionsAny(l, NetworkTerms)
  {
    AbsentCharExcludes(l, NetworkTerms[0], 2, 'm');
    AbsentCharExcludes(l, NetworkTerms[1], 0, 'c');
    AbsentCharExcludes(l, NetworkTerms[2], 3, 'w');
    AbsentCharExcludes(l, NetworkTerms[3], 0, 'u');
    AbsentCharExcludes(l, NetworkTerms[4], 2, 'm');
    AbsentCharExcludes(l, NetworkTerms[5], 0, 'u');
    AbsentCharExcludes(l, NetworkTerms[6], 0, 'r');
  }

  /** "insufficient margin" mentions no network term either. */
  lemma NoNetworkTermInMargin(l: string)
    requires l == "insufficient margin"
    ensures !MentionsAny(l, NetworkTerms)
  {
    AbsentCharExcludes(l, NetworkTerms[0], 4, 'o');
    AbsentCharExcludes(l, NetworkTerms[1], 1, 'o');
    AbsentCharExcludes(l, NetworkTerms[2], 4, 'o');
    AbsentCharExcludes(l, NetworkTerms[3], 9, 'l');
    AbsentCharExcludes(l, NetworkTerms[4], 4, 'o');
    AbsentCharExcludes(l, NetworkTerms[5], 6, 'l');
    AbsentCharExcludes(l, NetworkTerms[6], 5, 'l');
  }

  /** "insufficient margin" mentions no authentication term. */
  lemma NoAuthTerm(l: string)
    requires l == "insufficient margin"
    ensures !MentionsAny(l, AuthTerms)
  {
    AbsentCharExcludes(l, AuthTerms[0], 9, 'o');
    AbsentCharExcludes(l, AuthTerms[1], 12, 'o');
  }

  // -------------------------------------------------------- retry_with_backoff

  /** What one invocation of the wrapped function did. */
  datatype Attempt<T> = Returned(value: T) | Raised(message: string)

  /** How the retrying wrapper ends: the function's value, a PermanentError
      carrying the category, the last transient error re-raised once the
      retries are spent, or `None` when not a single attempt was allowed. */
  datatype RetryOutcome<T> =
    | Success(value: T)
    | Permanent(category: Category, message: string)
    | GaveUp(message: string)
    | NoAttempt

  /** The sleep before retry number k+1: the initial delay, multiplied by the
      backoff factor after every retry and capped at the maximum delay. */
  function BackoffDelay(initialDelay: real, factor: real, maxDelay: real, k: nat): real
  {
    if k == 0 then initialDelay else NextDelay(BackoffDelay(initialDelay, factor, maxDelay, k - 1), factor, maxDelay)
  }

  /** `min(delay * backoff_factor, max_delay)` */
  function NextDelay(delay: real, factor: real, maxDelay: real): real
  {
    Min(delay * factor, maxDelay)
  }

  /** With sane parameters the delays grow monotonically and never exceed the
      cap. */
  lemma {:induction false} BackoffMonotone(initialDelay: real, factor: real, maxDelay: real, k: nat)
    requires 0.0 <= initialDelay <= maxDelay && factor >= 1.0
    ensures 0.0 <= BackoffDelay(initialDelay, factor, maxDelay, k)
    ensures BackoffDelay(initialDelay, factor, maxDelay, k) <= BackoffDelay(initialDelay, factor, maxDelay, k + 1) <= maxDelay
  {
    if k > 0 {
      BackoffMonotone(initialDelay, factor, maxDelay, k - 1);
    }
    var d := BackoffDelay(initialDelay, factor, maxDelay, k);
    assert d <= maxDelay;
    assert d * factor - d == d * (factor - 1.0) >= 0.0;
    assert BackoffDelay(initialDelay, factor, maxDelay, k + 1) == NextDelay(d, factor, maxDelay);
  }

  /** Calls `call(0), call(1), …` until one returns, one fails permanently or
      `maxRetries + 1` attempts have failed transiently; returns the outcome,
      how many attempts were made and the sleeps taken between them. */
  method RetryWithBackoff<T>(maxRetries: int, initialDelay: real, factor: real, maxDelay: real,
                             call: nat -> Attempt<T>)
    returns (outcome: RetryOutcome<T>, calls: nat, sleeps: seq<real>)
    ensures maxRetries < 0 <==> outcome.NoAttempt?
    ensures maxRetries < 0 ==> calls == 0 && sleeps == []
    ensures maxRetries >= 0 ==> 1 <= calls <= maxRetries + 1 && |sleeps| == calls - 1
    ensures forall k :: 0 <= k < |sleeps| ==> sleeps[k] == BackoffDelay(initialDelay, factor, maxDelay, k)
    ensures forall k :: 0 <= k < |sleeps| ==> call(k).Raised? && RetryableMessage(call(k).message)
    ensures outcome.Success? ==> call(calls - 1) == Returned(outcome.value)
    ensures outcome.Permanent? ==>
      && call(calls - 1).Raised?
      && ClassifyError(call(calls - 1).message) == Classification(false, outcome.category)
      && outcome.message == call(calls - 1).message
    ensures outcome.GaveUp? ==>
      && calls == maxRetries + 1
      && call(calls - 1) == Raised(outcome.message)
      && RetryableMessage(outcome.message)
  {
    var delay := initialDelay;
    var attempt := 0;
    sleeps := [];
    calls := 0;
    outcome := NoAttempt;
    while attempt < maxRetries + 1
      invariant 0 <= attempt && (maxRetries >= 0 ==> attempt <= maxRetries) && (maxRetries < 0 ==> attempt == 0)
      invariant outcome == NoAttempt
      invariant calls == attempt && |sleeps| == attempt
      invariant delay == BackoffDelay(initialDelay, factor, maxDelay, attempt)
      invariant forall k :: 0 <= k < |sleeps| ==> sleeps[k] == BackoffDelay(initialDelay, factor, maxDelay, k)
      invariant forall k :: 0 <= k < |sleeps| ==> call(k).Raised? && RetryableMessage(call(k).message)
      decreases maxRetries + 1 - attempt
    {
      var reply := call(attempt);
      calls := calls + 1;
      match reply {
        case Returned(v) =>
          return Success(v), calls, sleeps;
        case Raised(m) =>
          var c := ClassifyError(m);
          if !c.retryable {
            return Permanent(c.category, m), calls, sleeps;
          }
          if attempt == maxRetries {
            return GaveUp(m), calls, sleeps;
          }
          sleeps := sleeps + [delay];
          delay := NextDelay(delay, factor, maxDelay);
      }
      attempt := attempt + 1;
    }
  }

  // ------------------------------------------------------------ CircuitBreaker

  datatype BreakerState = Closed | Open | HalfOpen

  datatype Breaker = Breaker(
    failureThreshold: int,
    timeout: real,
    failureCount: nat,
    lastFailure: Option<real>,
    state: BreakerState)

  /** What `CircuitBreaker.call` does for the caller: a CircuitBreakerOpenError
      without invoking the function, the function's value, or the function's
      exception re-raised. */
  datatype Guarded<T> = BreakerOpen | Passed(value: T) | Propagated(message: string)

  datatype GuardedCall<T> = GuardedCall(breaker: Breaker, outcome: Guarded<T>)

  function NewBreaker(failureThreshold: int, timeout: real): (b: Breaker)
    ensures b.state == Closed && b.failureCount == 0 && b.lastFailure.None?
  {
    Breaker(failureThreshold, timeout, 0, None, Closed)
  }

  /** The cool-down since the last failure has strictly passed. */
  predicate ShouldAttemptReset(b: Breaker, now: real)
  {
    b.lastFailure.None? || now - b.lastFailure.value > b.timeout
  }

  function OnSuccess(b: Breaker): (r: Breaker)
    ensures r.state == Closed && r.failureCount == 0
    ensures r.lastFailure == b.lastFailure && r.failureThreshold == b.failureThreshold
  {
    b.(failureCount := 0, state := Closed)
  }

  function OnFailure(b: Breaker, now: real): (r: Breaker)
    ensures r.failureCount == b.failureCount + 1 && r.lastFailure == Some(now)
    ensures r.state == Open <==> r.failureCount >= b.failureThreshold || b.state == Open
  {
    var n := b.failureCount + 1;
    b.(failureCount := n, lastFailure := Some(now), state := if n >= b.failureThreshold then Open else b.state)
  }

  /** Runs one guarded call whose wrapped function would answer `attempt`. */
  function Call<T>(b: Breaker, now: real, attempt: Attempt<T>): (r: GuardedCall<T>)
    ensures r.outcome.BreakerOpen? <==> b.state == Open && !ShouldAttemptReset(b, now)
    ensures r.outcome.BreakerOpen? ==> r.breaker == b
    ensures !r.outcome.BreakerOpen? && attempt.Returned? ==>
      r.outcome == Passed(attempt.value) && r.breaker.state == Closed && r.breaker.failureCount == 0
    ensures !r.outcome.BreakerOpen? && attempt.Raised? ==>
      && r.outcome == Propagated(attempt.message)
      && r.breaker.failureCount == b.failureCount + 1
      && r.breaker.lastFailure == Some(now)
      && (r.breaker.failureCount >= b.failureThreshold ==> r.breaker.state == Open)
  {
    if b.state == Open && !ShouldAttemptReset(b, now) then GuardedCall(b, BreakerOpen)
    else
      var b1 := if b.state == Open then b.(state := HalfOpen) else b;
      match attempt
      case Returned(v) => GuardedCall(OnSuccess(b1), Passed(v))
      case Raised(m) => GuardedCall(OnFailure(b1, now), Propagated(m))
  }

  /** The states a breaker can be in between calls: closed below the
      threshold (or untouched), open only at or above it and after a failure;
      half-open never outlives a call. */
  predicate Valid(b: Breaker)
  {
    && (b.state == Closed ==> b.failureCount < b.failureThreshold || b.failureCount == 0)
    && (b.state == Open ==> b.failureCount >= b.failureThreshold && b.lastFailure.Some?)
    && b.state != HalfOpen
  }

  lemma CallPreservesValid<T>(b: Breaker, now: real, attempt: Attempt<T>)
    requires Valid(b)
    ensures Valid(Call(b, now, attempt).breaker)
  {
  }

  /** An open breaker refuses every call until strictly more than `timeout`
      seconds have passed since the last failure. */
  lemma OpenRejectsWithinTimeout<T>(b: Breaker, now: real, attempt: Attempt<T>)
    requires Valid(b) && b.state == Open && now - b.lastFailure.value <= b.timeout
    ensures Call(b, now, attempt) == GuardedCall(b, BreakerOpen)
  {
  }

  /** After the cool-down, a failing trial call re-opens the breaker at once
      and a succeeding one closes it. */
  lemma HalfOpenTrial<T>(b: Breaker, now: real, attempt: Attempt<T>)
    requires Valid(b) && b.state == Open && now - b.lastFailure.value > b.timeout
    ensures attempt.Raised? ==> Call(b, now, attempt).breaker.state == Open
    ensures attempt.Returned? ==> Call(b, now, attempt).breaker.state == Closed
  {
  }

  /** The breaker after a run of calls that all fail. */
  function FailRun(b: Breaker, times: seq<real>): Breaker
    decreases |times|
  {
    if |times| == 0 then b
    else Call<bool>(FailRun(b, times[..|times| - 1]), times[|times| - 1], Raised("error")).breaker
  }

  /** From a fresh breaker, the first `threshold - 1` consecutive failures keep
      it closed and counting, and failure number `threshold` opens it. */
  lemma {:induction false} ConsecutiveFailuresOpen(threshold: nat, timeout: real, times: seq<real>)
    requires 1 <= threshold && |times| <= threshold
    ensures FailRun(NewBreaker(threshold, timeout), times).failureThreshold == threshold
    ensures FailRun(NewBreaker(threshold, timeout), times).failureCount == |times|
    ensures FailRun(NewBreaker(threshold, timeout), times).state ==
      (if |times| == threshold then Open else Closed)
    decreases |times|
  {
    if |times| > 0 {
      var prefix := times[..|times| - 1];
      ConsecutiveFailuresOpen(threshold, timeout, prefix);
      var b := FailRun(NewBreaker(threshold, timeout), prefix);
      assert b.state == Closed;
      var r := OnFailure(b, times[|times| - 1]);
      assert FailRun(NewBreaker(threshold, timeout), times) == r;
      assert r.state == if |times| >= threshold then Open else Closed;
    }
  }
}

=== FILE: intraday_strategy.dfy ===
/** The intraday high-low strategy: it tracks each symbol's day range, places
    the price within that range, buys near the low when the day's high
    promises enough margin and reward per unit of risk, sells near the high
    once the realised margin is reached, and sizes a buy as a fraction of
    the available cash.

    The quote dictionary, the available cash and the last traded price are
    inputs; the update timestamp and the logging are left out.
 */
module IntradayHighLow {
  import opened Common
  import BaseStrategy

  datatype Params = Params(
    minProfitMargin: real,
    buyThreshold: real,
    sellThreshold: real,
    riskRewardRatio: real,
    maxPositionPct: real,
    stopLossPct: real)

  const Defaults := Params(0.01, 0.3, 0.7, 2.0, 0.1, 0.02)

  /** One symbol's entry in the quote dictionary; absent fields are `None`. */
  datatype SymbolQuote = SymbolQuote(lastPrice: Option<real>, high: Option<real>, low: Option<real>, open: Option<real>)

  /** Quotes keyed `NSE:<symbol>`, as the broker returns them. */
  type MarketData = map<string, SymbolQuote>

  datatype DayRange = DayRange(high: real, low: real, open: real)

  datatype State = State(ranges: map<string, DayRange>, entryPrices: map<string, real>)

  function Key(symbol: string): string { "NSE:" + symbol }

  /** `last_price`, 0 when absent. */
  function LastPrice(q: SymbolQuote): real { q.lastPrice.GetOr(0.0) }

  /** The quote's own range, each bound falling back to the last price. */
  function QuoteRange(q: SymbolQuote): DayRange
  {
    DayRange(q.high.GetOr(LastPrice(q)), q.low.GetOr(LastPrice(q)), q.open.GetOr(LastPrice(q)))
  }

  /** `update_intraday_data`: the first quote sets the range, later ones can
      only widen it; the opening price is kept. */
  function UpdateIntradayData(ranges: map<string, DayRange>, symbol: string, md: MarketData)
    : (r: map<string, DayRange>)
    ensures Key(symbol) !in md ==> r == ranges
    ensures Key(symbol) in md ==> symbol in r
    ensures Key(symbol) in md && symbol !in ranges ==> r[symbol] == QuoteRange(md[Key(symbol)])
    ensures Key(symbol) in md && symbol in ranges ==>
      var old_, q := ranges[symbol], QuoteRange(md[Key(symbol)]);
      && r[symbol].high >= old_.high && r[symbol].high >= q.high
      && (r[symbol].high == old_.high || r[symbol].high == q.high)
      && r[symbol].low <= old_.low && r[symbol].low <= q.low
      && (r[symbol].low == old_.low || r[symbol].low == q.low)
      && r[symbol].open == old_.open
    ensures forall t :: t != symbol ==> (t in r <==> t in ranges) && (t in ranges ==> r[t] == ranges[t])
  {
    if Key(symbol) !in md then ranges
    else
      var q := QuoteRange(md[Key(symbol)]);
      if symbol !in ranges then ranges[symbol := q]
      else
        var old_ := ranges[symbol];
        ranges[symbol := DayRange(Max(old_.high, q.high), Min(old_.low, q.low), old_.open)]
  }

  /** The range after a run of quote updates for one symbol. */
  function UpdateAll(ranges: map<string, DayRange>, symbol: string, mds: seq<MarketData>): map<string, DayRange>
    decreases |mds|
  {
    if |mds| == 0 then ranges
    else UpdateIntradayData(UpdateAll(ranges, symbol, mds[..|mds| - 1]), symbol, mds[|mds| - 1])
  }

  /** Across any run of updates the tracked high never falls and the
      tracked low never rises, and no other symbol's range moves. */
  lemma {:induction false} RangeOnlyWidens(ranges: map<string, DayRange>, symbol: string, mds: seq<MarketData>)
    ensures var r := UpdateAll(ranges, symbol, mds);
      && (symbol in ranges ==> symbol in r && r[symbol].high >= ranges[symbol].high && r[symbol].low <= ranges[symbol].low)
      && (forall t :: t != symbol ==> (t in r <==> t in ranges) && (t in ranges ==> r[t] == ranges[t]))
    decreases |mds|
  {
    if |mds| > 0 {
      RangeOnlyWidens(ranges, symbol, mds[..|mds| - 1]);
    }
  }

  /** `calculate_price_position`: where the price sits in the day's range,
      0 at the low and 1 at the high. */
  function PricePosition(ranges: map<string, DayRange>, symbol: string, price: real): (r: real)
    ensures 0.0 <= r <= 1.0
    ensures symbol !in ranges || ranges[symbol].high == ranges[symbol].low ==> r == 0.5
    ensures symbol in ranges && ranges[symbol].low < ranges[symbol].high ==>
      var lo, hi := ranges[symbol].low, ranges[symbol].high;
      && (price <= lo ==> r == 0.0)
      && (price >= hi ==> r == 1.0)
      && (lo <= price <= hi ==> r * (hi - lo) == price - lo)
  {
    if symbol !in ranges then 0.5
    else
      var hi, lo := ranges[symbol].high, ranges[symbol].low;
      if hi == lo then 0.5
      else
        var x := (price - lo) / (hi - lo);
        PositionInRange(price, lo, hi, x);
        Clamp(x, 0.0, 1.0)
  }

  lemma PositionInRange(price: real, lo: real, hi: real, x: real)
    requires lo != hi && x == (price - lo) / (hi - lo)
    ensures lo < hi && price <= lo ==> x <= 0.0
    ensures lo < hi && price >= hi ==> x >= 1.0
    ensures lo < hi && lo <= price <= hi ==> 0.0 <= x <= 1.0 && x * (hi - lo) == price - lo
  {
    if lo < hi {
      QuotientBounds(price - lo, hi - lo);
    }
  }

  // ------------------------------------------------------ profit metrics

  datatype Metrics =
    | Invalid
    | BuyMetrics(entry: real, target: real, stopLoss: real, profitPotential: real, lossPotential: real,
                 profitMargin: real, riskReward: real)
    | SellMetrics(entry: real, exit: real, profit: real, profitMargin: real)

  /** `q` is `a` over a positive `b`, and zero when `b` is not positive. */
  predicate IsRatio(q: real, a: real, b: real)
  {
    (b > 0.0 ==> q * b == a) && (b <= 0.0 ==> q == 0.0)
  }

  /** `a / b`, or 0 when `b` is not positive. */
  function RatioOrZero(a: real, b: real): (r: real)
    ensures IsRatio(r, a, b)
  {
    if b > 0.0 then a / b else 0.0
  }

  /** `calculate_profit_potential`. A buy aims at the day's high with a stop
      `stopLossPct` below the price; a sell measures the margin against the
      recorded entry price, or against the price itself when none is
      recorded. */
  function ProfitPotential(st: State, symbol: string, price: real, signal: Side, p: Params): (r: Metrics)
    ensures r.Invalid? <==> symbol !in st.ranges
    ensures r.BuyMetrics? <==> symbol in st.ranges && signal == Side.Buy
    ensures r.BuyMetrics? ==>
      && r.entry == price && r.target == st.ranges[symbol].high
      && r.profitPotential == st.ranges[symbol].high - price
      && r.lossPotential == price - r.stopLoss
      && IsRatio(r.profitMargin, r.profitPotential, price)
      && IsRatio(r.riskReward, r.profitPotential, r.lossPotential)
    ensures r.SellMetrics? ==>
      && r.entry == (if symbol in st.entryPrices then st.entryPrices[symbol] else price)
      && r.exit == price && r.profit == price - r.entry
      && IsRatio(r.profitMargin, r.profit, r.entry)
  {
    if symbol !in st.ranges then Invalid
    else if signal == Side.Buy then
      var target := st.ranges[symbol].high;
      var stop := price * (1.0 - p.stopLossPct);
      var profit := target - price;
      var loss := price - stop;
      BuyMetrics(price, target, stop, profit, loss, RatioOrZero(profit, price), RatioOrZero(profit, loss))
    else
      var entry := if symbol in st.entryPrices then st.entryPrices[symbol] else price;
      SellMetrics(entry, price, price - entry, RatioOrZero(price - entry, entry))
  }

  /** The potential loss of a buy is the stop-loss fraction of the price, so
      with a positive price and stop the risk/reward is the distance to the
      day's high over that amount. */
  lemma RiskRewardIsDistanceOverStop(st: State, symbol: string, price: real, p: Params)
    requires symbol in st.ranges && price > 0.0 && p.stopLossPct > 0.0
    ensures var m := ProfitPotential(st, symbol, price, Side.Buy, p);
      && m.lossPotential == price * p.stopLossPct
      && m.riskReward * (price * p.stopLossPct) == st.ranges[symbol].high - price
  {
    var m := ProfitPotential(st, symbol, price, Side.Buy, p);
    assert m.lossPotential == price - price * (1.0 - p.stopLossPct);
    assert price * p.stopLossPct > 0.0;
  }

  // ------------------------------------------------------------ analysis

  /** The buy gate: flat, low in the range, enough margin and reward. */
  predicate BuyGate(st: State, held: bool, symbol: string, price: real, p: Params)
  {
    && !held
    && PricePosition(st.ranges, symbol, price) <= p.buyThreshold
    && var m := ProfitPotential(st, symbol, price, Side.Buy, p);
       m.BuyMetrics? && m.profitMargin >= p.minProfitMargin && m.riskReward >= p.riskRewardRatio
  }

  /** The sell gate: holding, high in the range, margin reached. */
  predicate SellGate(st: State, held: bool, symbol: string, price: real, p: Params)
  {
    && held
    && PricePosition(st.ranges, symbol, price) >= p.sellThreshold
    && var m := ProfitPotential(st, symbol, price, Side.Sell, p);
       m.SellMetrics? && m.profitMargin >= p.minProfitMargin
  }

  /** `analyze`: the state after the range update and the signal. */
  function Analyze(st: State, positions: BaseStrategy.Positions, symbol: string, md: MarketData, p: Params)
    : (r: (State, Option<Side>))
    ensures r.0.ranges == UpdateIntradayData(st.ranges, symbol, md)
    ensures Key(symbol) !in md || LastPrice(md[Key(symbol)]) <= 0.0 ==> r.1.None?
    ensures r.1 == Some(Side.Buy) ==>
      && !BaseStrategy.HasPosition(positions, symbol)
      && PricePosition(r.0.ranges, symbol, LastPrice(md[Key(symbol)])) <= p.buyThreshold
      && r.0.entryPrices == st.entryPrices[symbol := LastPrice(md[Key(symbol)])]
    ensures r.1 == Some(Side.Sell) ==>
      && BaseStrategy.HasPosition(positions, symbol)
      && PricePosition(r.0.ranges, symbol, LastPrice(md[Key(symbol)])) >= p.sellThreshold
      && r.0.entryPrices == st.entryPrices - {symbol}
    ensures r.1.None? ==> r.0.entryPrices == st.entryPrices
    ensures Key(symbol) in md && LastPrice(md[Key(symbol)]) > 0.0 ==>
      var st1, price, held := State(r.0.ranges, st.entryPrices), LastPrice(md[Key(symbol)]),
                              BaseStrategy.HasPosition(positions, symbol);
      && (r.1 == Some(Side.Buy) <==> BuyGate(st1, held, symbol, price, p))
      && (r.1 == Some(Side.Sell) <==> SellGate(st1, held, symbol, price, p))
  {
    var st1 := st.(ranges := UpdateIntradayData(st.ranges, symbol, md));
    if Key(symbol) !in md then (st1, None)
    else
      var price := LastPrice(md[Key(symbol)]);
      if price <= 0.0 then (st1, None)
      else
        var held := BaseStrategy.HasPosition(positions, symbol);
        if BuyGate(st1, held, symbol, price, p) then
          (st1.(entryPrices := st1.entryPrices[symbol := price]), Some(Side.Buy))
        else if SellGate(st1, held, symbol, price, p) then
          (st1.(entryPrices := st1.entryPrices - {symbol}), Some(Side.Sell))
        else (st1, None)
  }

  /** With a positive minimum margin, no buy is signalled at or above the
      day's high: the target is the high, so there is no margin left. */
  lemma NoBuyAtTheHigh(st: State, positions: BaseStrategy.Positions, symbol: string, md: MarketData, p: Params)
    requires p.minProfitMargin > 0.0
    requires Key(symbol) in md
    requires var ranges := UpdateIntradayData(st.ranges, symbol, md);
      LastPrice(md[Key(symbol)]) >= ranges[symbol].high
    ensures Analyze(st, positions, symbol, md, p).1 != Some(Side.Buy)
  {
    var r := Analyze(st, positions, symbol, md, p);
    var price := LastPrice(md[Key(symbol)]);
    if price > 0.0 {
      var m := ProfitPotential(State(r.0.ranges, st.entryPrices), symbol, price, Side.Buy, p);
      assert m.profitPotential <= 0.0;
      if m.profitMargin > 0.0 {
        assert m.profitMargin * price > 0.0;
      }
    }
  }

  // ------------------------------------------------------- position sizing

  /** `calculate_position_size`. A sell closes the whole holding; a buy
      spends `maxPositionPct` of the cash, at least one share. `cash` is the
      available cash the margins call reports (`None` when the trader has no
      margins call) and `price` the last traded price (0 when neither the
      price nor the quote could be fetched). */
  function PositionSize(positions: BaseStrategy.Positions, symbol: string, signal: Side, cash: Option<real>,
                        price: real, p: Params): (r: int)
    ensures r >= 0
    ensures signal == Side.Sell ==>
      r == (var q := BaseStrategy.Quantity(positions, symbol); if q < 0 then -q else q)
    ensures signal == Side.Buy ==> (r == 0 <==> cash.None? || cash.value <= 0.0 || price <= 0.0)
    ensures signal == Side.Buy && r > 1 ==> r as real <= cash.value * p.maxPositionPct / price
    ensures signal == Side.Buy && r > 0 ==> cash.value * p.maxPositionPct / price < (r + 1) as real
  {
    if signal == Side.Sell then
      var q := BaseStrategy.Quantity(positions, symbol);
      if q < 0 then -q else q
    else if cash.None? || cash.value <= 0.0 || price <= 0.0 then 0
    else MaxInt(1, Trunc(cash.value * p.maxPositionPct / price))
  }

  /** A buy of more than one share never costs more than its budget. */
  lemma BuyWithinBudget(positions: BaseStrategy.Positions, symbol: string, cash: real, price: real, p: Params)
    requires cash > 0.0 && price > 0.0
    ensures var n := PositionSize(positions, symbol, Side.Buy, Some(cash), price, p);
      n >= 1 && (n > 1 ==> n as real * price <= cash * p.maxPositionPct)
  {
    var n := PositionSize(positions, symbol, Side.Buy, Some(cash), price, p);
    var budget := cash * p.maxPositionPct;
    if n > 1 {
      assert n as real <= budget / price;
      assert n as real * price <= budget / price * price;
      assert budget / price * price == budget;
    }
  }

  /** `reset_daily_data`. */
  function ResetDailyData(st: State): (r: State)
    ensures r.ranges == map[] && r.entryPrices == map[]
    ensures forall s, x :: PricePosition(r.ranges, s, x) == 0.5
  {
    State(map[], map[])
  }
}

=== FILE: live_trade.dfy ===
/** The live-trading layer: the capital guard that caps how much money is in
    the market and halts trading after the daily loss limit, tick-size
    rounding of limit prices, the position bookkeeping done after a live
    order is accepted, and the reconciliation of tracked positions with the
    broker's net positions.

    Broker replies (the quote, the order id, the net position list) are
    inputs; `now` stands for the entry time stamped on new positions.
 */
module LiveTrading {
  import opened Common
  import CapitalRecovery

  // ------------------------------------------------------ capital guard

  datatype CapitalGuard = CapitalGuard(
    maxCapital: real,
    maxDailyLoss: real,
    usedCapital: real,
    startingCapital: real,
    dailyPnl: real,
    halted: bool,
    tradesCount: int,
    recovery: Option<CapitalRecovery.Manager>)

  /** The guard at start-up. A daily loss limit that is omitted or zero
      defaults to 10% of the capital. */
  function NewCapitalGuard(maxCapital: real, maxDailyLoss: Option<real>,
                           recovery: Option<CapitalRecovery.Manager>): (g: CapitalGuard)
    ensures maxDailyLoss.None? || maxDailyLoss.value == 0.0 ==> g.maxDailyLoss == maxCapital * 0.10
    ensures maxDailyLoss.Some? && maxDailyLoss.value != 0.0 ==> g.maxDailyLoss == maxDailyLoss.value
    ensures g.usedCapital == 0.0 && g.dailyPnl == 0.0 && !g.halted && g.tradesCount == 0
    ensures g.maxCapital == maxCapital && g.startingCapital == maxCapital && g.recovery == recovery
  {
    var limit := if maxDailyLoss.Some? && maxDailyLoss.value != 0.0 then maxDailyLoss.value else maxCapital * 0.10;
    CapitalGuard(maxCapital, limit, 0.0, maxCapital, 0.0, false, 0, recovery)
  }

  /** `check_capital_available`: refused while halted or when the new
      capital would take the total in use past the maximum. */
  function CheckCapitalAvailable(g: CapitalGuard, required: real): (ok: bool)
    ensures ok <==> !g.halted && g.usedCapital + required <= g.maxCapital
    ensures ok && required >= 0.0 ==> AvailableCapital(g) >= required
  {
    if g.halted then false
    else if g.usedCapital + required > g.maxCapital then false
    else true
  }

  /** `allocate_capital`: one more trade using `amount`. */
  function AllocateCapital(g: CapitalGuard, amount: real): (r: CapitalGuard)
    ensures r.usedCapital == g.usedCapital + amount && r.tradesCount == g.tradesCount + 1
    ensures r.(usedCapital := g.usedCapital, tradesCount := g.tradesCount) == g
  {
    g.(usedCapital := g.usedCapital + amount, tradesCount := g.tradesCount + 1)
  }

  /** `release_capital`: the capital comes back with its P&L, and trading
      halts once the day's P&L is below minus the loss limit. A halt is
      never lifted here. */
  function ReleaseCapital(g: CapitalGuard, amount: real, profitLoss: real): (r: CapitalGuard)
    ensures r.usedCapital == g.usedCapital - amount && r.dailyPnl == g.dailyPnl + profitLoss
    ensures r.halted <==> g.halted || r.dailyPnl < -g.maxDailyLoss
    ensures r.(usedCapital := g.usedCapital, dailyPnl := g.dailyPnl, halted := g.halted) == g
  {
    var pnl := g.dailyPnl + profitLoss;
    g.(usedCapital := g.usedCapital - amount, dailyPnl := pnl,
       halted := if pnl < -g.maxDailyLoss then true else g.halted)
  }

  /** `get_available_capital`. */
  function AvailableCapital(g: CapitalGuard): (a: real)
    ensures a >= 0.0 && a >= g.maxCapital - g.usedCapital
    ensures g.usedCapital <= g.maxCapital ==> a + g.usedCapital == g.maxCapital
  {
    Max(0.0, g.maxCapital - g.usedCapital)
  }

  /** `reset_daily`: the day's P&L, halt and trade count start over; the
      capital in use is kept. */
  function ResetDaily(g: CapitalGuard): (r: CapitalGuard)
    ensures r.dailyPnl == 0.0 && !r.halted && r.tradesCount == 0
    ensures r.usedCapital == g.usedCapital && r.maxCapital == g.maxCapital && r.maxDailyLoss == g.maxDailyLoss
  {
    g.(dailyPnl := 0.0, halted := false, tradesCount := 0)
  }

  /** `record_end_of_day`: hands the day's P&L, trade count and capital in
      use to the recovery manager, when there is one. */
  function RecordEndOfDay(g: CapitalGuard, today: string): (r: CapitalGuard)
    ensures g.recovery.None? ==> r == g
    ensures g.recovery.Some? ==>
      r == g.(recovery := Some(CapitalRecovery.RecordDayEnd(g.recovery.value, today, g.dailyPnl, g.tradesCount, g.usedCapital).0))
    ensures g.recovery.Some? ==>
      r.recovery.Some? && r.recovery.value.history.totalTrades == g.recovery.value.history.totalTrades + g.tradesCount
  {
    match g.recovery
    case None => g
    case Some(m) =>
      g.(recovery := Some(CapitalRecovery.RecordDayEnd(m, today, g.dailyPnl, g.tradesCount, g.usedCapital).0))
  }

  /** A halted guard refuses every request and stays halted through any
      allocation or release, until the daily reset. */
  lemma HaltIsSticky(g: CapitalGuard, required: real, amount: real, pnl: real)
    requires g.halted
    ensures !CheckCapitalAvailable(g, required)
    ensures AllocateCapital(g, amount).halted && ReleaseCapital(g, amount, pnl).halted
    ensures CheckCapitalAvailable(ResetDaily(g), required) <==> g.usedCapital + required <= g.maxCapital
  {
  }

  /** Capital allocated after a successful check never takes the total in
      use past the maximum. */
  lemma CheckedAllocationWithinLimit(g: CapitalGuard, amount: real)
    requires CheckCapitalAvailable(g, amount)
    ensures AllocateCapital(g, amount).usedCapital <= g.maxCapital
    ensures AvailableCapital(AllocateCapital(g, amount)) == g.maxCapital - g.usedCapital - amount
  {
  }

  /** With 1000 of capital and the default 10% limit, a day down by exactly
      100 keeps trading, and one more rupee lost halts it. */
  lemma DailyLossLimitExample()
    ensures var g := AllocateCapital(NewCapitalGuard(1000.0, None, None), 500.0);
      && !ReleaseCapital(g, 500.0, -100.0).halted
      && ReleaseCapital(g, 500.0, -101.0).halted
      && !CheckCapitalAvailable(ReleaseCapital(g, 500.0, -101.0), 1.0)
  {
  }

  // ------------------------------------------------------ tick rounding

  datatype Direction = Up | Down | Nearest

  /** `_round_to_tick` before the final rounding to two decimals: the
      multiple of `tick` above, below or nearest to the price. A tick that
      is not positive leaves the price alone. */
  function RoundToTick(price: real, tick: real, direction: Direction): (r: real)
    ensures tick <= 0.0 ==> r == price
    ensures tick > 0.0 && direction == Up ==> price <= r < price + tick
    ensures tick > 0.0 && direction == Down ==> price - tick < r <= price
    ensures tick > 0.0 && direction == Nearest ==> Abs(r - price) <= tick / 2.0
    ensures tick > 0.0 ==> (r / tick).Floor as real == r / tick
  {
    if tick <= 0.0 then price
    else
      match direction
      case Up => CeilTick(price, tick); WholeTicks(Ceil(price / tick), tick)
      case Down => FloorTick(price, tick); WholeTicks(Floor(price / tick), tick)
      case Nearest => NearestTick(price, tick); WholeTicks(RoundHalfEven(price / tick), tick)
  }

  /** `m` ticks: a price that divides by the tick into a whole number. */
  function WholeTicks(m: int, tick: real): (r: real)
    requires tick > 0.0
    ensures r == m as real * tick
    ensures (r / tick).Floor as real == r / tick
  {
    var r := m as real * tick;
    assert r / tick == m as real;
    r
  }

  /** For a positive tick, a fraction of it in [lo, hi) scales to a
      length in [lo * tick, hi * tick). */
  lemma ScaleFraction(d: real, tick: real)
    requires tick > 0.0
    ensures 0.0 <= d ==> 0.0 <= d * tick
    ensures d < 1.0 ==> d * tick < tick
    ensures d <= 0.5 ==> d * tick <= tick / 2.0
    ensures -0.5 <= d ==> -(tick / 2.0) <= d * tick
  {
  }

  lemma CeilTick(price: real, tick: real)
    requires tick > 0.0
    ensures price <= Ceil(price / tick) as real * tick < price + tick
  {
    var q := price / tick;
    var c := Ceil(q) as real;
    var d := c - q;
    assert 0.0 <= d < 1.0;
    ScaleFraction(d, tick);
    assert c * tick == price + d * tick by {
      assert q * tick == price;
      assert c * tick == (q + d) * tick == q * tick + d * tick;
    }
    assert c * tick < price + tick;
    assert Ceil(price / tick) as real * tick == c * tick;
  }

  lemma FloorTick(price: real, tick: real)
    requires tick > 0.0
    ensures price - tick < Floor(price / tick) as real * tick <= price
  {
    var q := price / tick;
    var f := Floor(q) as real;
    var d := q - f;
    assert 0.0 <= d < 1.0;
    ScaleFraction(d, tick);
    assert f * tick == price - d * tick by {
      assert q * tick == price;
      assert f * tick == (q - d) * tick == q * tick - d * tick;
    }
    assert price - tick < f * tick;
    assert Floor(price / tick) as real * tick == f * tick;
  }

  lemma NearestTick(price: real, tick: real)
    requires tick > 0.0
    ensures Abs(RoundHalfEven(price / tick) as real * tick - price) <= tick / 2.0
  {
    var q := price / tick;
    var n := RoundHalfEven(q) as real;
    var d := n - q;
    assert -0.5 <= d <= 0.5;
    var e := d * tick;
    assert n * tick - price == e by {
      assert q * tick == price;
      assert n * tick == (q + d) * tick == q * tick + d * tick;
    }
    ScaleFraction(d, tick);
    assert -(tick / 2.0) <= e <= tick / 2.0;
    assert Abs(n * tick - price) <= tick / 2.0;
    assert RoundHalfEven(price / tick) as real * tick == n * tick;
  }

  const Tick: real := 0.05
  const Slippage: real := 0.003

  /** The limit price of a LIMIT order: 0.3% through the market, rounded to
      the tick away from the market (up to buy, down to sell). */
  function LimitPrice(side: Side, current: real): (r: real)
    ensures side == Buy ==> current * 1.003 <= r < current * 1.003 + Tick
    ensures side == Sell ==> current * 0.997 - Tick < r <= current * 0.997
  {
    match side
    case Buy => RoundToTick(current * (1.0 + Slippage), Tick, Up)
    case Sell => RoundToTick(current * (1.0 - Slippage), Tick, Down)
  }

  // ------------------------------------------------------ positions

  datatype LivePosition = LivePosition(quantity: int, avgPrice: real, invested: real, entryTime: real)

  /** A BUY fill folded into the tracked position: quantities and invested
      amounts add up, and the average is the invested amount per share. */
  function BuyInto(existing: Option<LivePosition>, quantity: int, required: real, limitPrice: real, now: real): (p: LivePosition)
    ensures existing.None? ==> p == LivePosition(quantity, limitPrice, required, now)
    ensures existing.Some? ==>
      && p.quantity == existing.value.quantity + quantity
      && p.invested == existing.value.invested + required
      && p.entryTime == existing.value.entryTime
      && (p.quantity > 0 ==> p.avgPrice * p.quantity as real == p.invested)
      && (p.quantity <= 0 ==> p.avgPrice == limitPrice)
  {
    match existing
    case None => LivePosition(quantity, limitPrice, required, now)
    case Some(e) =>
      var q := e.quantity + quantity;
      var inv := e.invested + required;
      LivePosition(q, if q > 0 then inv / q as real else limitPrice, inv, e.entryTime)
  }

  /** A SELL out of a valid tracked position (positive quantity and
      average): the capital released is the invested share of the sold
      quantity and the P&L is measured against the average price. The
      position survives, with its average, only when shares remain. */
  function SellFrom(p: LivePosition, quantity: int, limitPrice: real): (r: (Option<LivePosition>, real, real))
    requires p.quantity > 0
    ensures var (rest, released, pnl) := r;
      && released * p.quantity as real == p.invested * quantity as real
      && pnl == (limitPrice - p.avgPrice) * quantity as real
      && (rest.Some? <==> quantity < p.quantity)
      && (rest.Some? ==> rest.value == p.(quantity := p.quantity - quantity, invested := p.invested - released))
  {
    var released := p.invested * (quantity as real / p.quantity as real);
    var pnl := (limitPrice - p.avgPrice) * quantity as real;
    var remaining := p.quantity - quantity;
    (if remaining > 0 then Some(p.(quantity := remaining, invested := p.invested - released)) else None,
     released, pnl)
  }

  /** Selling part of a position and then the rest releases exactly what was
      invested, and both legs are valued against the same average. */
  lemma SellInTwoLegsReleasesEverything(p: LivePosition, first: int, price1: real, price2: real)
    requires 0 < first < p.quantity
    ensures var (rest, released1, pnl1) := SellFrom(p, first, price1);
      && rest.Some?
      && var (after, released2, pnl2) := SellFrom(rest.value, p.quantity - first, price2);
      && after.None? && released1 + released2 == p.invested
      && pnl1 + pnl2 == (price1 - p.avgPrice) * first as real + (price2 - p.avgPrice) * (p.quantity - first) as real
  {
    var (rest, r1, _) := SellFrom(p, first, price1);
    var q := p.quantity as real;
    var f := first as real;
    var rq := rest.value.quantity as real;
    assert rq == q - f;
    var (_, r2, _) := SellFrom(rest.value, p.quantity - first, price2);
    assert r1 * q == p.invested * f;
    assert r2 * rq == (p.invested - r1) * rq;
    assert r2 == p.invested - r1 by {
      assert rq > 0.0;
    }
  }

  datatype Wrapper = Wrapper(guard: CapitalGuard, positions: map<string, LivePosition>)

  /** What `place_order` does once the price is known: no order for a
      non-positive price or a BUY the guard refuses; then the broker's reply
      (`None` for an exception, `Some("")` for no id). An accepted order
      with a valid limit price is booked: a BUY allocates capital and
      accumulates, a SELL of a valid tracked position releases capital and
      shrinks or closes it. */
  function PlaceOrder(w: Wrapper, symbol: string, side: Side, quantity: int, isLimit: bool,
                      currentPrice: real, reply: Option<string>, now: real): (r: (Wrapper, Option<string>))
    ensures currentPrice <= 0.0 ==> r == (w, None)
    ensures side == Buy && !CheckCapitalAvailable(w.guard, currentPrice * quantity as real) ==> r == (w, None)
    ensures reply.None? || reply == Some("") ==> r.0 == w && r.1.None?
    ensures r.1.Some? ==> r.1 == reply && currentPrice > 0.0
    ensures r.1.Some? && !isLimit ==> r.0 == w
    ensures r.1.Some? && isLimit && side == Buy ==>
      var required := currentPrice * quantity as real;
      var limit := LimitPrice(Buy, currentPrice);
      && r.0.guard == AllocateCapital(w.guard, required)
      && r.0.positions == w.positions[symbol := BuyInto(if symbol in w.positions then Some(w.positions[symbol]) else None,
                                                         quantity, required, limit, now)]
    ensures r.1.Some? && isLimit && side == Sell && symbol !in w.positions ==> r.0 == w
    ensures r.1.Some? && side == Sell ==> r.0.positions.Keys <= w.positions.Keys
    ensures r.1.Some? && isLimit && side == Sell && symbol in w.positions ==>
      var p := w.positions[symbol];
      var limit := LimitPrice(Sell, currentPrice);
      && (limit <= 0.0 || p.avgPrice <= 0.0 || p.quantity <= 0 ==> r.0 == w)
      && (limit > 0.0 && p.avgPrice > 0.0 && p.quantity > 0 ==>
            var (rest, released, pnl) := SellFrom(p, quantity, limit);
            && r.0.guard == ReleaseCapital(w.guard, released, pnl)
            && (quantity < p.quantity ==> r.0.positions == w.positions[symbol := rest.value])
            && (quantity >= p.quantity ==> r.0.positions == w.positions - {symbol}))
  {
    if currentPrice <= 0.0 then (w, None)
    else
      var required := currentPrice * quantity as real;
      if side == Buy && !CheckCapitalAvailable(w.guard, required) then (w, None)
      else if reply.None? || reply.value == "" then (w, None)
      else if !isLimit then (w, reply)
      else
        var limit := LimitPrice(side, currentPrice);
        if limit <= 0.0 then (w, reply)
        else match side
          case Buy =>
            var existing := if symbol in w.positions then Some(w.positions[symbol]) else None;
            (Wrapper(AllocateCapital(w.guard, required),
                     w.positions[symbol := BuyInto(existing, quantity, required, limit, now)]), reply)
          case Sell =>
            if symbol !in w.positions then (w, reply)
            else
              var p := w.positions[symbol];
              if p.avgPrice <= 0.0 || p.quantity <= 0 then (w, reply)
              else
                var (rest, released, pnl) := SellFrom(p, quantity, limit);
                var positions := if rest.Some? then w.positions[symbol := rest.value] else w.positions - {symbol};
                (Wrapper(ReleaseCapital(w.guard, released, pnl), positions), reply)
  }

  /** A buy price is always positive, so an accepted LIMIT BUY is always
      booked. */
  lemma AcceptedBuyIsBooked(w: Wrapper, symbol: string, quantity: int, currentPrice: real, id: string, now: real)
    requires currentPrice > 0.0 && id != ""
    requires CheckCapitalAvailable(w.guard, currentPrice * quantity as real)
    ensures var (w', r) := PlaceOrder(w, symbol, Buy, quantity, true, currentPrice, Some(id), now);
      r == Some(id) && symbol in w'.positions && w'.guard.tradesCount == w.guard.tradesCount + 1
  {
  }

  // ------------------------------------------------------ broker sync

  datatype BrokerNet = BrokerNet(symbol: string, quantity: int, averagePrice: real)

  /** A tracked entry the sync keeps: positive average and quantity. */
  predicate ValidTracked(p: LivePosition) { p.avgPrice > 0.0 && p.quantity > 0 }

  /** The first pass: invalid tracked entries are dropped. */
  function DropInvalid(positions: map<string, LivePosition>): (r: map<string, LivePosition>)
    ensures r.Keys <= positions.Keys
    ensures forall s :: s in r ==> r[s] == positions[s] && ValidTracked(r[s])
    ensures forall s :: s in positions && ValidTracked(positions[s]) ==> s in r
  {
    map s | s in positions && ValidTracked(positions[s]) :: positions[s]
  }

  /** One broker entry applied to the tracked map, with the running count of
      changes. */
  function SyncEntry(p: map<string, LivePosition>, count: nat, e: BrokerNet, now: real): (r: (map<string, LivePosition>, nat))
    ensures r.1 == count ==> r.0 == p
    ensures r.1 >= count
    ensures forall s :: s != e.symbol ==> (s in r.0 <==> s in p) && (s in p ==> r.0[s] == p[s])
  {
    if e.quantity == 0 then (p, count)
    else if e.averagePrice <= 0.0 then
      if e.symbol in p then (p - {e.symbol}, count + 1) else (p, count)
    else if e.symbol in p then
      if p[e.symbol].quantity != e.quantity then
        (p[e.symbol := p[e.symbol].(quantity := e.quantity, avgPrice := e.averagePrice,
                                    invested := e.quantity as real * e.averagePrice)], count + 1)
      else (p, count)
    else
      (p[e.symbol := LivePosition(e.quantity, e.averagePrice, e.quantity as real * e.averagePrice, now)], count + 1)
  }

  function SyncAll(p: map<string, LivePosition>, count: nat, es: seq<BrokerNet>, now: real): (r: (map<string, LivePosition>, nat))
    ensures r.1 >= count
    ensures r.1 == count ==> r.0 == p
    decreases |es|
  {
    if |es| == 0 then (p, count)
    else
      var (p1, c1) := SyncEntry(p, count, es[0], now);
      SyncAll(p1, c1, es[1..], now)
  }

  /** The broker reports `s` with a non-zero quantity somewhere in `es`. */
  predicate ReportedNonZero(es: seq<BrokerNet>, s: string)
  {
    exists i :: 0 <= i < |es| && es[i].symbol == s && es[i].quantity != 0
  }

  /** The last non-zero entry the broker reports for `s`. */
  function LastNonZero(es: seq<BrokerNet>, s: string): (r: Option<BrokerNet>)
    ensures r.None? <==> !ReportedNonZero(es, s)
    ensures r.Some? ==> r.value.symbol == s && r.value.quantity != 0
    decreases |es|
  {
    if |es| == 0 then None
    else
      var rest := LastNonZero(es[1..], s);
      assert forall i :: 1 <= i < |es| ==> es[1..][i - 1] == es[i];
      if rest.Some? then rest
      else if es[0].symbol == s && es[0].quantity != 0 then Some(es[0])
      else None
  }

  /** The last pass: symbols the broker does not report with a non-zero
      quantity are dropped. */
  function Prune(p: map<string, LivePosition>, es: seq<BrokerNet>): (r: map<string, LivePosition>)
    ensures forall s :: s in r <==> s in p && ReportedNonZero(es, s)
    ensures forall s :: s in r ==> r[s] == p[s]
    ensures |p.Keys - r.Keys| == 0 ==> r == p
  {
    var r := map s | s in p && ReportedNonZero(es, s) :: p[s];
    if |p.Keys - r.Keys| == 0 then
      assert p.Keys - r.Keys == {};
      assert r.Keys == p.Keys;
      r
    else r
  }

  /** `sync_positions_from_broker`. `net` is the broker's net position list,
      or `None` when fetching it raised, in which case the invalid entries
      are already gone and 0 is reported. The count is the number of
      changes made; when it is 0 only the first pass may have run, and it
      found nothing to drop. */
  function SyncPositions(positions: map<string, LivePosition>, net: Option<seq<BrokerNet>>, now: real)
    : (r: (map<string, LivePosition>, nat))
    ensures net.None? ==> r == (DropInvalid(positions), 0)
    ensures net.Some? ==> forall s :: s in r.0 <==>
      LastNonZero(net.value, s).Some? && LastNonZero(net.value, s).value.averagePrice > 0.0
    ensures r.1 == 0 ==> r.0 == DropInvalid(positions)
  {
    var cleaned := DropInvalid(positions);
    var dropped := |positions.Keys - cleaned.Keys|;
    match net
    case None => (cleaned, 0)
    case Some(es) =>
      var (p2, c2) := SyncAll(cleaned, dropped, es, now);
      SyncKeys(cleaned, dropped, es, now);
      var p3 := Prune(p2, es);
      (p3, c2 + |p2.Keys - p3.Keys|)
  }

  /** Which symbols survive the second pass: the decision for `s` is taken
      by its last non-zero entry, and a symbol the broker never reports
      non-zero is left as it was. */
  lemma {:induction false} SyncKeys(p: map<string, LivePosition>, count: nat, es: seq<BrokerNet>, now: real)
    ensures forall s :: s in SyncAll(p, count, es, now).0 <==>
      (LastNonZero(es, s).Some? ==> LastNonZero(es, s).value.averagePrice > 0.0)
      && (LastNonZero(es, s).None? ==> s in p)
    decreases |es|
  {
    if |es| > 0 {
      var (p1, c1) := SyncEntry(p, count, es[0], now);
      SyncKeys(p1, c1, es[1..], now);
      forall s
        ensures s in SyncAll(p, count, es, now).0 <==>
          (LastNonZero(es, s).Some? ==> LastNonZero(es, s).value.averagePrice > 0.0)
          && (LastNonZero(es, s).None? ==> s in p)
      {
        assert SyncAll(p, count, es, now) == SyncAll(p1, c1, es[1..], now);
      }
    }
  }

  /** The entries the broker reports for one symbol, in order. */
  function EntriesFor(es: seq<BrokerNet>, s: string): (r: seq<BrokerNet>)
    ensures |r| <= |es|
    decreases |es|
  {
    if |es| == 0 then []
    else (if es[0].symbol == s then [es[0]] else []) + EntriesFor(es[1..], s)
  }

  /** Two maps agree on `s`. */
  predicate AgreeOn(a: map<string, LivePosition>, b: map<string, LivePosition>, s: string)
  {
    (s in a <==> s in b) && (s in a ==> a[s] == b[s])
  }

  /** What the sync does to `s` depends only on the broker's entries for
      `s` and on what was tracked for `s`. */
  lemma {:induction false} SyncIsPerSymbol(p: map<string, LivePosition>, q: map<string, LivePosition>,
                                           c: nat, d: nat, es: seq<BrokerNet>, s: string, now: real)
    requires AgreeOn(p, q, s)
    ensures AgreeOn(SyncAll(p, c, es, now).0, SyncAll(q, d, EntriesFor(es, s), now).0, s)
    decreases |es|
  {
    if |es| > 0 {
      var (p1, c1) := SyncEntry(p, c, es[0], now);
      if es[0].symbol == s {
        var (q1, d1) := SyncEntry(q, d, es[0], now);
        assert EntriesFor(es, s) == [es[0]] + EntriesFor(es[1..], s);
        assert EntriesFor(es, s)[1..] == EntriesFor(es[1..], s);
        SyncIsPerSymbol(p1, q1, c1, d1, es[1..], s, now);
      } else {
        assert EntriesFor(es, s) == EntriesFor(es[1..], s);
        SyncIsPerSymbol(p1, q, c1, d, es[1..], s, now);
      }
    }
  }

  /** For a symbol the broker reports once, with a non-zero quantity and a
      positive average: a valid tracked entry whose quantity already matches
      is kept as it is (its own average included); one whose quantity
      differs takes the broker's quantity and average; an untracked symbol
      is added with invested = quantity * average. */
  lemma SyncedEntryValues(positions: map<string, LivePosition>, es: seq<BrokerNet>, e: BrokerNet, now: real)
    requires EntriesFor(es, e.symbol) == [e] && e.quantity != 0 && e.averagePrice > 0.0
    ensures var r := SyncPositions(positions, Some(es), now).0;
      var s := e.symbol;
      && s in r
      && r[s] == EntryOutcome(if s in positions && ValidTracked(positions[s]) then Some(positions[s]) else None, e, now)
  {
    var s := e.symbol;
    var cleaned := DropInvalid(positions);
    var dropped := |positions.Keys - cleaned.Keys|;
    var p2 := SyncAll(cleaned, dropped, es, now).0;
    SyncIsPerSymbol(cleaned, cleaned, dropped, 0, es, s, now);
    assert SyncAll(cleaned, 0, [e], now) == SyncEntry(cleaned, 0, e, now) by {
      assert [e][1..] == [];
    }
    var single := SyncEntry(cleaned, 0, e, now).0;
    assert AgreeOn(p2, single, s);
    EntryOfEntriesFor(es, s, e);
    assert ReportedNonZero(es, s);
    var r := SyncPositions(positions, Some(es), now).0;
    assert r == Prune(p2, es);
    assert s in r && r[s] == p2[s];
    assert single[s] == EntryOutcome(if s in cleaned then Some(cleaned[s]) else None, e, now);
  }

  /** What a valid broker entry leaves tracked for its symbol, given what was
      tracked before: a matching quantity keeps the tracked entry, its own
      average included; a different quantity takes the broker's quantity and
      average; an untracked symbol is added with invested = quantity *
      average. */
  function EntryOutcome(tracked: Option<LivePosition>, e: BrokerNet, now: real): (p: LivePosition)
    ensures tracked.Some? && tracked.value.quantity == e.quantity ==> p == tracked.value
    ensures tracked.Some? && tracked.value.quantity != e.quantity ==>
      p == tracked.value.(quantity := e.quantity, avgPrice := e.averagePrice,
                          invested := e.quantity as real * e.averagePrice)
    ensures tracked.None? ==> p == LivePosition(e.quantity, e.averagePrice, e.quantity as real * e.averagePrice, now)
  {
    match tracked
    case Some(t) =>
      if t.quantity != e.quantity then
        t.(quantity := e.quantity, avgPrice := e.averagePrice, invested := e.quantity as real * e.averagePrice)
      else t
    case None => LivePosition(e.quantity, e.averagePrice, e.quantity as real * e.averagePrice, now)
  }

  lemma {:induction false} EntryOfEntriesFor(es: seq<BrokerNet>, s: string, e: BrokerNet)
    requires e in EntriesFor(es, s)
    ensures exists k :: 0 <= k < |es| && es[k] == e
    decreases |es|
  {
    if es[0] != e {
      assert e in EntriesFor(es[1..], s);
      EntryOfEntriesFor(es[1..], s, e);
      var k :| 0 <= k < |es[1..]| && es[1..][k] == e;
      assert es[k + 1] == e;
    } else {
      assert es[0] == e;
    }
  }
}

=== FILE: market_calendar.dfy ===
/** The NSE market calendar: proleptic Gregorian dates with Python's day
    ordinals (1 January of year 1 is day 1, a Monday), weekends, the 2025
    holiday list plus custom holidays, the next trading day, and the 9:15 to
    15:30 trading session.

    "Today" and the wall-clock time are inputs.
 */
module MarketCalendar {
  import opened Common

  datatype Date = Date(year: int, month: int, day: int)

  predicate IsLeap(y: int)
  {
    y % 4 == 0 && (y % 100 != 0 || y % 400 == 0)
  }

  function DaysInMonth(y: int, m: int): (n: int)
    ensures 28 <= n <= 31
  {
    if m == 2 then (if IsLeap(y) then 29 else 28)
    else if m == 4 || m == 6 || m == 9 || m == 11 then 30
    else 31
  }

  predicate ValidDate(d: Date)
  {
    d.year >= 1 && 1 <= d.month <= 12 && 1 <= d.day <= DaysInMonth(d.year, d.month)
  }

  function DaysInYear(y: int): int
  {
    if IsLeap(y) then 366 else 365
  }

  /** Days in the years before `y`. */
  function DaysBeforeYear(y: int): int
  {
    var p := y - 1;
    p * 365 + p / 4 - p / 100 + p / 400
  }

  /** Days in the months of year `y` before month `m`. */
  function DaysBeforeMonth(y: int, m: int): int
  {
    var before :=
      if m <= 1 then 0 else if m == 2 then 31 else if m == 3 then 59 else if m == 4 then 90
      else if m == 5 then 120 else if m == 6 then 151 else if m == 7 then 181 else if m == 8 then 212
      else if m == 9 then 243 else if m == 10 then 273 else if m == 11 then 304 else 334;
    if m > 2 && IsLeap(y) then before + 1 else before
  }

  /** `date.toordinal()`. */
  function Ordinal(d: Date): int
  {
    DaysBeforeYear(d.year) + DaysBeforeMonth(d.year, d.month) + d.day
  }

  /** `date.weekday()`: Monday is 0 and Sunday is 6. */
  function Weekday(d: Date): (w: int)
    ensures 0 <= w < 7
  {
    (Ordinal(d) + 6) % 7
  }

  /** `date.fromordinal(d.toordinal() + 1)`. */
  function NextDate(d: Date): Date
  {
    if d.day < DaysInMonth(d.year, d.month) then d.(day := d.day + 1)
    else if d.month < 12 then Date(d.year, d.month + 1, 1)
    else Date(d.year + 1, 1, 1)
  }

  /** The date `k` days after `d`. */
  function AddDays(d: Date, k: nat): Date
    decreases k
  {
    if k == 0 then d else AddDays(NextDate(d), k - 1)
  }

  lemma DivStep(p: int)
    requires p >= 0
    ensures (p + 1) / 4 - p / 4 == if (p + 1) % 4 == 0 then 1 else 0
    ensures (p + 1) / 100 - p / 100 == if (p + 1) % 100 == 0 then 1 else 0
    ensures (p + 1) / 400 - p / 400 == if (p + 1) % 400 == 0 then 1 else 0
  {
  }

  /** Consecutive years start 365 days apart, 366 after a leap year. */
  lemma YearLength(y: int)
    requires y >= 1
    ensures DaysBeforeYear(y + 1) == DaysBeforeYear(y) + DaysInYear(y)
  {
    DivStep(y - 1);
    assert DaysBeforeYear(y + 1) - DaysBeforeYear(y)
      == 365 + (y / 4 - (y - 1) / 4) - (y / 100 - (y - 1) / 100) + (y / 400 - (y - 1) / 400);
  }

  /** The next date is a valid date one ordinal later. */
  lemma NextDateOrdinal(d: Date)
    requires ValidDate(d)
    ensures ValidDate(NextDate(d))
    ensures Ordinal(NextDate(d)) == Ordinal(d) + 1
  {
    if d.day == DaysInMonth(d.year, d.month) && d.month == 12 {
      YearLength(d.year);
    }
  }

  lemma {:induction false} AddDaysOrdinal(d: Date, k: nat)
    requires ValidDate(d)
    ensures ValidDate(AddDays(d, k))
    ensures Ordinal(AddDays(d, k)) == Ordinal(d) + k
    decreases k
  {
    if k > 0 {
      NextDateOrdinal(d);
      AddDaysOrdinal(NextDate(d), k - 1);
    }
  }

  /** Consecutive dates fall on consecutive weekdays. */
  lemma NextWeekday(d: Date)
    requires ValidDate(d)
    ensures Weekday(NextDate(d)) == (Weekday(d) + 1) % 7
  {
    NextDateOrdinal(d);
    ModSucc(Ordinal(d) + 6);
  }

  lemma ModSucc(x: int)
    ensures (x + 1) % 7 == (x % 7 + 1) % 7
  {
  }

  lemma WeekdayOf(d: Date, ordinal: int)
    requires Ordinal(d) == ordinal
    ensures Weekday(d) == (ordinal + 6) % 7
  {
  }

  lemma CalendarAnchors()
    ensures Ordinal(Date(1, 1, 1)) == 1 && Weekday(Date(1, 1, 1)) == 0
    ensures Weekday(Date(2025, 1, 1)) == 2
    ensures Weekday(Date(2025, 1, 26)) == 6
  {
    WeekdayOf(Date(1, 1, 1), 1);
    assert DaysBeforeYear(2025) == 739251;
    WeekdayOf(Date(2025, 1, 1), 739252);
    WeekdayOf(Date(2025, 1, 26), 739277);
  }

  /** The exchange's 2025 holidays. */
  const Nse2025: map<Date, string> := map[
    Date(2025, 1, 26) := "Republic Day",
    Date(2025, 3, 14) := "Mahashivratri",
    Date(2025, 3, 31) := "Id-Ul-Fitr (Ramadan Eid)",
    Date(2025, 4, 10) := "Mahavir Jayanti",
    Date(2025, 4, 14) := "Dr. Baba Saheb Ambedkar Jayanti",
    Date(2025, 4, 18) := "Good Friday",
    Date(2025, 5, 1) := "Maharashtra Day",
    Date(2025, 6, 7) := "Bakri Id",
    Date(2025, 8, 15) := "Independence Day",
    Date(2025, 8, 27) := "Ganesh Chaturthi",
    Date(2025, 10, 2) := "Mahatma Gandhi Jayanti",
    Date(2025, 10, 21) := "Dussehra",
    Date(2025, 10, 22) := "Diwali-Laxmi Pujan",
    Date(2025, 10, 23) := "Diwali-Balipratipada",
    Date(2025, 11, 5) := "Guru Nanak Jayanti",
    Date(2025, 12, 25) := "Christmas"]

  datatype Calendar = Calendar(holidays: map<Date, string>)

  function NewCalendar(): (c: Calendar)
    ensures forall d :: IsHoliday(c, d) ==> d.year == 2025
  {
    Calendar(Nse2025)
  }

  predicate IsWeekend(d: Date)
  {
    Weekday(d) >= 5
  }

  predicate IsHoliday(c: Calendar, d: Date)
  {
    d in c.holidays
  }

  /** `is_trading_day`. */
  predicate IsTradingDay(c: Calendar, d: Date)
  {
    !IsWeekend(d) && !IsHoliday(c, d)
  }

  /** `get_holiday_name`: the name, or `None` on an ordinary day. */
  function HolidayName(c: Calendar, d: Date): (r: Option<string>)
    ensures r.Some? <==> IsHoliday(c, d)
    ensures r.Some? ==> r.value == c.holidays[d]
  {
    if d in c.holidays then Some(c.holidays[d]) else None
  }

  /** The loop of `next_trading_day`, having already stepped past `d` with
      `remaining` steps left: the first trading day met, or the date reached
      when the steps run out. */
  function Scan(c: Calendar, d: Date, remaining: nat): (r: Date)
    requires remaining >= 1
    decreases remaining
  {
    var next := NextDate(d);
    if IsTradingDay(c, next) || remaining == 1 then next else Scan(c, next, remaining - 1)
  }

  /** `next_trading_day`: thirty days are searched. */
  function NextTradingDay(c: Calendar, from: Date): Date
  {
    Scan(c, from, 30)
  }

  /** How many days `Scan` steps forward. */
  function ScanOffset(c: Calendar, d: Date, remaining: nat): nat
    requires remaining >= 1
    decreases remaining
  {
    if IsTradingDay(c, NextDate(d)) || remaining == 1 then 1 else 1 + ScanOffset(c, NextDate(d), remaining - 1)
  }

  /** `Scan` returns the first trading day among the next `n` dates, or the
      `n`-th date when there is none. */
  lemma {:induction false} ScanIsFirst(c: Calendar, d: Date, n: nat)
    requires n >= 1
    ensures var k := ScanOffset(c, d, n);
      && 1 <= k <= n && Scan(c, d, n) == AddDays(d, k)
      && (forall j :: 1 <= j < k ==> !IsTradingDay(c, AddDays(d, j)))
      && (IsTradingDay(c, AddDays(d, k)) || k == n)
    decreases n
  {
    var next := NextDate(d);
    assert AddDays(d, 1) == AddDays(next, 0) == next;
    if !(IsTradingDay(c, next) || n == 1) {
      ScanIsFirst(c, next, n - 1);
      var k := ScanOffset(c, next, n - 1);
      assert AddDays(d, k + 1) == AddDays(next, k);
      forall j | 1 <= j < k + 1
        ensures !IsTradingDay(c, AddDays(d, j))
      {
        assert AddDays(d, j) == AddDays(next, j - 1);
      }
    }
  }

  /** The next trading day lies within thirty days after `from`, every date
      strictly between is a non-trading day, and it is a trading day itself
      unless the whole window is closed, when it is `from` plus thirty. */
  lemma NextTradingDayIsFirst(c: Calendar, from: Date)
    requires ValidDate(from)
    ensures var r := NextTradingDay(c, from);
      && Ordinal(from) < Ordinal(r) <= Ordinal(from) + 30
      && (forall j :: 1 <= j < Ordinal(r) - Ordinal(from) ==> !IsTradingDay(c, AddDays(from, j)))
      && (IsTradingDay(c, r) || r == AddDays(from, 30))
  {
    ScanIsFirst(c, from, 30);
    AddDaysOrdinal(from, ScanOffset(c, from, 30));
  }

  /** October 2025 begins on a Wednesday. */
  lemma October2025Weekday(day: int)
    requires 1 <= day <= 31
    ensures Weekday(Date(2025, 10, day)) == (day + 1) % 7
  {
    assert DaysBeforeYear(2025) == 739251;
    WeekdayOf(Date(2025, 10, day), 739524 + day);
  }

  /** Diwali week 2025: from Monday the 20th the next session is Friday the
      24th, and from that Friday it is Monday the 27th. */
  lemma DiwaliWeek()
    ensures NextTradingDay(NewCalendar(), Date(2025, 10, 20)) == Date(2025, 10, 24)
    ensures NextTradingDay(NewCalendar(), Date(2025, 10, 24)) == Date(2025, 10, 27)
  {
    DiwaliHolidays();
    DiwaliWeekend();
  }

  /** The three holidays after Monday the 20th end on Thursday. */
  lemma DiwaliHolidays()
    ensures NextTradingDay(NewCalendar(), Date(2025, 10, 20)) == Date(2025, 10, 24)
  {
    var c := NewCalendar();
    October2025Weekday(24);
    assert IsTradingDay(c, Date(2025, 10, 24));
    assert Scan(c, Date(2025, 10, 23), 27) == Date(2025, 10, 24);
    assert IsHoliday(c, Date(2025, 10, 23));
    assert Scan(c, Date(2025, 10, 22), 28) == Date(2025, 10, 24);
    assert IsHoliday(c, Date(2025, 10, 22));
    assert Scan(c, Date(2025, 10, 21), 29) == Date(2025, 10, 24);
    assert IsHoliday(c, Date(2025, 10, 21));
  }

  /** Friday the 24th is followed by a weekend. */
  lemma DiwaliWeekend()
    ensures NextTradingDay(NewCalendar(), Date(2025, 10, 24)) == Date(2025, 10, 27)
  {
    var c := NewCalendar();
    October2025Weekday(25);
    October2025Weekday(26);
    October2025Weekday(27);
    assert IsTradingDay(c, Date(2025, 10, 27));
    assert Scan(c, Date(2025, 10, 26), 28) == Date(2025, 10, 27);
    assert Scan(c, Date(2025, 10, 25), 29) == Date(2025, 10, 27);
  }

  /** The session runs from 9:15 to 15:30 inclusive, in minutes of the day. */
  const MarketOpenMinute: int := 9 * 60 + 15
  const MarketCloseMinute: int := 15 * 60 + 30

  predicate InSessionHours(hour: int, minute: int)
  {
    MarketOpenMinute <= hour * 60 + minute <= MarketCloseMinute
  }

  datatype MarketStatus = MarketStatus(
    isTradingDay: bool, isWeekend: bool, isHoliday: bool, holidayName: Option<string>,
    isMarketHours: bool, nextTradingDay: Option<Date>)

  /** `get_market_status` at the given date and time of day. */
  function Status(c: Calendar, today: Date, hour: int, minute: int): (s: MarketStatus)
    ensures s.isMarketHours <==> IsTradingDay(c, today) && 555 <= hour * 60 + minute <= 930
    ensures s.isWeekend <==> Weekday(today) >= 5
    ensures s.isHoliday <==> today in c.holidays
    ensures s.isTradingDay <==> !s.isWeekend && !s.isHoliday
    ensures s.isHoliday <==> s.holidayName.Some?
    ensures s.isHoliday ==> s.holidayName == Some(c.holidays[today])
    ensures s.nextTradingDay.Some? <==> !s.isTradingDay
    ensures !s.isTradingDay ==> s.nextTradingDay == Some(NextTradingDay(c, today))
  {
    var trading := IsTradingDay(c, today);
    MarketStatus(trading, IsWeekend(today), IsHoliday(c, today), HolidayName(c, today),
                 InSessionHours(hour, minute) && trading,
                 if trading then None else Some(NextTradingDay(c, today)))
  }

  /** Why trading is or is not active. */
  datatype Reason =
    | WeekendClosed(next: Date)
    | HolidayClosed(name: string, next: Date)
    | OutsideHours
    | Open

  /** `should_trade_now`. */
  function ShouldTradeNow(c: Calendar, today: Date, hour: int, minute: int): (r: (bool, Reason))
    ensures r.0 <==> IsTradingDay(c, today) && 555 <= hour * 60 + minute <= 930
    ensures r.0 <==> r.1 == Open
    ensures IsWeekend(today) ==> r.1 == WeekendClosed(NextTradingDay(c, today))
    ensures !IsWeekend(today) && IsHoliday(c, today) ==>
      r.1 == HolidayClosed(c.holidays[today], NextTradingDay(c, today))
    ensures IsTradingDay(c, today) && !r.0 ==> r.1 == OutsideHours
  {
    var s := Status(c, today, hour, minute);
    if !s.isTradingDay && s.isWeekend then (false, WeekendClosed(s.nextTradingDay.value))
    else if !s.isTradingDay && s.isHoliday then (false, HolidayClosed(s.holidayName.value, s.nextTradingDay.value))
    else if !s.isMarketHours then (false, OutsideHours)
    else (true, Open)
  }

  /** `add_custom_holiday`: the date becomes a named holiday and no trading
      day, and no other date changes. */
  function AddCustomHoliday(c: Calendar, d: Date, name: string): (r: Calendar)
    ensures IsHoliday(r, d) && HolidayName(r, d) == Some(name) && !IsTradingDay(r, d)
    ensures forall x :: x != d ==> HolidayName(r, x) == HolidayName(c, x)
    ensures forall x :: x != d ==> (IsTradingDay(r, x) <==> IsTradingDay(c, x))
  {
    Calendar(c.holidays[d := name])
  }

  /** `get_all_holidays(year)`: exactly the holidays of that year. */
  function HolidaysOfYear(c: Calendar, year: int): (r: map<Date, string>)
    ensures forall d :: d in r <==> d in c.holidays && d.year == year
    ensures forall d :: d in r ==> r[d] == c.holidays[d]
  {
    map d | d in c.holidays && d.year == year :: c.holidays[d]
  }

  /** Every 2025 holiday belongs to 2025, and none to 2024. */
  lemma HolidaysOf2025()
    ensures HolidaysOfYear(NewCalendar(), 2025) == Nse2025
    ensures HolidaysOfYear(NewCalendar(), 2024) == map[]
  {
    var c := NewCalendar();
    OneYearCalendar(c, 2025, 2024);
  }

  /** A calendar whose holidays all fall in `year` lists them all for that
      year and none for any other. */
  lemma OneYearCalendar(c: Calendar, year: int, other: int)
    requires forall d :: IsHoliday(c, d) ==> d.year == year
    requires other != year
    ensures HolidaysOfYear(c, year) == c.holidays
    ensures HolidaysOfYear(c, other) == map[]
  {
    assert HolidaysOfYear(c, year).Keys == c.holidays.Keys;
    assert HolidaysOfYear(c, other).Keys == {};
  }
}

=== FILE: order_manager.dfy ===
/** The order manager: places an order, polls the broker until the order
    settles, and keeps the active / history / failed bookkeeping.

    Broker replies are inputs: the result of placing the order, and for the
    k-th poll the clock reading before it (`clock(k)`) and the order record
    the broker returned (`poll(k)`, `None` when the order was not found or the
    fetch failed, which the source swallows).
 */
module OrderManagement {
  import opened Common

  const StatusComplete := "COMPLETE"
  const StatusRejected := "REJECTED"
  const StatusCancelled := "CANCELLED"
  const UnknownReason := "Unknown reason"

  datatype OrderStatus = Pending | OpenOrder | Complete | RejectedOrder | Cancelled | Failed | Unknown

  datatype OrderRequest = OrderRequest(
    symbol: string, transactionType: string, quantity: int,
    orderType: string, product: string, price: Option<real>)

  datatype OrderInfo = OrderInfo(orderId: string, request: OrderRequest, placedAt: real, status: OrderStatus)

  /** The fields of a broker order record the manager reads; a missing key is
      `None`. */
  datatype BrokerOrder = BrokerOrder(
    status: Option<string>, filledQuantity: Option<int>,
    averagePrice: Option<real>, statusMessage: Option<string>)

  datatype Fill = Fill(orderId: string, filledQuantity: int, averagePrice: real)

  datatype TimeoutReason = ElapsedLimit | AttemptsExhausted

  datatype WaitOutcome =
    | Completed(fill: Fill)
    | Rejected(status: string, reason: string)
    | TimedOut(why: TimeoutReason)

  /** `status` with the source's default. */
  function StatusOf(o: BrokerOrder): string { o.status.GetOr("UNKNOWN") }

  /** A poll reply that ends the waiting: a record whose status is COMPLETE,
      REJECTED or CANCELLED. Anything else (no record, PENDING, OPEN,
      TRIGGER PENDING or an unknown status) costs one attempt. */
  predicate Settles(p: Option<BrokerOrder>)
  {
    p.Some? && StatusOf(p.value) in {StatusComplete, StatusRejected, StatusCancelled}
  }

  /** The message of the OrderRejectedError raised for a rejection. */
  function RejectionMessage(orderId: string, status: string, reason: string): (msg: string)
    ensures |msg| > |reason| && msg[|msg| - |reason|..] == reason
  {
    "Order " + orderId + " " + status + ": " + reason
  }

  /** The index of the first poll that settles the order while the wait is
      still within budget (fewer than `maxPollAttempts` polls, elapsed time
      not past `orderTimeout`), looking from poll `k` on; `None` when the
      budget runs out first. */
  function FirstSettled(maxPollAttempts: int, orderTimeout: real, start: real,
                        clock: nat -> real, poll: nat -> Option<BrokerOrder>, k: nat): (r: Option<nat>)
    ensures r.Some? ==>
      && k <= r.value < maxPollAttempts
      && Settles(poll(r.value)) && clock(r.value) - start <= orderTimeout
      && forall j :: k <= j < r.value ==> !Settles(poll(j)) && clock(j) - start <= orderTimeout
    decreases maxPollAttempts - k
  {
    if k >= maxPollAttempts || clock(k) - start > orderTimeout then None
    else if Settles(poll(k)) then Some(k)
    else FirstSettled(maxPollAttempts, orderTimeout, start, clock, poll, k + 1)
  }

  /** Polls until the order settles, the elapsed time strictly exceeds
      `orderTimeout`, or `maxPollAttempts` polls went unanswered. */
  method WaitForCompletion(orderId: string, maxPollAttempts: int, orderTimeout: real, start: real,
                           clock: nat -> real, poll: nat -> Option<BrokerOrder>)
    returns (outcome: WaitOutcome, polls: nat)
    ensures polls <= MaxInt(maxPollAttempts, 0)
    ensures forall k :: 0 <= k < polls ==> clock(k) - start <= orderTimeout
    ensures outcome.TimedOut? ==> forall k :: 0 <= k < polls ==> !Settles(poll(k))
    ensures !outcome.TimedOut? ==>
      polls >= 1 && Settles(poll(polls - 1)) && forall k :: 0 <= k < polls - 1 ==> !Settles(poll(k))
    ensures outcome.Completed? ==>
      var o := poll(polls - 1).value;
      StatusOf(o) == StatusComplete
      && outcome.fill == Fill(orderId, o.filledQuantity.GetOr(0), o.averagePrice.GetOr(0.0))
    ensures outcome.Rejected? ==>
      var o := poll(polls - 1).value;
      outcome.status == StatusOf(o) && outcome.status in {StatusRejected, StatusCancelled}
      && outcome.reason == o.statusMessage.GetOr(UnknownReason)
    ensures outcome == TimedOut(ElapsedLimit) ==> polls < maxPollAttempts && clock(polls) - start > orderTimeout
    ensures outcome == TimedOut(AttemptsExhausted) ==> polls == MaxInt(maxPollAttempts, 0)
    ensures outcome.TimedOut? <==> FirstSettled(maxPollAttempts, orderTimeout, start, clock, poll, 0).None?
    ensures !outcome.TimedOut? ==> FirstSettled(maxPollAttempts, orderTimeout, start, clock, poll, 0) == Some(polls - 1)
  {
    var attempts: nat := 0;
    while attempts < maxPollAttempts
      invariant attempts <= MaxInt(maxPollAttempts, 0)
      invariant FirstSettled(maxPollAttempts, orderTimeout, start, clock, poll, 0)
             == FirstSettled(maxPollAttempts, orderTimeout, start, clock, poll, attempts)
      invariant forall k :: 0 <= k < attempts ==> clock(k) - start <= orderTimeout
      invariant forall k :: 0 <= k < attempts ==> !Settles(poll(k))
      decreases maxPollAttempts - attempts
    {
      ghost var first := FirstSettled(maxPollAttempts, orderTimeout, start, clock, poll, attempts);
      if clock(attempts) - start > orderTimeout {
        assert first.None?;
        return TimedOut(ElapsedLimit), attempts;
      }
      var reply := poll(attempts);
      if reply.Some? {
        var status := StatusOf(reply.value);
        if status == StatusComplete {
          assert first == Some(attempts);
          var o := reply.value;
          return Completed(Fill(orderId, o.filledQuantity.GetOr(0), o.averagePrice.GetOr(0.0))), attempts + 1;
        } else if status == StatusRejected || status == StatusCancelled {
          assert first == Some(attempts);
          return Rejected(status, reply.value.statusMessage.GetOr(UnknownReason)), attempts + 1;
        }
      }
      assert first == FirstSettled(maxPollAttempts, orderTimeout, start, clock, poll, attempts + 1);
      attempts := attempts + 1;
    }
    return TimedOut(AttemptsExhausted), attempts;
  }

  /** A completed order as kept in the history: what was placed and how it
      was filled. */
  datatype HistoryEntry = HistoryEntry(info: OrderInfo, fill: Fill)

  datatype Manager = Manager(
    orderTimeout: real,
    pollInterval: real,
    maxPollAttempts: int,
    active: map<string, OrderInfo>,
    history: seq<HistoryEntry>,
    failed: seq<OrderInfo>)

  function NewManager(orderTimeout: real, pollInterval: real, maxPollAttempts: int): (m: Manager)
    ensures m.active == map[] && m.history == [] && m.failed == []
  {
    Manager(orderTimeout, pollInterval, maxPollAttempts, map[], [], [])
  }

  /** What `_place_order` gave back: an order id (possibly empty), or the
      exception that survived its retries. */
  datatype PlaceReply = PlacedAs(orderId: string) | PlacementRaised(message: string)

  datatype PlaceOutcome =
    | Executed(fill: Fill)
    | NotPlaced(symbol: string)          // OrderError: the broker gave no id
    | PlacementError(message: string)    // the placement exception, propagated
    | OrderRejected(status: string, reason: string)
    | OrderTimedOut(why: TimeoutReason)

  /** Registers a freshly placed order as active and PENDING. */
  function Track(m: Manager, info: OrderInfo): (r: Manager)
    ensures info.orderId in r.active && r.active[info.orderId] == info
    ensures r.history == m.history && r.failed == m.failed
    ensures forall id :: id in m.active && id != info.orderId ==> id in r.active && r.active[id] == m.active[id]
  {
    m.(active := m.active[info.orderId := info])
  }

  /** The `finally` clause: the order is no longer active. */
  function Untrack(m: Manager, orderId: string): (r: Manager)
    ensures orderId !in r.active
    ensures r.history == m.history && r.failed == m.failed
    ensures forall id :: id in m.active && id != orderId ==> id in r.active && r.active[id] == m.active[id]
  {
    m.(active := m.active - {orderId})
  }

  /** Tracking an order and untracking it again leaves the other active
      orders exactly as they were. */
  lemma TrackThenUntrack(m: Manager, info: OrderInfo)
    ensures Untrack(Track(m, info), info.orderId).active == m.active - {info.orderId}
  {
  }

  /** Places an order and waits for it to settle. Returns the manager, what
      the caller sees, and whether a cancellation was sent to the broker. */
  method PlaceAndVerify(m: Manager, req: OrderRequest, reply: PlaceReply, now: real,
                        clock: nat -> real, poll: nat -> Option<BrokerOrder>)
    returns (r: Manager, outcome: PlaceOutcome, cancelSent: bool)
    ensures reply.PlacementRaised? ==> r == m && outcome == PlacementError(reply.message) && !cancelSent
    ensures reply == PlacedAs("") ==> r == m && outcome == NotPlaced(req.symbol) && !cancelSent
    ensures reply.PlacedAs? && reply.orderId != "" ==>
      var id := reply.orderId;
      var info := OrderInfo(id, req, now, Pending);
      && r.active == m.active - {id}
      && r.orderTimeout == m.orderTimeout && r.maxPollAttempts == m.maxPollAttempts
      && (outcome.Executed? ==>
            r.history == m.history + [HistoryEntry(info, outcome.fill)] && r.failed == m.failed
            && outcome.fill.orderId == id && !cancelSent)
      && (outcome.OrderRejected? ==>
            r.history == m.history && r.failed == m.failed + [info] && !cancelSent)
      && (outcome.OrderTimedOut? ==>
            r.history == m.history && r.failed == m.failed + [info] && cancelSent)
      && (outcome.Executed? || outcome.OrderRejected? || outcome.OrderTimedOut?)
    ensures reply.PlacedAs? && reply.orderId != "" ==>
      match FirstSettled(m.maxPollAttempts, m.orderTimeout, clock(0), clock, poll, 0)
      case None => outcome.OrderTimedOut?
      case Some(n) =>
        var o := poll(n).value;
        && (StatusOf(o) == StatusComplete ==>
              outcome == Executed(Fill(reply.orderId, o.filledQuantity.GetOr(0), o.averagePrice.GetOr(0.0))))
        && (StatusOf(o) != StatusComplete ==>
              outcome == OrderRejected(StatusOf(o), o.statusMessage.GetOr(UnknownReason)))
  {
    match reply {
      case PlacementRaised(msg) =>
        return m, PlacementError(msg), false;
      case PlacedAs(id) =>
        if id == "" {
          return m, NotPlaced(req.symbol), false;
        }
        var info := OrderInfo(id, req, now, Pending);
        var tracked := Track(m, info);
        var waited, _ := WaitForCompletion(id, m.maxPollAttempts, m.orderTimeout, clock(0), clock, poll);
        match waited {
          case Completed(fill) =>
            r := tracked.(history := tracked.history + [HistoryEntry(info, fill)]);
            outcome := Executed(fill);
            cancelSent := false;
          case Rejected(status, reason) =>
            r := tracked.(failed := tracked.failed + [info]);
            outcome := OrderRejected(status, reason);
            cancelSent := false;
          case TimedOut(why) =>
            r := tracked.(failed := tracked.failed + [info]);
            outcome := OrderTimedOut(why);
            cancelSent := true;
        }
        r := Untrack(r, id);
    }
  }

  /** `get_order_history(limit)`: `history[-limit:]`. */
  function GetOrderHistory(m: Manager, limit: int): (r: seq<HistoryEntry>)
    ensures 0 < limit <= |m.history| ==> |r| == limit
    ensures limit == 0 || limit >= |m.history| ==> r == m.history
    ensures |r| <= |m.history| && r == m.history[|m.history| - |r|..]
  {
    PySuffix(m.history, limit)
  }

  /** The figures `get_stats` reports (success rate before rounding). */
  datatype Stats = Stats(totalOrders: int, successfulOrders: int, failedOrders: int, successRate: real, activeOrders: nat)

  /** `get_stats` as written: the total is the length of the history, which
      holds only executed orders, and the failed orders are then subtracted
      from it a second time. */
  function GetStatsAsWritten(m: Manager): (s: Stats)
    ensures s.totalOrders == |m.history| && s.failedOrders == |m.failed|
    ensures s.successfulOrders + s.failedOrders == s.totalOrders
  {
    var total := |m.history|;
    var failed := |m.failed|;
    Stats(total, total - failed, failed,
          if total > 0 then (total - failed) as real / total as real * 100.0 else 0.0,
          |m.active|)
  }

  /** One rejected order and nothing else: the statistics as written report
      minus one successful order. */
  lemma StatsAsWrittenGoNegative(info: OrderInfo)
    ensures var m := NewManager(30.0, 1.0, 30).(failed := [info]);
      GetStatsAsWritten(m).successfulOrders == -1
  {
  }

  /** `get_stats` with the evidently intended counting: every settled order
      is either in the history (executed) or among the failed ones. */
  function GetStats(m: Manager): (s: Stats)
    ensures s.successfulOrders == |m.history| && s.failedOrders == |m.failed|
    ensures s.totalOrders == s.successfulOrders + s.failedOrders
    ensures 0.0 <= s.successRate <= 100.0
    ensures s.totalOrders > 0 ==> s.successRate * s.totalOrders as real == s.successfulOrders as real * 100.0
    ensures s.activeOrders == |m.active|
  {
    var total := |m.history| + |m.failed|;
    var ok := |m.history|;
    Stats(total, ok, |m.failed|, SuccessRate(ok, total), |m.active|)
  }

  /** `ok / total * 100`, or 0 with no orders at all. */
  function SuccessRate(ok: nat, total: nat): (p: real)
    requires ok <= total
    ensures 0.0 <= p <= 100.0
    ensures total > 0 ==> p * total as real == ok as real * 100.0
  {
    if total == 0 then 0.0
    else
      var q := ok as real / total as real;
      QuotientBounds(ok as real, total as real);
      assert (q * 100.0) * total as real == (q * total as real) * 100.0;
      q * 100.0
  }
}

=== FILE: paper_trader.dfy ===
/** The paper trader: a simulated cash-and-position ledger that fills every
    order at the given price, charges a flat 20 per order, measures realised
    P&L against a position's first entry price, and closes every position at
    the end of the day.

    The clock (`now` in seconds and the calendar day it falls on) is an
    input; saving and loading the ledger as JSON is left out.
 */
module PaperTrading {
  import opened Common
  import opened Dicts

  const Brokerage: real := 20.0

  datatype Clock = Clock(now: real, day: string)

  datatype PaperPosition = PaperPosition(
    quantity: int, avgPrice: real, invested: real, entryTime: real, entryPrice: real)

  datatype ClosedPosition = ClosedPosition(
    symbol: string, entryPrice: real, exitPrice: real, quantity: int, pnl: real, pnlPct: real,
    holdingMinutes: real, entryTime: real, exitTime: real)

  datatype TradeRecord = TradeRecord(
    time: real, day: string, symbol: string, side: Side, quantity: int, price: real, value: real,
    pnl: Option<real>, capitalAfter: real, portfolioValue: real)

  datatype DailyStat = DailyStat(
    date: string, startingCapital: real, endingCapital: real, pnl: real,
    trades: nat, wins: nat, losses: nat, winRate: real)

  // ------------------------------------------------------ the position book

  /** Open positions in insertion order, as the source's dictionary keeps
      them. */
  type Book = Dict<PaperPosition>

  // ------------------------------------------------------------ the ledger

  datatype Ledger = Ledger(
    initialCapital: real,
    currentCapital: real,
    available: real,
    positions: Book,
    closed: seq<ClosedPosition>,
    history: seq<TradeRecord>,
    dailyPnl: map<string, real>,
    dailyStats: seq<DailyStat>,
    totalTrades: nat,
    winning: nat,
    losing: nat,
    totalProfit: real,
    totalLoss: real)

  /** A fresh ledger (no saved session). */
  function NewLedger(initialCapital: real): (l: Ledger)
    ensures Valid(l) && l.available == initialCapital && l.positions == []
  {
    Ledger(initialCapital, initialCapital, initialCapital, [], [], [], map[], [], 0, 0, 0, 0.0, 0.0)
  }

  /** What the ledger keeps true: one entry per symbol, every sell counted
      once as a win or a loss, and non-negative profit and loss totals. */
  predicate Valid(l: Ledger)
  {
    && KeysDistinct(l.positions)
    && l.winning + l.losing == l.totalTrades
    && l.totalProfit >= 0.0 && l.totalLoss >= 0.0
  }

  /** The market value of the open positions, each at the given price or
      else at its average price. */
  function PositionsValue(b: Book, prices: map<string, real>): real
  {
    if |b| == 0 then 0.0
    else
      var price := if b[0].0 in prices then prices[b[0].0] else b[0].1.avgPrice;
      b[0].1.quantity as real * price + PositionsValue(b[1..], prices)
  }

  /** `get_portfolio_value`: cash plus positions. */
  function PortfolioValue(l: Ledger, prices: map<string, real>): (v: real)
    ensures l.positions == [] ==> v == l.available
  {
    l.available + PositionsValue(l.positions, prices)
  }

  /** With no prices given, positions are worth what was paid for them. */
  lemma {:induction false} PositionsAtAverage(b: Book)
    requires forall i :: 0 <= i < |b| ==> b[i].1.invested == b[i].1.quantity as real * b[i].1.avgPrice
    ensures PositionsValue(b, map[]) == SumInvested(b)
  {
    if |b| > 0 {
      assert forall i :: 0 <= i < |b[1..]| ==> b[1..][i] == b[i + 1];
      PositionsAtAverage(b[1..]);
    }
  }

  function SumInvested(b: Book): real
  {
    if |b| == 0 then 0.0 else b[0].1.invested + SumInvested(b[1..])
  }

  // ------------------------------------------------------------ orders

  datatype Rejection = InsufficientCapital | NoPosition | InsufficientQuantity

  /** The order's fate. `Raised` is the ZeroDivisionError the source lets
      escape after it has already moved the cash. */
  datatype OrderResult =
    | Rejected(reason: Rejection)
    | Complete(symbol: string, side: Side, quantity: int, price: real)
    | Raised

  /** The day's P&L entry is created on first use. */
  function TouchDay(m: map<string, real>, day: string, pnl: real): (r: map<string, real>)
    ensures day in r && r[day] == (if day in m then m[day] else 0.0) + pnl
    ensures forall d :: d != day ==> (d in r <==> d in m) && (d in m ==> r[d] == m[d])
  {
    m[day := (if day in m then m[day] else 0.0) + pnl]
  }

  /** The position after buying `quantity` more at `price`; `None` when the
      new quantity is zero and averaging divides by zero. */
  function AddToPosition(existing: Option<PaperPosition>, quantity: int, price: real, now: real): (r: Option<PaperPosition>)
    ensures existing.None? ==> r == Some(PaperPosition(quantity, price, quantity as real * price, now, price))
    ensures existing.Some? ==> (r.None? <==> existing.value.quantity + quantity == 0)
    ensures existing.Some? && r.Some? ==>
      var p := existing.value;
      && r.value.quantity == p.quantity + quantity
      && r.value.avgPrice * r.value.quantity as real == p.quantity as real * p.avgPrice + quantity as real * price
      && r.value.invested == p.invested + quantity as real * price
      && r.value.entryTime == p.entryTime && r.value.entryPrice == p.entryPrice
  {
    match existing
    case None => Some(PaperPosition(quantity, price, quantity as real * price, now, price))
    case Some(p) =>
      var newQty := p.quantity + quantity;
      if newQty == 0 then None
      else
        var total := p.quantity as real * p.avgPrice + quantity as real * price;
        DivideThenScale(total, newQty as real);
        Some(p.(quantity := newQty, avgPrice := total / newQty as real, invested := p.invested + quantity as real * price))
  }

  lemma DivideThenScale(x: real, q: real)
    requires q != 0.0
    ensures x / q * q == x
  {
  }

  /** The counters and logs a buy leaves alone. */
  predicate SameTallies(a: Ledger, b: Ledger)
  {
    && a.totalTrades == b.totalTrades && a.winning == b.winning && a.losing == b.losing
    && a.totalProfit == b.totalProfit && a.totalLoss == b.totalLoss && a.closed == b.closed
  }

  /** The BUY branch of `execute_order`. */
  function Buy(l: Ledger, symbol: string, quantity: int, price: real, clock: Clock): (r: (Ledger, OrderResult))
    ensures r.1 == Rejected(InsufficientCapital) <==> quantity as real * price + Brokerage > l.available
    ensures r.1.Rejected? ==> r.0 == l
    ensures !r.1.Rejected? ==> r.0.available == l.available - (quantity as real * price + Brokerage)
    ensures r.1.Raised? <==> !r.1.Rejected? && AddToPosition(Lookup(l.positions, symbol), quantity, price, clock.now).None?
    ensures r.1.Raised? ==> r.0 == l.(available := r.0.available)
    ensures r.1.Complete? ==>
      && r.1 == Complete(symbol, Side.Buy, quantity, price)
      && Lookup(r.0.positions, symbol) == AddToPosition(Lookup(l.positions, symbol), quantity, price, clock.now)
      && SameTallies(r.0, l)
      && r.0.dailyPnl == TouchDay(l.dailyPnl, clock.day, 0.0)
      && |r.0.history| == |l.history| + 1 && r.0.history[..|l.history|] == l.history
      && r.0.history[|l.history|].side == Side.Buy
    ensures forall t :: t != symbol ==> Lookup(r.0.positions, t) == Lookup(l.positions, t)
    ensures KeysDistinct(l.positions) ==> KeysDistinct(r.0.positions)
    ensures r.0.currentCapital == l.currentCapital && r.0.initialCapital == l.initialCapital
    ensures r.0.dailyStats == l.dailyStats
  {
    var value := quantity as real * price;
    var required := value + Brokerage;
    if required > l.available then (l, Rejected(InsufficientCapital))
    else
      var available := l.available - required;
      match AddToPosition(Lookup(l.positions, symbol), quantity, price, clock.now)
      case None => (l.(available := available), Raised)
      case Some(p) =>
        var l1 := l.(available := available, positions := Put(l.positions, symbol, p));
        var record := TradeRecord(clock.now, clock.day, symbol, Side.Buy, quantity, price, value, None,
                                  available, PortfolioValue(l1, map[symbol := price]));
        var history := l.history + [record];
        assert history[..|l.history|] == l.history;
        (l1.(history := history, dailyPnl := TouchDay(l.dailyPnl, clock.day, 0.0)),
         Complete(symbol, Side.Buy, quantity, price))
  }

  /** The realised P&L of a sell, against the first entry price. */
  function RealisedPnl(p: PaperPosition, quantity: int, price: real): real
  {
    (price - p.entryPrice) * quantity as real
  }

  /** The tallies after a sell that realised `pnl`: one more trade, counted
      as a win when the P&L is positive and as a loss otherwise. */
  function Tally(l: Ledger, pnl: real): (r: Ledger)
    ensures r.totalTrades == l.totalTrades + 1
    ensures pnl > 0.0 ==>
      r.winning == l.winning + 1 && r.losing == l.losing && r.totalProfit == l.totalProfit + pnl && r.totalLoss == l.totalLoss
    ensures pnl <= 0.0 ==>
      r.losing == l.losing + 1 && r.winning == l.winning && r.totalLoss == l.totalLoss - pnl && r.totalProfit == l.totalProfit
    ensures r == l.(totalTrades := r.totalTrades, winning := r.winning, losing := r.losing,
                    totalProfit := r.totalProfit, totalLoss := r.totalLoss)
  {
    if pnl > 0.0 then
      l.(totalTrades := l.totalTrades + 1, winning := l.winning + 1, totalProfit := l.totalProfit + pnl)
    else
      l.(totalTrades := l.totalTrades + 1, losing := l.losing + 1, totalLoss := l.totalLoss + Abs(pnl))
  }

  /** What a sell of `quantity` of the held position `p` at `price` does to
      the ledger: the P&L against the entry price is tallied as a win or a
      loss, a full sell moves the position to the closed list and a partial
      one reduces it, and the day's P&L and the history record the trade. */
  predicate SoldFrom(l: Ledger, r: Ledger, symbol: string, p: PaperPosition, quantity: int, price: real, day: string)
  {
    var pnl := RealisedPnl(p, quantity, price);
    && (p.quantity == quantity ==> |r.closed| == |l.closed| + 1 && r.closed[|l.closed|].pnl == pnl)
    && (KeysDistinct(l.positions) ==> (p.quantity == quantity <==> Lookup(r.positions, symbol).None?))
    && (p.quantity != quantity ==>
          r.closed == l.closed && Lookup(r.positions, symbol) == Some(p.(quantity := p.quantity - quantity)))
    && r.totalTrades == l.totalTrades + 1
    && (pnl > 0.0 ==> r.winning == l.winning + 1 && r.losing == l.losing && r.totalProfit == l.totalProfit + pnl)
    && (pnl <= 0.0 ==> r.losing == l.losing + 1 && r.winning == l.winning && r.totalLoss == l.totalLoss - pnl)
    && r.dailyPnl == TouchDay(l.dailyPnl, day, pnl)
    && |r.history| == |l.history| + 1 && r.history[..|l.history|] == l.history
    && r.history[|l.history|].pnl == Some(pnl)
  }

  /** The SELL branch of `execute_order`. */
  function Sell(l: Ledger, symbol: string, quantity: int, price: real, clock: Clock): (r: (Ledger, OrderResult))
    ensures r.1 == Rejected(NoPosition) <==> Lookup(l.positions, symbol).None?
    ensures r.1 == Rejected(InsufficientQuantity) <==>
      Lookup(l.positions, symbol).Some? && quantity > Lookup(l.positions, symbol).value.quantity
    ensures r.1.Rejected? ==> r.0 == l
    ensures !r.1.Rejected? ==> r.0.available == l.available + (quantity as real * price - Brokerage)
    ensures r.1.Raised? <==> !r.1.Rejected? && Lookup(l.positions, symbol).value.entryPrice == 0.0
    ensures r.1.Raised? ==> r.0 == l.(available := r.0.available)
    ensures r.1.Complete? ==>
      r.1 == Complete(symbol, Side.Sell, quantity, price) &&
      SoldFrom(l, r.0, symbol, Lookup(l.positions, symbol).value, quantity, price, clock.day)
    ensures forall t :: t != symbol ==> Lookup(r.0.positions, t) == Lookup(l.positions, t)
    ensures KeysDistinct(l.positions) ==> KeysDistinct(r.0.positions)
    ensures r.0.currentCapital == l.currentCapital && r.0.initialCapital == l.initialCapital
    ensures r.0.dailyStats == l.dailyStats
  {
    match Lookup(l.positions, symbol)
    case None => (l, Rejected(NoPosition))
    case Some(p) =>
      if quantity > p.quantity then (l, Rejected(InsufficientQuantity))
      else
        var value := quantity as real * price;
        var available := l.available + (value - Brokerage);
        if p.entryPrice == 0.0 then (l.(available := available), Raised)
        else
          (SellHeld(l, symbol, p, quantity, price, clock), Complete(symbol, Side.Sell, quantity, price))
  }

  /** A sell that goes through: the cash comes in, the P&L against the
      entry price is tallied, the position is reduced or closed, and the
      trade is logged. */
  function SellHeld(l: Ledger, symbol: string, p: PaperPosition, quantity: int, price: real, clock: Clock)
    : (r: Ledger)
    requires Lookup(l.positions, symbol) == Some(p) && quantity <= p.quantity && p.entryPrice != 0.0
    ensures r.available == l.available + (quantity as real * price - Brokerage)
    ensures SoldFrom(l, r, symbol, p, quantity, price, clock.day)
    ensures forall t :: t != symbol ==> Lookup(r.positions, t) == Lookup(l.positions, t)
    ensures KeysDistinct(l.positions) ==> KeysDistinct(r.positions)
    ensures r.currentCapital == l.currentCapital && r.initialCapital == l.initialCapital
    ensures r.dailyStats == l.dailyStats
  {
    var value := quantity as real * price;
    var available := l.available + (value - Brokerage);
    var pnl := RealisedPnl(p, quantity, price);
    var pnlPct := (price - p.entryPrice) / p.entryPrice * 100.0;
    var l1 := Tally(l.(available := available), pnl);
    var l2 := Settle(l1, symbol, p, quantity, price, pnl, pnlPct, clock);
    var record := TradeRecord(clock.now, clock.day, symbol, Side.Sell, quantity, price, value - Brokerage,
                              Some(pnl), available, PortfolioValue(l2, map[symbol := price]));
    var history := l.history + [record];
    assert history[..|l.history|] == l.history;
    var r := l2.(history := history, dailyPnl := TouchDay(l.dailyPnl, clock.day, pnl));
    assert r.positions == l2.positions && r.closed == l2.closed;
    assert r.totalTrades == l1.totalTrades && r.winning == l1.winning && r.losing == l1.losing;
    assert r.totalProfit == l1.totalProfit && r.totalLoss == l1.totalLoss;
    assert r.available == available;
    r
  }

  /** The position after selling `quantity` of `p`: reduced, or deleted and
      logged as closed when nothing is left. */
  function Settle(l: Ledger, symbol: string, p: PaperPosition, quantity: int, price: real, pnl: real, pnlPct: real,
                  clock: Clock): (r: Ledger)
    requires Lookup(l.positions, symbol) == Some(p)
    ensures p.quantity == quantity ==> |r.closed| == |l.closed| + 1 && r.closed[|l.closed|].pnl == pnl
    ensures KeysDistinct(l.positions) ==> (p.quantity == quantity <==> Lookup(r.positions, symbol).None?)
    ensures p.quantity != quantity ==>
      r.closed == l.closed && Lookup(r.positions, symbol) == Some(p.(quantity := p.quantity - quantity))
    ensures forall t :: t != symbol ==> Lookup(r.positions, t) == Lookup(l.positions, t)
    ensures KeysDistinct(l.positions) ==> KeysDistinct(r.positions)
    ensures r == l.(positions := r.positions, closed := r.closed)
  {
    var left := p.quantity - quantity;
    if left == 0 then
      l.(positions := Remove(l.positions, symbol),
         closed := l.closed + [ClosedPosition(symbol, p.entryPrice, price, quantity, pnl, pnlPct,
                                              (clock.now - p.entryTime) / 60.0, p.entryTime, clock.now)])
    else
      l.(positions := Put(l.positions, symbol, p.(quantity := left)))
  }

  /** `execute_order`. */
  function ExecuteOrder(l: Ledger, symbol: string, side: Side, quantity: int, price: real, clock: Clock)
    : (Ledger, OrderResult)
  {
    if side == Side.Buy then Buy(l, symbol, quantity, price, clock) else Sell(l, symbol, quantity, price, clock)
  }

  /** Every order keeps the ledger valid. */
  lemma ExecutePreservesValid(l: Ledger, symbol: string, side: Side, quantity: int, price: real, clock: Clock)
    requires Valid(l)
    ensures Valid(ExecuteOrder(l, symbol, side, quantity, price, clock).0)
  {
  }

  /** Realised P&L is measured from the first entry price, not the average:
      holding 10 bought at 100, buying 10 more at 120 averages 110, and then
      selling all 20 at 115 books 300 although the average cost implies 100. */
  lemma PnlAgainstFirstEntry(l: Ledger, clock: Clock)
    requires Lookup(l.positions, "TCS") == Some(PaperPosition(10, 100.0, 1000.0, clock.now, 100.0))
    requires l.available >= 1220.0
    ensures var b := Buy(l, "TCS", 10, 120.0, clock);
      && b.1.Complete?
      && Lookup(b.0.positions, "TCS").value.avgPrice == 110.0
      && var s := Sell(b.0, "TCS", 20, 115.0, clock);
      && s.1.Complete?
      && s.0.history[|b.0.history|].pnl == Some(300.0)
      && (115.0 - Lookup(b.0.positions, "TCS").value.avgPrice) * 20.0 == 100.0
  {
    var p1 := PaperPosition(10, 100.0, 1000.0, clock.now, 100.0);
    var p2 := AddToPosition(Some(p1), 10, 120.0, clock.now);
    assert p2.Some? && p2.value.quantity == 20 && p2.value.entryPrice == 100.0;
    assert p2.value.avgPrice * 20.0 == 2200.0;
    var b := Buy(l, "TCS", 10, 120.0, clock);
    assert b.1.Complete?;
    assert Lookup(b.0.positions, "TCS") == p2;
  }

  // ------------------------------------------------------------ reports

  datatype PositionPnl =
    | NotHeld
    | Held(pnl: real, pnlPct: real, quantity: int, avgPrice: real, currentPrice: real, invested: real)
    | PnlRaised

  /** `get_position_pnl`: unrealised P&L against the average price; a zero
      average price raises. */
  function GetPositionPnl(l: Ledger, symbol: string, currentPrice: real): (r: PositionPnl)
    ensures r.NotHeld? <==> Lookup(l.positions, symbol).None?
    ensures r.PnlRaised? <==> Lookup(l.positions, symbol).Some? && Lookup(l.positions, symbol).value.avgPrice == 0.0
    ensures r.Held? ==>
      var p := Lookup(l.positions, symbol).value;
      && r.pnl == (currentPrice - p.avgPrice) * p.quantity as real
      && r.pnlPct * p.avgPrice == (currentPrice - p.avgPrice) * 100.0
      && r.quantity == p.quantity && r.invested == p.invested
  {
    match Lookup(l.positions, symbol)
    case None => NotHeld
    case Some(p) =>
      if p.avgPrice == 0.0 then PnlRaised
      else
        var pct := (currentPrice - p.avgPrice) / p.avgPrice * 100.0;
        assert pct * p.avgPrice == (currentPrice - p.avgPrice) * 100.0 by {
          DivideThenScale(currentPrice - p.avgPrice, p.avgPrice);
        }
        Held((currentPrice - p.avgPrice) * p.quantity as real, pct, p.quantity, p.avgPrice, currentPrice, p.invested)
  }

  datatype Performance = Performance(
    totalReturn: real, totalReturnPct: Option<real>, totalTrades: nat, winning: nat, losing: nat,
    winRate: real, avgWin: real, avgLoss: real, profitFactor: Option<real>,
    activePositions: nat, closedPositions: nat)

  /** `get_performance_summary`. `totalReturnPct` is `None` where the source
      divides by a zero initial capital, and `profitFactor` is `None` for
      the infinite factor reported when nothing was lost. */
  function PerformanceSummary(l: Ledger): (s: Performance)
    ensures s.totalReturn == l.currentCapital - l.initialCapital
    ensures s.totalReturnPct.None? <==> l.initialCapital == 0.0
    ensures l.totalTrades == 0 ==> s.winRate == 0.0
    ensures Valid(l) ==> 0.0 <= s.winRate <= 100.0
    ensures s.profitFactor.None? <==> l.totalLoss <= 0.0
    ensures Valid(l) && l.winning > 0 ==> s.avgWin * l.winning as real == l.totalProfit
    ensures Valid(l) && l.losing > 0 ==> s.avgLoss * l.losing as real == l.totalLoss
    ensures s.activePositions == |l.positions| && s.closedPositions == |l.closed|
  {
    var ret := l.currentCapital - l.initialCapital;
    var winRate :=
      if l.totalTrades > 0 then
        Fraction(l.winning, l.totalTrades);
        l.winning as real / l.totalTrades as real * 100.0
      else 0.0;
    var avgWin :=
      if l.winning > 0 then
        DivideThenScale(l.totalProfit, l.winning as real);
        l.totalProfit / l.winning as real
      else 0.0;
    var avgLoss :=
      if l.losing > 0 then
        DivideThenScale(l.totalLoss, l.losing as real);
        l.totalLoss / l.losing as real
      else 0.0;
    Performance(
      ret,
      if l.initialCapital != 0.0 then Some(ret / l.initialCapital * 100.0) else None,
      l.totalTrades, l.winning, l.losing, winRate, avgWin, avgLoss,
      if l.totalLoss > 0.0 then Some(l.totalProfit / l.totalLoss) else None,
      |l.positions|, |l.closed|)
  }

  lemma Fraction(part: nat, whole: nat)
    requires 0 < whole
    ensures 0.0 <= part as real / whole as real * 100.0
    ensures part <= whole ==> part as real / whole as real * 100.0 <= 100.0
  {
    if part <= whole {
      assert part as real / whole as real <= 1.0;
    }
  }

  // ------------------------------------------------------------ end of day

  /** The day's closed trades, counted from the newest record back to the
      first record of another day: (sells, wins, losses). */
  function DayCounts(history: seq<TradeRecord>, today: string): (r: (nat, nat, nat))
    ensures r.1 + r.2 == r.0 && r.0 <= |history|
  {
    if |history| == 0 || history[|history| - 1].day != today then (0, 0, 0)
    else
      var t := history[|history| - 1];
      var rest := DayCounts(history[..|history| - 1], today);
      if t.side == Side.Sell then
        if t.pnl.GetOr(0.0) > 0.0 then (rest.0 + 1, rest.1 + 1, rest.2) else (rest.0 + 1, rest.1, rest.2 + 1)
      else rest
  }

  /** The force-close loop over the symbols held when it started. Stops
      with `false` when an order raises. */
  function CloseAll(l: Ledger, symbols: seq<string>, prices: map<string, real>, clock: Clock): (r: (Ledger, bool))
    ensures r.0.dailyStats == l.dailyStats && r.0.currentCapital == l.currentCapital
    decreases |symbols|
  {
    if |symbols| == 0 then (l, true)
    else
      var s := symbols[0];
      match Lookup(l.positions, s)
      case None => CloseAll(l, symbols[1..], prices, clock)
      case Some(p) =>
        var price := if s in prices then prices[s] else p.avgPrice;
        var step := ExecuteOrder(l, s, Side.Sell, p.quantity, price, clock);
        if step.1.Raised? then (step.0, false) else CloseAll(step.0, symbols[1..], prices, clock)
  }

  /** Closing the listed symbols empties them all, unless one of them has a
      zero entry price, whose sell raises. */
  lemma {:induction false} CloseAllEmpties(l: Ledger, symbols: seq<string>, prices: map<string, real>, clock: Clock)
    requires Valid(l)
    ensures var r := CloseAll(l, symbols, prices, clock);
      && Valid(r.0)
      && r.0.dailyStats == l.dailyStats && r.0.currentCapital == l.currentCapital
      && (r.1 ==> forall s :: s in symbols ==> Lookup(r.0.positions, s).None?)
      && (r.1 ==> forall t :: t !in symbols ==> Lookup(r.0.positions, t) == Lookup(l.positions, t))
      && (!r.1 <==> exists i :: 0 <= i < |symbols| && ZeroEntryFirstMet(l, symbols, i))
    decreases |symbols|
  {
    if |symbols| > 0 {
      var s := symbols[0];
      match Lookup(l.positions, s)
      case None =>
        CloseAllEmpties(l, symbols[1..], prices, clock);
        ZeroEntryShift(l, l, symbols);
      case Some(p) =>
        var price := if s in prices then prices[s] else p.avgPrice;
        var step := ExecuteOrder(l, s, Side.Sell, p.quantity, price, clock);
        ExecutePreservesValid(l, s, Side.Sell, p.quantity, price, clock);
        if !step.1.Raised? {
          assert step.1.Complete?;
          CloseAllEmpties(step.0, symbols[1..], prices, clock);
          ZeroEntryShift(l, step.0, symbols);
        } else {
          assert ZeroEntryFirstMet(l, symbols, 0);
        }
    }
  }

  /** `s` is held with a zero entry price, so selling it raises. */
  predicate ZeroEntry(l: Ledger, s: string)
  {
    Lookup(l.positions, s).Some? && Lookup(l.positions, s).value.entryPrice == 0.0
  }

  /** `symbols[i]` is the first listed symbol held with a zero entry price. */
  predicate ZeroEntryFirstMet(l: Ledger, symbols: seq<string>, i: int)
    requires 0 <= i < |symbols|
  {
    ZeroEntry(l, symbols[i]) && forall j :: 0 <= j < i ==> !ZeroEntry(l, symbols[j])
  }

  lemma ZeroEntryShift(l: Ledger, l2: Ledger, symbols: seq<string>)
    requires |symbols| > 0
    requires !ZeroEntry(l, symbols[0]) && !ZeroEntry(l2, symbols[0])
    requires forall t :: t != symbols[0] ==> Lookup(l2.positions, t) == Lookup(l.positions, t)
    ensures (exists i :: 0 <= i < |symbols| && ZeroEntryFirstMet(l, symbols, i)) <==>
            (exists i :: 0 <= i < |symbols| - 1 && ZeroEntryFirstMet(l2, symbols[1..], i))
  {
    var rest := symbols[1..];
    assert forall t :: ZeroEntry(l2, t) == ZeroEntry(l, t);
    if i :| 0 <= i < |symbols| && ZeroEntryFirstMet(l, symbols, i) {
      assert i > 0;
      assert forall j :: 0 <= j < i - 1 ==> rest[j] == symbols[j + 1];
      assert ZeroEntryFirstMet(l2, rest, i - 1);
    }
    if i :| 0 <= i < |rest| && ZeroEntryFirstMet(l2, rest, i) {
      assert forall j :: 1 <= j < i + 1 ==> symbols[j] == rest[j - 1];
      assert ZeroEntryFirstMet(l, symbols, i + 1);
    }
  }

  /** The force-close loop run from a valid ledger. */
  lemma CloseAllFromValid(l: Ledger, prices: map<string, real>, clock: Clock)
    ensures Valid(l) ==>
      var r := CloseAll(l, Symbols(l.positions), prices, clock);
      Valid(r.0) && (r.1 ==> r.0.positions == [])
  {
    if Valid(l) {
      var symbols := Symbols(l.positions);
      var r := CloseAll(l, symbols, prices, clock);
      CloseAllEmpties(l, symbols, prices, clock);
      if r.1 {
        assert forall t :: t in Keys(r.0.positions) ==> Lookup(r.0.positions, t).Some?;
        assert Keys(r.0.positions) == {};
        EmptyDict(r.0.positions);
      }
    }
  }

  /** `reset_daily`: the day's statistics from the trades of the day so far,
      then every open position sold in full at the given price or else its
      average price, then one daily statistic appended. `false` when a
      force-close raised, which ends the reset without the statistic. */
  function ResetDaily(l: Ledger, prices: map<string, real>, clock: Clock): (r: (Ledger, bool))
    ensures Valid(l) && r.1 ==> r.0.positions == []
    ensures r.1 ==> |r.0.dailyStats| == |l.dailyStats| + 1 && r.0.dailyStats[..|l.dailyStats|] == l.dailyStats
    ensures !r.1 ==> r.0.dailyStats == l.dailyStats
    ensures Valid(l) ==> Valid(r.0)
  {
    var counts := DayCounts(l.history, clock.day);
    var dayPnl := if clock.day in l.dailyPnl then l.dailyPnl[clock.day] else 0.0;
    var starting := l.currentCapital - dayPnl;
    var closing := CloseAll(l, Symbols(l.positions), prices, clock);
    CloseAllFromValid(l, prices, clock);
    if !closing.1 then closing
    else
      var l1 := closing.0;
      var winRate := if counts.0 > 0 then counts.1 as real / counts.0 as real * 100.0 else 0.0;
      var stat := DailyStat(clock.day, starting, l1.currentCapital, dayPnl, counts.0, counts.1, counts.2, winRate);
      (l1.(dailyStats := l1.dailyStats + [stat]), true)
  }
}

=== FILE: pattern_recognition.dfy ===
/** The pattern recognizer: a bounded per-symbol candle history, six
    candlestick patterns read off the last three candles, support and
    resistance levels found as clustered local extrema, a moving-average
    trend, and per-pattern success rates learnt from trade outcomes.

    Candle timestamps, the volatility (a numpy standard deviation) and saving
    and loading the learnt rates are left out.
 */
module PatternRecognition {
  import opened Common

  /** Success statistics of one pattern. */
  datatype PatternRate = PatternRate(successes: nat, failures: nat, rate: real)

  /** `lookback` is the `maxlen` of every history deque. */
  datatype Recognizer = Recognizer(
    lookback: nat,
    history: map<string, seq<Candle>>,
    rates: map<string, PatternRate>)

  function NewRecognizer(lookback: nat): (r: Recognizer)
    ensures r.history == map[] && r.rates == map[] && r.lookback == lookback
  {
    Recognizer(lookback, map[], map[])
  }

  function History(r: Recognizer, symbol: string): seq<Candle>
  {
    if symbol in r.history then r.history[symbol] else []
  }

  // ------------------------------------------------------------- history

  /** Every history is within the lookback. */
  ghost predicate Bounded(r: Recognizer)
  {
    forall s :: s in r.history ==> |r.history[s]| <= r.lookback
  }

  /** Appends `candle` to the symbol's deque, creating it on first use. */
  function UpdatePriceHistory(r: Recognizer, symbol: string, open: real, high: real,
                              low: real, close: real, volume: Option<real>): (r': Recognizer)
    ensures r'.lookback == r.lookback && r'.rates == r.rates
    ensures r'.history.Keys == r.history.Keys + {symbol}
    ensures forall s :: s in r.history && s != symbol ==> r'.history[s] == r.history[s]
    ensures |r'.history[symbol]| == MinInt(|History(r, symbol)| + 1, r.lookback)
    ensures r'.history[symbol] == (History(r, symbol) + [Candle(open, high, low, close, volume.GetOr(0.0))])
                                    [|History(r, symbol)| + 1 - |r'.history[symbol]|..]
    ensures r.lookback > 0 ==>
              r'.history[symbol][|r'.history[symbol]| - 1] == Candle(open, high, low, close, volume.GetOr(0.0))
  {
    var h' := BoundedAppend(History(r, symbol), Candle(open, high, low, close, volume.GetOr(0.0)), r.lookback);
    var r' := r.(history := r.history[symbol := h']);
    assert r'.history[symbol] == h';
    r'
  }

  /** No sequence of updates lets a history outgrow the lookback. */
  lemma UpdateKeepsBounded(r: Recognizer, symbol: string, open: real, high: real,
                           low: real, close: real, volume: Option<real>)
    requires Bounded(r)
    ensures Bounded(UpdatePriceHistory(r, symbol, open, high, low, close, volume))
  {
  }

  // ------------------------------------------------------- candle shapes

  function Body(c: Candle): real { Abs(c.close - c.open) }
  function LowerShadow(c: Candle): real { Min(c.open, c.close) - c.low }
  function UpperShadow(c: Candle): real { c.high - Max(c.open, c.close) }

  predicate IsHammer(c: Candle)
  {
    LowerShadow(c) > 2.0 * Body(c) && UpperShadow(c) < Body(c) * 0.3 && Body(c) > 0.0
  }

  predicate IsShootingStar(c: Candle)
  {
    UpperShadow(c) > 2.0 * Body(c) && LowerShadow(c) < Body(c) * 0.3 && Body(c) > 0.0
  }

  predicate IsBullishEngulfing(prev: Candle, cur: Candle)
  {
    prev.close < prev.open && cur.close > cur.open
    && cur.open < prev.close && cur.close > prev.open
  }

  predicate IsBearishEngulfing(prev: Candle, cur: Candle)
  {
    prev.close > prev.open && cur.close < cur.open
    && cur.open > prev.close && cur.close < prev.open
  }

  predicate IsMorningStar(first: Candle, second: Candle, third: Candle)
  {
    first.close < first.open && Body(second) < Body(first) * 0.3
    && third.close > third.open && third.close > (first.open + first.close) / 2.0
  }

  predicate IsEveningStar(first: Candle, second: Candle, third: Candle)
  {
    first.close > first.open && Body(second) < Body(first) * 0.3
    && third.close < third.open && third.close < (first.open + first.close) / 2.0
  }

  const BullishPatterns: set<string> := {"hammer", "bullish_engulfing", "morning_star"}
  const BearishPatterns: set<string> := {"shooting_star", "bearish_engulfing", "evening_star"}

  /** The fixed confidence the detector gives each pattern: 0.7 for the
      single-candle hammer and shooting star, 0.8 for the two engulfings and
      0.85 for the three-candle morning and evening stars. */
  function PatternScore(name: string): real
  {
    if name == "hammer" || name == "shooting_star" then 0.7
    else if name == "bullish_engulfing" || name == "bearish_engulfing" then 0.8
    else 0.85
  }

  /** Records `name` with its score when its test `holds`. */
  function Mark(found: map<string, real>, name: string, holds: bool): (r: map<string, real>)
    ensures r.Keys == if holds then found.Keys + {name} else found.Keys
    ensures (forall k :: k in found ==> found[k] == PatternScore(k)) ==>
            forall k :: k in r ==> r[k] == PatternScore(k)
  {
    if holds then found[name := PatternScore(name)] else found
  }

  /** The patterns formed by the last three candles of the symbol's history;
      nothing with fewer than three candles. */
  function DetectCandlestickPatterns(r: Recognizer, symbol: string): (p: map<string, real>)
    ensures |History(r, symbol)| < 3 ==> p == map[]
    ensures p.Keys <= BullishPatterns + BearishPatterns
    ensures forall k :: k in p ==> p[k] == 0.7 || p[k] == 0.8 || p[k] == 0.85
    ensures forall k :: k in p ==> p[k] == PatternScore(k)
    ensures var h := History(r, symbol);
            |h| >= 3 ==>
              var cur := h[|h| - 1];
              ("hammer" in p <==> IsHammer(cur))
              && ("shooting_star" in p <==> IsShootingStar(cur))
              && ("bullish_engulfing" in p <==> IsBullishEngulfing(h[|h| - 2], cur))
              && ("bearish_engulfing" in p <==> IsBearishEngulfing(h[|h| - 2], cur))
              && ("morning_star" in p <==> IsMorningStar(h[|h| - 3], h[|h| - 2], cur))
              && ("evening_star" in p <==> IsEveningStar(h[|h| - 3], h[|h| - 2], cur))
  {
    var h := History(r, symbol);
    if |h| < 3 then map[]
    else
      var prev2, prev, cur := h[|h| - 3], h[|h| - 2], h[|h| - 1];
      var p1 := Mark(map[], "hammer", IsHammer(cur));
      var p2 := Mark(p1, "bullish_engulfing", IsBullishEngulfing(prev, cur));
      var p3 := Mark(p2, "morning_star", IsMorningStar(prev2, prev, cur));
      var p4 := Mark(p3, "shooting_star", IsShootingStar(cur));
      var p5 := Mark(p4, "bearish_engulfing", IsBearishEngulfing(prev, cur));
      Mark(p5, "evening_star", IsEveningStar(prev2, prev, cur))
  }

  /** The detector never reports two opposite readings of the same candles:
      a hammer is never a shooting star, bullish and bearish engulfing
      exclude each other and so do morning and evening star; the two
      single-candle patterns need a candle with a body. */
  lemma OppositePatternsExclude(r: Recognizer, symbol: string)
    ensures var p := DetectCandlestickPatterns(r, symbol);
            var h := History(r, symbol);
            !("hammer" in p && "shooting_star" in p)
            && !("bullish_engulfing" in p && "bearish_engulfing" in p)
            && !("morning_star" in p && "evening_star" in p)
            && ("hammer" in p || "shooting_star" in p ==> Body(h[|h| - 1]) > 0.0)
  {
  }

  // ------------------------------------------------ support / resistance

  const Window: nat := 5

  /** `prices[i]` is the max (resistance) or min (support) of the eleven
      prices centred on it. */
  predicate IsExtremum(prices: seq<real>, i: nat, resistance: bool)
    requires Window <= i && i + Window < |prices|
  {
    var w := prices[i - Window..i + Window + 1];
    if resistance then prices[i] == SeqMax(w) else prices[i] == SeqMin(w)
  }

  /** Being the window's max means no neighbour within five places is
      higher, and symmetrically for the min. */
  lemma ExtremumDominatesWindow(prices: seq<real>, i: nat, resistance: bool)
    requires Window <= i && i + Window < |prices|
    ensures IsExtremum(prices, i, resistance) <==>
              forall j :: i - Window <= j <= i + Window ==>
                (if resistance then prices[j] <= prices[i] else prices[i] <= prices[j])
  {
    var w := prices[i - Window..i + Window + 1];
    assert w[Window] == prices[i];
    forall j | i - Window <= j <= i + Window
      ensures prices[j] == w[j - (i - Window)]
    {
    }
  }

  /** The local extrema at positions `i`, `i + 1`, … up to five places
      before the end, in order. */
  function Extrema(prices: seq<real>, resistance: bool, i: nat): (r: seq<real>)
    requires Window <= i
    ensures forall k :: 0 <= k < |r| ==> r[k] in prices
    decreases |prices| - i
  {
    if i + Window >= |prices| then []
    else
      (if IsExtremum(prices, i, resistance) then [prices[i]] else [])
      + Extrema(prices, resistance, i + 1)
  }

  /** Walks the levels, merging each into the running cluster while it lies
      strictly within `threshold` of the cluster's mean; every finished
      cluster contributes its mean. */
  function Clusters(levels: seq<real>, current: seq<real>, threshold: real): (r: seq<real>)
    requires |current| > 0
    ensures 1 <= |r| <= |levels| + 1
    decreases |levels|
  {
    if |levels| == 0 then [Mean(current)]
    else if Abs(levels[0] - Mean(current)) < threshold then
      Clusters(levels[1..], current + [levels[0]], threshold)
    else
      [Mean(current)] + Clusters(levels[1..], [levels[0]], threshold)
  }

  /** Cluster means never leave the range the clustered levels span. */
  lemma {:induction false} ClustersBetween(levels: seq<real>, current: seq<real>, threshold: real,
                                           lo: real, hi: real)
    requires |current| > 0 && Between(current, lo, hi) && Between(levels, lo, hi)
    ensures Between(Clusters(levels, current, threshold), lo, hi)
    decreases |levels|
  {
    MeanBetween(current, lo, hi);
    if |levels| > 0 {
      var rest := levels[1..];
      assert Between(rest, lo, hi) by {
        forall k | 0 <= k < |rest| ensures lo <= rest[k] <= hi {
          assert rest[k] == levels[k + 1];
        }
      }
      if Abs(levels[0] - Mean(current)) < threshold {
        var c' := current + [levels[0]];
        assert Between(c', lo, hi) by {
          forall k | 0 <= k < |c'| ensures lo <= c'[k] <= hi {
            if k < |current| { assert c'[k] == current[k]; }
          }
        }
        ClustersBetween(rest, c', threshold, lo, hi);
      } else {
        ClustersBetween(rest, [levels[0]], threshold, lo, hi);
        var tail := Clusters(rest, [levels[0]], threshold);
        var r := [Mean(current)] + tail;
        assert Clusters(levels, current, threshold) == r;
        forall k | 0 <= k < |r| ensures lo <= r[k] <= hi {
          if k > 0 { assert r[k] == tail[k - 1]; }
        }
      }
    }
  }

  /** At most five clustered levels from the local extrema of `prices`
      (maxima for resistance, minima for support); none for fewer than ten
      prices. The clustering threshold is half a percent of the mean price. */
  function FindPriceLevels(prices: seq<real>, resistance: bool): (r: seq<real>)
    ensures |prices| < 10 ==> r == []
    ensures |r| <= 5
    ensures |prices| >= 10 ==> (r == [] <==> Extrema(prices, resistance, Window) == [])
    ensures |r| > 0 ==> |prices| > 0
                        && forall k :: 0 <= k < |r| ==> SeqMin(prices) <= r[k] <= SeqMax(prices)
  {
    if |prices| < 10 then []
    else
      var levels := Extrema(prices, resistance, Window);
      if levels == [] then [] else ClusterLevels(prices, levels)
  }

  /** The first five cluster means of `levels`, which are prices. */
  function ClusterLevels(prices: seq<real>, levels: seq<real>): (r: seq<real>)
    requires |prices| > 0 && |levels| > 0
    requires forall k :: 0 <= k < |levels| ==> levels[k] in prices
    ensures 1 <= |r| <= 5
    ensures forall k :: 0 <= k < |r| ==> SeqMin(prices) <= r[k] <= SeqMax(prices)
  {
    var lo, hi := SeqMin(prices), SeqMax(prices);
    var threshold := Mean(prices) * 0.005;
    InPricesBetween(prices, levels);
    assert Between(levels[1..], lo, hi) by {
      forall k | 0 <= k < |levels| - 1 ensures lo <= levels[1..][k] <= hi {
        assert levels[1..][k] == levels[k + 1];
      }
    }
    ClustersBetween(levels[1..], [levels[0]], threshold, lo, hi);
    var c := Clusters(levels[1..], [levels[0]], threshold);
    if |c| <= 5 then c else c[..5]
  }

  lemma InPricesBetween(prices: seq<real>, levels: seq<real>)
    requires |prices| > 0
    requires forall k :: 0 <= k < |levels| ==> levels[k] in prices
    ensures forall k :: 0 <= k < |levels| ==> SeqMin(prices) <= levels[k] <= SeqMax(prices)
  {
    forall k | 0 <= k < |levels|
      ensures SeqMin(prices) <= levels[k] <= SeqMax(prices)
    {
      var j :| 0 <= j < |prices| && prices[j] == levels[k];
    }
  }

  /** `a` comes no later than `b` in the requested order. */
  predicate Ordered(a: real, b: real, ascending: bool)
  {
    if ascending then a <= b else a >= b
  }

  predicate SortedBy(s: seq<real>, ascending: bool)
  {
    forall i, j :: 0 <= i < j < |s| ==> Ordered(s[i], s[j], ascending)
  }

  function Insert(x: real, s: seq<real>, ascending: bool): (r: seq<real>)
    requires SortedBy(s, ascending)
    ensures SortedBy(r, ascending)
    ensures |r| == |s| + 1
    ensures forall k :: 0 <= k < |r| ==> r[k] == x || r[k] in s
  {
    if |s| == 0 || Ordered(x, s[0], ascending) then
      assert forall k :: 0 <= k < |s| ==> Ordered(x, s[k], ascending) by {
        if |s| > 0 {
          assert forall k :: 0 < k < |s| ==> Ordered(s[0], s[k], ascending);
        }
      }
      ConsSorted(x, s, ascending);
      [x] + s
    else
      var t := Insert(x, s[1..], ascending);
      assert s == [s[0]] + s[1..];
      assert forall k :: 0 <= k < |t| ==> Ordered(s[0], t[k], ascending) by {
        forall k | 0 <= k < |t|
          ensures Ordered(s[0], t[k], ascending)
        {
          if t[k] != x {
            var j :| 0 <= j < |s[1..]| && s[1..][j] == t[k];
            assert s[j + 1] == t[k];
          }
        }
      }
      ConsSorted(s[0], t, ascending);
      [s[0]] + t
  }

  /** Inserting adds exactly the one element. */
  lemma {:induction false} InsertPermutes(x: real, s: seq<real>, ascending: bool)
    requires SortedBy(s, ascending)
    ensures multiset(Insert(x, s, ascending)) == multiset(s) + multiset{x}
  {
    if |s| == 0 || Ordered(x, s[0], ascending) {
      assert Insert(x, s, ascending) == [x] + s;
    } else {
      TailSorted(s, ascending);
      var t := Insert(x, s[1..], ascending);
      InsertPermutes(x, s[1..], ascending);
      assert Insert(x, s, ascending) == [s[0]] + t;
      assert s == [s[0]] + s[1..];
      assert multiset(s) == multiset{s[0]} + multiset(s[1..]);
    }
  }

  lemma TailSorted(s: seq<real>, ascending: bool)
    requires |s| > 0 && SortedBy(s, ascending)
    ensures SortedBy(s[1..], ascending)
  {
    forall i, j | 0 <= i < j < |s| - 1 ensures Ordered(s[1..][i], s[1..][j], ascending) {
      assert s[1..][i] == s[i + 1] && s[1..][j] == s[j + 1];
    }
  }

  /** An element ordered before every element of a sorted sequence can be
      put in front of it. */
  lemma ConsSorted(a: real, t: seq<real>, ascending: bool)
    requires SortedBy(t, ascending)
    requires forall k :: 0 <= k < |t| ==> Ordered(a, t[k], ascending)
    ensures SortedBy([a] + t, ascending)
  {
    var r := [a] + t;
    forall i, j | 0 <= i < j < |r|
      ensures Ordered(r[i], r[j], ascending)
    {
      assert r[j] == t[j - 1];
      if i > 0 {
        assert r[i] == t[i - 1];
      }
    }
  }

  /** Python's `sorted(s)` (ascending) or `sorted(s, reverse=True)`. */
  function Sort(s: seq<real>, ascending: bool): (r: seq<real>)
    ensures SortedBy(r, ascending)
    ensures multiset(r) == multiset(s)
    ensures |r| == |s|
  {
    if |s| == 0 then []
    else
      assert s == [s[0]] + s[1..];
      InsertPermutes(s[0], Sort(s[1..], ascending), ascending);
      Insert(s[0], Sort(s[1..], ascending), ascending)
  }

  datatype Levels = Levels(support: seq<real>, resistance: seq<real>)

  /** Support levels from the candles' lows, ascending; resistance levels
      from their highs, descending; both empty below twenty candles. */
  function IdentifySupportResistance(r: Recognizer, symbol: string): (l: Levels)
    ensures |History(r, symbol)| < 20 ==> l == Levels([], [])
    ensures SortedBy(l.support, true) && SortedBy(l.resistance, false)
    ensures |l.support| <= 5 && |l.resistance| <= 5
    ensures var h := History(r, symbol);
            |h| >= 20 ==>
              multiset(l.support) == multiset(FindPriceLevels(Lows(h), false))
              && multiset(l.resistance) == multiset(FindPriceLevels(Highs(h), true))
  {
    var h := History(r, symbol);
    if |h| < 20 then Levels([], [])
    else
      Levels(Sort(FindPriceLevels(Lows(h), false), true),
             Sort(FindPriceLevels(Highs(h), true), false))
  }

  // ---------------------------------------------------------------- trend

  datatype Direction = Uptrend | Downtrend | Neutral

  datatype TrendReading = TrendReading(direction: Direction, strength: real, confidence: real)

  /** Consecutive differences `closes[i] - closes[i-1]`. */
  function Changes(closes: seq<real>): (r: seq<real>)
    requires |closes| > 0
    ensures |r| == |closes| - 1
  {
    seq(|closes| - 1, k requires 0 <= k < |closes| - 1 => closes[k + 1] - closes[k])
  }

  /** How many entries are positive (`up`) or negative (`!up`). */
  function CountMoves(changes: seq<real>, up: bool): (n: nat)
    ensures n <= |changes|
  {
    if |changes| == 0 then 0
    else
      var last := changes[|changes| - 1];
      CountMoves(changes[..|changes| - 1], up)
      + (if (up && last > 0.0) || (!up && last < 0.0) then 1 else 0)
  }

  lemma PositiveQuotient(a: real, d: real)
    ensures a > 0.0 && d > 0.0 ==> a / d > 0.0
  {
    if a > 0.0 && d > 0.0 {
      QuotientBounds(a, d);
      assert a / d != 0.0;
    }
  }

  /** `min(gap / long * 100, 10) / 10`; a zero long average makes numpy's
      quotient infinite, so the strength is 1. */
  function TrendStrength(gap: real, long: real): (s: real)
    requires gap > 0.0
    ensures s <= 1.0
    ensures long > 0.0 ==> 0.0 < s
    ensures long == 0.0 ==> s == 1.0
  {
    PositiveQuotient(gap, long);
    if long == 0.0 then 1.0 else Min(gap / long * 100.0, 10.0) / 10.0
  }

  /** The 10-, 20- and 50-candle averages of the closes (the 20-candle one
      standing in for the long one with fewer than fifty candles); an up
      trend needs them strictly descending from short to long with the last
      close above the short one, a down trend the mirror image. */
  function DetectTrend(r: Recognizer, symbol: string): (t: TrendReading)
    ensures |History(r, symbol)| < 20 ==> t == TrendReading(Neutral, 0.0, 0.0)
    ensures t.strength <= 1.0
    ensures 0.0 <= t.confidence <= 1.0
    ensures t.direction == Neutral ==> t.strength == 0.0
    ensures |History(r, symbol)| >= 20 && t.direction == Neutral ==> t.confidence == 0.5
    ensures t.direction != Neutral ==> t.strength != 0.0
  {
    var h := History(r, symbol);
    if |h| < 20 then TrendReading(Neutral, 0.0, 0.0) else TrendOf(Closes(h))
  }

  /** The share of the last twenty moves going the trend's way. */
  function Consistency(changes: seq<real>, up: bool): (c: real)
    ensures 0.0 <= c <= 1.0
  {
    var recent := PySuffix(changes, 20);
    assert |recent| <= 20;
    CountMoves(recent, up) as real / 20.0
  }

  function TrendOf(closes: seq<real>): (t: TrendReading)
    requires |closes| >= 20
    ensures t.strength <= 1.0
    ensures 0.0 <= t.confidence <= 1.0
    ensures t.direction == Neutral ==> t == TrendReading(Neutral, 0.0, 0.5)
    ensures t.direction != Neutral ==> t.strength != 0.0
    ensures |closes| < 50 ==> t.direction == Neutral
  {
      var n := |closes|;
      var short := Mean(closes[n - 10..]);
      var medium := Mean(closes[n - 20..]);
      var long := if n >= 50 then Mean(closes[n - 50..]) else medium;
      var price := closes[n - 1];
      if short > medium > long && price > short then
        TrendReading(Uptrend, TrendStrength(short - long, long), Consistency(Changes(closes), true))
      else if short < medium < long && price < short then
        TrendReading(Downtrend, TrendStrength(long - short, long), Consistency(Changes(closes), false))
      else TrendReading(Neutral, 0.0, 0.5)
  }

  /** With fewer than fifty candles the long average is the medium one, so
      the strict chain can never hold: the trend is always neutral. */
  lemma NoTrendBelowFifty(r: Recognizer, symbol: string)
    requires |History(r, symbol)| < 50
    ensures DetectTrend(r, symbol).direction == Neutral
  {
  }

  // ------------------------------------------------------------ learning

  /** Records one outcome of `pattern`; an unseen pattern starts from no
      successes, no failures and rate 0.5, and its rate becomes the share of
      successes. */
  function LearnFromPattern(rates: map<string, PatternRate>, pattern: string, success: bool)
    : (r: map<string, PatternRate>)
    ensures r.Keys == rates.Keys + {pattern}
    ensures forall k :: k in rates && k != pattern ==> r[k] == rates[k]
    ensures var before := if pattern in rates then rates[pattern] else PatternRate(0, 0, 0.5);
            var after := r[pattern];
            after.successes + after.failures == before.successes + before.failures + 1
            && (success <==> after.successes == before.successes + 1)
            && (success <==> after.failures == before.failures)
    ensures 0.0 <= r[pattern].rate <= 1.0
    ensures IsShare(r[pattern])
  {
    var before := if pattern in rates then rates[pattern] else PatternRate(0, 0, 0.5);
    var s := before.successes + (if success then 1 else 0);
    var f := before.failures + (if success then 0 else 1);
    var total := (s + f) as real;
    QuotientBounds(s as real, total);
    rates[pattern := PatternRate(s, f, s as real / total)]
  }

  /** The learnt rate, or 0.5 for a pattern never seen. */
  function GetPatternConfidence(rates: map<string, PatternRate>, pattern: string): real
  {
    if pattern in rates then rates[pattern].rate else 0.5
  }

  /** The rate is the share of successes among at least one outcome. */
  predicate IsShare(p: PatternRate)
  {
    p.successes + p.failures > 0
    && p.rate * (p.successes + p.failures) as real == p.successes as real
  }

  /** Every recorded rate is the share of successes among the outcomes. */
  ghost predicate RatesConsistent(rates: map<string, PatternRate>)
  {
    forall k :: k in rates ==> IsShare(rates[k])
  }

  /** A share of successes is a confidence in [0, 1]. */
  lemma ShareInUnitInterval(s: nat, f: nat, rate: real)
    requires s + f > 0 && rate * (s + f) as real == s as real
    ensures 0.0 <= rate <= 1.0
  {
    var t := (s + f) as real;
    assert (1.0 - rate) * t == f as real;
    ProductSign(rate, t);
    ProductSign(1.0 - rate, t);
  }

  /** Learning keeps the rates consistent. */
  lemma LearningKeepsRatesConsistent(rates: map<string, PatternRate>, pattern: string, success: bool)
    requires RatesConsistent(rates)
    ensures RatesConsistent(LearnFromPattern(rates, pattern, success))
  {
    var r := LearnFromPattern(rates, pattern, success);
    forall k | k in r ensures IsShare(r[k]) {
      if k != pattern {
        assert r[k] == rates[k];
      }
    }
  }

  /** Under consistent rates every confidence lies in [0, 1], and a pattern
      never seen reads 0.5. */
  lemma ConfidenceInRange(rates: map<string, PatternRate>, p: string)
    requires RatesConsistent(rates)
    ensures 0.0 <= GetPatternConfidence(rates, p) <= 1.0
    ensures p !in rates ==> GetPatternConfidence(rates, p) == 0.5
  {
    if p in rates {
      ShareInUnitInterval(rates[p].successes, rates[p].failures, rates[p].rate);
    }
  }

  /** Cross-multiplication for quotients with positive denominators. */
  lemma QuotientLe(a: real, b: real, c: real, d: real)
    requires b > 0.0 && d > 0.0 && a * d <= c * b
    ensures a / b <= c / d
  {
    var x, y := a / b, c / d;
    QuotientBounds(a, b);
    QuotientBounds(c, d);
    assert (y - x) * (b * d) == c * b - a * d by {
      assert x * b == a;
      assert y * d == c;
    }
    ProductSign(y - x, b * d);
  }

  /** A consistent rate is the quotient of successes by outcomes. */
  lemma ShareIsQuotient(p: PatternRate)
    requires IsShare(p)
    ensures p.rate == p.successes as real / (p.successes + p.failures) as real
  {
    var t := (p.successes + p.failures) as real;
    var q := p.successes as real / t;
    QuotientBounds(p.successes as real, t);
    assert (p.rate - q) * t == 0.0;
    ProductSign(p.rate - q, t);
  }

  /** One more success raises the share, one more failure lowers it. */
  lemma ShareMoves(s: real, f: real)
    requires s >= 0.0 && f >= 0.0 && s + f > 0.0
    ensures s / (s + f) <= (s + 1.0) / (s + f + 1.0)
    ensures s / (s + f + 1.0) <= s / (s + f)
  {
    assert s * (s + f + 1.0) + f == (s + 1.0) * (s + f);
    QuotientLe(s, s + f, s + 1.0, s + f + 1.0);
    assert s * (s + f) + s == s * (s + f + 1.0);
    QuotientLe(s, s + f + 1.0, s, s + f);
  }

  /** A success never lowers a pattern's rate and a failure never raises it. */
  lemma SuccessRaisesRate(rates: map<string, PatternRate>, pattern: string, success: bool)
    requires RatesConsistent(rates) && pattern in rates
    ensures var before := rates[pattern].rate;
            var after := LearnFromPattern(rates, pattern, success)[pattern].rate;
            if success then before <= after else after <= before
  {
    var p := rates[pattern];
    assert IsShare(p);
    ShareIsQuotient(p);
    ShareMoves(p.successes as real, p.failures as real);
  }
}

=== FILE: position_reconciler.dfy ===
/** Position reconciliation: compares the positions the bot believes it holds
    with the broker's net positions and reports every discrepancy.

    Python dictionaries keep insertion order, and the order of the report
    follows it, so the tracked positions are a sequence of (symbol, position)
    pairs in dictionary order and the broker's index is built the way the
    source's dict comprehension builds it: a symbol keeps the place of its
    first non-flat entry and the value of its last one.
 */
module Reconciliation {
  import opened Common

  datatype Position = Position(quantity: int, averagePrice: real)

  datatype BrokerPosition = BrokerPosition(symbol: string, quantity: int, averagePrice: real)

  datatype Discrepancy =
    | MissingInBroker(symbol: string, trackedQuantity: int, trackedPrice: real)
    | QuantityMismatch(symbol: string, trackedQuantity: int, brokerQuantity: int, difference: int)
    | PriceMismatch(symbol: string, trackedPrice: real, brokerPrice: real, differencePct: real)
    | MissingInSystem(symbol: string, brokerQuantity: int, brokerPrice: real)

  datatype Status = Ok | Mismatch | Skipped

  datatype Report = Report(
    status: Status,
    matched: nat,
    mismatched: nat,
    discrepancies: seq<Discrepancy>,
    brokerPositions: seq<BrokerPosition>)

  datatype Reconciler = Reconciler(
    tolerance: real,
    lastSync: Option<real>,
    discrepanciesFound: seq<Discrepancy>,
    syncCount: nat)

  function NewReconciler(tolerance: real): (r: Reconciler)
    ensures r.syncCount == 0 && r.discrepanciesFound == [] && r.lastSync.None?
  {
    Reconciler(tolerance, None, [], 0)
  }

  // ------------------------------------------------------------ broker index

  function IndexOf(d: seq<BrokerPosition>, symbol: string): (r: Option<nat>)
    ensures r.None? <==> forall i :: 0 <= i < |d| ==> d[i].symbol != symbol
    ensures r.Some? ==> r.value < |d| && d[r.value].symbol == symbol
  {
    if |d| == 0 then None
    else if d[|d| - 1].symbol == symbol then Some(|d| - 1)
    else IndexOf(d[..|d| - 1], symbol)
  }

  /** The positions an index holds for `symbol`, if any. */
  function Lookup(d: seq<BrokerPosition>, symbol: string): Option<BrokerPosition>
  {
    match IndexOf(d, symbol)
    case None => None
    case Some(i) => Some(d[i])
  }

  predicate DistinctSymbols(d: seq<BrokerPosition>)
  {
    forall i, j :: 0 <= i < j < |d| ==> d[i].symbol != d[j].symbol
  }

  /** The last non-flat entry the broker reported for `symbol`. */
  function LastOpen(ps: seq<BrokerPosition>, symbol: string): Option<BrokerPosition>
  {
    if |ps| == 0 then None
    else if ps[|ps| - 1].symbol == symbol && ps[|ps| - 1].quantity != 0 then Some(ps[|ps| - 1])
    else LastOpen(ps[..|ps| - 1], symbol)
  }

  /** `{pos['tradingsymbol']: pos for pos in broker_positions if pos.get('quantity', 0) != 0}` */
  function BrokerIndex(ps: seq<BrokerPosition>): (d: seq<BrokerPosition>)
    ensures DistinctSymbols(d)
    ensures |d| <= |ps|
    ensures forall i :: 0 <= i < |d| ==> d[i].quantity != 0
  {
    if |ps| == 0 then []
    else
      var d := BrokerIndex(ps[..|ps| - 1]);
      var p := ps[|ps| - 1];
      if p.quantity == 0 then d
      else match IndexOf(d, p.symbol)
        case Some(i) => d[i := p]
        case None => d + [p]
  }

  /** The index holds, for every symbol, exactly the last non-flat entry the
      broker listed for it. */
  lemma {:induction false} BrokerIndexKeepsLastOpen(ps: seq<BrokerPosition>, symbol: string)
    ensures Lookup(BrokerIndex(ps), symbol) == LastOpen(ps, symbol)
    decreases |ps|
  {
    if |ps| > 0 {
      var prefix := ps[..|ps| - 1];
      BrokerIndexKeepsLastOpen(prefix, symbol);
      var d := BrokerIndex(prefix);
      var p := ps[|ps| - 1];
      if p.quantity != 0 {
        match IndexOf(d, p.symbol) {
          case Some(i) =>
            var d2 := d[i := p];
            assert BrokerIndex(ps) == d2;
            LookupAfterUpdate(d, i, p, symbol);
          case None =>
            assert BrokerIndex(ps) == d + [p];
            LookupAfterAppend(d, p, symbol);
        }
      }
    }
  }

  lemma LookupAfterUpdate(d: seq<BrokerPosition>, i: nat, p: BrokerPosition, symbol: string)
    requires DistinctSymbols(d) && i < |d| && d[i].symbol == p.symbol
    ensures Lookup(d[i := p], symbol) == if symbol == p.symbol then Some(p) else Lookup(d, symbol)
  {
    var d2 := d[i := p];
    assert DistinctSymbols(d2);
    UniqueIndex(d2, symbol);
    UniqueIndex(d, symbol);
    if symbol == p.symbol {
      assert d2[i].symbol == symbol;
    } else {
      match IndexOf(d, symbol) {
        case None =>
          assert forall k :: 0 <= k < |d2| ==> d2[k].symbol != symbol;
        case Some(j) =>
          assert d2[j] == d[j];
      }
    }
  }

  lemma LookupAfterAppend(d: seq<BrokerPosition>, p: BrokerPosition, symbol: string)
    requires DistinctSymbols(d) && IndexOf(d, p.symbol).None?
    ensures Lookup(d + [p], symbol) == if symbol == p.symbol then Some(p) else Lookup(d, symbol)
  {
    var d2 := d + [p];
    assert d2[..|d2| - 1] == d;
  }

  /** In an index with distinct symbols, a symbol's entry is the one at its
      only position. */
  lemma UniqueIndex(d: seq<BrokerPosition>, symbol: string)
    requires DistinctSymbols(d)
    ensures forall i :: 0 <= i < |d| && d[i].symbol == symbol ==> Lookup(d, symbol) == Some(d[i])
  {
  }

  // --------------------------------------------------------- price tolerance

  /** Two prices agree when both are zero, or when neither is and their
      difference relative to the first is within the tolerance. */
  function PricesMatch(price1: real, price2: real, tolerance: real): (m: bool)
    ensures price1 == 0.0 || price2 == 0.0 ==> (m <==> price1 == price2)
    ensures price1 > 0.0 && price2 != 0.0 ==> (m <==> Abs(price1 - price2) <= tolerance * price1)
    ensures price1 < 0.0 && price2 != 0.0 ==> (m <==> Abs(price1 - price2) >= tolerance * price1)
  {
    if price1 == 0.0 || price2 == 0.0 then price1 == price2
    else Abs(price1 - price2) / price1 <= tolerance
  }

  // ------------------------------------------------------------- the checks

  /** The verdict for one tracked position, checked in the source's order:
      absent at the broker, then quantity, then price. `None` means matched. */
  function CheckTracked(symbol: string, pos: Position, index: seq<BrokerPosition>, tolerance: real): (r: Option<Discrepancy>)
    ensures r.Some? ==> r.value.symbol == symbol && !r.value.MissingInSystem?
    ensures (r.Some? && r.value.MissingInBroker?) <==> Lookup(index, symbol).None?
    ensures r.Some? && r.value.QuantityMismatch? <==>
      Lookup(index, symbol).Some? && Lookup(index, symbol).value.quantity != pos.quantity
    ensures r.Some? && r.value.QuantityMismatch? ==>
      r.value.difference == r.value.brokerQuantity - r.value.trackedQuantity
      && r.value.trackedQuantity == pos.quantity
    ensures r.None? <==>
      Lookup(index, symbol).Some? && Lookup(index, symbol).value.quantity == pos.quantity
      && PricesMatch(pos.averagePrice, Lookup(index, symbol).value.averagePrice, tolerance)
  {
    match Lookup(index, symbol)
    case None => Some(MissingInBroker(symbol, pos.quantity, pos.averagePrice))
    case Some(b) =>
      if pos.quantity != b.quantity then
        Some(QuantityMismatch(symbol, pos.quantity, b.quantity, b.quantity - pos.quantity))
      else if !PricesMatch(pos.averagePrice, b.averagePrice, tolerance) then
        var pct := if pos.averagePrice > 0.0 then (b.averagePrice - pos.averagePrice) / pos.averagePrice * 100.0 else 0.0;
        Some(PriceMismatch(symbol, pos.averagePrice, b.averagePrice, pct))
      else None
  }

  predicate Tracks(tracked: seq<(string, Position)>, symbol: string)
  {
    exists i :: 0 <= i < |tracked| && tracked[i].0 == symbol
  }

  datatype Tally = Tally(discrepancies: seq<Discrepancy>, matched: nat)

  /** The first loop: every tracked position in order. */
  function CheckAllTracked(tracked: seq<(string, Position)>, index: seq<BrokerPosition>, tolerance: real): (t: Tally)
    ensures |t.discrepancies| + t.matched == |tracked|
    ensures forall k :: 0 <= k < |t.discrepancies| ==>
      !t.discrepancies[k].MissingInSystem? && Tracks(tracked, t.discrepancies[k].symbol)
    ensures t.discrepancies == [] <==>
      forall i :: 0 <= i < |tracked| ==> CheckTracked(tracked[i].0, tracked[i].1, index, tolerance).None?
  {
    if |tracked| == 0 then Tally([], 0)
    else
      var pre := tracked[..|tracked| - 1];
      var t := CheckAllTracked(pre, index, tolerance);
      assert forall i :: 0 <= i < |pre| ==> pre[i] == tracked[i];
      var (symbol, pos) := tracked[|tracked| - 1];
      match CheckTracked(symbol, pos, index, tolerance)
      case None => Tally(t.discrepancies, t.matched + 1)
      case Some(d) => Tally(t.discrepancies + [d], t.matched)
  }

  /** Every tracked position's own discrepancy is among those reported. */
  lemma {:induction false} TrackedVerdictsReported(tracked: seq<(string, Position)>, index: seq<BrokerPosition>, tolerance: real)
    ensures forall i :: 0 <= i < |tracked| && CheckTracked(tracked[i].0, tracked[i].1, index, tolerance).Some? ==>
      CheckTracked(tracked[i].0, tracked[i].1, index, tolerance).value in CheckAllTracked(tracked, index, tolerance).discrepancies
  {
    if |tracked| > 0 {
      var pre := tracked[..|tracked| - 1];
      TrackedVerdictsReported(pre, index, tolerance);
      assert forall i :: 0 <= i < |pre| ==> pre[i] == tracked[i];
    }
  }

  /** `d` is the verdict of one of the tracked positions. */
  ghost predicate IsVerdict(tracked: seq<(string, Position)>, index: seq<BrokerPosition>, tolerance: real, d: Discrepancy)
  {
    exists i :: 0 <= i < |tracked| && CheckTracked(tracked[i].0, tracked[i].1, index, tolerance) == Some(d)
  }

  /** `d` reports an open broker position whose symbol is not tracked. */
  ghost predicate IsUntrackedEntry(index: seq<BrokerPosition>, tracked: seq<(string, Position)>, d: Discrepancy)
  {
    exists i :: 0 <= i < |index| && !Tracks(tracked, index[i].symbol)
      && d == MissingInSystem(index[i].symbol, index[i].quantity, index[i].averagePrice)
  }

  /** Each discrepancy of the first loop is the verdict of some tracked position. */
  lemma {:induction false} TrackedReportsAreVerdicts(tracked: seq<(string, Position)>, index: seq<BrokerPosition>, tolerance: real)
    ensures forall k :: 0 <= k < |CheckAllTracked(tracked, index, tolerance).discrepancies| ==>
      IsVerdict(tracked, index, tolerance, CheckAllTracked(tracked, index, tolerance).discrepancies[k])
  {
    if |tracked| > 0 {
      var n := |tracked| - 1;
      var pre := tracked[..n];
      TrackedReportsAreVerdicts(pre, index, tolerance);
      var t := CheckAllTracked(pre, index, tolerance).discrepancies;
      var ds := CheckAllTracked(tracked, index, tolerance).discrepancies;
      forall k | 0 <= k < |ds| ensures IsVerdict(tracked, index, tolerance, ds[k]) {
        if k < |t| {
          assert ds[k] == t[k];
          assert IsVerdict(pre, index, tolerance, t[k]);
          var i :| 0 <= i < |pre| && CheckTracked(pre[i].0, pre[i].1, index, tolerance) == Some(t[k]);
          assert pre[i] == tracked[i];
        } else {
          assert CheckTracked(tracked[n].0, tracked[n].1, index, tolerance) == Some(ds[k]);
        }
      }
    }
  }

  /** Each discrepancy of the second loop is an untracked broker position. */
  lemma {:induction false} UntrackedReportsAreMissing(index: seq<BrokerPosition>, tracked: seq<(string, Position)>)
    ensures forall k :: 0 <= k < |CheckUntracked(index, tracked)| ==>
      IsUntrackedEntry(index, tracked, CheckUntracked(index, tracked)[k])
  {
    if |index| > 0 {
      var n := |index| - 1;
      var pre := index[..n];
      UntrackedReportsAreMissing(pre, tracked);
      var t := CheckUntracked(pre, tracked);
      var ds := CheckUntracked(index, tracked);
      forall k | 0 <= k < |ds| ensures IsUntrackedEntry(index, tracked, ds[k]) {
        if k < |t| {
          assert ds[k] == t[k];
          assert IsUntrackedEntry(pre, tracked, t[k]);
          var i :| 0 <= i < |pre| && !Tracks(tracked, pre[i].symbol)
            && t[k] == MissingInSystem(pre[i].symbol, pre[i].quantity, pre[i].averagePrice);
          assert pre[i] == index[i];
        } else {
          assert ds[k] == MissingInSystem(index[n].symbol, index[n].quantity, index[n].averagePrice);
        }
      }
    }
  }

  /** Positions in the broker index whose symbol the bot does not track. */
  ghost function UntrackedIndices(index: seq<BrokerPosition>, tracked: seq<(string, Position)>): set<int>
  {
    set i | 0 <= i < |index| && !Tracks(tracked, index[i].symbol)
  }

  /** The untracked positions of an index are those of its prefix, plus the
      last position when its symbol is untracked. */
  lemma UntrackedIndicesSplit(index: seq<BrokerPosition>, tracked: seq<(string, Position)>)
    requires |index| > 0
    ensures var n := |index| - 1;
      && n !in UntrackedIndices(index[..n], tracked)
      && UntrackedIndices(index, tracked) ==
           UntrackedIndices(index[..n], tracked) + (if Tracks(tracked, index[n].symbol) then {} else {n})
  {
    var n := |index| - 1;
    forall i | 0 <= i < n ensures index[..n][i] == index[i] { }
  }

  /** A discrepancy the two loops are meant to report: the verdict of a
      tracked position, or an untracked open broker position. */
  ghost predicate Expected(tracked: seq<(string, Position)>, index: seq<BrokerPosition>, tolerance: real, d: Discrepancy)
  {
    IsVerdict(tracked, index, tolerance, d) || IsUntrackedEntry(index, tracked, d)
  }

  /** The second loop: broker positions the bot does not know about. */
  function CheckUntracked(index: seq<BrokerPosition>, tracked: seq<(string, Position)>): (ds: seq<Discrepancy>)
    ensures |ds| <= |index|
    ensures |ds| == |UntrackedIndices(index, tracked)|
    ensures forall k :: 0 <= k < |ds| ==> ds[k].MissingInSystem? && !Tracks(tracked, ds[k].symbol)
    ensures ds == [] <==> forall i :: 0 <= i < |index| ==> Tracks(tracked, index[i].symbol)
  {
    if |index| == 0 then []
    else
      var pre := index[..|index| - 1];
      var ds := CheckUntracked(pre, tracked);
      assert forall i :: 0 <= i < |pre| ==> pre[i] == index[i];
      UntrackedIndicesSplit(index, tracked);
      var b := index[|index| - 1];
      if Tracks(tracked, b.symbol) then ds else ds + [MissingInSystem(b.symbol, b.quantity, b.averagePrice)]
  }

  /** Every open broker position whose symbol is not tracked is reported. */
  lemma {:induction false} UntrackedEntriesReported(index: seq<BrokerPosition>, tracked: seq<(string, Position)>)
    ensures forall i :: 0 <= i < |index| && !Tracks(tracked, index[i].symbol) ==>
      MissingInSystem(index[i].symbol, index[i].quantity, index[i].averagePrice) in CheckUntracked(index, tracked)
  {
    if |index| > 0 {
      var pre := index[..|index| - 1];
      UntrackedEntriesReported(pre, tracked);
      assert forall i :: 0 <= i < |pre| ==> pre[i] == index[i];
    }
  }

  /** `reconcile_positions`: an empty broker reply (including a failed fetch,
      which the source turns into an empty list) skips the run and changes
      nothing; otherwise every discrepancy is reported and remembered. */
  function Reconcile(r: Reconciler, tracked: seq<(string, Position)>, broker: seq<BrokerPosition>, now: real)
    : (res: (Reconciler, Report))
    ensures res.1.status == Skipped <==> |broker| == 0
    ensures |broker| == 0 ==> res.0 == r && res.1 == Report(Skipped, 0, 0, [], [])
    ensures |broker| > 0 ==>
      && res.1.mismatched == |res.1.discrepancies|
      && res.1.discrepancies == CheckAllTracked(tracked, BrokerIndex(broker), r.tolerance).discrepancies
                                + CheckUntracked(BrokerIndex(broker), tracked)
      && (forall k :: 0 <= k < |res.1.discrepancies| ==>
            Expected(tracked, BrokerIndex(broker), r.tolerance, res.1.discrepancies[k]))
      && res.1.matched + res.1.mismatched == |tracked| + |UntrackedIndices(BrokerIndex(broker), tracked)|
      && (res.1.status == Ok <==> res.1.discrepancies == [])
      && res.1.matched <= |tracked|
      && res.1.matched == CountMatched(tracked, BrokerIndex(broker), r.tolerance)
      && (forall i :: 0 <= i < |tracked| && CheckTracked(tracked[i].0, tracked[i].1, BrokerIndex(broker), r.tolerance).Some? ==>
            CheckTracked(tracked[i].0, tracked[i].1, BrokerIndex(broker), r.tolerance).value in res.1.discrepancies)
      && (forall i :: 0 <= i < |BrokerIndex(broker)| && !Tracks(tracked, BrokerIndex(broker)[i].symbol) ==>
            var b := BrokerIndex(broker)[i];
            MissingInSystem(b.symbol, b.quantity, b.averagePrice) in res.1.discrepancies)
      && (res.1.status == Ok <==>
            && (forall i :: 0 <= i < |tracked| ==> CheckTracked(tracked[i].0, tracked[i].1, BrokerIndex(broker), r.tolerance).None?)
            && (forall i :: 0 <= i < |BrokerIndex(broker)| ==> Tracks(tracked, BrokerIndex(broker)[i].symbol)))
      && res.1.brokerPositions == broker
      && res.0 == r.(lastSync := Some(now), syncCount := r.syncCount + 1,
                     discrepanciesFound := r.discrepanciesFound + res.1.discrepancies)
  {
    if |broker| == 0 then (r, Report(Skipped, 0, 0, [], []))
    else
      var index := BrokerIndex(broker);
      var t := CheckAllTracked(tracked, index, r.tolerance);
      TallyAccountsForTracked(tracked, index, r.tolerance);
      TrackedVerdictsReported(tracked, index, r.tolerance);
      TrackedReportsAreVerdicts(tracked, index, r.tolerance);
      UntrackedReportsAreMissing(index, tracked);
      UntrackedEntriesReported(index, tracked);
      var ds := t.discrepancies + CheckUntracked(index, tracked);
      var r2 := r.(lastSync := Some(now), syncCount := r.syncCount + 1,
                   discrepanciesFound := r.discrepanciesFound + ds);
      (r2, Report(if |ds| == 0 then Ok else Mismatch, t.matched, |ds|, ds, broker))
  }

  /** Every tracked position is either matched or reported once, so the
      report accounts for all of them. */
  lemma {:induction false} TallyAccountsForTracked(tracked: seq<(string, Position)>, index: seq<BrokerPosition>, tolerance: real)
    ensures var t := CheckAllTracked(tracked, index, tolerance);
      t.matched == CountMatched(tracked, index, tolerance)
    decreases |tracked|
  {
    if |tracked| > 0 {
      TallyAccountsForTracked(tracked[..|tracked| - 1], index, tolerance);
    }
  }

  /** Reference count: tracked positions whose broker entry agrees in
      quantity and, within tolerance, in price. */
  function CountMatched(tracked: seq<(string, Position)>, index: seq<BrokerPosition>, tolerance: real): nat
  {
    if |tracked| == 0 then 0
    else
      var (symbol, pos) := tracked[|tracked| - 1];
      var b := Lookup(index, symbol);
      CountMatched(tracked[..|tracked| - 1], index, tolerance)
        + (if b.Some? && b.value.quantity == pos.quantity && PricesMatch(pos.averagePrice, b.value.averagePrice, tolerance)
           then 1 else 0)
  }

  /** The reconciliation outcomes of the unit tests for a RELIANCE
      position at 1450. */
  lemma RelianceExamples(r: Reconciler, now: real)
    requires r.tolerance == 0.01
    ensures var tracked := [("RELIANCE", Position(10, 1450.0))];
      && Reconcile(r, tracked, [BrokerPosition("RELIANCE", 10, 1450.0)], now).1.status == Ok
      && Reconcile(r, [("RELIANCE", Position(5, 1450.0))], [BrokerPosition("RELIANCE", 10, 1450.0)], now).1.discrepancies
           == [QuantityMismatch("RELIANCE", 5, 10, 5)]
      && Reconcile(r, tracked, [], now).1.status == Skipped
  {
    RelianceInSync(r, now);
    RelianceShortfall(r, now);
  }

  /** Ten tracked shares against ten at the broker: in sync. */
  lemma RelianceInSync(r: Reconciler, now: real)
    requires r.tolerance == 0.01
    ensures Reconcile(r, [("RELIANCE", Position(10, 1450.0))], [BrokerPosition("RELIANCE", 10, 1450.0)], now).1.status == Ok
  {
    var tracked := [("RELIANCE", Position(10, 1450.0))];
    var same := [BrokerPosition("RELIANCE", 10, 1450.0)];
    assert BrokerIndex(same) == same;
    assert CheckAllTracked(tracked, same, 0.01) == Tally([], 1);
    assert tracked[0].0 == "RELIANCE";
    assert Tracks(tracked, "RELIANCE");
  }

  /** Five tracked shares against ten at the broker: one quantity mismatch. */
  lemma RelianceShortfall(r: Reconciler, now: real)
    requires r.tolerance == 0.01
    ensures Reconcile(r, [("RELIANCE", Position(5, 1450.0))], [BrokerPosition("RELIANCE", 10, 1450.0)], now).1.discrepancies
              == [QuantityMismatch("RELIANCE", 5, 10, 5)]
  {
    var same := [BrokerPosition("RELIANCE", 10, 1450.0)];
    var fewer := [("RELIANCE", Position(5, 1450.0))];
    assert BrokerIndex(same) == same;
    ShortfallChecks();
    assert Reconcile(r, fewer, same, now).1.discrepancies
      == CheckAllTracked(fewer, same, 0.01).discrepancies + CheckUntracked(same, fewer);
  }

  /** The two loops on the RELIANCE shortfall. */
  lemma ShortfallChecks()
    ensures var same := [BrokerPosition("RELIANCE", 10, 1450.0)];
      var fewer := [("RELIANCE", Position(5, 1450.0))];
      && CheckAllTracked(fewer, same, 0.01) == Tally([QuantityMismatch("RELIANCE", 5, 10, 5)], 0)
      && CheckUntracked(same, fewer) == []
  {
    var fewer := [("RELIANCE", Position(5, 1450.0))];
    assert fewer[0].0 == "RELIANCE";
    assert Tracks(fewer, "RELIANCE");
  }

  datatype ReconcilerStats = ReconcilerStats(
    totalSyncs: nat, lastSync: Option<real>, totalDiscrepancies: nat, recentDiscrepancies: seq<Discrepancy>)

  /** `get_stats`: the ten most recent discrepancies among all recorded. */
  function GetStats(r: Reconciler): (s: ReconcilerStats)
    ensures s.totalSyncs == r.syncCount && s.totalDiscrepancies == |r.discrepanciesFound|
    ensures |s.recentDiscrepancies| == MinInt(10, |r.discrepanciesFound|)
    ensures s.recentDiscrepancies == r.discrepanciesFound[|r.discrepanciesFound| - |s.recentDiscrepancies|..]
  {
    ReconcilerStats(r.syncCount, r.lastSync, |r.discrepanciesFound|, PySuffix(r.discrepanciesFound, 10))
  }
}

=== FILE: predictive_model.dfy ===
/** The predictive model: bounded candle buffers for four timeframes, four
    technical indicators per timeframe (RSI, MACD, moving-average crossover,
    volume), a confidence-weighted vote across timeframes, the resulting
    BUY/SELL signal, and a per-symbol success rate learnt from trades that
    scales signal confidence.

    The per-timeframe confidence is `1 - std(indicators) / 2`, a numpy
    standard deviation; it is an input here. The target price (which needs
    the volatility, another standard deviation), stored predictions and their
    validation, timestamps, and saving and loading are left out.
 */
module Prediction {
  import opened Common

  datatype Timeframe = M5 | M30 | H4 | Daily

  /** The four names the model accepts. */
  function ParseTimeframe(name: string): (t: Option<Timeframe>)
    ensures t == Some(M5) <==> name == "5m"
    ensures t == Some(M30) <==> name == "30m"
    ensures t == Some(H4) <==> name == "4h"
    ensures t == Some(Daily) <==> name == "daily"
  {
    if name == "5m" then Some(M5)
    else if name == "30m" then Some(M30)
    else if name == "4h" then Some(H4)
    else if name == "daily" then Some(Daily)
    else None
  }

  /** Buffer length per timeframe. */
  function Capacity(t: Timeframe): nat
  {
    match t
    case M5 => 200
    case M30 => 100
    case H4 => 50
    case Daily => 100
  }

  datatype ModelParams = ModelParams(successRate: real, trades: nat)

  datatype Model = Model(
    data: map<(Timeframe, string), seq<Candle>>,
    params: map<string, ModelParams>)

  function Series(m: Model, t: Timeframe, symbol: string): seq<Candle>
  {
    if (t, symbol) in m.data then m.data[(t, symbol)] else []
  }

  ghost predicate Bounded(m: Model)
  {
    forall k :: k in m.data ==> |m.data[k]| <= Capacity(k.0)
  }

  // ------------------------------------------------------------ buffers

  /** Appends a candle to the symbol's buffer for the named timeframe; an
      unknown timeframe name leaves the model as it was. */
  function UpdateTimeframeData(m: Model, symbol: string, timeframe: string, open: real,
                               high: real, low: real, close: real, volume: Option<real>)
    : (m': Model)
    ensures ParseTimeframe(timeframe).None? ==> m' == m
    ensures m'.params == m.params
    ensures ParseTimeframe(timeframe).Some? ==>
              var t := ParseTimeframe(timeframe).value;
              var s := Series(m, t, symbol);
              var s' := Series(m', t, symbol);
              var c := Candle(open, high, low, close, volume.GetOr(0.0));
              m'.data.Keys == m.data.Keys + {(t, symbol)}
              && |s'| == MinInt(|s| + 1, Capacity(t)) && s'[|s'| - 1] == c
              && s' == (s + [c])[|s| + 1 - |s'|..]
              && forall k :: k in m.data && k != (t, symbol) ==> m'.data[k] == m.data[k]
  {
    match ParseTimeframe(timeframe)
    case None => m
    case Some(t) =>
      var c := Candle(open, high, low, close, volume.GetOr(0.0));
      var s := BoundedAppend(Series(m, t, symbol), c, Capacity(t));
      m.(data := m.data[(t, symbol) := s])
  }

  /** No buffer ever outgrows its timeframe's capacity. */
  lemma UpdateKeepsBounded(m: Model, symbol: string, timeframe: string, open: real,
                           high: real, low: real, close: real, volume: Option<real>)
    requires Bounded(m)
    ensures Bounded(UpdateTimeframeData(m, symbol, timeframe, open, high, low, close, volume))
  {
  }

  /** At least twenty candles in both the 5-minute and the 30-minute
      buffers. */
  predicate HasSufficientData(m: Model, symbol: string)
  {
    |Series(m, M5, symbol)| >= 20 && |Series(m, M30, symbol)| >= 20
  }

  // --------------------------------------------------------- indicators

  const RsiPeriod: nat := 14

  /** Consecutive differences of a series. */
  function Changes(xs: seq<real>): (r: seq<real>)
    requires |xs| > 0
    ensures |r| == |xs| - 1
  {
    seq(|xs| - 1, k requires 0 <= k < |xs| - 1 => xs[k + 1] - xs[k])
  }

  /** Sum of the rises and sum of the falls (as a positive amount). */
  function Gains(changes: seq<real>): (g: real)
    ensures g >= 0.0
  {
    if |changes| == 0 then 0.0 else Gains(changes[1..]) + Max(changes[0], 0.0)
  }

  function Losses(changes: seq<real>): (l: real)
    ensures l >= 0.0
  {
    if |changes| == 0 then 0.0 else Losses(changes[1..]) + Abs(Min(changes[0], 0.0))
  }

  /** `100 - 100 / (1 + gain / loss)`: the relative strength index, which
      lies in [0, 100). */
  function RsiValue(avgGain: real, avgLoss: real): (rsi: real)
    requires avgGain >= 0.0 && avgLoss > 0.0
    ensures 0.0 <= rsi < 100.0
  {
    var rs := avgGain / avgLoss;
    QuotientBounds(avgGain, avgLoss);
    var q := 100.0 / (1.0 + rs);
    QuotientBounds(100.0, 1.0 + rs);
    assert q + q * rs == 100.0;
    assert q * rs >= 0.0;
    100.0 - q
  }

  /** The RSI over the last fourteen moves as a signal: 0 inside [30, 70],
      rising to 1 above it and falling to -1 below it; 1 when there was no
      loss at all, 0 with fewer than fifteen closes. */
  function RsiSignal(closes: seq<real>): (r: real)
    ensures -1.0 <= r <= 1.0
    ensures |closes| <= RsiPeriod ==> r == 0.0
    ensures |closes| > RsiPeriod ==>
              var recent := Changes(closes)[|closes| - 1 - RsiPeriod..];
              var gain, loss := Gains(recent) / 14.0, Losses(recent) / 14.0;
              (loss == 0.0 ==> r == 1.0)
              && (loss != 0.0 ==>
                    var rsi := RsiValue(gain, loss);
                    (r > 0.0 <==> rsi > 70.0) && (r < 0.0 <==> rsi < 30.0)
                    && (rsi > 70.0 ==> r * 30.0 == rsi - 70.0)
                    && (rsi < 30.0 ==> r * 30.0 == rsi - 30.0))
  {
    if |closes| <= RsiPeriod then 0.0
    else
      var recent := Changes(closes)[|closes| - 1 - RsiPeriod..];
      var gain, loss := Gains(recent) / 14.0, Losses(recent) / 14.0;
      if loss == 0.0 then 1.0
      else
        var rsi := RsiValue(gain, loss);
        if rsi > 70.0 then (rsi - 70.0) / 30.0
        else if rsi < 30.0 then -(30.0 - rsi) / 30.0
        else 0.0
  }

  /** A positive quotient scaled by a positive factor stays positive; the
      sign of `a / b * scale` is the sign of `a` when `b > 0`. */
  lemma ScaledQuotientSign(a: real, b: real, scale: real)
    ensures b > 0.0 && scale > 0.0 ==>
              (a > 0.0 <==> a / b * scale > 0.0) && (a < 0.0 <==> a / b * scale < 0.0)
  {
    if b > 0.0 && scale > 0.0 {
      var q := a / b;
      QuotientBounds(a, b);
      assert q * b == a;
      ProductSign(q, scale);
      if a > 0.0 { assert q != 0.0; assert q * scale > 0.0; }
      if a < 0.0 { assert q != 0.0; assert (-q) * scale > 0.0; }
    }
  }

  /** `max(min(a / b * scale, 1), -1)` with numpy's float division: a zero
      denominator gives plus or minus infinity, clamped to plus or minus 1
      (and 0/0, a NaN, is taken as 0). */
  function ClampedRatio(a: real, b: real, scale: real): (r: real)
    requires scale > 0.0
    ensures -1.0 <= r <= 1.0
    ensures b > 0.0 || b == 0.0 ==> (r > 0.0 <==> a > 0.0) && (r < 0.0 <==> a < 0.0)
    ensures b != 0.0 && -1.0 < a / b * scale < 1.0 ==> r == a / b * scale
  {
    if b == 0.0 then (if a > 0.0 then 1.0 else if a < 0.0 then -1.0 else 0.0)
    else
      ScaledQuotientSign(a, b, scale);
      Clamp(a / b * scale, -1.0, 1.0)
  }

  /** The exponential moving average, seeded with the mean of the first
      `period` values; the plain mean when there are fewer values. */
  function Ema(values: seq<real>, period: nat): (e: real)
    requires |values| > 0 && period > 0
    ensures SeqMin(values) <= e <= SeqMax(values)
  {
    var lo, hi := SeqMin(values), SeqMax(values);
    if |values| < period then
      MeanBetween(values, lo, hi);
      Mean(values)
    else
      var seed := values[..period];
      var rest := values[period..];
      var m := 2.0 / (period + 1) as real;
      assert 0.0 < m <= 1.0;
      assert lo <= Mean(seed) <= hi by {
        assert forall k :: 0 <= k < |seed| ==> seed[k] == values[k];
        MeanBetween(seed, lo, hi);
      }
      assert forall k :: 0 <= k < |rest| ==> lo <= rest[k] <= hi by {
        assert forall k :: 0 <= k < |rest| ==> rest[k] == values[period + k];
      }
      EmaStepsBetween(rest, Mean(seed), m, lo, hi);
      EmaSteps(rest, Mean(seed), m)
  }

  /** Folds `ema <- value * m + ema * (1 - m)` over `rest`. */
  function EmaSteps(rest: seq<real>, ema: real, m: real): real
  {
    if |rest| == 0 then ema else EmaSteps(rest[1..], rest[0] * m + ema * (1.0 - m), m)
  }

  /** A step of the average is a weighted mean of two points in [lo, hi]. */
  lemma ConvexStep(v: real, e: real, m: real, lo: real, hi: real)
    requires 0.0 < m <= 1.0 && lo <= v <= hi && lo <= e <= hi
    ensures lo <= v * m + e * (1.0 - m) <= hi
  {
    NonNegProduct(v - lo, m);
    NonNegProduct(e - lo, 1.0 - m);
    NonNegProduct(hi - v, m);
    NonNegProduct(hi - e, 1.0 - m);
  }

  lemma {:induction false} EmaStepsBetween(rest: seq<real>, ema: real, m: real, lo: real, hi: real)
    requires 0.0 < m <= 1.0 && lo <= ema <= hi
    requires forall k :: 0 <= k < |rest| ==> lo <= rest[k] <= hi
    ensures lo <= EmaSteps(rest, ema, m) <= hi
  {
    if |rest| > 0 {
      ConvexStep(rest[0], ema, m, lo, hi);
      EmaStepsBetween(rest[1..], rest[0] * m + ema * (1.0 - m), m, lo, hi);
    }
  }

  /** MACD (12- against 26-period average) normalised by 2% of the mean of
      the last 26 closes and clamped to [-1, 1]; 0 with fewer than 26
      closes. With positive prices it is positive exactly when the fast
      average is above the slow one. */
  function MacdSignal(closes: seq<real>): (r: real)
    ensures -1.0 <= r <= 1.0
    ensures |closes| < 26 ==> r == 0.0
    ensures |closes| >= 26 && Mean(closes[|closes| - 26..]) >= 0.0 ==>
              (r > 0.0 <==> Ema(closes, 12) > Ema(closes, 26))
              && (r < 0.0 <==> Ema(closes, 12) < Ema(closes, 26))
  {
    if |closes| < 26 then 0.0
    else
      ClampedRatio(Ema(closes, 12) - Ema(closes, 26), Mean(closes[|closes| - 26..]) * 0.02, 1.0)
  }

  /** Fifty times the relative gap between the 5- and 20-close averages,
      clamped to [-1, 1]; 0 with fewer than twenty closes. */
  function CrossoverSignal(closes: seq<real>): (r: real)
    ensures -1.0 <= r <= 1.0
    ensures |closes| < 20 ==> r == 0.0
    ensures |closes| >= 20 && Mean(closes[|closes| - 20..]) >= 0.0 ==>
              var short, long := Mean(closes[|closes| - 5..]), Mean(closes[|closes| - 20..]);
              (r > 0.0 <==> short > long) && (r < 0.0 <==> short < long)
  {
    if |closes| < 20 then 0.0
    else
      var short, long := Mean(closes[|closes| - 5..]), Mean(closes[|closes| - 20..]);
      ClampedRatio(short - long, long, 50.0)
  }

  /** The relative gap between the last five volumes' mean and the mean of
      the last twenty (or all of them), clamped to [-1, 1]; 0 with fewer
      than ten volumes or a zero average. */
  function VolumeSignal(volumes: seq<real>): (r: real)
    ensures -1.0 <= r <= 1.0
    ensures |volumes| < 10 ==> r == 0.0
    ensures |volumes| >= 10 ==>
              var recent := Mean(volumes[|volumes| - 5..]);
              var avg := if |volumes| >= 20 then Mean(volumes[|volumes| - 20..]) else Mean(volumes);
              (avg == 0.0 ==> r == 0.0)
              && (avg > 0.0 ==> (r > 0.0 <==> recent > avg) && (r < 0.0 <==> recent < avg))
  {
    if |volumes| < 10 then 0.0
    else
      var recent := Mean(volumes[|volumes| - 5..]);
      var avg := if |volumes| >= 20 then Mean(volumes[|volumes| - 20..]) else Mean(volumes);
      if avg == 0.0 then 0.0 else ClampedRatio(recent - avg, avg, 1.0)
  }

  // ---------------------------------------------------------- timeframes

  datatype Move = Up | Down | Neutral

  /** One timeframe's reading. */
  datatype Reading = Reading(direction: Move, strength: real, confidence: real)

  /** The mean of the four indicators decides the direction (beyond ±0.3)
      and its size is the strength; `alignment` is the timeframe's
      confidence. Fewer than ten candles give a neutral reading with no
      confidence. */
  function AnalyzeTimeframe(series: seq<Candle>, alignment: real): (r: Reading)
    ensures 0.0 <= r.strength <= 1.0
    ensures |series| < 10 ==> r == Reading(Neutral, 0.0, 0.0)
    ensures |series| >= 10 ==> r.confidence == alignment
    ensures r.direction == Neutral <==> r.strength == 0.0
    ensures r.direction != Neutral ==> r.strength > 0.3
    ensures |series| >= 10 ==>
              var closes := Closes(series);
              var avg := (RsiSignal(closes) + MacdSignal(closes) + CrossoverSignal(closes)
                          + VolumeSignal(Volumes(series))) / 4.0;
              (r.direction == Up <==> avg > 0.3) && (r.direction == Down <==> avg < -0.3)
  {
    if |series| < 10 then Reading(Neutral, 0.0, 0.0)
    else
      var closes := Closes(series);
      var avg := (RsiSignal(closes) + MacdSignal(closes) + CrossoverSignal(closes)
                  + VolumeSignal(Volumes(series))) / 4.0;
      if avg > 0.3 then Reading(Up, Min(avg, 1.0), alignment)
      else if avg < -0.3 then Reading(Down, Min(Abs(avg), 1.0), alignment)
      else Reading(Neutral, 0.0, alignment)
  }

  /** Share of each timeframe in the vote: longer ones weigh more. */
  function Weight(t: Timeframe): (w: real)
    ensures w > 0.0
  {
    match t
    case M5 => 0.15
    case M30 => 0.25
    case H4 => 0.30
    case Daily => 0.30
  }

  function MoveValue(d: Move): real
  {
    match d
    case Up => 1.0
    case Down => -1.0
    case Neutral => 0.0
  }

  /** Only readings with confidence above 0.1 take part in the vote. */
  predicate Counts(r: Reading) { r.confidence > 0.1 }

  /** The votes, one per timeframe in the order 5m, 30m, 4h, daily. */
  type Votes = seq<(Timeframe, Reading)>

  /** A counting reading weighs its timeframe's share times its
      confidence; any other weighs nothing. */
  function VoteWeight(t: Timeframe, r: Reading): (w: real)
    ensures w >= 0.0
    ensures w > 0.0 <==> Counts(r)
  {
    if Counts(r) then
      assert Weight(t) * r.confidence > 0.0 by { ProductSign(r.confidence, Weight(t)); }
      Weight(t) * r.confidence
    else 0.0
  }

  /** How far a vote pulls the combined signal: direction × strength ×
      weight. */
  function VotePull(t: Timeframe, r: Reading): real
  {
    MoveValue(r.direction) * r.strength * VoteWeight(t, r)
  }

  /** Total weight of the counting readings. */
  function TotalWeight(v: Votes): (w: real)
    ensures w >= 0.0
    ensures w > 0.0 <==> exists k :: 0 <= k < |v| && Counts(v[k].1)
  {
    if |v| == 0 then 0.0
    else
      assert forall k :: 1 <= k < |v| ==> v[k] == v[1..][k - 1];
      TotalWeight(v[1..]) + VoteWeight(v[0].0, v[0].1)
  }

  /** Sum of the pulls of the counting readings. */
  function WeightedSignal(v: Votes): real
  {
    if |v| == 0 then 0.0 else WeightedSignal(v[1..]) + VotePull(v[0].0, v[0].1)
  }

  lemma NonNegProduct(x: real, y: real)
    requires x >= 0.0 && y >= 0.0
    ensures x * y >= 0.0
  {
    if y > 0.0 {
      ProductSign(x, y);
    }
  }

  /** A vote with strength in [0, 1] pulls by at most its weight. */
  lemma PullWithinWeight(t: Timeframe, r: Reading)
    requires 0.0 <= r.strength <= 1.0
    ensures -VoteWeight(t, r) <= VotePull(t, r) <= VoteWeight(t, r)
  {
    var w := VoteWeight(t, r);
    NonNegProduct(r.strength, w);
    NonNegProduct(1.0 - r.strength, w);
    assert (1.0 - r.strength) * w == w - r.strength * w;
    match r.direction
    case Up => assert VotePull(t, r) == r.strength * w;
    case Down => assert VotePull(t, r) == -(r.strength * w);
    case Neutral => assert VotePull(t, r) == 0.0;
  }

  /** The confidences of the counting readings, in order. */
  function Confidences(v: Votes): (c: seq<real>)
    ensures forall k :: 0 <= k < |c| ==> c[k] > 0.1
    ensures |c| > 0 <==> exists k :: 0 <= k < |v| && Counts(v[k].1)
  {
    if |v| == 0 then []
    else
      assert forall k :: 1 <= k < |v| ==> v[k] == v[1..][k - 1];
      (if Counts(v[0].1) then [v[0].1.confidence] else []) + Confidences(v[1..])
  }

  predicate StrengthsInRange(v: Votes)
  {
    forall k :: 0 <= k < |v| ==> 0.0 <= v[k].1.strength <= 1.0
  }

  /** With strengths in [0, 1] the weighted signal never outweighs the
      total weight. */
  lemma {:induction false} WeightedSignalBounded(v: Votes)
    requires StrengthsInRange(v)
    ensures -TotalWeight(v) <= WeightedSignal(v) <= TotalWeight(v)
  {
    if |v| > 0 {
      assert StrengthsInRange(v[1..]) by {
        forall k | 0 <= k < |v[1..]| ensures 0.0 <= v[1..][k].1.strength <= 1.0 {
          assert v[1..][k] == v[k + 1];
        }
      }
      WeightedSignalBounded(v[1..]);
      PullWithinWeight(v[0].0, v[0].1);
    }
  }

  /** The mean of values all above a bound is above it. */
  lemma MeanAbove(s: seq<real>, lo: real)
    requires |s| > 0 && forall k :: 0 <= k < |s| ==> s[k] > lo
    ensures Mean(s) > lo
  {
    var m := SeqMin(s);
    MeanBetween(s, m, SeqMax(s));
  }

  datatype Combined = Combined(direction: Move, confidence: real, strength: real)

  /** The weighted mean of the counting directions: above 0.2 is up, below
      -0.2 down; its size is the strength and the mean confidence of the
      counting readings is the confidence. With no counting reading the
      result is neutral with no confidence. */
  function CombineTimeframeSignals(v: Votes): (c: Combined)
    ensures (forall k :: 0 <= k < |v| ==> !Counts(v[k].1)) ==> c == Combined(Neutral, 0.0, 0.0)
    ensures (exists k :: 0 <= k < |v| && Counts(v[k].1)) ==> c.confidence > 0.1
    ensures c.strength >= 0.0
    ensures StrengthsInRange(v) ==> c.strength <= 1.0
    ensures TotalWeight(v) > 0.0 ==>
              var f := WeightedSignal(v) / TotalWeight(v);
              (c.direction == Up <==> f > 0.2) && (c.direction == Down <==> f < -0.2)
    ensures TotalWeight(v) > 0.0 ==>
              c.strength == Abs(WeightedSignal(v) / TotalWeight(v)) && c.confidence == Mean(Confidences(v))
  {
    var total := TotalWeight(v);
    if total == 0.0 then Combined(Neutral, 0.0, 0.0)
    else
      var f := WeightedSignal(v) / total;
      var conf := Confidences(v);
      MeanAbove(conf, 0.1);
      FinalSignalBounded(v);
      var d := if f > 0.2 then Up else if f < -0.2 then Down else Neutral;
      Combined(d, Mean(conf), Abs(f))
  }

  /** The normalised vote lies in [-1, 1] when strengths do. */
  lemma FinalSignalBounded(v: Votes)
    ensures StrengthsInRange(v) && TotalWeight(v) > 0.0 ==>
              -1.0 <= WeightedSignal(v) / TotalWeight(v) <= 1.0
  {
    if StrengthsInRange(v) && TotalWeight(v) > 0.0 {
      WeightedSignalBounded(v);
      RatioWithinOne(WeightedSignal(v), TotalWeight(v));
    }
  }

  lemma RatioWithinOne(s: real, t: real)
    requires t > 0.0 && -t <= s <= t
    ensures -1.0 <= s / t <= 1.0
  {
    QuotientBounds(s, t);
    QuotientBounds(-s, t);
    assert -s / t == -(s / t);
  }

  // ---------------------------------------------------------- prediction

  datatype Forecast = Forecast(direction: Move, confidence: real)

  /** Analyses the four timeframes and combines them; without enough 5m and
      30m data the forecast is neutral with confidence 0. `alignment` gives
      each timeframe's indicator agreement. */
  function PredictPriceMovement(m: Model, symbol: string, alignment: Timeframe -> real)
    : (f: Forecast)
    ensures !HasSufficientData(m, symbol) ==> f == Forecast(Neutral, 0.0)
    ensures HasSufficientData(m, symbol) ==>
              var c := CombineTimeframeSignals(CastVotes(m, symbol, alignment));
              f == Forecast(c.direction, c.confidence)
  {
    if !HasSufficientData(m, symbol) then Forecast(Neutral, 0.0)
    else
      var c := CombineTimeframeSignals(CastVotes(m, symbol, alignment));
      Forecast(c.direction, c.confidence)
  }

  function CastVotes(m: Model, symbol: string, alignment: Timeframe -> real): (v: Votes)
    ensures |v| == 4 && StrengthsInRange(v)
  {
    [(M5, AnalyzeTimeframe(Series(m, M5, symbol), alignment(M5))),
     (M30, AnalyzeTimeframe(Series(m, M30, symbol), alignment(M30))),
     (H4, AnalyzeTimeframe(Series(m, H4, symbol), alignment(H4))),
     (Daily, AnalyzeTimeframe(Series(m, Daily, symbol), alignment(Daily)))]
  }

  /** BUY for an up forecast and SELL for a down one, but only with
      confidence of at least 0.6. */
  function GetAiSignal(m: Model, symbol: string, alignment: Timeframe -> real): (s: Option<Side>)
    ensures PredictPriceMovement(m, symbol, alignment).confidence < 0.6 ==> s == None
    ensures s == Some(Buy) <==> PredictPriceMovement(m, symbol, alignment).confidence >= 0.6
                                && PredictPriceMovement(m, symbol, alignment).direction == Up
    ensures s == Some(Sell) <==> PredictPriceMovement(m, symbol, alignment).confidence >= 0.6
                                 && PredictPriceMovement(m, symbol, alignment).direction == Down
  {
    var f := PredictPriceMovement(m, symbol, alignment);
    if f.confidence < 0.6 then None
    else if f.direction == Up then Some(Buy)
    else if f.direction == Down then Some(Sell)
    else None
  }

  /** Without enough short-timeframe data there is never a signal. */
  lemma NoSignalWithoutData(m: Model, symbol: string, alignment: Timeframe -> real)
    requires !HasSufficientData(m, symbol)
    ensures GetAiSignal(m, symbol, alignment) == None
  {
  }

  // ------------------------------------------------------------ learning

  /** Records one trade outcome: the success rate moves a tenth of the way
      to 1 (success) or 0 (failure) and is kept within [0.1, 0.9]; an unseen
      symbol starts from 0.5 and no trades. */
  function LearnFromTrade(params: map<string, ModelParams>, symbol: string, success: bool)
    : (r: map<string, ModelParams>)
    ensures r.Keys == params.Keys + {symbol}
    ensures forall k :: k in params && k != symbol ==> r[k] == params[k]
    ensures 0.1 <= r[symbol].successRate <= 0.9
    ensures var before := if symbol in params then params[symbol] else ModelParams(0.5, 0);
            r[symbol].trades == before.trades + 1
            && r[symbol].successRate
               == Clamp(before.successRate * 0.9 + (if success then 0.1 else 0.0), 0.1, 0.9)
  {
    var before := if symbol in params then params[symbol] else ModelParams(0.5, 0);
    var rate := before.successRate * (1.0 - 0.1) + 0.1 * (if success then 1.0 else 0.0);
    params[symbol := ModelParams(Max(0.1, Min(0.9, rate)), before.trades + 1)]
  }

  /** A success never lowers a rate already in [0.1, 0.9], and a failure
      never raises it. */
  lemma LearningMovesTowardOutcome(params: map<string, ModelParams>, symbol: string, success: bool)
    requires symbol in params ==> 0.1 <= params[symbol].successRate <= 0.9
    ensures var before := if symbol in params then params[symbol].successRate else 0.5;
            var after := LearnFromTrade(params, symbol, success)[symbol].successRate;
            if success then before <= after else after <= before
  {
  }

  /** Scales signal confidence by past performance: 1 + (rate − 0.5) above
      0.6, 0.5 + rate below 0.4, 1 otherwise and for an unknown symbol. */
  function GetConfidenceAdjustment(params: map<string, ModelParams>, symbol: string): (a: real)
    ensures symbol !in params ==> a == 1.0
    ensures symbol in params && 0.4 <= params[symbol].successRate <= 0.6 ==> a == 1.0
    ensures symbol in params && 0.0 <= params[symbol].successRate <= 1.0 ==> 0.5 <= a <= 1.5
    ensures symbol in params && params[symbol].successRate > 0.6 ==> a > 1.1
    ensures symbol in params && params[symbol].successRate < 0.4 ==> a < 0.9
  {
    if symbol !in params then 1.0
    else
      var rate := params[symbol].successRate;
      if rate > 0.6 then 1.0 + (rate - 0.5)
      else if rate < 0.4 then 0.5 + rate
      else 1.0
  }

  /** Rates that came from learning keep the adjustment within [0.6, 1.4]. */
  lemma LearntAdjustmentInRange(params: map<string, ModelParams>, symbol: string, success: bool)
    ensures var a := GetConfidenceAdjustment(LearnFromTrade(params, symbol, success), symbol);
            0.6 <= a <= 1.4
  {
  }
}

=== FILE: rate_limiter.dfy ===
/** The token-bucket rate limiter that throttles broker API calls.

    The bucket holds up to `burst` tokens and refills continuously at `rate`
    tokens per second. Time readings are explicit: `now` for single calls and
    a sequence of clock readings, one per pass of the waiting loop, for
    `Acquire`. The lock only serialises callers and is not modelled.
 */
module RateLimiting {
  import opened Common

  /** Capacity of the log of grant timestamps (`deque(maxlen=100)`). */
  const RequestLogSize: nat := 100

  /** Window, in seconds, over which `get_stats` measures the recent rate. */
  const StatsWindow: real := 10.0

  datatype Limiter = Limiter(
    rate: real,
    burst: int,
    tokens: real,
    lastUpdate: real,
    requestTimes: seq<real>,
    totalRequests: nat,
    rejectedRequests: nat)

  /** `burst_size or int(requests_per_second * 2)`: an absent or zero burst
      size falls back to twice the rate, truncated. */
  function BurstSize(rate: real, burst: Option<int>): (b: int)
    ensures burst.Some? && burst.value != 0 ==> b == burst.value
    ensures (burst.None? || burst.value == 0) && rate >= 0.0 ==>
      b as real <= 2.0 * rate < b as real + 1.0
  {
    if burst.Some? && burst.value != 0 then burst.value else Trunc(rate * 2.0)
  }

  /** A new limiter starts with a full bucket and empty statistics. */
  function NewLimiter(rate: real, burst: Option<int>, now: real): (l: Limiter)
    ensures l.burst == BurstSize(rate, burst) && l.tokens == l.burst as real
    ensures l.totalRequests == 0 && l.rejectedRequests == 0 && l.requestTimes == []
    ensures l.lastUpdate == now
  {
    var b := BurstSize(rate, burst);
    Limiter(rate, b, b as real, now, [], 0, 0)
  }

  /** The tokens accrued over `elapsed` seconds. */
  function Accrued(elapsed: real, rate: real): real
  {
    elapsed * rate
  }

  /** Tops the bucket up for the time since the last update, never beyond the
      burst size. */
  function Refill(l: Limiter, now: real): (r: Limiter)
    ensures r.tokens <= r.burst as real
    ensures r.lastUpdate == now
    ensures r == l.(tokens := r.tokens, lastUpdate := now)
    ensures l.tokens + Accrued(now - l.lastUpdate, l.rate) <= l.burst as real ==>
      r.tokens == l.tokens + Accrued(now - l.lastUpdate, l.rate)
    ensures l.tokens + Accrued(now - l.lastUpdate, l.rate) >= l.burst as real ==> r.tokens == l.burst as real
  {
    l.(tokens := Min(l.burst as real, l.tokens + Accrued(now - l.lastUpdate, l.rate)), lastUpdate := now)
  }

  lemma AccruedNonNegative(elapsed: real, rate: real)
    requires elapsed >= 0.0 && rate >= 0.0
    ensures Accrued(elapsed, rate) >= 0.0
  {
  }

  /** Moving forward in time never loses tokens from a bucket that was within
      its capacity. */
  lemma RefillNeverLoses(l: Limiter, now: real)
    requires now >= l.lastUpdate && l.rate >= 0.0 && l.tokens <= l.burst as real
    ensures Refill(l, now).tokens >= l.tokens
  {
    AccruedNonNegative(now - l.lastUpdate, l.rate);
  }

  datatype Grant = Grant(limiter: Limiter, granted: bool)

  /** Takes `n` tokens if the refilled bucket holds that many, recording the
      grant; otherwise counts a rejection and leaves the tokens alone. */
  function TryAcquire(l: Limiter, n: int, now: real): (g: Grant)
    ensures var f := Refill(l, now);
      && (g.granted <==> f.tokens >= n as real)
      && g.limiter.rate == l.rate && g.limiter.burst == l.burst && g.limiter.lastUpdate == now
      && (g.granted ==>
            && g.limiter.tokens == f.tokens - n as real
            && g.limiter.totalRequests == l.totalRequests + 1
            && g.limiter.rejectedRequests == l.rejectedRequests
            && g.limiter.requestTimes == BoundedAppend(l.requestTimes, now, RequestLogSize))
      && (!g.granted ==>
            && g.limiter.tokens == f.tokens
            && g.limiter.totalRequests == l.totalRequests
            && g.limiter.rejectedRequests == l.rejectedRequests + 1
            && g.limiter.requestTimes == l.requestTimes)
  {
    var f := Refill(l, now);
    if f.tokens >= n as real then
      Grant(f.(tokens := f.tokens - n as real, totalRequests := f.totalRequests + 1,
               requestTimes := BoundedAppend(f.requestTimes, now, RequestLogSize)), true)
    else
      Grant(f.(rejectedRequests := f.rejectedRequests + 1), false)
  }

  /** The bucket's level stays within [0, burst] under non-negative requests
      and a clock that does not run backwards. */
  predicate BucketValid(l: Limiter)
  {
    0.0 <= l.tokens <= l.burst as real && l.rate >= 0.0 && |l.requestTimes| <= RequestLogSize
  }

  lemma TryAcquireKeepsBucketValid(l: Limiter, n: nat, now: real)
    requires BucketValid(l) && now >= l.lastUpdate
    ensures BucketValid(TryAcquire(l, n, now).limiter)
  {
    RefillNeverLoses(l, now);
  }

  /** `m` single-token requests made at the same instant `now`. */
  function Burst(l: Limiter, now: real, m: nat): Limiter
  {
    if m == 0 then l else TryAcquire(Burst(l, now, m - 1), 1, now).limiter
  }

  /** A request made at the instant of the last update sees no refill. */
  lemma SameInstantRequest(l: Limiter, now: real)
    requires l.lastUpdate == now && l.tokens <= l.burst as real
    ensures var g := TryAcquire(l, 1, now);
      && (g.granted <==> l.tokens >= 1.0)
      && (g.granted ==> g.limiter.tokens == l.tokens - 1.0 && g.limiter.totalRequests == l.totalRequests + 1)
      && g.limiter.rejectedRequests == (if g.granted then l.rejectedRequests else l.rejectedRequests + 1)
      && g.limiter.lastUpdate == now && g.limiter.burst == l.burst && g.limiter.rate == l.rate
  {
    assert Accrued(now - l.lastUpdate, l.rate) == 0.0;
    assert Refill(l, now).tokens == l.tokens;
  }

  /** One more request at the same instant takes a token from a bucket that
      still holds one. */
  lemma BurstStep(l: Limiter, now: real, m: nat)
    requires m > 0
    requires var before := Burst(l, now, m - 1);
      before.lastUpdate == now && 1.0 <= before.tokens <= before.burst as real
    ensures var before, after := Burst(l, now, m - 1), Burst(l, now, m);
      && after.tokens == before.tokens - 1.0 && after.totalRequests == before.totalRequests + 1
      && after.rejectedRequests == before.rejectedRequests
      && after.lastUpdate == now && after.burst == before.burst && after.rate == before.rate
  {
    SameInstantRequest(Burst(l, now, m - 1), now);
  }

  /** A full bucket of capacity `b` grants exactly `b` requests made at the
      moment it was filled, and refuses the next one. */
  lemma {:induction false} BurstDrainsBucket(rate: real, b: nat, now: real, m: nat)
    requires b > 0 && m <= b
    ensures var l := Burst(NewLimiter(rate, Some(b), now), now, m);
      l.tokens == (b - m) as real && l.totalRequests == m && l.rejectedRequests == 0
      && l.lastUpdate == now && l.burst == b && l.rate == rate
    ensures m == b ==> !TryAcquire(Burst(NewLimiter(rate, Some(b), now), now, m), 1, now).granted
  {
    var start := NewLimiter(rate, Some(b), now);
    if m > 0 {
      BurstDrainsBucket(rate, b, now, m - 1);
      BurstStep(start, now, m);
    }
    if m == b {
      SameInstantRequest(Burst(start, now, m), now);
    }
  }

  /** The refill the unit tests rely on: an emptied bucket of two tokens at
      five tokens per second grants again half a second later. */
  lemma RefillAfterHalfSecond(t: real)
    ensures var drained := Burst(NewLimiter(5.0, Some(2), t), t, 2);
      TryAcquire(drained, 1, t + 0.5).granted
  {
    BurstDrainsBucket(5.0, 2, t, 2);
    var drained := Burst(NewLimiter(5.0, Some(2), t), t, 2);
    assert Accrued(t + 0.5 - drained.lastUpdate, 5.0) == 2.5;
  }

  /** How a blocking `acquire` ends: with the tokens, with a timeout, with the
      division by a zero rate when it has to compute a wait, or (a modelling
      artefact) still waiting when the supplied clock readings run out. */
  datatype AcquireOutcome = Acquired | TimedOut | ZeroRate | StillWaiting

  /** The limiter at the start of pass `j` of the waiting loop: every earlier
      pass only refilled the bucket at its own clock reading. */
  function Waited(l: Limiter, clock: seq<real>, j: nat): (w: Limiter)
    requires j <= |clock|
    ensures w == l.(tokens := w.tokens, lastUpdate := w.lastUpdate)
    ensures j > 0 ==> w.lastUpdate == clock[j - 1]
  {
    if j == 0 then l else Refill(Waited(l, clock, j - 1), clock[j - 1])
  }

  /** The sleep of a pass that found too few tokens in the refilled bucket
      `f`, `elapsed` seconds after entering: the time the missing tokens take
      to accrue, cut to the time left before the timeout. */
  function Sleep(f: Limiter, n: int, timeout: Option<real>, elapsed: real): (d: real)
    requires f.rate != 0.0
    ensures timeout.None? ==> d * f.rate == n as real - f.tokens
    ensures timeout.Some? ==>
      d <= timeout.value - elapsed && (d == timeout.value - elapsed || d * f.rate == n as real - f.tokens)
  {
    var wait := (n as real - f.tokens) / f.rate;
    if timeout.Some? then Min(wait, timeout.value - elapsed) else wait
  }

  /** How the pass that found the refilled bucket `f` ends, `elapsed` seconds
      after entering: the grant comes first, then the division by the rate,
      then the timeout. */
  function PassOutcome(f: Limiter, n: int, timeout: Option<real>, elapsed: real): Option<AcquireOutcome>
  {
    if f.tokens >= n as real then Some(Acquired)
    else if f.rate == 0.0 then Some(ZeroRate)
    else if timeout.Some? && elapsed >= timeout.value then Some(TimedOut)
    else None
  }

  /** Pass `j` found too few tokens in its refilled bucket, did not stop on
      the rate or the timeout, and slept `d`, as `Sleep` says. */
  predicate SleptAt(l: Limiter, n: int, timeout: Option<real>, start: real, clock: seq<real>, j: nat, d: real)
    requires j < |clock|
  {
    && PassOutcome(Waited(l, clock, j + 1), n, timeout, clock[j] - start).None?
    && l.rate != 0.0 && d == Sleep(Waited(l, clock, j + 1), n, timeout, clock[j] - start)
  }

  /** Each of the passes that slept, one per element of `sleeps`, did as
      `SleptAt` says. */
  predicate SleptPasses(l: Limiter, n: int, timeout: Option<real>, start: real, clock: seq<real>, sleeps: seq<real>)
    requires |sleeps| <= |clock|
  {
    forall j :: 0 <= j < |sleeps| ==> SleptAt(l, n, timeout, start, clock, j, sleeps[j])
  }

  /** A pass that found too few tokens, a non-zero rate and time left, and
      slept `Sleep`, extends the passes that slept by one. */
  lemma SleptOneMore(l: Limiter, n: int, timeout: Option<real>, start: real, clock: seq<real>,
                     sleeps: seq<real>, wait: real)
    requires |sleeps| < |clock| && SleptPasses(l, n, timeout, start, clock, sleeps)
    requires SleptAt(l, n, timeout, start, clock, |sleeps|, wait)
    ensures SleptPasses(l, n, timeout, start, clock, sleeps + [wait])
  {
    var s' := sleeps + [wait];
    forall j | 0 <= j < |s'|
      ensures SleptAt(l, n, timeout, start, clock, j, s'[j])
    {
      if j < |sleeps| { assert s'[j] == sleeps[j]; }
    }
  }

  /** A pass that slept never slept past the timeout, and without a timeout
      slept a positive time when the rate is positive. */
  lemma SleptPassesBounded(l: Limiter, n: int, timeout: Option<real>, start: real, clock: seq<real>, sleeps: seq<real>)
    requires |sleeps| <= |clock| && SleptPasses(l, n, timeout, start, clock, sleeps)
    ensures forall j :: 0 <= j < |sleeps| ==>
      timeout.None? || (clock[j] - start < timeout.value && sleeps[j] <= timeout.value - (clock[j] - start))
    ensures l.rate > 0.0 ==> forall j :: 0 <= j < |sleeps| && timeout.None? ==> sleeps[j] > 0.0
  {
    forall j | 0 <= j < |sleeps|
      ensures timeout.None? || (clock[j] - start < timeout.value && sleeps[j] <= timeout.value - (clock[j] - start))
      ensures timeout.None? && l.rate > 0.0 ==> sleeps[j] > 0.0
    {
      assert SleptAt(l, n, timeout, start, clock, j, sleeps[j]);
      var f := Waited(l, clock, j + 1);
      if timeout.None? && l.rate > 0.0 {
        DividePositive(n as real - f.tokens, f.rate);
      }
    }
  }

  /** The counters, timestamps and timeout facts that follow from how a
      blocking `acquire` ended. */
  lemma AcquireEndFacts(l: Limiter, n: int, timeout: Option<real>, start: real, clock: seq<real>,
                        r: Limiter, outcome: AcquireOutcome, passes: nat)
    requires passes < |clock|
    requires PassOutcome(Waited(l, clock, passes + 1), n, timeout, clock[passes] - start) == Some(outcome)
    requires outcome.Acquired? ==> r == TryAcquire(Waited(l, clock, passes), n, clock[passes]).limiter
    requires outcome.ZeroRate? ==> r == Waited(l, clock, passes + 1)
    requires outcome.TimedOut? ==>
      r == Waited(l, clock, passes + 1).(rejectedRequests := l.rejectedRequests + 1)
    ensures r.rate == l.rate && r.burst == l.burst
    ensures passes == 0 ==> (outcome.Acquired? <==> Refill(l, clock[0]).tokens >= n as real)
    ensures outcome.Acquired? ==>
      r.totalRequests == l.totalRequests + 1 && r.rejectedRequests == l.rejectedRequests
      && r.tokens >= 0.0 && r.lastUpdate == clock[passes]
    ensures outcome.TimedOut? ==>
      r.totalRequests == l.totalRequests && r.rejectedRequests == l.rejectedRequests + 1
      && timeout.Some? && clock[passes] - start >= timeout.value
    ensures outcome.ZeroRate? ==> l.rate == 0.0
    ensures !outcome.Acquired? && !outcome.TimedOut? ==>
      r.totalRequests == l.totalRequests && r.rejectedRequests == l.rejectedRequests
  {
    assert Waited(l, clock, passes + 1) == Refill(Waited(l, clock, passes), clock[passes]);
  }

  /** The blocking `acquire`: `clock[k]` is the time at the k-th pass of the
      loop, `start` the time it was entered. Returns the limiter, the outcome,
      the pass it ended on and the sleeps taken before it. Every pass refills
      the bucket; the passes before the last found too few tokens, neither
      divided by zero nor timed out, and slept `Sleep` (`SleptAt`); the last
      pass ends as `PassOutcome` says. */
  method Acquire(l: Limiter, n: int, timeout: Option<real>, start: real, clock: seq<real>)
    returns (r: Limiter, outcome: AcquireOutcome, passes: nat, sleeps: seq<real>)
    ensures |sleeps| == passes <= |clock|
    ensures outcome.StillWaiting? <==> passes == |clock|
    ensures r.rate == l.rate && r.burst == l.burst
    ensures passes == 0 && |clock| > 0 ==>
      (outcome.Acquired? <==> Refill(l, clock[0]).tokens >= n as real)
    ensures forall j :: 0 <= j < passes ==> SleptAt(l, n, timeout, start, clock, j, sleeps[j])
    ensures passes < |clock| ==>
      PassOutcome(Waited(l, clock, passes + 1), n, timeout, clock[passes] - start) == Some(outcome)
    ensures outcome.Acquired? ==> r == TryAcquire(Waited(l, clock, passes), n, clock[passes]).limiter
    ensures outcome.ZeroRate? ==> r == Waited(l, clock, passes + 1)
    ensures outcome.TimedOut? ==>
      r == Waited(l, clock, passes + 1).(rejectedRequests := l.rejectedRequests + 1)
    ensures outcome.StillWaiting? ==> r == Waited(l, clock, passes)
    ensures outcome.Acquired? ==>
      r.totalRequests == l.totalRequests + 1 && r.rejectedRequests == l.rejectedRequests
      && r.tokens >= 0.0 && r.lastUpdate == clock[passes]
    ensures outcome.TimedOut? ==>
      r.totalRequests == l.totalRequests && r.rejectedRequests == l.rejectedRequests + 1
      && timeout.Some? && clock[passes] - start >= timeout.value
    ensures outcome.ZeroRate? ==> l.rate == 0.0
    ensures !outcome.Acquired? && !outcome.TimedOut? ==>
      r.totalRequests == l.totalRequests && r.rejectedRequests == l.rejectedRequests
    ensures forall j :: 0 <= j < passes ==>
      timeout.None? || (clock[j] - start < timeout.value && sleeps[j] <= timeout.value - (clock[j] - start))
    ensures l.rate > 0.0 ==> forall j :: 0 <= j < passes && timeout.None? ==> sleeps[j] > 0.0
  {
    r := l;
    passes := 0;
    sleeps := [];
    while passes < |clock|
      invariant passes <= |clock| && |sleeps| == passes
      invariant r == Waited(l, clock, passes)
      invariant SleptPasses(l, n, timeout, start, clock, sleeps)
      decreases |clock| - passes
    {
      var now := clock[passes];
      var g := TryAcquire(r, n, now);
      assert Refill(r, now) == Waited(l, clock, passes + 1);
      if g.granted {
        SleptPassesBounded(l, n, timeout, start, clock, sleeps);
        AcquireEndFacts(l, n, timeout, start, clock, g.limiter, Acquired, passes);
        return g.limiter, Acquired, passes, sleeps;
      }
      r := Refill(r, now);
      if r.rate == 0.0 {
        SleptPassesBounded(l, n, timeout, start, clock, sleeps);
        AcquireEndFacts(l, n, timeout, start, clock, r, ZeroRate, passes);
        return r, ZeroRate, passes, sleeps;
      }
      var wait := (n as real - r.tokens) / r.rate;
      if timeout.Some? {
        var elapsed := now - start;
        if elapsed >= timeout.value {
          r := r.(rejectedRequests := r.rejectedRequests + 1);
          SleptPassesBounded(l, n, timeout, start, clock, sleeps);
          AcquireEndFacts(l, n, timeout, start, clock, r, TimedOut, passes);
          return r, TimedOut, passes, sleeps;
        }
        wait := Min(wait, timeout.value - elapsed);
      }
      assert wait == Sleep(r, n, timeout, now - start);
      SleptOneMore(l, n, timeout, start, clock, sleeps, wait);
      sleeps := sleeps + [wait];
      passes := passes + 1;
    }
    SleptPassesBounded(l, n, timeout, start, clock, sleeps);
    outcome := StillWaiting;
  }

  lemma DividePositive(a: real, b: real)
    requires a > 0.0 && b > 0.0
    ensures a / b > 0.0
  {
  }

  /** The figures `get_stats` reports. */
  datatype Stats = Stats(
    totalRequests: nat,
    rejectedRequests: nat,
    currentTokens: real,
    maxTokens: int,
    configuredRate: real,
    recentRate: real,
    utilization: real)

  /** Positions of the log whose grant lies at most ten seconds before `now`. */
  ghost function RecentIndices(times: seq<real>, now: real): set<int>
  {
    set i | 0 <= i < |times| && now - times[i] <= StatsWindow
  }

  /** Number of logged grants at most ten seconds before `now`. */
  function CountRecent(times: seq<real>, now: real): (c: nat)
    ensures c == |RecentIndices(times, now)|
    ensures c <= |times|
    ensures c == |times| <==> forall i :: 0 <= i < |times| ==> now - times[i] <= StatsWindow
    decreases |times|
  {
    if |times| == 0 then 0
    else
      var n := |times| - 1;
      RecentIndicesSplit(times, now);
      CountRecent(times[..n], now) + (if now - times[n] <= StatsWindow then 1 else 0)
  }

  /** The recent positions of a log are those of its prefix, plus the last
      position when the last grant is recent. */
  lemma RecentIndicesSplit(times: seq<real>, now: real)
    requires |times| > 0
    ensures var n := |times| - 1;
      && n !in RecentIndices(times[..n], now)
      && RecentIndices(times, now) ==
           RecentIndices(times[..n], now) + (if now - times[n] <= StatsWindow then {n} else {})
  {
    var n := |times| - 1;
    forall i | 0 <= i < n ensures times[..n][i] == times[i] { }
  }

  function GetStats(l: Limiter, now: real): (s: Stats)
    requires |l.requestTimes| <= RequestLogSize
    ensures s.totalRequests == l.totalRequests && s.rejectedRequests == l.rejectedRequests
    ensures s.currentTokens == l.tokens && s.maxTokens == l.burst && s.configuredRate == l.rate
    ensures s.recentRate * StatsWindow == |RecentIndices(l.requestTimes, now)| as real
    ensures 0.0 <= s.recentRate <= 10.0
    ensures l.rate <= 0.0 ==> s.utilization == 0.0
    ensures l.rate > 0.0 ==> s.utilization * l.rate == s.recentRate * 100.0
  {
    var recent := CountRecent(l.requestTimes, now) as real / StatsWindow;
    Stats(l.totalRequests, l.rejectedRequests, l.tokens, l.burst, l.rate, recent,
          if l.rate > 0.0 then recent / l.rate * 100.0 else 0.0)
  }

  /** Refills the bucket and forgets all statistics. */
  function Reset(l: Limiter, now: real): (r: Limiter)
    ensures l.burst != 0 ==> r == NewLimiter(l.rate, Some(l.burst), now)
    ensures r.rate == l.rate && r.burst == l.burst && r.tokens == l.burst as real
    ensures r.totalRequests == 0 && r.rejectedRequests == 0 && r.requestTimes == []
    ensures r.lastUpdate == now
  {
    l.(tokens := l.burst as real, lastUpdate := now, totalRequests := 0, rejectedRequests := 0, requestTimes := [])
  }

  /** `get_rate_limiter`: the process-wide limiter, created on first use. */
  function GetRateLimiter(global: Option<Limiter>, rate: real, now: real): (r: (Option<Limiter>, Limiter))
    ensures r.0 == Some(r.1)
    ensures global.Some? ==> r.1 == global.value
    ensures global.None? ==> r.1 == NewLimiter(rate, None, now)
  {
    match global
    case Some(l) => (global, l)
    case None => var l := NewLimiter(rate, None, now); (Some(l), l)
  }

  /** Once created, the shared limiter ignores the rate asked for by later
      callers. */
  lemma LaterRatesIgnored(rate1: real, rate2: real, t1: real, t2: real)
    ensures var (g, l1) := GetRateLimiter(None, rate1, t1);
      GetRateLimiter(g, rate2, t2).1 == l1 && l1.rate == rate1
  {
  }
}

=== FILE: sentiment_analyzer.dfy ===
/** The sentiment analyzer: keyword scoring of text, and a per-symbol
    sentiment history fed by price moves from which a current score, an
    exponentially weighted average, a trend, a confidence, a fear/greed
    index, a trade permission and a position-size multiplier are derived.

    The timestamps stored with each history entry, the simulated market
    sentiment and saving and loading the history are left out.
 */
module Sentiment {
  import opened Common
  import opened Dicts

  // ------------------------------------------------------------ text scoring

  const PositiveWords: set<string> := {
    "bullish", "rally", "surge", "gain", "profit", "growth", "strong",
    "buy", "upgrade", "positive", "beat", "outperform", "boom",
    "recovery", "optimistic", "breakout", "soar", "jump", "climb"}

  const NegativeWords: set<string> := {
    "bearish", "decline", "loss", "weak", "sell", "downgrade", "negative",
    "miss", "underperform", "crash", "recession", "pessimistic",
    "plunge", "drop", "fall", "tumble", "slump", "fear", "concern"}

  /** The characters of a `\w` run, restricted to ASCII. */
  predicate IsWordChar(c: char)
  {
    ('a' <= c <= 'z') || ('A' <= c <= 'Z') || ('0' <= c <= '9') || c == '_'
  }

  predicate IsWord(w: string)
  {
    |w| > 0 && forall i :: 0 <= i < |w| ==> IsWordChar(w[i])
  }

  /** The maximal runs of word characters of `s`, in order; `current` is the
      run being read. */
  function WordsFrom(s: string, current: string): (r: seq<string>)
    requires current == "" || IsWord(current)
    ensures forall k :: 0 <= k < |r| ==> IsWord(r[k])
    decreases |s|
  {
    var flushed := if current == "" then [] else [current];
    if |s| == 0 then flushed
    else if IsWordChar(s[0]) then WordsFrom(s[1..], current + [s[0]])
    else flushed + WordsFrom(s[1..], "")
  }

  /** `re.findall(r'\b\w+\b', s)`. */
  function Words(s: string): (r: seq<string>)
    ensures forall k :: 0 <= k < |r| ==> IsWord(r[k])
  {
    WordsFrom(s, "")
  }

  /** How many of `words` are in `keys`. */
  function CountIn(words: seq<string>, keys: set<string>): (n: nat)
    ensures n <= |words|
    ensures n > 0 <==> exists k :: 0 <= k < |words| && words[k] in keys
  {
    if |words| == 0 then 0
    else (if words[0] in keys then 1 else 0) + CountIn(words[1..], keys)
  }

  datatype TextScore = TextScore(score: real, confidence: real, positive: nat, negative: nat)

  /** `analyze_text`. */
  function AnalyzeText(text: string): (r: TextScore)
    ensures r.positive == CountIn(Words(Lower(text)), PositiveWords)
    ensures r.negative == CountIn(Words(Lower(text)), NegativeWords)
    ensures r.positive + r.negative <= |Words(Lower(text))|
    ensures r.positive + r.negative == 0 ==> r.score == 0.0 && r.confidence == 0.0
    ensures r.positive + r.negative > 0 ==>
      && -1.0 <= r.score <= 1.0
      && r.score == Balance(r.positive, r.negative)
      && r.confidence == Min((r.positive + r.negative) as real / 10.0, 1.0)
      && 0.0 < r.confidence <= 1.0
  {
    if text == "" then TextScore(0.0, 0.0, 0, 0)
    else
      var words := Words(Lower(text));
      var pos := CountIn(words, PositiveWords);
      var neg := CountIn(words, NegativeWords);
      KeywordsDisjoint();
      DisjointCounts(words, PositiveWords, NegativeWords);
      var total := pos + neg;
      if total == 0 then TextScore(0.0, 0.0, 0, 0)
      else TextScore(Balance(pos, neg), Min(total as real / 10.0, 1.0), pos, neg)
  }

  /** A text in which some word is a positive keyword and no word a
      negative one scores a full 1. */
  lemma OnlyPositiveWordsScoreOne(text: string, k: int)
    requires 0 <= k < |Words(Lower(text))| && Words(Lower(text))[k] in PositiveWords
    requires forall j :: 0 <= j < |Words(Lower(text))| ==> Words(Lower(text))[j] !in NegativeWords
    ensures AnalyzeText(text).score == 1.0 && AnalyzeText(text).confidence > 0.0
  {
    var r := AnalyzeText(text);
    assert r.positive > 0 && r.negative == 0;
    OnlyPositiveBalance(r.positive);
  }

  /** Positive words only: a balance of exactly 1. */
  lemma OnlyPositiveBalance(pos: nat)
    requires pos > 0
    ensures Balance(pos, 0) == 1.0
  {
    assert Balance(pos, 0) == pos as real / pos as real;
  }

  /** `(pos - neg) / (pos + neg)`: the balance of positive over negative
      words, from -1 (all negative) to 1 (all positive). */
  function Balance(pos: nat, neg: nat): (s: real)
    requires pos + neg > 0
    ensures -1.0 <= s <= 1.0
    ensures s * (pos + neg) as real == (pos - neg) as real
  {
    var total := (pos + neg) as real;
    var s := (pos - neg) as real / total;
    QuotientBounds((pos - neg) as real, total);
    assert (s + 1.0) * total == (2 * pos) as real;
    assert (1.0 - s) * total == (2 * neg) as real;
    ProductSign(s + 1.0, total);
    ProductSign(1.0 - s, total);
    s
  }

  lemma KeywordsDisjoint()
    ensures PositiveWords !! NegativeWords
  {
  }

  /** A word counts for at most one of two disjoint keyword sets. */
  lemma {:induction false} DisjointCounts(words: seq<string>, a: set<string>, b: set<string>)
    requires a !! b
    ensures CountIn(words, a) + CountIn(words, b) <= |words|
  {
    if |words| > 0 {
      DisjointCounts(words[1..], a, b);
    }
  }

  /** Keywords match whatever their case: "Rally" is one positive word,
      scoring 1 with confidence 0.1. */
  lemma HeadlineExample()
    ensures var r := AnalyzeText("Rally");
      r.positive == 1 && r.negative == 0 && r.score == 1.0 && r.confidence == 0.1
  {
    RallyIsOneWord();
    assert CountIn(["rally"], PositiveWords) == 1 by { assert "rally" in PositiveWords; }
    assert CountIn(["rally"], NegativeWords) == 0 by { assert "rally" !in NegativeWords; }
  }

  lemma RallyIsOneWord()
    ensures Words(Lower("Rally")) == ["rally"]
  {
    assert Lower("Rally") == "rally";
    assert "r" == "" + ['r'] && "ra" == "r" + ['a'] && "ral" == "ra" + ['l'];
    assert "rall" == "ral" + ['l'] && "rally" == "rall" + ['y'];
    assert "rally"[1..] == "ally" && "ally"[1..] == "lly" && "lly"[1..] == "ly" && "ly"[1..] == "y";
    assert WordsFrom("", "rally") == ["rally"];
    assert WordsFrom("y", "rall") == ["rally"];
    assert WordsFrom("ly", "ral") == ["rally"];
    assert WordsFrom("lly", "ra") == ["rally"];
    assert WordsFrom("ally", "r") == ["rally"];
  }

  // ------------------------------------------------------- price sentiment

  const MaxHistory: nat := 20

  datatype Trend = Neutral | Improving | Declining | Stable

  datatype CacheEntry = CacheEntry(current: real, average: real, trend: Trend)

  /** Per-symbol scores, oldest first, and the cache in insertion order. */
  datatype Analyzer = Analyzer(history: map<string, seq<real>>, cache: Dict<CacheEntry>)

  const EmptyAnalyzer := Analyzer(map[], [])

  /** `sum(s * w) / sum(w)` with weights `0.5 ** (n - 1 - i)`: the newest
      score weighs 1, the one before it 1/2, and so on. Written in Horner
      form: each older score's weight is halved once per newer score. */
  function WeightedSum(scores: seq<real>): real
  {
    if |scores| == 0 then 0.0 else WeightedSum(scores[..|scores| - 1]) * 0.5 + scores[|scores| - 1]
  }

  function TotalWeight(n: nat): (w: real)
    ensures n > 0 ==> w >= 1.0
  {
    if n == 0 then 0.0 else TotalWeight(n - 1) * 0.5 + 1.0
  }

  predicate AllWithin(scores: seq<real>, lo: real, hi: real)
  {
    forall i :: 0 <= i < |scores| ==> lo <= scores[i] <= hi
  }

  lemma {:induction false} WeightedSumBounds(scores: seq<real>, lo: real, hi: real)
    requires AllWithin(scores, lo, hi)
    ensures lo * TotalWeight(|scores|) <= WeightedSum(scores) <= hi * TotalWeight(|scores|)
    decreases |scores|
  {
    if |scores| > 0 {
      var n := |scores| - 1;
      WeightedSumBounds(scores[..n], lo, hi);
      assert scores[..n][..] == scores[..n];
      assert lo * TotalWeight(|scores|) == lo * TotalWeight(n) * 0.5 + lo;
      assert hi * TotalWeight(|scores|) == hi * TotalWeight(n) * 0.5 + hi;
    }
  }

  /** `_calculate_average_sentiment` of one history. */
  function Average(scores: seq<real>): (r: real)
    ensures |scores| == 0 ==> r == 0.0
    ensures |scores| > 0 && AllWithin(scores, -1.0, 1.0) ==> -1.0 <= r <= 1.0
  {
    if |scores| == 0 then 0.0
    else
      QuotientBetween(scores, -1.0, 1.0);
      WeightedSum(scores) / TotalWeight(|scores|)
  }

  lemma QuotientBetween(scores: seq<real>, lo: real, hi: real)
    requires |scores| > 0
    ensures AllWithin(scores, lo, hi) ==> lo <= WeightedSum(scores) / TotalWeight(|scores|) <= hi
  {
    if AllWithin(scores, lo, hi) {
      WeightedSumBounds(scores, lo, hi);
      ShareBetween(WeightedSum(scores), TotalWeight(|scores|), lo, hi);
    }
  }

  /** The weighted average lies between any bounds of the scores, so
      between their minimum and maximum. */
  lemma AverageBetween(scores: seq<real>, lo: real, hi: real)
    requires |scores| > 0 && AllWithin(scores, lo, hi)
    ensures lo <= Average(scores) <= hi
  {
    QuotientBetween(scores, lo, hi);
  }

  /** The most recent score weighs as much as all earlier ones together
      and then some: with two scores the average is two thirds of the way
      to the newer one. */
  lemma AverageFavoursRecent()
    ensures Average([0.0, 0.9]) == 0.6
  {
    assert [0.0, 0.9][..1] == [0.0];
    assert [0.0][..0] == [];
    assert WeightedSum([0.0]) == 0.0;
    assert WeightedSum([0.0, 0.9]) == 0.9;
    assert TotalWeight(1) == 1.0;
    assert TotalWeight(2) == 1.5;
  }

  /** `_calculate_sentiment_trend` of one history: the mean of the last ten
      against the mean of the ten before them (0 when there are none). */
  function TrendOf(scores: seq<real>): (t: Trend)
    ensures |scores| < 10 <==> t == Neutral
    ensures |scores| >= 10 ==>
      var n := |scores|;
      var diff := Mean(scores[n - 10..]) - (if n == 10 then 0.0 else Mean(scores[MaxInt(n - 20, 0)..n - 10]));
      && (t == Improving <==> diff > 0.1)
      && (t == Declining <==> diff < -0.1)
  {
    var n := |scores|;
    if n < 10 then Neutral
    else
      var older := scores[MaxInt(n - 20, 0)..n - 10];
      var diff := Mean(scores[n - 10..]) - (if |older| == 0 then 0.0 else Mean(older));
      if diff > 0.1 then Improving else if diff < -0.1 then Declining else Stable
  }

  /** The score a price move (in percent) contributes: half the move,
      amplified by up to twice the volume change over 50, clamped to
      [-1, 1]. */
  function MoveScore(priceChange: real, volumeChange: real): (s: real)
    ensures -1.0 <= s <= 1.0
    ensures volumeChange <= 0.0 ==> s == Clamp(priceChange / 2.0, -1.0, 1.0)
    ensures priceChange > 0.0 ==> s > 0.0
    ensures priceChange < 0.0 ==> s < 0.0
  {
    var priceScore := Max(Min(priceChange / 2.0, 1.0), -1.0);
    var volumeFactor := if volumeChange > 0.0 then Min(volumeChange / 50.0, 2.0) else 0.0;
    var scaled := ScaleBy(priceScore, 1.0 + volumeFactor * 0.5);
    Max(Min(scaled, 1.0), -1.0)
  }

  /** Scaling by a factor of at least one keeps the sign. */
  function ScaleBy(a: real, f: real): (r: real)
    requires f >= 1.0
    ensures r == a * f
    ensures a > 0.0 ==> r > 0.0
    ensures a < 0.0 ==> r < 0.0
  {
    assert a * f - a == a * (f - 1.0);
    a * f
  }

  /** `update_sentiment`. A move smaller than 0.1 percent in either
      direction is ignored, though it still opens an empty history for a
      new symbol. */
  function UpdateSentiment(a: Analyzer, symbol: string, priceChange: real, volumeChange: real): (r: Analyzer)
    ensures symbol in r.history
    ensures forall t :: t != symbol ==> (t in r.history <==> t in a.history) && (t in a.history ==> r.history[t] == a.history[t])
    ensures forall t :: t != symbol ==> Lookup(r.cache, t) == Lookup(a.cache, t)
    ensures Abs(priceChange) < 0.1 ==>
      r.cache == a.cache && r.history[symbol] == (if symbol in a.history then a.history[symbol] else [])
    ensures Abs(priceChange) >= 0.1 ==>
      var scores := if symbol in a.history then a.history[symbol] else [];
      var s := MoveScore(priceChange, volumeChange);
      && r.history[symbol] == BoundedAppend(scores, s, MaxHistory)
      && Lookup(r.cache, symbol) == Some(CacheEntry(s, Average(r.history[symbol]), TrendOf(r.history[symbol])))
    ensures KeysDistinct(a.cache) ==> KeysDistinct(r.cache)
  {
    var scores := if symbol in a.history then a.history[symbol] else [];
    if Abs(priceChange) < 0.1 then a.(history := a.history[symbol := scores])
    else
      var s := MoveScore(priceChange, volumeChange);
      var h := BoundedAppend(scores, s, MaxHistory);
      Analyzer(a.history[symbol := h], Put(a.cache, symbol, CacheEntry(s, Average(h), TrendOf(h))))
  }

  /** A move that counts keeps the symbol cached first where it was, and
      an empty cache gets the moving symbol first. */
  lemma UpdateKeepsFirst(a: Analyzer, symbol: string, priceChange: real, volumeChange: real)
    requires Abs(priceChange) >= 0.1
    ensures var r := UpdateSentiment(a, symbol, priceChange, volumeChange);
      |r.cache| > 0 && r.cache[0].0 == (if |a.cache| == 0 then symbol else a.cache[0].0)
  {
    var h := BoundedAppend(if symbol in a.history then a.history[symbol] else [], MoveScore(priceChange, volumeChange), MaxHistory);
    PutKeepsFirst(a.cache, symbol, CacheEntry(MoveScore(priceChange, volumeChange), Average(h), TrendOf(h)));
  }

  /** Stored scores and cached figures stay within [-1, 1], each history
      holds at most 20 scores, and the cache has one entry per symbol. */
  ghost predicate Valid(a: Analyzer)
  {
    && (forall s :: s in a.history ==> |a.history[s]| <= MaxHistory && AllWithin(a.history[s], -1.0, 1.0))
    && (forall s :: Lookup(a.cache, s).Some? ==>
          -1.0 <= Lookup(a.cache, s).value.current <= 1.0 && -1.0 <= Lookup(a.cache, s).value.average <= 1.0)
    && KeysDistinct(a.cache)
  }

  lemma UpdatePreservesValid(a: Analyzer, symbol: string, priceChange: real, volumeChange: real)
    requires Valid(a)
    ensures Valid(UpdateSentiment(a, symbol, priceChange, volumeChange))
  {
    var r := UpdateSentiment(a, symbol, priceChange, volumeChange);
    var scores := if symbol in a.history then a.history[symbol] else [];
    assert AllWithin(scores, -1.0, 1.0) && |scores| <= MaxHistory;
    if Abs(priceChange) >= 0.1 {
      var s := MoveScore(priceChange, volumeChange);
      AppendWithin(scores, s);
      var h := r.history[symbol];
      assert |h| <= MaxHistory && AllWithin(h, -1.0, 1.0);
      var e := Lookup(r.cache, symbol).value;
      assert -1.0 <= e.average <= 1.0;
      assert -1.0 <= e.current <= 1.0;
    }
    forall t | t in r.history
      ensures |r.history[t]| <= MaxHistory && AllWithin(r.history[t], -1.0, 1.0)
    {
      if t != symbol {
        assert r.history[t] == a.history[t];
      }
    }
    forall t | Lookup(r.cache, t).Some?
      ensures -1.0 <= Lookup(r.cache, t).value.current <= 1.0 && -1.0 <= Lookup(r.cache, t).value.average <= 1.0
    {
      if t != symbol {
        assert Lookup(r.cache, t) == Lookup(a.cache, t);
      }
    }
  }

  /** Appending an in-range score to an in-range history keeps it in range
      and within the deque's length. */
  lemma AppendWithin(scores: seq<real>, s: real)
    requires AllWithin(scores, -1.0, 1.0) && -1.0 <= s <= 1.0
    ensures var h := BoundedAppend(scores, s, MaxHistory);
      |h| <= MaxHistory && AllWithin(h, -1.0, 1.0)
  {
    var h := BoundedAppend(scores, s, MaxHistory);
    var t := scores + [s];
    forall i | 0 <= i < |h|
      ensures -1.0 <= h[i] <= 1.0
    {
      assert h[i] == t[|scores| + 1 - |h| + i];
    }
  }

  // --------------------------------------------------------------- readings

  datatype Reading = Reading(current: real, average: real, trend: Trend, confidence: real)

  /** `get_sentiment_score`: the cached figures with a confidence that
      grows with the history, full at 20 scores. */
  function GetSentimentScore(a: Analyzer, symbol: string): (r: Reading)
    ensures Lookup(a.cache, symbol).None? ==> r == Reading(0.0, 0.0, Neutral, 0.0)
    ensures 0.0 <= r.confidence <= 1.0
    ensures Lookup(a.cache, symbol).Some? ==>
      && r.current == Lookup(a.cache, symbol).value.current
      && r.average == Lookup(a.cache, symbol).value.average
      && r.trend == Lookup(a.cache, symbol).value.trend
      && r.confidence == Min((if symbol in a.history then |a.history[symbol]| else 0) as real / 20.0, 1.0)
  {
    match Lookup(a.cache, symbol)
    case None => Reading(0.0, 0.0, Neutral, 0.0)
    case Some(c) =>
      var n := if symbol in a.history then |a.history[symbol]| else 0;
      Reading(c.current, c.average, c.trend, Min(n as real / 20.0, 1.0))
  }

  /** `get_sentiment_signal`: a strong, confident and moving sentiment. */
  function SentimentSignal(a: Analyzer, symbol: string): (r: Option<Side>)
    ensures var s := GetSentimentScore(a, symbol);
      && (r == Some(Side.Buy) <==> s.confidence >= 0.7 && s.current > 0.6 && s.trend == Improving)
      && (r == Some(Side.Sell) <==> s.confidence >= 0.7 && s.current < -0.6 && s.trend == Declining)
  {
    var s := GetSentimentScore(a, symbol);
    if s.confidence < 0.7 then None
    else if s.current > 0.6 && s.trend == Improving then Some(Side.Buy)
    else if s.current < -0.6 && s.trend == Declining then Some(Side.Sell)
    else None
  }

  /** `get_fear_greed_index`: the average mapped from [-1, 1] onto [0, 100]. */
  function FearGreedIndex(a: Analyzer, symbol: string): (r: real)
    ensures 0.0 <= r <= 100.0
    ensures var avg := GetSentimentScore(a, symbol).average;
      -1.0 <= avg <= 1.0 ==> r == (avg + 1.0) * 50.0
  {
    var avg := GetSentimentScore(a, symbol).average;
    Max(0.0, Min(100.0, (avg + 1.0) * 50.0))
  }

  /** `should_trade_based_on_sentiment`. `signal` is `None` for anything
      other than BUY or SELL. */
  function ShouldTrade(a: Analyzer, symbol: string, signal: Option<Side>): (r: bool)
    ensures GetSentimentScore(a, symbol).confidence < 0.3 || signal.None? ==> r
    ensures var s := GetSentimentScore(a, symbol);
      s.confidence >= 0.3 && signal == Some(Side.Buy) ==> (r <==> s.current > -0.3)
    ensures var s := GetSentimentScore(a, symbol);
      s.confidence >= 0.3 && signal == Some(Side.Sell) ==> (r <==> s.current < 0.3 || s.trend == Declining)
  {
    var s := GetSentimentScore(a, symbol);
    if s.confidence < 0.3 then true
    else match signal
      case Some(Buy) => s.current > -0.3
      case Some(Sell) => s.current < 0.3 || s.trend == Declining
      case None => true
  }

  /** `get_sentiment_adjustment`: the position-size multiplier. */
  function SentimentAdjustment(a: Analyzer, symbol: string): (r: real)
    ensures GetSentimentScore(a, symbol).confidence < 0.3 ==> r == 1.0
    ensures -1.0 <= GetSentimentScore(a, symbol).current <= 1.0 ==> 0.5 <= r <= 1.5
    ensures r > 1.0 ==> GetSentimentScore(a, symbol).trend == Improving
    ensures r < 1.0 ==> GetSentimentScore(a, symbol).current < -0.3
  {
    var s := GetSentimentScore(a, symbol);
    if s.confidence < 0.3 then 1.0
    else if s.current > 0.5 && s.trend == Improving then 1.0 + s.current * 0.5
    else if s.current < -0.3 then Max(0.5, 1.0 + s.current)
    else 1.0
  }

  /** On a valid analyzer every reading is in range, so the multiplier is
      within [0.5, 1.5] and the fear/greed index is the plain rescaling. */
  lemma ReadingsInRange(a: Analyzer, symbol: string)
    requires Valid(a)
    ensures -1.0 <= GetSentimentScore(a, symbol).current <= 1.0
    ensures -1.0 <= GetSentimentScore(a, symbol).average <= 1.0
    ensures 0.5 <= SentimentAdjustment(a, symbol) <= 1.5
  {
  }
}

=== FILE: sentiment_reach.dfy ===
/** States `update_sentiment` reaches: replaying equal price moves for a
    symbol, and the scores, cache entries and cache order they leave
    behind. Used to show that the as-written sentiment vote of the AI
    strategy is observable from states the analyser actually gets into.
 */
module SentimentReach {
  import opened Common
  import opened Dicts
  import Sentiment

  /** `n` applications of `step`, starting from `a`. */
  function Iterate(step: Sentiment.Analyzer -> Sentiment.Analyzer, a: Sentiment.Analyzer, n: nat): Sentiment.Analyzer
  {
    if n == 0 then a else step(Iterate(step, a, n - 1))
  }

  /** One price move of `change` percent, with no volume change, reported
      for `symbol` through `update_sentiment`. */
  function Mover(symbol: string, change: real): Sentiment.Analyzer -> Sentiment.Analyzer
  {
    b => Sentiment.UpdateSentiment(b, symbol, change, 0.0)
  }

  /** `n` such moves. */
  function Moves(a: Sentiment.Analyzer, symbol: string, change: real, n: nat): Sentiment.Analyzer
  {
    Iterate(Mover(symbol, change), a, n)
  }

  /** The scores a symbol has recorded so far. */
  function Scores(a: Sentiment.Analyzer, symbol: string): seq<real>
  {
    if symbol in a.history then a.history[symbol] else []
  }

  /** No symbol but `symbol` has its cache entry or scores changed. */
  ghost predicate OthersKept(a: Sentiment.Analyzer, r: Sentiment.Analyzer, symbol: string)
  {
    forall t :: t != symbol ==> Lookup(r.cache, t) == Lookup(a.cache, t) && Scores(r, t) == Scores(a, t)
  }

  /** The symbol cached first, if any. */
  function FirstCached(a: Sentiment.Analyzer): Option<string>
  {
    if |a.cache| == 0 then None else Some(a.cache[0].0)
  }

  /** A move while the history has room appends its score. */
  lemma StepScores(a: Sentiment.Analyzer, symbol: string, change: real)
    requires Abs(change) >= 0.1 && |Scores(a, symbol)| < Sentiment.MaxHistory
    ensures Scores(Sentiment.UpdateSentiment(a, symbol, change, 0.0), symbol) ==
      Scores(a, symbol) + [Sentiment.MoveScore(change, 0.0)]
  {
    var h := BoundedAppend(Scores(a, symbol), Sentiment.MoveScore(change, 0.0), Sentiment.MaxHistory);
    assert h == Scores(a, symbol) + [Sentiment.MoveScore(change, 0.0)];
  }

  /** A move caches its score with the new history's average and trend. */
  lemma StepCached(a: Sentiment.Analyzer, symbol: string, change: real)
    requires Abs(change) >= 0.1
    ensures var r := Sentiment.UpdateSentiment(a, symbol, change, 0.0);
      Lookup(r.cache, symbol) == Some(Sentiment.CacheEntry(Sentiment.MoveScore(change, 0.0),
        Sentiment.Average(Scores(r, symbol)), Sentiment.TrendOf(Scores(r, symbol))))
  {
  }

  /** A move keeps the first cached symbol first, or caches its own symbol
      first in an empty cache. */
  lemma StepFirst(a: Sentiment.Analyzer, symbol: string, change: real)
    requires Abs(change) >= 0.1
    ensures FirstCached(Sentiment.UpdateSentiment(a, symbol, change, 0.0)) ==
      Some(if FirstCached(a).None? then symbol else FirstCached(a).value)
  {
    Sentiment.UpdateKeepsFirst(a, symbol, change, 0.0);
  }

  /** A move leaves every other symbol's scores and cache entry alone. */
  lemma StepOthers(a: Sentiment.Analyzer, symbol: string, change: real)
    ensures OthersKept(a, Sentiment.UpdateSentiment(a, symbol, change, 0.0), symbol)
  {
    var r := Sentiment.UpdateSentiment(a, symbol, change, 0.0);
    forall t | t != symbol
      ensures Lookup(r.cache, t) == Lookup(a.cache, t) && Scores(r, t) == Scores(a, t)
    {
    }
  }

  /** A step that appends `s` to the symbol's scores while there is room
      appends `n` copies of it in `n` steps. */
  lemma {:induction false} IterateScores(step: Sentiment.Analyzer -> Sentiment.Analyzer, a: Sentiment.Analyzer,
                                         symbol: string, s: real, n: nat)
    requires |Scores(a, symbol)| + n <= Sentiment.MaxHistory
    requires forall b {:trigger Scores(step(b), symbol)} ::
      |Scores(b, symbol)| < Sentiment.MaxHistory ==> Scores(step(b), symbol) == Scores(b, symbol) + [s]
    ensures Scores(Iterate(step, a, n), symbol) == Scores(a, symbol) + Run(s, n)
    decreases n
  {
    if n > 0 {
      IterateScores(step, a, symbol, s, n - 1);
      assert Scores(a, symbol) + Run(s, n - 1) + [s] == Scores(a, symbol) + Run(s, n);
    }
  }

  /** A step that keeps the first cached symbol, or caches `symbol` first
      in an empty cache, does so over any positive number of steps. */
  lemma {:induction false} IterateFirst(step: Sentiment.Analyzer -> Sentiment.Analyzer, a: Sentiment.Analyzer,
                                        symbol: string, n: nat)
    requires n > 0
    requires forall b {:trigger FirstCached(step(b))} ::
      FirstCached(step(b)) == Some(if FirstCached(b).None? then symbol else FirstCached(b).value)
    ensures FirstCached(Iterate(step, a, n)) == Some(if FirstCached(a).None? then symbol else FirstCached(a).value)
    decreases n
  {
    if n > 1 {
      IterateFirst(step, a, symbol, n - 1);
    }
  }

  /** A step that leaves every other symbol alone does so over any number
      of steps. */
  lemma {:induction false} IterateOthers(step: Sentiment.Analyzer -> Sentiment.Analyzer, a: Sentiment.Analyzer,
                                         symbol: string, n: nat)
    requires forall b {:trigger step(b)} :: OthersKept(b, step(b), symbol)
    ensures OthersKept(a, Iterate(step, a, n), symbol)
    decreases n
  {
    if n > 0 {
      IterateOthers(step, a, symbol, n - 1);
      assert OthersKept(Iterate(step, a, n - 1), Iterate(step, a, n), symbol);
    }
  }

  /** What one move does, for every analyzer, in the form the `Iterate`
      lemmas take. */
  lemma MoverSteps(symbol: string, change: real)
    requires Abs(change) >= 0.1
    ensures forall b {:trigger Scores(Mover(symbol, change)(b), symbol)} ::
      |Scores(b, symbol)| < Sentiment.MaxHistory ==>
        Scores(Mover(symbol, change)(b), symbol) == Scores(b, symbol) + [Sentiment.MoveScore(change, 0.0)]
    ensures forall b {:trigger FirstCached(Mover(symbol, change)(b))} ::
      FirstCached(Mover(symbol, change)(b)) == Some(if FirstCached(b).None? then symbol else FirstCached(b).value)
    ensures forall b {:trigger Mover(symbol, change)(b)} :: OthersKept(b, Mover(symbol, change)(b), symbol)
  {
    forall b | |Scores(b, symbol)| < Sentiment.MaxHistory
      ensures Scores(Mover(symbol, change)(b), symbol) == Scores(b, symbol) + [Sentiment.MoveScore(change, 0.0)]
    {
      StepScores(b, symbol, change);
    }
    forall b
      ensures FirstCached(Mover(symbol, change)(b)) == Some(if FirstCached(b).None? then symbol else FirstCached(b).value)
    {
      StepFirst(b, symbol, change);
    }
    forall b
      ensures OthersKept(b, Mover(symbol, change)(b), symbol)
    {
      StepOthers(b, symbol, change);
    }
  }

  /** While the history has room, `n > 0` equal moves append `n` equal
      scores, cache the last one with the new history's average and trend,
      keep the first cached symbol first, and leave every other symbol
      alone. */
  lemma MovesAppend(a: Sentiment.Analyzer, symbol: string, change: real, n: nat)
    requires Abs(change) >= 0.1 && 0 < n && |Scores(a, symbol)| + n <= Sentiment.MaxHistory
    ensures var r := Moves(a, symbol, change, n);
      var s := Sentiment.MoveScore(change, 0.0);
      && Scores(r, symbol) == Scores(a, symbol) + Run(s, n)
      && Lookup(r.cache, symbol) ==
           Some(Sentiment.CacheEntry(s, Sentiment.Average(Scores(r, symbol)), Sentiment.TrendOf(Scores(r, symbol))))
      && FirstCached(r) == Some(if FirstCached(a).None? then symbol else FirstCached(a).value)
      && OthersKept(a, r, symbol)
  {
    var step := Mover(symbol, change);
    var s := Sentiment.MoveScore(change, 0.0);
    MoverSteps(symbol, change);
    IterateScores(step, a, symbol, s, n);
    IterateFirst(step, a, symbol, n);
    IterateOthers(step, a, symbol, n);
    StepCached(Iterate(step, a, n - 1), symbol, change);
  }

  /** `n` copies of the score `x`. */
  function Run(x: real, n: nat): (r: seq<real>)
    ensures |r| == n && forall i :: 0 <= i < n ==> r[i] == x
  {
    if n == 0 then [] else Run(x, n - 1) + [x]
  }

  /** A constant run of scores has that score as its mean. */
  lemma MeanOfConstant(n: nat, c: real)
    requires n > 0
    ensures Mean(Run(c, n)) == c
  {
    MeanBetween(Run(c, n), c, c);
  }

  /** Ten scores of 0.5 followed by ten of 1.0 trend upwards. */
  lemma RisingTrend()
    ensures Sentiment.TrendOf(Run(0.5, 10) + Run(1.0, 10)) == Sentiment.Improving
  {
    var h := Run(0.5, 10) + Run(1.0, 10);
    assert h[10..] == Run(1.0, 10);
    assert h[MaxInt(20 - 20, 0)..10] == Run(0.5, 10);
    MeanOfConstant(10, 1.0);
    MeanOfConstant(10, 0.5);
  }

  /** Twenty equal scores are stable. */
  lemma SteadyTrend(x: real)
    ensures Sentiment.TrendOf(Run(x, 20)) == Sentiment.Stable
  {
    var h := Run(x, 20);
    assert h[10..] == Run(x, 10);
    assert h[MaxInt(20 - 20, 0)..10] == Run(x, 10);
    MeanOfConstant(10, x);
  }

  /** The first symbol's twenty moves, from an empty analyzer. */
  function RisingSymbol(first: string): (a: Sentiment.Analyzer)
    ensures FirstCached(a) == Some(first)
    ensures Scores(a, first) == Run(0.5, 10) + Run(1.0, 10)
    ensures Lookup(a.cache, first) == Some(Sentiment.CacheEntry(1.0, Sentiment.Average(Scores(a, first)), Sentiment.Improving))
    ensures OthersKept(Sentiment.EmptyAnalyzer, a, first)
  {
    var a1 := Moves(Sentiment.EmptyAnalyzer, first, 1.0, 10);
    var a2 := Moves(a1, first, 2.0, 10);
    assert Sentiment.MoveScore(1.0, 0.0) == 0.5;
    assert Sentiment.MoveScore(2.0, 0.0) == 1.0;
    MovesAppend(Sentiment.EmptyAnalyzer, first, 1.0, 10);
    MovesAppend(a1, first, 2.0, 10);
    assert OthersKept(Sentiment.EmptyAnalyzer, a2, first) by {
      assert OthersKept(Sentiment.EmptyAnalyzer, a1, first) && OthersKept(a1, a2, first);
    }
    RisingTrend();
    a2
  }

  /** Twenty moves of +0.4% for a symbol without scores: twenty scores of
      0.2, a stable trend, and the rest of the analyzer as it was. */
  lemma SteadySymbol(a: Sentiment.Analyzer, first: string, second: string)
    requires Scores(a, second) == [] && FirstCached(a) == Some(first)
    ensures var r := Moves(a, second, 0.4, 20);
      && FirstCached(r) == Some(first)
      && Scores(r, second) == Run(0.2, 20)
      && Lookup(r.cache, second) == Some(Sentiment.CacheEntry(0.2, Sentiment.Average(Scores(r, second)), Sentiment.Stable))
      && OthersKept(a, r, second)
  {
    assert Sentiment.MoveScore(0.4, 0.0) == 0.2;
    MovesAppend(a, second, 0.4, 20);
    SteadyTrend(0.2);
  }

  /** A state `update_sentiment` reaches for any two symbols: ten moves of
      +1% and then ten of +2% for the first, which is cached first, and then
      twenty moves of +0.4% for the second. */
  function TwoSymbolAnalyzer(first: string, second: string): (a: Sentiment.Analyzer)
    requires first != second
    ensures FirstCached(a) == Some(first)
    ensures Scores(a, first) == Run(0.5, 10) + Run(1.0, 10)
    ensures Scores(a, second) == Run(0.2, 20)
    ensures Lookup(a.cache, first) == Some(Sentiment.CacheEntry(1.0, Sentiment.Average(Scores(a, first)), Sentiment.Improving))
    ensures Lookup(a.cache, second) == Some(Sentiment.CacheEntry(0.2, Sentiment.Average(Scores(a, second)), Sentiment.Stable))
  {
    var a2 := RisingSymbol(first);
    assert Scores(a2, second) == [] by {
      assert OthersKept(Sentiment.EmptyAnalyzer, a2, first);
      assert Scores(Sentiment.EmptyAnalyzer, second) == [];
    }
    SteadySymbol(a2, first, second);
    var a3 := Moves(a2, second, 0.4, 20);
    assert Scores(a3, first) == Scores(a2, first) && Lookup(a3.cache, first) == Lookup(a2.cache, first);
    a3
  }
}

=== FILE: trading_psychology.dfy ===
/** The trading psychology guard: a chain of vetoes against overtrading,
    revenge trading, trading in a cooldown, trading through a drawdown and
    chasing a signal that has just appeared, plus the size multiplier it
    hands out for an allowed trade.

    Time is a real number of seconds supplied by the caller (`now`); the
    source's minute comparisons divide the elapsed seconds by 60.
 */
module TradingPsychology {
  import opened Common

  datatype EmotionalState = Neutral | Fearful | Greedy | Revenge | Overconfident | Fomo

  datatype Config = Config(
    maxDailyTrades: int,
    maxConsecutiveLosses: int,
    cooldownAfterLoss: int,      // minutes
    reduceSizeAfterWins: int,
    maxDrawdownPct: real,
    fomoWindow: int)             // minutes

  function DefaultConfig(): (c: Config)
    ensures c.maxDailyTrades == 5 && c.maxConsecutiveLosses == 3 && c.cooldownAfterLoss == 15
    ensures c.reduceSizeAfterWins == 3 && c.maxDrawdownPct == 0.05 && c.fomoWindow == 5
  {
    Config(5, 3, 15, 3, 0.05, 5)
  }

  datatype TradeRecord = TradeRecord(
    time: real, symbol: string, signal: string, entryPrice: real, quantity: int, profitLoss: Option<real>)

  datatype Guard = Guard(
    config: Config,
    dailyTrades: nat,
    dailyStartCapital: real,
    currentCapital: real,
    wins: nat,
    losses: nat,
    recentTrades: seq<TradeRecord>,
    lastTradeTime: Option<real>,
    lastLossTime: Option<real>,
    state: EmotionalState,
    firstSeen: map<string, real>)

  function NewGuard(config: Config): (g: Guard)
    ensures g.dailyTrades == 0 && g.wins == 0 && g.losses == 0 && g.state == Neutral
    ensures g.firstSeen == map[] && g.lastLossTime.None? && g.recentTrades == []
  {
    Guard(config, 0, 0.0, 0.0, 0, 0, [], None, None, Neutral, map[])
  }

  /** `reset_daily_stats` at market open. */
  function ResetDailyStats(g: Guard, startingCapital: real): (r: Guard)
    ensures r.config == g.config
    ensures r.dailyTrades == 0 && r.wins == 0 && r.losses == 0
    ensures r.dailyStartCapital == startingCapital && r.currentCapital == startingCapital
    ensures r.recentTrades == [] && r.lastTradeTime.None? && r.lastLossTime.None?
    ensures r.state == Neutral && r.firstSeen == map[]
  {
    Guard(g.config, 0, startingCapital, startingCapital, 0, 0, [], None, None, Neutral, map[])
  }

  /** `update_capital`. */
  function UpdateCapital(g: Guard, capital: real): (r: Guard)
    ensures r.currentCapital == capital && r.(currentCapital := g.currentCapital) == g
  {
    g.(currentCapital := capital)
  }

  /** The key under which the first sighting of a signal is remembered. */
  function SignalKey(symbol: string, signal: string): string
  {
    symbol + "_" + signal
  }

  // ---------------------------------------------------------- the checks

  predicate LimitReached(g: Guard) { g.dailyTrades >= g.config.maxDailyTrades }

  predicate LossStreak(g: Guard) { g.losses >= g.config.maxConsecutiveLosses }

  /** Less than `cooldownAfterLoss` minutes since the last loss. */
  predicate CoolingDown(g: Guard, now: real)
  {
    g.lastLossTime.Some? && (now - g.lastLossTime.value) / 60.0 < g.config.cooldownAfterLoss as real
  }

  /** The day's return is below `-maxDrawdownPct`; only checked when the day
      started with positive capital. */
  predicate DrawdownHit(g: Guard)
  {
    g.dailyStartCapital > 0.0
    && (g.currentCapital - g.dailyStartCapital) / g.dailyStartCapital < -g.config.maxDrawdownPct
  }

  /** Checks 1 to 4, the ones that do not depend on the signal. */
  predicate GuardsPass(g: Guard, now: real)
  {
    !LimitReached(g) && !LossStreak(g) && !CoolingDown(g, now) && !DrawdownHit(g)
  }

  datatype Denial = DailyLimit | ConsecutiveLosses | Cooldown | Drawdown | SignalJustAppeared | SignalTooRecent

  datatype Decision = Allowed(adjustment: real) | Denied(why: Denial)
  {
    /** The `adjustment` entry of the reply: 0.0 for every denial. */
    function Adjustment(): real
    {
      match this
      case Allowed(a) => a
      case Denied(_) => 0.0
    }
  }

  /** `_calculate_psychological_adjustment`: the size multiplier for an
      allowed trade. */
  function PsychAdjustment(g: Guard): (a: real)
    ensures g.wins >= g.config.reduceSizeAfterWins ==> 0.7 <= a <= 1.0
    ensures g.wins >= g.config.reduceSizeAfterWins && g.wins - g.config.reduceSizeAfterWins >= 3 ==> a == 0.7
    ensures g.wins >= g.config.reduceSizeAfterWins && g.wins == g.config.reduceSizeAfterWins ==> a == 1.0
    ensures g.wins < g.config.reduceSizeAfterWins && g.losses > 0 ==> 0.6 <= a <= 0.85
    ensures g.wins < g.config.reduceSizeAfterWins && g.losses >= 3 ==> a == 0.6
    ensures g.wins < g.config.reduceSizeAfterWins && g.losses == 0 ==> a == 1.0
  {
    if g.wins >= g.config.reduceSizeAfterWins then
      1.0 - Min(0.3, (g.wins - g.config.reduceSizeAfterWins) as real * 0.1)
    else if g.losses > 0 then
      1.0 - Min(0.4, g.losses as real * 0.15)
    else 1.0
  }

  /** The size rule step by step: past the win threshold every further win
      takes another 10% off, down to 70%; below it every further loss takes
      another 15% off, down to 60%. */
  lemma PsychAdjustmentSteps(g: Guard)
    ensures g.wins >= g.config.reduceSizeAfterWins ==>
      PsychAdjustment(g.(wins := g.wins + 1)) == Max(0.7, PsychAdjustment(g) - 0.1)
    ensures g.wins < g.config.reduceSizeAfterWins ==>
      PsychAdjustment(g.(losses := g.losses + 1)) == Max(0.6, PsychAdjustment(g) - 0.15)
    ensures g.wins + 1 == g.config.reduceSizeAfterWins ==> PsychAdjustment(g.(wins := g.wins + 1)) == 1.0
  {
  }

  /** `should_allow_trade`: the first failing check denies; the mood is
      updated on every path and the first sighting of a signal is recorded
      (and denied) once the signal-independent checks pass. */
  function ShouldAllowTrade(g: Guard, symbol: string, signal: string, now: real): (r: (Guard, Decision))
    ensures var (g', d) := r;
      && g'.(state := g.state, firstSeen := g.firstSeen) == g
      && (d == Denied(DailyLimit) <==> LimitReached(g))
      && (d == Denied(ConsecutiveLosses) <==> !LimitReached(g) && LossStreak(g))
      && (d == Denied(Cooldown) <==> !LimitReached(g) && !LossStreak(g) && CoolingDown(g, now))
      && (d == Denied(Drawdown) <==>
            !LimitReached(g) && !LossStreak(g) && !CoolingDown(g, now) && DrawdownHit(g))
      && (d == Denied(SignalJustAppeared) <==> GuardsPass(g, now) && SignalKey(symbol, signal) !in g.firstSeen)
      && (d == Denied(SignalTooRecent) <==>
            GuardsPass(g, now) && SignalKey(symbol, signal) in g.firstSeen
            && (now - g.firstSeen[SignalKey(symbol, signal)]) / 60.0 < g.config.fomoWindow as real)
      && (d.Allowed? ==> d.adjustment == PsychAdjustment(g))
      && (d == Denied(SignalJustAppeared) ==> g'.firstSeen == g.firstSeen[SignalKey(symbol, signal) := now])
      && (d != Denied(SignalJustAppeared) ==> g'.firstSeen == g.firstSeen)
      && (d == Denied(DailyLimit) ==> g'.state == Greedy)
      && (d == Denied(ConsecutiveLosses) ==> g'.state == Revenge)
      && (d == Denied(Cooldown) || d == Denied(Drawdown) ==> g'.state == Fearful)
      && (d == Denied(SignalJustAppeared) || d == Denied(SignalTooRecent) ==> g'.state == Fomo)
      && (d.Allowed? ==> g'.state == (if g.losses > 0 then Fearful
                                      else if g.wins >= g.config.reduceSizeAfterWins then Overconfident
                                      else Neutral))
  {
    var key := SignalKey(symbol, signal);
    if LimitReached(g) then (g.(state := Greedy), Denied(DailyLimit))
    else if LossStreak(g) then (g.(state := Revenge), Denied(ConsecutiveLosses))
    else if CoolingDown(g, now) then (g.(state := Fearful), Denied(Cooldown))
    else if DrawdownHit(g) then (g.(state := Fearful), Denied(Drawdown))
    else if key !in g.firstSeen then
      (g.(firstSeen := g.firstSeen[key := now], state := Fomo), Denied(SignalJustAppeared))
    else if (now - g.firstSeen[key]) / 60.0 < g.config.fomoWindow as real then
      (g.(state := Fomo), Denied(SignalTooRecent))
    else
      var mood := if g.losses > 0 then Fearful
                  else if g.wins >= g.config.reduceSizeAfterWins then Overconfident
                  else Neutral;
      (g.(state := mood), Allowed(PsychAdjustment(g)))
  }

  /** An allowed trade's multiplier lies in [0.6, 1.0]; a denied one's is 0. */
  lemma AdjustmentRange(g: Guard, symbol: string, signal: string, now: real)
    ensures var d := ShouldAllowTrade(g, symbol, signal, now).1;
      (d.Allowed? ==> 0.6 <= d.Adjustment() <= 1.0) && (d.Denied? ==> d.Adjustment() == 0.0)
  {
  }

  /** `record_trade`: a trade always counts towards the daily limit and
      forgets the first sighting of its signal; a known P&L moves the
      streaks, a non-positive one counting as a loss. */
  function RecordTrade(g: Guard, symbol: string, signal: string, entryPrice: real, quantity: int,
                       profitLoss: Option<real>, now: real): (r: Guard)
    ensures r.config == g.config && r.dailyTrades == g.dailyTrades + 1
    ensures r.recentTrades == g.recentTrades + [TradeRecord(now, symbol, signal, entryPrice, quantity, profitLoss)]
    ensures r.lastTradeTime == Some(now)
    ensures r.firstSeen == g.firstSeen - {SignalKey(symbol, signal)}
    ensures profitLoss.None? ==> r.wins == g.wins && r.losses == g.losses && r.lastLossTime == g.lastLossTime
    ensures profitLoss.Some? && profitLoss.value > 0.0 ==>
      r.wins == g.wins + 1 && r.losses == 0 && r.lastLossTime == g.lastLossTime
    ensures profitLoss.Some? && profitLoss.value <= 0.0 ==>
      r.losses == g.losses + 1 && r.wins == 0 && r.lastLossTime == Some(now)
    ensures r.dailyStartCapital == g.dailyStartCapital && r.currentCapital == g.currentCapital && r.state == g.state
  {
    var g1 := g.(recentTrades := g.recentTrades + [TradeRecord(now, symbol, signal, entryPrice, quantity, profitLoss)],
                 dailyTrades := g.dailyTrades + 1,
                 lastTradeTime := Some(now),
                 firstSeen := g.firstSeen - {SignalKey(symbol, signal)});
    match profitLoss
    case None => g1
    case Some(pnl) =>
      if pnl > 0.0 then g1.(wins := g.wins + 1, losses := 0)
      else g1.(losses := g.losses + 1, wins := 0, lastLossTime := Some(now))
  }

  /** Once the daily limit is reached every request is denied, whatever the
      symbol, signal or time, and recording more trades keeps it reached. */
  lemma DailyLimitDeniesEverything(g: Guard, symbol: string, signal: string, now: real,
                                   other: string, otherSignal: string, pnl: Option<real>)
    requires LimitReached(g)
    ensures ShouldAllowTrade(g, symbol, signal, now).1 == Denied(DailyLimit)
    ensures LimitReached(RecordTrade(g, other, otherSignal, 0.0, 0, pnl, now))
    ensures LimitReached(ShouldAllowTrade(g, symbol, signal, now).0)
  {
  }

  /** A losing streak at the limit is not broken by asking again, by trades
      without a known P&L or by further losses; only a win or the daily reset
      clears it. */
  lemma LossStreakPersists(g: Guard, symbol: string, signal: string, now: real, pnl: Option<real>, capital: real)
    requires LossStreak(g)
    ensures LossStreak(ShouldAllowTrade(g, symbol, signal, now).0)
    ensures pnl.None? || pnl.value <= 0.0 ==> LossStreak(RecordTrade(g, symbol, signal, 0.0, 0, pnl, now))
    ensures g.config.maxConsecutiveLosses > 0 ==> !LossStreak(ResetDailyStats(g, capital))
  {
  }

  /** The FOMO rule: once the other checks pass, a new signal is denied and
      timestamped, and the same signal is allowed at a later moment exactly
      when `fomoWindow` minutes have passed and the other checks still pass. */
  lemma {:induction false} SignalMustPersist(g: Guard, symbol: string, signal: string, now: real, later: real)
    requires GuardsPass(g, now) && SignalKey(symbol, signal) !in g.firstSeen
    ensures var (g1, d1) := ShouldAllowTrade(g, symbol, signal, now);
      && d1 == Denied(SignalJustAppeared)
      && (ShouldAllowTrade(g1, symbol, signal, later).1.Allowed? <==>
            GuardsPass(g, later) && (later - now) / 60.0 >= g.config.fomoWindow as real)
  {
    var (g1, d1) := ShouldAllowTrade(g, symbol, signal, now);
    assert g1.firstSeen[SignalKey(symbol, signal)] == now;
    assert GuardsPass(g1, later) == GuardsPass(g, later);
  }

  /** With a limit of two trades a day, after two recorded trades every
      request of the day is denied. */
  lemma TwoTradeDay(symbol: string, signal: string, t1: real, t2: real, now: real)
    ensures var g0 := ResetDailyStats(NewGuard(DefaultConfig().(maxDailyTrades := 2)), 1000.0);
      var g2 := RecordTrade(RecordTrade(g0, symbol, "BUY", 100.0, 1, None, t1), symbol, "SELL", 101.0, 1, Some(1.0), t2);
      ShouldAllowTrade(g2, symbol, signal, now).1 == Denied(DailyLimit)
  {
  }

  // -------------------------------------------------------- exits

  datatype StopLossCheck = StopLossCheck(shouldExit: bool, lossPct: real)

  /** `enforce_stop_loss`; `None` stands for the ZeroDivisionError raised
      for a zero entry price. */
  function EnforceStopLoss(entryPrice: real, currentPrice: real, stopLossPct: real): (r: Option<StopLossCheck>)
    ensures r.None? <==> entryPrice == 0.0
    ensures r.Some? ==> r.value.lossPct * entryPrice == currentPrice - entryPrice
    ensures entryPrice > 0.0 ==> (r.value.shouldExit <==> currentPrice <= entryPrice * (1.0 - stopLossPct))
  {
    if entryPrice == 0.0 then None
    else
      var lossPct := (currentPrice - entryPrice) / entryPrice;
      ExitThreshold(entryPrice, currentPrice, -stopLossPct);
      Some(StopLossCheck(lossPct <= -stopLossPct, lossPct))
  }

  /** For a positive entry price, the relative change reaches `t` exactly
      when the price reaches `entry * (1 + t)`. */
  lemma ExitThreshold(entry: real, price: real, t: real)
    ensures entry > 0.0 ==> ((price - entry) / entry <= t <==> price <= entry * (1.0 + t))
    ensures entry > 0.0 ==> ((price - entry) / entry >= t <==> price >= entry * (1.0 + t))
  {
    if entry <= 0.0 { return; }
    var q := (price - entry) / entry;
    assert q * entry == price - entry;
    if q <= t { assert q * entry <= t * entry; }
    if price <= entry * (1.0 + t) { assert q * entry <= t * entry; }
    if q >= t { assert q * entry >= t * entry; }
    if price >= entry * (1.0 + t) { assert q * entry >= t * entry; }
  }

  datatype ProfitAdvice = TakeProfit | NearTarget | TargetNotReached

  datatype ProfitCheck = ProfitCheck(advice: ProfitAdvice, profitPct: real)

  /** `should_take_profit`; `None` for a zero entry price. Only TakeProfit
      asks for an exit. */
  function ShouldTakeProfit(entryPrice: real, currentPrice: real, targetPct: real): (r: Option<ProfitCheck>)
    ensures r.None? <==> entryPrice == 0.0
    ensures r.Some? ==> r.value.profitPct * entryPrice == currentPrice - entryPrice
    ensures r.Some? ==> (r.value.advice == TakeProfit <==> r.value.profitPct >= targetPct)
    ensures r.Some? ==> (r.value.advice == NearTarget <==> targetPct * 0.8 <= r.value.profitPct < targetPct)
    ensures entryPrice > 0.0 ==> (r.value.advice == TakeProfit <==> currentPrice >= entryPrice * (1.0 + targetPct))
  {
    if entryPrice == 0.0 then None
    else
      var p := (currentPrice - entryPrice) / entryPrice;
      ExitThreshold(entryPrice, currentPrice, targetPct);
      var advice := if p >= targetPct then TakeProfit
                    else if p >= targetPct * 0.8 then NearTarget
                    else TargetNotReached;
      Some(ProfitCheck(advice, p))
  }

  // -------------------------------------------------------- discipline

  /** The four conditions `_calculate_discipline_score` penalises. */
  predicate NearTradeLimit(g: Guard) { g.dailyTrades as real > g.config.maxDailyTrades as real * 0.8 }

  predicate LongLossStreak(g: Guard) { g.losses as real > g.config.maxConsecutiveLosses as real * 0.5 }

  predicate LongWinStreak(g: Guard) { g.wins > g.config.reduceSizeAfterWins }

  predicate BelowHalfDrawdown(g: Guard)
  {
    g.currentCapital < g.dailyStartCapital * (1.0 - g.config.maxDrawdownPct * 0.5)
  }

  /** A penalty of `w` points when `b` holds. */
  function Penalty(b: bool, w: real): real { if b then w else 0.0 }

  /** `_calculate_discipline_score`: 100 minus fixed penalties for nearing
      the trade limit (20), a losing streak past half its limit (30), a
      winning streak past the size-reduction point (10) and capital below
      half the allowed drawdown (25), clamped to [0, 100]; the penalties add
      up to at most 85, so the clamp never bites. */
  function DisciplineScore(g: Guard): (s: real)
    ensures 0.0 <= s <= 100.0
    ensures s >= 15.0
    ensures s == 100.0 - (if NearTradeLimit(g) then 20.0 else 0.0) - (if LongLossStreak(g) then 30.0 else 0.0)
                       - (if LongWinStreak(g) then 10.0 else 0.0) - (if BelowHalfDrawdown(g) then 25.0 else 0.0)
    ensures s == 100.0 <==> !NearTradeLimit(g) && !LongLossStreak(g) && !LongWinStreak(g) && !BelowHalfDrawdown(g)
  {
    var deducted := Penalty(NearTradeLimit(g), 20.0) + Penalty(LongLossStreak(g), 30.0)
                    + Penalty(LongWinStreak(g), 10.0) + Penalty(BelowHalfDrawdown(g), 25.0);
    Max(0.0, Min(100.0, 100.0 - deducted))
  }

  /** A fresh day with positive capital scores full discipline. */
  lemma FreshDayFullDiscipline(g: Guard, capital: real)
    requires capital > 0.0 && g.config.maxDailyTrades >= 0 && g.config.maxConsecutiveLosses >= 0
    requires g.config.reduceSizeAfterWins >= 0 && g.config.maxDrawdownPct >= 0.0
    ensures DisciplineScore(ResetDailyStats(g, capital)) == 100.0
  {
    var r := ResetDailyStats(g, capital);
    assert capital * (1.0 - g.config.maxDrawdownPct * 0.5) <= capital;
  }
}
